=== FILE: README.md ===
# IntREST routing core, modelled in Dafny

IntREST is a file-system-routed REST framework for Node.js. Every compiled
`route.mjs` under the application folder serves the route its folder path
spells, with `[name]` folders as path parameters and `[...name]` as a
catch-all. `middleware.mjs` files in the ancestor folders run before the
handler. A worker turns the handler's declarative response into a stream of
transfer events, and the HTTP edge applies those events to Node's outgoing
response.

This project models that core as immutable datatypes and pure functions, and
proves properties of them. The repository keeps three generations of the
routing logic side by side, and each is its own module here:

- **Current generation.**
  - `RouteCleaning`, `RouteTokens` and `RouteCurrent` (`src/utils/response.ts`): route-file cleaning, the segment view of a route, compilation and matching, ordering, and the middleware search.
  - `TransferCurrent` (`sendResponseParser`): a response becomes transfer events, with `Content-Type` inference and single byte ranges as in sections 14.1.2, 14.4 and 15.3.7 of RFC 9110.
  - `Tunnel` (`src/utils/tunnel.ts`) and `MiddlewareChain` (`src/utils/middleware-tools.ts`).
  - `WorkerPool` (`src/utils/multi-tools.ts`): a state machine over threads and pending requests.
- **Middle generation.**
  - `RouteMiddle` and `TransferMiddle` (`src/utils/router-tools.ts`).
  - `WorkerRouter` (`src/workers/router.ts`).
- **Oldest generation.** `LibRouterTools` and `LibWorkerRouter` (`src/lib`).
- **Shared helpers.**
  - `Paths` (`src/utils/path.ts`), `DirectoryList`, and `Sorting` (the engine's `Array.prototype.sort` and `filter`).
  - `CustomData`: lodash `_.merge` on the `custom` request data.
  - `Handlers` and `Protocol`: the shapes every generation shares.
  - `Strings` and `Wrappers`.
- **Configuration and request parsing.**
  - `Parser` (`src/utils/parser.ts`), `AppTools` (`src/utils/app-tools.ts`) and `Patterns` (`src/controllers/constants.ts`).
  - `RequestHandler` (`src/utils/request-handler.ts`): reading a request, the CORS origin, the statuses sent before routing, and applying events to the outgoing response.
- **OpenAPI.** `OpenApi` (`study/openapi.ts`): the OpenAPI 3.1.0 document and the `/__api` dispatch.

Some things the model takes as parameters:

- **Regular expressions.** Generated expressions are segment matchers over `Static(text) | Dynamic(name) | CatchAll(name)`.
- **User code.** A middleware or handler is reduced to the outcome the routers distinguish. It responds, calls `next(partial)`, does both, does neither, or throws. It can also call `next` only after its promise resolved to nothing (`NextLate`), or call `next` and then throw (`NextThenThrow`). The current and middle generations hang on the first and fail on the second. The lib generation resolves the step inside `next`, so it continues with the merged context on both.
- **Outside functions.** Globbing, file existence, dynamic imports, `join`, `decodeURIComponent`, `querystring.unescape`, `JSON.stringify`, the cookie serialiser and the range parser are all parameters.

Where the source and the written description of the system disagree, the model follows the source:

- **Worker exit.** A worker `exit` removes the worker only for a request whose exit listener is still attached to that thread (`WorkerPool.Exit`). It does not remove the worker on every exit.
- **Catch-all parameter.** The last path parameter of a catch-all route gets `required: false`. This is what the code writes, although section 4.8.12.2 of OpenAPI 3.1.0 requires `true` for path parameters (`OpenApi.ParametersOfRoute`).
- **Tunnel imports.** `src/utils/tunnel.ts:3` imports `sendResponseParser` from `./router-tools`, which exports only `sendResponseAll` (`src/utils/router-tools.ts:30`). That function sends 206 only for an exact 200, and it adds `Accept-Ranges`. Line 6 also imports `encapsulateModule` and `getFolderPath` from `./path`, which defines neither. The model gives `Tunnel` the `sendResponseParser` of `src/utils/response.ts:26`. It is the only function of that name, and its signature fits the call at `src/utils/tunnel.ts:195`. The two missing path functions are used only in the static-file branch (lines 22-46), which is outside the model.
- **OpenAPI route list.** `study/openapi.ts` imports `findRoutePathnames` from `src/utils/router-tools.ts`, which does not define it. The model uses the function of that name in `src/utils/response.ts:324-340`, whose records (route and vars) it builds from.

## Model

| member | source | states |
|---|---|---|
| Paths.NormalizePath | src/utils/path.ts:67-69 | the result has no backslash, no doubled `/` and no leading `/` |
| Paths.NormalizeFixpoint | src/utils/path.ts:67-69 | a path is its own normalisation exactly when it already has that canonical shape |
| Paths.NormalizeIdempotent | src/utils/path.ts:67-69 | normalising twice gives the same as normalising once |
| Paths.NormalizeKeepsText | src/utils/path.ts:67-69 | only separators change: the other characters survive, in order |
| Paths.NormalizeTrailing | src/utils/path.ts:67-69 | the result ends in `/` exactly when the input ends in a separator and holds something besides separators |
| Paths.CollapseSeparators | src/utils/path.ts:68 | every run of `/` and `\` becomes one `/`; the first character is a slash exactly when the input's was a separator |
| Paths.EscapePath | src/utils/path.ts:61-65 | the escaped path never starts with `/` |
| Paths.EscapePathPrefix | src/utils/path.ts:61-65 | when the escape is a prefix of the path, the result is the remainder without its leading `/` |
| Paths.ClearExtension | src/utils/path.ts:71-73 | the result is a prefix of the normalised path; it is the whole path exactly when the path has no extension, and otherwise an extension starts right where the result ends |
| Paths.ExtensionAtLastDot | src/utils/path.ts:72 | only the last `.` can start the extension the pattern removes |
| Paths.DirnameOfFile | src/utils/response.ts:241-246 | the directory of `dir/file` is `dir`, and a bare file name lies in `.` |
| DirectoryList.RecursiveDirectoryList | src/utils/response.ts:368-374 | the empty root, then every successive prefix of the normalised path, the last being the path itself |
| DirectoryList.DirectoryChainPrefixes | src/utils/response.ts:368-374 | each directory of the chain is a prefix of every later one |
| DirectoryList.PrefixJoins | src/utils/response.ts:371 | one prefix path per part |
| Sorting.Sort | src/utils/response.ts:337-339 | a successful sort is a permutation of its input |
| Sorting.SortSorted | src/utils/response.ts:337-339 | with a comparator consistent on the input, the sort succeeds and its result is in comparator order |
| Sorting.FilterMembers | src/utils/response.ts:336 | an element is kept exactly when it is in the input and passes the test |
| Sorting.FilterAll | src/utils/response.ts:336 | a list whose elements all pass is kept whole and in order |
| Sorting.Insert | src/utils/response.ts:337-339 | inserting keeps every element and adds exactly the new one |
| Sorting.InsertSorted | src/utils/response.ts:337-339 | with a consistent comparator, inserting into a sorted list succeeds and keeps it sorted |
| Sorting.Filter | src/utils/response.ts:336 | every kept element passes the test |
| RouteCleaning.GroupLength | src/utils/response.ts:285 | a group match spans at least `(x)`, starting with `(` or with one separator before it |
| RouteCleaning.StripRouteFile | src/utils/response.ts:287 | the text is unchanged or loses exactly one route file name at its very end |
| RouteCleaning.CleanRoute | src/utils/response.ts:281-293 | the cleaned route starts with exactly one `/`, and ends with `/` only when it is `/` |
| RouteCleaning.RemoveGroupsNoParen | src/utils/response.ts:285 | text without `(` has no group to remove |
| RouteCleaning.RemoveGroupsOfGroup | src/utils/response.ts:285 | a group of class characters disappears entirely, with or without the `/` before it |
| RouteCleaning.RemoveGroupsAppend | src/utils/response.ts:285 | removing groups from two pieces, the second starting with `/`, is removing them from each |
| RouteCleaning.RemoveGroupsSlashJoin | src/utils/response.ts:285 | removing groups from the directory names of a route file leaves exactly its plain names |
| RouteCleaning.CleanRouteFilePath | src/utils/response.ts:281-293 | cleaning a route file's path gives `/` followed by the plain directory names joined with `/`, in both generations |
| RouteCleaning.NestedGroupSurvives | src/utils/response.ts:285 | group removal is one left-to-right pass: `(a(b))` leaves `(a)` |
| RouteCleaning.RouteFileNameCanEndRoute | src/utils/router-tools.ts:233-234 | the file name is removed before the trailing slashes, so a directory named like a route file can end the route |
| RouteTokens.ClassifySegment | src/utils/response.ts:307-313 | a piece read as a segment is valid and has that piece as its text |
| RouteTokens.ClassifyRoute | src/utils/response.ts:307-313 | a route read as segments is valid and its text is the route |
| RouteTokens.ClassifySegmentText | src/utils/response.ts:307-313 | a valid segment's text reads back as that segment |
| RouteTokens.InvalidRouteIff | src/utils/response.ts:299-301 | on a route made of segments, the invalid-route test fires exactly when a catch-all is not the last segment |
| RouteTokens.VarsIff | src/utils/response.ts:307-309 | on a route made of segments, `vars` lists the parameter and catch-all names in order |
| RouteTokens.LastClose | src/utils/response.ts:308 | the greedy class run closes at the last `]` before the run ends, and only there |
| RouteTokens.VarsText | src/utils/response.ts:307-309 | the vars scan of a route's text yields the route's parameter names in order |
| RouteTokens.InvalidTextRec | src/utils/response.ts:299-301 | a route's text is rejected exactly when a catch-all stands before its last segment |
| RouteTokens.ClassifyParts | src/utils/response.ts:307-313 | the classified segments spell the route's parts back |
| RouteCurrent.CompileRoute | src/utils/response.ts:295-319 | a compiled route carries the cleaned route, its names and segments; an invalid route fails with the escaped path |
| RouteCurrent.InvalidRouteClassified | src/utils/response.ts:299-301 | for a route read as segments, the compiler rejects it exactly when a catch-all is not last |
| RouteCurrent.MatchRoute | src/utils/response.ts:310-317 | the match yields one capture per name; the root route matches exactly `/` and `//` |
| RouteCurrent.MatchInstantiate | src/utils/response.ts:310-317 | a route matches every path it serves and captures the values the path was built from |
| RouteCurrent.MatchFromSound | src/utils/response.ts:310-317 | every accepted path is the route with the captures in place of its parameters, up to a trailing `/` and the optional `/` before a catch-all, and the captures fit the parameters' classes |
| RouteCurrent.MatchRouteSound | src/utils/response.ts:310-317 | the same for the whole expression, where the root route also accepts `//` |
| RouteCurrent.CatchAllSlashOptional | src/utils/response.ts:313 | the `/` before a catch-all is optional, so `/a/[...rest]` matches `/ab` and captures `b` |
| RouteCurrent.SegmentOrderFirstDifference | src/utils/response.ts:355-359 | at the first index where exactly one pathname opens a bracket, the other sorts first |
| RouteCurrent.SegmentOrderPastEnd | src/utils/response.ts:355-359 | past the end of the second pathname the loop either throws or decides nothing |
| RouteCurrent.CompareRoutesAntisymmetric | src/utils/response.ts:352-363 | when neither call throws, swapping the arguments negates the result |
| RouteCurrent.CompareRoutesSameDepth | src/utils/response.ts:352-363 | pathnames with the same number of pieces never make the comparator throw |
| RouteCurrent.CompareRoutesThrows | src/utils/response.ts:356 | a shorter pathname whose missing pieces open a bracket in the other makes the comparator throw |
| RouteCurrent.SameDepthConsistent | src/utils/response.ts:352-363 | on routes at one depth the comparator is a consistent ordering |
| RouteCurrent.CompileAll | src/utils/response.ts:326-331 | all routes compile in order, or the result is the error of the first route that fails, every earlier route having compiled |
| RouteCurrent.FindRoutePathnames | src/utils/response.ts:324-340 | a compile failure is the result; otherwise every route kept matches the route, when a route is given |
| RouteCurrent.FindRoutePathnamesMembers | src/utils/response.ts:334-339 | the result holds every compiled route that matches, and nothing else |
| RouteCurrent.FindRoutePathnamesSorted | src/utils/response.ts:334-339 | when all route files lie at one depth, the sort succeeds and its result is in comparator order |
| RouteCurrent.MiddlewareSearchList | src/utils/response.ts:241-260 | one candidate middleware file per directory, from the routes folder down to the route file's directory |
| RouteCurrent.MiddlewareSearchRoot | src/utils/response.ts:250-260 | the empty root drops out of the join, so the first candidate is the routes folder's own middleware |
| RouteCurrent.FindMiddlewarePathnames | src/utils/response.ts:262 | every file returned exists |
| RouteCurrent.FindMiddlewareMembers | src/utils/response.ts:235-263 | a file is returned exactly when it is a candidate and exists |
| RouteCurrent.MatchFrom | src/utils/response.ts:310-317 | a match captures one value per parameter |
| RouteCurrent.Instantiate | src/utils/response.ts:310-317 | the path a route serves for given values starts with `/` or is empty |
| RouteCurrent.Candidates | src/utils/response.ts:334-336 | every kept route matches the requested path, unless that path is empty |
| RouteCurrent.SegmentOrderSwap | src/utils/response.ts:355-359 | comparing in the other order flips the decision |
| TransferCurrent.FindHeader | src/utils/response.ts:33-38 | the index of the first header whose name matches case-insensitively, or none when no name matches |
| TransferCurrent.AssignKey | src/utils/response.ts:57-62 | after `{...headers, [k]: v}` the key holds `v`, and every other entry is kept |
| TransferCurrent.DeleteKey | src/utils/response.ts:63 | exactly the entries under the deleted key are removed |
| TransferCurrent.FinalHeadersRange | src/utils/response.ts:52-64 | under a range, the sent headers carry `Content-Range`, no longer carry the declared length header, and keep every other header |
| TransferCurrent.LengthKeyNotRange | src/utils/response.ts:59-63 | the deleted length key is never `Content-Range`, so the new header survives the deletion |
| TransferCurrent.FinalStatus | src/utils/response.ts:53-56 | under a range, a missing status or 200 becomes 206; without one, a missing status becomes 200; any other status is kept |
| TransferCurrent.Subarray | src/utils/response.ts:119 | `subarray` clamps both bounds and is empty when they cross |
| TransferCurrent.StreamRangeAsWrittenBounded | src/utils/response.ts:146-165 | as written, a ranged stream never delivers past byte `end` in total |
| TransferCurrent.StreamRangeAsWrittenFromZero | src/utils/response.ts:146-165 | as written, a range that starts at byte 0 yields exactly the first `end + 1` bytes |
| TransferCurrent.StreamRangeOverDelivers | src/utils/response.ts:156-159 | when `start` falls inside a chunk, the source delivers more bytes than the range holds |
| TransferCurrent.StreamRangeExact | src/utils/response.ts:140-172 | the corrected slicing delivers exactly the stream's bytes from `start` to `end` |
| TransferCurrent.StreamRangeFromStart | src/utils/response.ts:140-172 | from the start of the stream, the corrected slicing delivers exactly bytes `start..end` |
| TransferCurrent.Payload | src/utils/response.ts:99-215 | the body gives only writes, and exactly one unless it is a stream |
| TransferCurrent.BodyEvents | src/utils/response.ts:99-215 | a falsy body gives nothing; otherwise an inferred Content-Type, only when the declared one is falsy, then writes |
| TransferCurrent.HeadEvents | src/utils/response.ts:66-96 | one header-like event per sent header, cookie and cleared cookie |
| TransferCurrent.SendResponseParser | src/utils/response.ts:26-230 | the events keep the protocol order, and the status sent is the final status; by default a ranged stream is sliced as the source slices it, and `SliceCorrected` gives the intended composition |
| TransferCurrent.SendResponseHeaderOrder | src/utils/response.ts:66-96 | the events begin with the `set` events, then the `cookie` events, then the `clear-cookie` events, in entry order |
| TransferCurrent.SendResponseWritten | src/utils/response.ts:99-215 | the bytes written are the payload's; header, status and end events carry none |
| TransferCurrent.SendResponseFalsyBody | src/utils/response.ts:99 | a falsy body gives no write and no inferred Content-Type |
| TransferCurrent.SendResponseContentType | src/utils/response.ts:105-111 | a Content-Type is added exactly when the body is truthy and the declared type falsy, naming the body's kind (a top-level JSON string counts as a string: text/plain) |
| TransferCurrent.JsonStringSentAsText | src/utils/response.ts:102-113 | a body that is a JSON string is sent like a text body: text/plain and the string's own bytes, unquoted |
| TransferCurrent.SendResponseSingleWrite | src/utils/response.ts:102-127 | a string, buffer or JSON body gives one write: all its bytes, or bytes `start..end` under a range; a string (top-level JSON strings included) is written raw, any other value as its JSON text |
| TransferCurrent.SendResponseStreamRange | src/utils/response.ts:140-172 | in the corrected composition, a ranged stream body delivers exactly bytes `start..end` of the stream |
| TransferCurrent.SendResponseStreamAsWritten | src/utils/response.ts:140-172 | as written, a ranged stream body delivers the source's slices: at most `end + 1` bytes, exactly bytes `0..end` from byte 0, and too many bytes when `start` falls inside the one chunk |
| TransferCurrent.FinalHeaders | src/utils/response.ts:52-64 | without a range the headers are sent as given |
| TransferCurrent.StreamRangeAsWritten | src/utils/response.ts:146-165 | the ranged stream as written produces only writes |
| TransferCurrent.StreamRange | src/utils/response.ts:140-172 | the corrected ranged stream produces only writes |
| TransferCurrent.StreamRangeAsWrittenStops | src/utils/response.ts:150-152 | once the counter is past `end`, nothing more is written |
| TransferCurrent.HeaderEvents | src/utils/response.ts:66-74 | one `set` event per header, in order, carrying its name and value |
| TransferCurrent.CookieEvents | src/utils/response.ts:76-85 | one `cookie` event per cookie, in order, carrying its name, value and options |
| TransferCurrent.ClearEvents | src/utils/response.ts:87-96 | one `clear-cookie` event per cleared cookie, in order |
| Protocol.MessageOr | src/utils/tunnel.ts:65 | a configured non-empty message wins; an absent or empty one falls back |
| CustomData.Merge | src/utils/tunnel.ts:131 | the merged keys are the union; a key only the target has keeps its value; a source scalar wins; an undefined source keeps the target's value |
| CustomData.MergeList | src/utils/tunnel.ts:131 | two arrays merge index by index: the result is as long as the longer, indices only the target has keep their values, a source scalar wins and an undefined source keeps the target's value |
| CustomData.MergeArrays | src/utils/tunnel.ts:131 | arrays under the same key are merged index by index |
| CustomData.MergeArraysExample | src/utils/tunnel.ts:131 | `{a: [1, 2, 3]}` merged with `{a: [9]}` gives `{a: [9, 2, 3]}` |
| CustomData.MergeArrayReplaces | src/utils/tunnel.ts:131 | an array replaces a non-array value, and fills an absent key |
| CustomData.MergeListSame | src/utils/tunnel.ts:131 | merging an array with itself changes nothing |
| CustomData.MergeValue | src/utils/tunnel.ts:131 | an undefined source keeps the prior value, a scalar replaces it, an object stays an object and an array an array, and with no prior value the source is copied |
| CustomData.MergeNested | src/utils/tunnel.ts:131 | nested objects under one key are merged, so keys only the target had survive |
| CustomData.MergeNodeReplaces | src/utils/tunnel.ts:131 | a nested object replaces a non-object value |
| CustomData.MergeIntoEmpty | src/utils/tunnel.ts:131 | merging into an empty object copies the source |
| CustomData.MergeIdempotent | src/utils/tunnel.ts:131 | merging an object with itself changes nothing |
| CustomData.MergePartial | src/utils/tunnel.ts:129-132 | an absent partial leaves the data as it was; otherwise the keys are the union |
| Handlers.WithPartial | src/utils/tunnel.ts:131 | the merge changes only the custom data, and an absent partial changes nothing |
| Handlers.ContextAtKeeps | src/utils/tunnel.ts:122-150 | middlewares that pass on keep the method, path and parameters |
| Handlers.ContextAtTail | src/utils/tunnel.ts:122-150 | dropping the first middleware shifts the contexts by one, starting from the one it passed on |
| Tunnel.FindRoute | src/utils/tunnel.ts:77 | the first route whose export for the method is a function, or none when no route has one |
| Tunnel.ZipParams | src/utils/tunnel.ts:116-117 | one entry per parameter name |
| Tunnel.ZipParamsLookup | src/utils/tunnel.ts:116-117 | each name reads back the unescaped capture at its position, or `undefined` past the last capture |
| Tunnel.RunMiddlewaresSkip | src/utils/tunnel.ts:121-150 | middlewares that pass on can be skipped, carrying their merged custom data forward |
| Tunnel.RunMiddlewaresFirstStop | src/utils/tunnel.ts:121-150 | the first middleware that does not pass on decides: its response, the timeout error naming it, what it threw (also after `next`), or a loop that never settles after a late `next` |
| Tunnel.RunMiddlewaresAllContinue | src/utils/tunnel.ts:121-150 | when every middleware passes on, the handler gets the context with every partial merged in order |
| Tunnel.Catch | src/utils/tunnel.ts:166-187 | an `Error` becomes a 500 with its message, a non-null object is sent as it is, and exactly the other values are rethrown |
| Tunnel.TunnelEvents | src/utils/tunnel.ts:11-188 | the emitted events keep the protocol order; a reply is sent by the source's response sender, with its slicing of ranged streams |
| Tunnel.TunnelNotFound | src/utils/tunnel.ts:59-74 | no route for the path gives a 404 JSON message, whatever the middlewares and handlers would do |
| Tunnel.TunnelMethodNotAllowed | src/utils/tunnel.ts:76-95 | routes that export no function for the method give a 405 JSON message |
| Tunnel.TunnelMiddlewareDecides | src/utils/tunnel.ts:121-150 | the first middleware that does not pass on decides the reply (none at all after a late `next`), and the handler is not called |
| Tunnel.TunnelHandlerDecides | src/utils/tunnel.ts:152-165 | when every middleware passes on, the handler decides: nothing gives 204, a response is sent, an error is caught |
| Tunnel.TunnelNoContentEvents | src/utils/tunnel.ts:159-165 | a handler that resolves to nothing gives status 204 and no write |
| Tunnel.LateNextHangs | src/utils/tunnel.ts:128-140 | a `next` after the middleware's promise resolved clears the timer without resolving: no reply at all, neither the handler's nor the timeout's |
| Tunnel.ThrowAfterNextCaught | src/utils/tunnel.ts:126-146 | a middleware that calls `next` and then throws is caught like any throw, and the handler does not run |
| Tunnel.NextReachesHandler | src/utils/tunnel.ts:129-133 | a middleware that calls `next({root: v})` with a scalar `v` lets the handler see `custom.root == v` |
| Tunnel.ZipParamsKeys | src/utils/tunnel.ts:116-117 | the j-th parameter entry is named by the j-th var |
| MiddlewareChain.RunChainSkip | src/utils/middleware-tools.ts:9-29 | middlewares that pass on can be skipped, carrying their merged custom data forward |
| MiddlewareChain.NextCalledIffAllContinue | src/utils/middleware-tools.ts:9-30 | the outer `next` is called exactly when every middleware called `next` without a response, with every partial merged |
| MiddlewareChain.ChainFirstStop | src/utils/middleware-tools.ts:9-29 | the first middleware that does not pass on decides: its response, a pending chain (also after a late `next`), or its error (also after `next`) |
| WorkerPool.MaxPoolSize | src/utils/multi-tools.ts:61 | a positive configured maximum is used; an absent or zero one gives 20 |
| WorkerPool.MinPoolSize | src/workers/v2-multi.ts:35 | a positive configured minimum is used; an absent or zero one gives 5 |
| WorkerPool.StartWorkers | src/utils/multi-tools.ts:21-33 | `size` new idle workers are added after the existing ones, and the requests are untouched |
| WorkerPool.StartWorkersValid | src/utils/multi-tools.ts:21-33 | starting workers keeps the pool well formed, with every weight accounted for |
| WorkerPool.StopWorkers | src/utils/multi-tools.ts:35-40 | the pool is emptied and the requests are untouched |
| WorkerPool.FirstIdle | src/utils/multi-tools.ts:52 | the first worker of weight 0, or none when every worker is busy |
| WorkerPool.LeastLoaded | src/utils/multi-tools.ts:76 | a worker of minimal weight; a later worker wins ties |
| WorkerPool.ChooseSpec | src/utils/multi-tools.ts:50-77 | an idle worker is preferred; a new worker is spawned only when none is idle and the pool is below its maximum; otherwise the last least-loaded worker is taken |
| WorkerPool.AdjustWeight | src/utils/multi-tools.ts:80 | only the weight of the worker with that thread id changes, by `delta` |
| WorkerPool.DispatchSpec | src/utils/multi-tools.ts:42-122 | the request is pending on a pool worker whose weight went up by one; the pool grows by at most one worker, and only below its maximum |
| WorkerPool.DispatchValid | src/utils/multi-tools.ts:42-122 | dispatching a fresh request id keeps the pool well formed |
| WorkerPool.FindRequest | src/utils/multi-tools.ts:102-103 | the first request listening on that thread under that id, or none when no request is |
| WorkerPool.Message | src/utils/multi-tools.ts:102-113 | a callback receives the message exactly when a request listens for it; only an `end` message changes the pool |
| WorkerPool.MessageEndValid | src/utils/multi-tools.ts:106-112 | the `end` message settles the request and keeps every weight accounted for |
| WorkerPool.Error | src/utils/multi-tools.ts:93-99 | every request whose error listener is on that thread is rejected and its listeners detached; the other requests are untouched |
| WorkerPool.ErrorValid | src/utils/multi-tools.ts:93-99 | after an error, the worker is idle again and every request it was busy with is settled |
| WorkerPool.Remove | src/utils/multi-tools.ts:86 | exactly the workers with that thread id are removed |
| WorkerPool.ExitValid | src/utils/multi-tools.ts:85-90 | an observed exit removes the worker and rejects every request listening for it with the exit code; the pool stays valid |
| WorkerPool.ExitWorkers | src/utils/multi-tools.ts:85-90 | the workers left after an exit are among the pool's, with distinct ids |
| WorkerPool.EndAfterErrorCountsTwice | src/utils/multi-tools.ts:95-107 | an `end` after an `error` on the same request takes the weight down twice, so an idle worker ends at -1 |
| WorkerPool.Choose | src/utils/multi-tools.ts:50-77 | the chosen worker is an existing one whenever it is idle or the least loaded |
| WorkerPool.CountOn | src/utils/multi-tools.ts:80 | no more requests are busy on a thread than there are requests |
| WorkerPool.FailRequests | src/utils/multi-tools.ts:93-99 | exactly the requests busy on the failing thread are rejected and lose their listeners; the others are unchanged |
| WorkerPool.StopRequests | src/utils/multi-tools.ts:85-90 | exactly the requests with an exit listener on that thread are rejected and lose it; the others are unchanged |
| WorkerPool.Exit | src/utils/multi-tools.ts:85-90 | an exit keeps the number of requests and the next thread id |
| RouteMiddle.ClassifyMiddleRoute | src/utils/router-tools.ts:231-253 | a route read as segments is valid and its text is the route |
| RouteMiddle.ClassifyMiddleRouteText | src/utils/router-tools.ts:231-253 | a route made of valid segments reads back as those segments |
| RouteMiddle.CompileMiddle | src/utils/router-tools.ts:226-265 | a compiled route keeps its pathname and has valid segments that pass the throw test |
| RouteMiddle.CompileMiddleSpec | src/utils/router-tools.ts:226-265 | the compiled route carries the cleaned route, its segments and its weight; it fails exactly when the throw test fires, with the escaped path in the message |
| Wrappers.MapAll | src/utils/router-tools.ts:225-266 | all routes compile in order, or the result is the error of the first route that fails, every earlier route having compiled |
| RouteMiddle.MatchValues | src/utils/router-tools.ts:254-264 | a matched path is the path the route serves for the captured values |
| RouteMiddle.MatchCorrectedIff | src/utils/router-tools.ts:254-264 | the corrected expression matches exactly the paths the route serves for some parameter values |
| RouteMiddle.MatchAsWrittenAgrees | src/utils/router-tools.ts:254-264 | with at most one parameter of each kind, the expression as written is the corrected one |
| RouteMiddle.SecondDynamicAsWritten | src/utils/router-tools.ts:256 | in `/a/[n1]/b/[n2]` the second parameter stays in the expression, which then refuses a path the route serves |
| RouteMiddle.CompareMiddleConsistent | src/utils/router-tools.ts:267-274 | the comparator never throws and is antisymmetric on any routes |
| RouteMiddle.SortedWeights | src/utils/router-tools.ts:267-274 | a list in comparator order has non-decreasing weights |
| RouteMiddle.FindRoutePathname | src/utils/router-tools.ts:219-276 | a compile failure is the result; otherwise every route kept matches under the chosen expression (the source's is `AsWritten`) and the weights do not decrease |
| RouteMiddle.FindRoutePathnameMembers | src/utils/router-tools.ts:275 | the result holds every compiled route whose expression, as written or corrected, matches, and nothing else |
| RouteMiddle.FindRoutePathnameFirst | src/utils/router-tools.ts:267-275 | the first route found is one of the lightest routes whose expression, as written or corrected, matches |
| RouteMiddle.FindRoutePathnameAgrees | src/utils/router-tools.ts:254-275 | when every route has at most one `[name]` and one `[...name]`, the search as written finds what the corrected search finds |
| RouteMiddle.MiddlewareSearchList | src/utils/router-tools.ts:204-214 | one candidate middleware file per directory, root first |
| RouteMiddle.MiddlewareSearchRoot | src/utils/router-tools.ts:208-214 | the empty root drops out of the join, so the first candidate is the application folder's own middleware |
| RouteMiddle.FindMiddlewareMembers | src/utils/router-tools.ts:200-217 | a file is returned exactly when it is a candidate and exists |
| RouteMiddle.ClassifyMiddleSegment | src/utils/router-tools.ts:231-253 | a classified segment is valid and spells the piece back |
| RouteMiddle.MatchPathFor | src/utils/router-tools.ts:254-264 | a route matches the path it serves for any fitting values |
| RouteMiddle.MatchWrittenAgrees | src/utils/router-tools.ts:254-264 | with at most one parameter and one catch-all, the as-written pattern matches as the intended one does |
| RouteMiddle.SecondDynamicWritten | src/utils/router-tools.ts:256 | a route with two parameters fails, as written, to match a path it serves |
| RouteMiddle.FilterWeightOrdered | src/utils/router-tools.ts:267-275 | filtering keeps the weight order |
| RouteMiddle.FindMiddlewarePathnames | src/utils/router-tools.ts:215-216 | every middleware path returned exists |
| TransferMiddle.StreamRangeRepeats | src/utils/router-tools.ts:107-137 | every write of the ranged stream is non-empty and no longer than the range |
| TransferMiddle.StreamRangeRepeatsSkips | src/utils/router-tools.ts:116-119 | chunks that end before `start` emit nothing and only advance the counter |
| TransferMiddle.StreamRangeRepeatsFirst | src/utils/router-tools.ts:120-129 | the first chunk that reaches `start` is sliced right: bytes `start..end` as far as it holds them |
| TransferMiddle.StreamRangeRepeatsUnbounded | src/utils/router-tools.ts:111-130 | the counter never advances past a delivering chunk, so `n` chunks longer than the range each deliver `end + 1` bytes |
| TransferMiddle.StatusSent | src/utils/router-tools.ts:177-183 | 206 replaces the status only when a range applies to exactly 200; anything else, absent included, passes through |
| TransferMiddle.BodyHeaders | src/utils/router-tools.ts:75-160 | a body adds only header events |
| TransferMiddle.SendResponseAll | src/utils/router-tools.ts:30-188 | the events keep the protocol order, and the status sent is the passed-through status |
| TransferMiddle.SendResponseAllHeaders | src/utils/router-tools.ts:34-58 | the header events are the declared headers in order, with no `Content-Range` added and none removed, then cookies and cleared cookies |
| TransferMiddle.SendResponseAllStreamHeaders | src/utils/router-tools.ts:95-105 | a stream body always announces `Accept-Ranges: bytes`, right after the Content-Type it infers when none is declared |
| TransferMiddle.SendResponseAllWritten | src/utils/router-tools.ts:75-175 | the bytes written are the payload's, and a falsy body writes nothing |
| TransferMiddle.SendResponseAllStreamUnbounded | src/utils/router-tools.ts:107-137 | a ranged stream of `n` chunks longer than the range delivers `n` copies of bytes `0..end` |
| TransferMiddle.SendResponseAllSingleWrite | src/utils/router-tools.ts:76-94 | a string, buffer or JSON body gives one write: all its bytes, or bytes `start..end` under a range; a string (top-level JSON strings included) is written raw, any other value as its JSON text |
| TransferMiddle.SendResponseAllStreamRange | src/utils/router-tools.ts:107-137 | with the corrected slicing, a ranged stream delivers exactly bytes `start..end` of the stream, however it is chunked |
| TransferMiddle.SendResponseAllCopiesOnce | src/utils/router-tools.ts:111-130 | on the stream of `n` long chunks that shows the repetition, the corrected slicing delivers bytes `0..end` once |
| TransferMiddle.PayloadAll | src/utils/router-tools.ts:75-160 | the body of the middle generation gives only writes |
| TransferMiddle.BodyEventsAllWritten | src/utils/router-tools.ts:75-175 | a truthy body writes exactly its payload's bytes, a falsy one writes nothing |
| WorkerRouter.MethodExport | src/workers/router.ts:38 | a present named export wins; otherwise the default export's member, or nothing |
| WorkerRouter.RequestMethod | src/workers/router.ts:30 | an absent or empty method is `GET`; any other is upper-cased |
| WorkerRouter.LoadMiddlewares | src/workers/router.ts:101-108 | at most one middleware per file, each loaded from a found file that exports it |
| WorkerRouter.Catch | src/workers/router.ts:153-172 | an `Error` is a 500 with its message, an object is sent as it is, anything else is rethrown |
| WorkerRouter.WithMethodMembers | src/workers/router.ts:37-39 | a route is kept exactly when it was found and its module exports the method |
| WorkerRouter.RouterEvents | src/workers/router.ts:14-172 | a sent response gives protocol-ordered events ending in its status; otherwise nothing is posted |
| WorkerRouter.RouteNotFound | src/workers/router.ts:14-28 | no matching route file gives a 404 with the configured or default message |
| WorkerRouter.RouteCompileFails | src/workers/router.ts:14 | a route file that fails to compile rejects the script, and nothing is sent |
| WorkerRouter.RouteMethodChoice | src/workers/router.ts:37-94 | two or more routes exporting the method give a 500 listing them, none gives a 405, and a single non-function export gives a 500 |
| WorkerRouter.RouteRunsHandler | src/workers/router.ts:96-152 | the one route that exports the method as a function runs its middlewares and then its handler |
| WorkerRouter.RunRouteMiddlewareDecides | src/workers/router.ts:114-138 | the first middleware that does not pass on decides: its response, a worker that never ends (also after a late `next`), or the catch block (also for a throw after `next`) |
| WorkerRouter.RunRouteHandlerDecides | src/workers/router.ts:140-152 | when every middleware passes on, the handler's response is sent, no response sends `{status: 200}`, and an error goes to the catch block |
| WorkerRouter.RouteAsWrittenNeverServes | src/workers/router.ts:31-36 | as written, the script answers 404 or fails, and never reaches a handler |
| WorkerRouter.RouteAsWrittenAgreesUnmatched | src/workers/router.ts:14-36 | the as-written and corrected scripts agree until a route is found |
| WorkerRouter.WithMethod | src/workers/router.ts:37-39 | every kept route exports the method |
| LibRouterTools.Indexes | src/lib/router-tools.ts:46 | each route's index is non-negative exactly when that route equals the requested one |
| LibRouterTools.Truthy | src/lib/router-tools.ts:49 | no empty string or null survives the filter |
| LibRouterTools.MarkedIndex | src/lib/router-tools.ts:46-48 | the i-th mark is the i-th pathname exactly when its cleaned route is the requested one, and null otherwise |
| LibRouterTools.TruthyMarked | src/lib/router-tools.ts:46-49 | filtering the marks leaves exactly the non-empty pathnames that serve the route |
| LibRouterTools.FindRoutePathnameServing | src/lib/router-tools.ts:32-50 | the index-and-null formulation keeps exactly the pathnames that serve the route, in their original order |
| LibRouterTools.FindRoutePathnameMembers | src/lib/router-tools.ts:32-50 | a pathname is returned exactly when it is a non-empty route file whose cleaned form is the route |
| LibRouterTools.FindRoutePathnameDisjoint | src/lib/router-tools.ts:38-49 | two different routes never get the same route file |
| LibRouterTools.FindMiddlewarePathnames | src/lib/router-tools.ts:17-30 | one normalised pathname for each file the glob finds for the middleware patterns |
| LibRouterTools.NormalizeAll | src/utils/path.ts:58 | every pathname is replaced by its canonical normalised form |
| LibRouterTools.MiddlewarePatternsRootLast | src/lib/router-tools.ts:21-27 | the last pattern is the application folder's own `middleware.mjs` |
| LibRouterTools.MiddlewarePatternsLeafFirst | src/lib/router-tools.ts:21-27 | the first pattern is the middleware of the route file's own directory, the end of the directory chain |
| LibRouterTools.KeepIndexed | src/lib/router-tools.ts:47-48 | one entry per pathname |
| LibRouterTools.Reverse | src/utils/path.ts:54 | the list reversed, element by element |
| LibRouterTools.MiddlewarePatterns | src/lib/router-tools.ts:21-29 | one `middleware.mjs` pattern per directory of the route file, the leaf directory first |
| LibWorkerRouter.Settled | src/lib/worker-router.ts:101-119 | once the promise settles, a response or a throw after `next`, a late `next`, and a response without `next` are no longer outcomes of their own |
| LibWorkerRouter.AllSettled | src/lib/worker-router.ts:98-123 | one settled outcome per middleware |
| LibWorkerRouter.AllSettledIndex | src/lib/worker-router.ts:98-123 | the k-th settled outcome is the k-th middleware's outcome read as the promise reads it |
| LibWorkerRouter.LibChainIsSettledLoop | src/lib/worker-router.ts:98-123 | the promise chain ends as the sequential middleware loop ends on the settled outcomes |
| LibWorkerRouter.LateNextContinues | src/lib/worker-router.ts:104-118 | a `next` after the middleware's promise resolved still moves the chain on with the merged context, where the middle generation's loop hangs |
| LibWorkerRouter.ThrowAfterNextIgnored | src/lib/worker-router.ts:104-118 | a throw after `next` is lost and the chain goes on with the merged context, where the middle generation's loop ends with the error |
| LibWorkerRouter.ResponseAfterNextIgnored | src/lib/worker-router.ts:104-116 | a middleware that called `next` and then returned a response is passed over with the merged context |
| LibWorkerRouter.LibChainResolvesIff | src/lib/worker-router.ts:98-123 | the chain resolves exactly when every middleware called `next`, early or late, with every partial context merged in order |
| LibWorkerRouter.LibChainFirstStop | src/lib/worker-router.ts:104-119 | the first middleware that neither calls `next` nor throws decides: a returned response is rejected, silence leaves the chain pending |
| LibWorkerRouter.LibCatch | src/lib/worker-router.ts:134-149 | an `Error` is a 500 with its message under `data`, an object is posted as it is, anything else is rethrown |
| LibWorkerRouter.LibWithMethod | src/lib/worker-router.ts:33-35 | every kept route file exports the method |
| LibWorkerRouter.LibWithMethodMembers | src/lib/worker-router.ts:33-35 | a route file is kept exactly when it was found and its module exports the method |
| LibWorkerRouter.LibRouteNotFound | src/lib/worker-router.ts:13-24 | no route file serving the route gives a 404 with the configured or default message under `data` |
| LibWorkerRouter.LibRouteMethodChoice | src/lib/worker-router.ts:26-81 | two or more exporting route files give a 500 listing them, none gives a 405, and a single non-function export gives a 500 |
| LibWorkerRouter.LibHandlerDecides | src/lib/worker-router.ts:125-133 | when every middleware called `next`, the handler's response is posted, none posts `{status: 200}`, and a throw goes to the catch block |
| LibWorkerRouter.LibEarlyResponseSent | src/lib/worker-router.ts:114-116 | a middleware that returns a response without calling `next` has it posted, and the handler never runs |
| LibWorkerRouter.LibStallSilent | src/lib/worker-router.ts:101-120 | a middleware that neither calls `next` nor returns leaves the worker without a reply |
| Parser.SizeParts | src/utils/parser.ts:18 | a match splits the text into one or more digits followed by a `[kmgt]b?` unit |
| Parser.SizePartsIff | src/utils/parser.ts:18-19 | the pattern matches exactly the texts made of digits followed by a unit |
| Parser.ParseStringBytesToNumber | src/utils/parser.ts:13-34 | numbers and `undefined` are returned as they are; a string gives a non-negative number |
| Parser.SizeRoundTrip | src/utils/parser.ts:18-33 | writing `n` followed by a unit and parsing it back gives `n` times the unit's factor |
| Parser.SizeUnitsScale | src/utils/parser.ts:22-33 | `kb`, `mb`, `gb` and `tb` scale by the first to fourth power of 1024; a bare letter such as `m` scales by 1 |
| Parser.SizeUnitsIgnoreCase | src/utils/parser.ts:18-22 | the unit is matched without regard to letter case: any spelling parses as its lower-case form |
| Parser.BareDigitsAreZero | src/utils/parser.ts:18-19 | digits without a unit do not match and count as 0 |
| Parser.WordsDisjoint | src/utils/parser.ts:43-46 | no string is both a false word and a true word |
| Parser.ParseStringToAutoDetectValue | src/utils/parser.ts:39-52 | `undefined` exactly for a missing value; a returned string is the input itself |
| Parser.AutoDetectKeywords | src/utils/parser.ts:43-46 | the false words in any letter case give `false`, the true words `true`, and nothing else does |
| Parser.AutoDetectNumber | src/utils/parser.ts:47-48 | a decimal numeral reads back as its number |
| Parser.AutoDetectKeepsText | src/utils/parser.ts:49-50 | a string comes back unchanged exactly when it is neither a keyword nor a number |
| AppTools.AppParseStringBytesToNumber | src/utils/app-tools.ts:3-22 | numbers and `undefined` are returned as they are; a string gives a non-negative number |
| AppTools.AppSizeUnits | src/utils/app-tools.ts:8-21 | `kb`, `mb` and `gb` scale as in the newer parser |
| AppTools.AppTerabytesZero | src/utils/app-tools.ts:8-9 | a terabyte string does not match and counts as 0 |
| AppTools.AppAgreesWithoutTerabytes | src/utils/app-tools.ts:3-22 | the two parsers agree on every string without a `t` |
| AppTools.SplitProperty | src/utils/app-tools.ts:24-26 | one key per `.`-separated part, each a name or an index |
| AppTools.SplitPropertyRoundTrip | src/utils/app-tools.ts:24-26 | when every part is canonical, joining the keys back with `.` gives the property |
| AppTools.SplitPropertyIndex | src/utils/app-tools.ts:25 | a digit part becomes an array index, so `a.0` addresses the first item of `a` |
| AppTools.ParseScalar | src/utils/app-tools.ts:36-46 | booleans keep their value; `undefined`, `''` and `0` become `true`; only text is ever kept as it is |
| AppTools.ScalarSpellings | src/utils/app-tools.ts:36-41 | how `false`, `true`, `undefined`, `''` and `0` read under the two keyword tests |
| AppTools.ParseScalarWords | src/utils/app-tools.ts:36-41 | the keywords in any letter case give the booleans |
| AppTools.ParseScalarNumbers | src/utils/app-tools.ts:42-44 | a decimal numeral becomes its number, and a non-zero number stays a number |
| AppTools.ParseScalarKeeps | src/utils/app-tools.ts:45-46 | text is kept exactly when it is not a keyword, not empty and not a numeral |
| AppTools.RecursiveParseObject | src/utils/app-tools.ts:29-50 | each field of an object is assigned once, in order, at its split key, with objects parsed recursively and scalars typed |
| AppTools.RecursiveParseList | src/utils/app-tools.ts:29-50 | an array gives an array whose `i`-th assignment is at index `i` |
| AppTools.RecursiveParseEmpty | src/utils/app-tools.ts:29-31 | `null` and non-string scalars enumerate nothing and give an empty object |
| AppTools.ToPathKey | src/utils/app-tools.ts:25 | a part kept as a name is the part itself |
| AppTools.CanonicalPartText | src/utils/app-tools.ts:25 | a canonical part spells back to itself after the numeric conversion |
| AppTools.NotWord | src/utils/app-tools.ts:36-42 | a numeral is neither a false nor a true word, so it reaches the number case |
| Patterns.EnvFileExamples | src/controllers/constants.ts:20 | `.env.` followed by lower-case letters, `-` and `_` is an env file; upper case, a second dot or a prefix is not |
| Patterns.EntryAndObservable | src/controllers/constants.ts:23-24 | `dir/route.ts` is an entry file and observable; `myroute.ts` is observable but not an entry file |
| Patterns.AcceptableIsUnion | src/controllers/constants.ts:29-33 | the acceptable content types are exactly the busboy, JSON and XML ones |
| Patterns.JsonNotBusboy | src/controllers/constants.ts:29-30 | no content type is both a busboy type and JSON |
| Patterns.FormUrlencodedBareOnly | src/controllers/constants.ts:32-33 | the bare `x-www-form-urlencoded` is accepted, but `application/x-www-form-urlencoded` is not |
| Patterns.JsonParameterRejected | src/controllers/constants.ts:32-33 | JSON followed by anything, such as a charset parameter, is unacceptable |
| Patterns.XmlParameterRejected | src/controllers/constants.ts:32-33 | XML followed by anything is unacceptable |
| Patterns.MultipartParameterAccepted | src/controllers/constants.ts:32-33 | after `multipart/form-data` any parameter on the same line is accepted |
| Patterns.AcceptableIgnoresCase | src/controllers/constants.ts:32-33 | a content type is acceptable exactly when its lower-cased spelling is |
| RequestHandler.UrlParts | src/utils/request-handler.ts:62 | the path holds no `?` and neither does the query |
| RequestHandler.QueryOf | src/utils/request-handler.ts:64 | the query holds no `?` |
| RequestHandler.UrlPartsOf | src/utils/request-handler.ts:62-64 | a url with a `?` splits into the text before it and the text up to the next `?` |
| RequestHandler.UrlPartsNoQuery | src/utils/request-handler.ts:62-64 | a url without `?` is all path with an empty query; a missing or empty url is `/` |
| RequestHandler.MissingContentTypeAccepted | src/utils/request-handler.ts:65 | a request without a content type is read as JSON and accepted |
| RequestHandler.StripScheme | src/utils/request-handler.ts:70 | a string without a scheme is kept; with one, the string is the scheme, `://` and the result |
| RequestHandler.SchemePrefix | src/utils/request-handler.ts:70-72 | an `http://` or `https://` prefix is recognised as a scheme and stripped exactly |
| RequestHandler.OriginWithProtocolShape | src/utils/request-handler.ts:68-77 | the origin with its protocol is `*` exactly when there is no origin outside development; otherwise it has a scheme and names the host the CORS check compares |
| RequestHandler.AllowEntries | src/utils/request-handler.ts:81-85 | the configured origins as a list, each stripped of its scheme |
| RequestHandler.FirstEndingMatch | src/utils/request-handler.ts:87 | the first configured entry the origin ends with, or none when no entry does |
| RequestHandler.AllowOriginChoice | src/utils/request-handler.ts:80-95 | with origins configured outside development, the first entry the origin ends with, or `*` when there is none or it is empty; otherwise the origin with its protocol |
| RequestHandler.EmptyAllowEntryGivesStar | src/utils/request-handler.ts:87-92 | an empty first entry matches every origin and gives `*` |
| RequestHandler.BodySizeRoundTrip | src/utils/request-handler.ts:159-162 | a decimal length reads back as itself; a missing or non-numeric one counts as 0 |
| RequestHandler.MaxBodySizeDefault | src/utils/request-handler.ts:163-165 | without a configured limit the maximum is ten mebibytes; a configured number is used as it is |
| RequestHandler.JsonEnd | src/utils/request-handler.ts:140-154 | the head is sent with the code and a JSON content type and the body gains the bytes, unless the head was already sent |
| RequestHandler.ApplyAllConcat | src/utils/request-handler.ts:294-339 | applying two runs of events is applying the first and then the second |
| RequestHandler.HeadStays | src/utils/request-handler.ts:317-322 | once the head is sent, no event changes it |
| RequestHandler.HeaderEventsKeep | src/utils/request-handler.ts:295-317 | header and cookie events leave the status, head, body and end state alone |
| RequestHandler.HeadFixed | src/utils/request-handler.ts:318-322 | without a `status` event, the first write or end sends the head with the status the response already had |
| RequestHandler.AppliedBody | src/utils/request-handler.ts:318-320 | before the end, the body is every written chunk in order |
| RequestHandler.CookiesAppended | src/utils/request-handler.ts:295-314 | cookie and clear-cookie events append their serialised cookies to `Set-Cookie` in order |
| RequestHandler.KeyUntouched | src/utils/request-handler.ts:294-339 | a header no event touches keeps its value |
| RequestHandler.LastSetWins | src/utils/request-handler.ts:315-317 | the last `set` of a header before the head is sent decides it, names compared without case, a falsy value becoming `''` |
| RequestHandler.SentBody | src/utils/response.ts:26-229 | the events of one response give exactly the payload's bytes and end the response |
| RequestHandler.StatusAfterBodyLost | src/utils/response.ts:217-222 | as written, a string, buffer or JSON body is written before the status, so the head carries the earlier status code |
| RequestHandler.NotFoundSentAsOk | src/utils/response.ts:217-229 | a 404 with a text body reaches the client as 200 |
| RequestHandler.SendResponseStatusFirst | src/utils/response.ts:217-229 | the corrected order has as many events and writes the same bytes as the original |
| RequestHandler.WrittenEitherOrder | src/utils/response.ts:217-229 | moving the status ahead of the body changes no written byte |
| RequestHandler.HeadsThenStatus | src/utils/request-handler.ts:315-322 | header events then a status leave an unsent response with that status |
| RequestHandler.BodyThenEnd | src/utils/request-handler.ts:318-337 | a body then the end sends the head with the current status and appends the written bytes |
| RequestHandler.StatusFirstDelivered | src/utils/response.ts:217-229 | with the status sent first, the client gets the response's own status and the same bytes |
| RequestHandler.ReadRequest | src/utils/request-handler.ts:60-65 | the method and query as read from the request; none exactly when the path cannot be decoded |
| RequestHandler.DefaultHeaderNames | src/utils/request-handler.ts:98-127 | no default header has the CORS origin header's name |
| RequestHandler.SetHeaders | src/utils/request-handler.ts:98-127 | setting headers leaves the head, status, body and end state alone |
| RequestHandler.SetHeadersKeep | src/utils/request-handler.ts:98-127 | a header whose name no later header shares keeps its value |
| RequestHandler.Prepared | src/utils/request-handler.ts:80-127 | the prepared response is unsent, empty, and has status 200 |
| RequestHandler.UndecodablePathRejects | src/utils/request-handler.ts:63 | a path that cannot be decoded rejects the handler |
| RequestHandler.AllowOriginSurvives | src/utils/request-handler.ts:80-127 | the CORS origin set first survives the default headers |
| RequestHandler.PreparedAllowOrigin | src/utils/request-handler.ts:80-127 | the prepared response carries the chosen CORS origin |
| RequestHandler.PreflightFirst | src/utils/request-handler.ts:132-136 | a preflight gets 204 with an empty body and the CORS origin, whatever its content type and length |
| RequestHandler.UnsupportedBeforeSize | src/utils/request-handler.ts:139-155 | an unacceptable content type gets 415 with its message before the length is read |
| RequestHandler.TooLargeRejected | src/utils/request-handler.ts:157-178 | a declared length over the maximum gets 413 with its message |
| RequestHandler.InvalidBodyRejected | src/utils/request-handler.ts:181-266 | a non-GET body that fails to parse gets 400 with `Invalid body` and the error; a GET body is never read |
| RequestHandler.InvalidOriginFails | src/utils/request-handler.ts:285-358 | an origin that `new URL` refuses gives 500 before the tunnel runs |
| RequestHandler.TunnelEventsApplied | src/utils/request-handler.ts:268-340 | a request that passes every check gives the tunnel its decoded path and query, and the response is the prepared one with the tunnel's events applied |
| RequestHandler.TunnelFailure | src/utils/request-handler.ts:341-358 | a tunnel that throws before the head is sent gives 500; after it, the handler rejects |
| OpenApi.Unbrace | study/openapi.ts:85-88 | braces become brackets and every other character stays, so the length is kept |
| OpenApi.Erase | study/openapi.ts:86 | every catch-all is read as a plain parameter and every other segment is kept |
| OpenApi.ApiKeyUnbraced | study/openapi.ts:85-88 | the key has no brackets, and turning its braces back gives the route with every `[...name]` written `[name]` |
| OpenApi.ApiKeyNoBracket | study/openapi.ts:85-88 | no bracket survives in a key |
| OpenApi.ApiKeyIgnoresCatchAll | study/openapi.ts:85-89 | `/a/[id]` and `/a/[...id]` get the same key |
| OpenApi.CatchAllIff | study/openapi.ts:79 | on a route built from segments, the catch-all test holds exactly when the last segment is a catch-all |
| OpenApi.CatchAllOnlyLast | study/openapi.ts:79 | a match of the test lies inside the last segment, which is a catch-all |
| OpenApi.CatchAllLastMatches | study/openapi.ts:79 | a route ending in `[...name]` matches the test |
| OpenApi.RouteParameters | study/openapi.ts:92-103 | one path parameter per var |
| OpenApi.ParametersOfRoute | study/openapi.ts:92-103 | the parameters name the route's parameters in order, and exactly one is optional when the route ends in a catch-all: the catch-all's own |
| OpenApi.MethodOf | study/openapi.ts:109-113 | `default` is skipped; another key names the operation of its lower-case spelling exactly when that is one of the five methods |
| OpenApi.SetOperation | study/openapi.ts:115-147 | the operations stay well formed and gain exactly the method |
| OpenApi.AddOperations | study/openapi.ts:109-148 | the operations stay well formed and gain exactly the methods the export keys name |
| OpenApi.Lookup | study/openapi.ts:89 | a key is found exactly when some entry has it, and its operations are well formed |
| OpenApi.AssignPath | study/openapi.ts:89 | the key now holds the item and every other key is unchanged |
| OpenApi.AddRoute | study/openapi.ts:77-151 | each step keeps the paths well formed |
| OpenApi.AddRouteSpec | study/openapi.ts:89-148 | the route's key holds its parameters before those already there and the operations already there plus those its exports name; other keys are unchanged |
| OpenApi.SharedKeyMerges | study/openapi.ts:85-106 | routes differing only in a final `[...name]` against `[name]` share one Path Item, the later route's parameters first |
| OpenApi.BuildPaths | study/openapi.ts:77-151 | the paths are well formed |
| OpenApi.BuildPathsKeys | study/openapi.ts:77-151 | a key has a Path Item exactly when some route has that key |
| OpenApi.RequestBodyUnlessGet | study/openapi.ts:109-147 | every operation has a body exactly when its method is not `get`, and no method appears twice under a key |
| OpenApi.OperationJsonBody | study/openapi.ts:115-147 | an operation object has a `requestBody` exactly when the operation takes a body |
| OpenApi.PathItemJsonShape | study/openapi.ts:92-147 | a Path Item object lists its parameters with their names and `required` flags, then one field per method, with a `requestBody` exactly when the method is not `get` |
| OpenApi.DocumentPaths | study/openapi.ts:36-152 | the document declares OpenAPI 3.1.0, has `servers` exactly when one is configured, and lists one Path Item per key |
| OpenApi.ApiDispatch | study/openapi.ts:154-212 | exactly one of the document, the HTML page and a 404 `Not found`, decided by the path |

## Left out

- **HTTP server setup** (`src/workers/app.ts`, the single- and multi-thread servers, TLS, `listen`): I/O plumbing. Only the default minimum pool size of `src/workers/v2-multi.ts:35` is kept (`WorkerPool.MinPoolSize`).
- **Static files in `tunnel`** (`src/utils/tunnel.ts:22-41`): globbing and MIME lookup on the file system. `Tunnel` starts after that branch has found nothing.
- **The 500 at `src/utils/tunnel.ts:96-111`**: unreachable, because `FindRoute` only picks a route whose export is a function.
- **Body parsing** (`src/utils/request-handler.ts:181-266`): busboy, concat-stream, decompression, and JSON and XML parsing are foreign libraries over streams. Their only effect on the decision is an optional error, which is the `bodyError` input and gives the 400. The parsed body and uploaded-file metadata are not modelled.
- **Upload clean-up and logging**: removing uploaded files at `end` and `console.error` have no effect on the response. `debugRequest` (`src/utils/request-handler.ts:336`) does: it calls `getReasonPhrase` (line 39), which throws for a status code it does not know, such as 299. That throw comes before `res.end()` on line 337, so such a response is never ended. The model always ends the response, and the thrown error and the missing end are not modelled.
- **Cookies and ranges**: `cookie.parse`, `cookie.serialize`, the `ms` conversion of a string `maxAge`, and `range-parser` are foreign libraries. The serialiser is a parameter, and the first parsed range is an input.
- **Other outside functions**: `decodeURIComponent`, `querystring.unescape`, `new URL`, `JSON.stringify`, UTF-8 encoding, `join`, globbing, `existsSync`, and dynamic `import()` are parameters. They are described by whether they succeed and what they return.
- **Timers, threads and process control**: the middleware timeout is the `Stall` outcome. A `next` that comes after the step's promise resolved but before the timer fires is the `NextLate` outcome; one that comes after the timer fired reads as `Stall`. `process.exit` after a posted message is a terminal reply. The worker pool is a sequential state machine, with no interleaving of events.
- **JavaScript `Number` coercion**: only the empty string and strings of decimal digits are numbers (`Strings.NumericValue`). Signs, fractions, exponents, hex, `Infinity` and surrounding blanks are read as non-numbers.
- **`RequestHandler.BodySize`**: `parseInt` is modelled on an optional sign and decimal digits. The leading blanks it skips are not modelled.
- **Case mapping**: the `i` flag folds ASCII letters only, and `toLowerCase` is modelled on Latin-1 text. Other scripts' case mappings are not modelled.
- **Node's `ServerResponse` errors**: a `setHeader` after the head is sent throws in Node, but here it is ignored. An invalid status code's `RangeError` and writes after `end` are not modelled either. Only `writeHead` after the head is sent is modelled, as a rejected handler.
- **Object key order**: JavaScript objects are their entries in insertion order. The engine's rule that integer-like keys enumerate first is not modelled, for headers, `for...in` in `recursiveParse`, and Paths Object keys.
- **`AppTools.RecursiveParseObject`**: lodash `_.set` is recorded as the ordered list of `(path, value)` assignments. The deep assignment itself is not evaluated.
- **Stream read errors**: a `reader.on('error', reject)` at `src/utils/response.ts:169-170` and `185-186`, and at `src/utils/router-tools.ts:134-135`, rejects the transfer when the file stream fails. A stream here is its list of chunks, and it always reads to the end, so a failing read is not modelled.
- `WorkerPool.MaxPoolSize`: a negative `maxWorkerPoolSize` is truthy in `src/utils/multi-tools.ts:61` and is used as the bound. No new worker is then created, and with an empty pool `reduce` on line 76 throws. The limit is a `nat` here, so a negative limit and that throw are not modelled.
- **Glob order**: the order in which a glob returns files is the glob's own. It is an input list everywhere.
- **`Sorting.Sort`**: the engine's comparison sequence is fixed to a stable insertion sort that scans from the back. An engine may compare in another order, which matters only for an inconsistent or throwing comparator.
- **`RouteMiddle.CompileMiddle`**: the `vars` list of the middle generation is not computed, because no caller in that generation reads it.
- `RouteMiddle.FindRoutePathname`: under the as-written expression, a route whose leftover `[name]` text falls outside the segment model (`MatchAsWritten` gives `None`) is counted as not matching.
- `CustomData.MergeValue`: lodash merges a plain object onto an array by setting the object's keys as properties of the array. Such an array is not representable here, so the object replaces the array. An object with a numeric `length`, which lodash copies as an array, is merged as a plain object.
- **Metacharacters in static route text**: folder names with regular-expression metacharacters fall outside the segment model and are classified as `None`. Compiling such a folder gives the `OutsideModel` error, so one such folder makes the whole of `CompileAll` fail, and with it `RouteCurrent.FindRoutePathnames` and `RouteMiddle.FindRoutePathname`. The source instead builds an expression in which the metacharacter acts as regular-expression syntax, and goes on with the other routes. That per-folder behaviour is not modelled.
- **The OpenAPI `info` and `servers` objects and the Swagger page text**: they come from the configuration and `package.json`, and are inputs.
- **`OpenApi.BuildPaths`**: `exportsOf` lists a route module's export keys, and an import that fails gives an empty list.
- **Build, CLI and watcher** (`src/commands`, `scripts`, `bin`), `src/utils/call-worker.ts`, the asset helpers in `src/lib/index.ts`, `src/utils/buffer.ts`, and `src/controllers/path.ts`: these are glue over I/O, or type tags that became datatype constructors here.

## Findings

| source | as written | input that shows it | evidently intended | confidence | as-written member | corrected member |
|---|---|---|---|---|---|---|
| src/utils/response.ts:156-159 | the slice length of a ranged stream chunk is measured from the byte counter, not from `offset` | one 10-byte chunk with range bytes 2-4: `offset` is 2 and `length` is 5, so bytes 2-6 are written | exactly bytes `start..end` of the stream | not executed | TransferCurrent.StreamRangeAsWritten, TransferCurrent.StreamRangeOverDelivers, TransferCurrent.SendResponseStreamAsWritten | TransferCurrent.StreamRange, TransferCurrent.StreamRangeFromStart, TransferCurrent.SendResponseStreamRange |
| src/utils/router-tools.ts:111-130 | the counter `readed` is not advanced after a chunk that reaches `start` | a stream of three 10-byte chunks with range bytes 0-4: each chunk writes its bytes 0-4, so 15 bytes are sent for a 5-byte range | exactly bytes `start..end` of the stream, once | not executed | TransferMiddle.StreamRangeRepeatsUnbounded, TransferMiddle.SendResponseAllStreamUnbounded | TransferMiddle.SendResponseAllStreamRange, TransferMiddle.SendResponseAllCopiesOnce |
| src/utils/router-tools.ts:254-264 | `replace` without the `g` flag turns only the first `[name]` and the first `[...name]` into captures | route `/a/[x]/b/[yy]` and path `/a/1/b/22`: the second `[yy]` stays a class that matches a single character, so no path with a longer second value matches | every parameter becomes a capture, as the current generation does | not executed | RouteMiddle.MatchAsWritten, RouteMiddle.SecondDynamicWritten | RouteMiddle.MatchCorrected, RouteMiddle.MatchCorrectedIff |
| src/workers/router.ts:33 | `pathToFileURL(r)` is given the route record instead of its `pathname` | any request whose route file is found: `pathToFileURL` throws a `TypeError` and no handler runs | import the record's `pathname` | not executed | WorkerRouter.RouteAsWritten, WorkerRouter.RouteAsWrittenNeverServes | WorkerRouter.Route, WorkerRouter.RouteRunsHandler |
| src/utils/response.ts:217-229 | the `status` event is sent after the body's `write` events; the edge (src/utils/request-handler.ts:318-322) sends the head at the first write | a response `{status: 404, body: 'x'}`: the head goes out with 200, and the later status is lost | the declared status reaches the client | not executed | RequestHandler.StatusAfterBodyLost, RequestHandler.NotFoundSentAsOk | RequestHandler.SendResponseStatusFirst, RequestHandler.StatusFirstDelivered |

=== FILE: app_tools.dfy ===
/**
  The older configuration and query helpers (`src/utils/app-tools.ts`): a
  byte-size parser that knows no terabytes, the dotted-property splitter,
  and `recursiveParse`, which normalises a parsed query object by typing its
  scalar values.

  `recursiveParse` stores each value with lodash `_.set(res, path, value)`.
  The deep assignment itself is not evaluated here: a parsed node keeps the
  ordered list of `(path, value)` assignments it performs.
 */
module AppTools {
  import opened Wrappers
  import opened Strings
  import opened Parser

  // ---------------------------------------------------------------------------
  // parseStringBytesToNumber
  // ---------------------------------------------------------------------------

  /** The unit letters of this copy: `[kmg]`. */
  const AppSizeLetters: string := "kmg"

  /** `parseStringBytesToNumber(bytes)` of `app-tools.ts`: the same grammar without the `t` unit. */
  function AppParseStringBytesToNumber(bytes: SizeSetting): (r: Option<int>)
    ensures bytes.SizeNumber? ==> r == Some(bytes.number)
    ensures bytes.SizeUndefined? ==> r == None
    ensures bytes.SizeText? ==> r.Some? && r.value >= 0
  {
    match bytes
    case SizeText(s) => Some(BytesOfText(s, AppSizeLetters))
    case SizeNumber(n) => Some(n)
    case SizeUndefined => None
  }

  /** Kilo-, mega- and gigabytes scale as in the newer parser. */
  lemma AppSizeUnits(n: nat, unit: string)
    requires AsciiLower(unit) in {"kb", "mb", "gb"}
    ensures AppParseStringBytesToNumber(SizeText(NatToDecimal(n) + unit)) == Some(n * Scale(AsciiLower(unit)))
  {
    assert IsUnit(unit, AppSizeLetters);
    SizeRoundTrip(n, unit, AppSizeLetters);
  }

  /** A terabyte string is not a size here: it counts as 0. */
  lemma AppTerabytesZero(n: nat)
    ensures AppParseStringBytesToNumber(SizeText(NatToDecimal(n) + "tb")) == Some(0)
  {
    var d := NatToDecimal(n);
    var s := d + "tb";
    assert AsciiLower("tb") == "tb";
    assert !IsUnit("tb", AppSizeLetters);
    assert s[|d|..] == "tb";
    DigitRunOf(d, "tb");
  }

  /** The two copies agree on every string that does not use the `t` unit. */
  lemma AppAgreesWithoutTerabytes(s: string)
    requires forall i :: 0 <= i < |s| ==> AsciiLowerChar(s[i]) != 't'
    ensures AppParseStringBytesToNumber(SizeText(s)) == ParseStringBytesToNumber(SizeText(s))
  {
    var k := DigitRun(s);
    if k < |s| {
      assert AsciiLower(s[k..])[0] == AsciiLowerChar(s[k]);
    }
  }

  // ---------------------------------------------------------------------------
  // splitProperty
  // ---------------------------------------------------------------------------

  /** One step of a lodash property path: a key, or a number (an array index). */
  datatype PathKey = KeyName(name: string) | KeyIndex(index: int)

  /** `isNaN(+p) ? p : +p`. */
  function ToPathKey(part: string): (k: PathKey)
    ensures k.KeyName? ==> k.name == part
  {
    match NumericValue(part)
    case Some(n) => KeyIndex(n)
    case None => KeyName(part)
  }

  /** `property.split('.').map(...)`. */
  function SplitProperty(property: string): (r: seq<PathKey>)
    ensures |r| == |Split(property, '.')|
    ensures forall i :: 0 <= i < |r| ==> r[i] == ToPathKey(Split(property, '.')[i])
  {
    var parts := Split(property, '.');
    seq(|parts|, i requires 0 <= i < |parts| => ToPathKey(parts[i]))
  }

  /** How a path step is written back in a dotted property. */
  function KeyText(k: PathKey): string {
    match k
    case KeyName(s) => s
    case KeyIndex(n) => IntToDecimal(n)
  }

  /** A part that reads back as itself: not empty, and a digit string only in its canonical spelling. */
  predicate CanonicalPart(part: string) {
    part != "" && (AllDigits(part) ==> NatToDecimal(DecimalValue(part)) == part)
  }

  /** The dotted spelling of a path. */
  function KeyTexts(keys: seq<PathKey>): (r: seq<string>)
    ensures |r| == |keys|
    ensures forall i :: 0 <= i < |keys| ==> r[i] == KeyText(keys[i])
  {
    seq(|keys|, i requires 0 <= i < |keys| => KeyText(keys[i]))
  }

  lemma CanonicalPartText(part: string)
    requires CanonicalPart(part)
    ensures KeyText(ToPathKey(part)) == part
  {
    if AllDigits(part) {
      assert NumericValue(part) == Some(DecimalValue(part));
    }
  }

  /** Splitting a property whose parts are all canonical and joining the steps back with `.` gives the property. */
  lemma SplitPropertyRoundTrip(property: string)
    requires forall i :: 0 <= i < |Split(property, '.')| ==> CanonicalPart(Split(property, '.')[i])
    ensures Join(KeyTexts(SplitProperty(property)), ".") == property
  {
    var parts := Split(property, '.');
    var texts := KeyTexts(SplitProperty(property));
    forall i | 0 <= i < |parts|
      ensures texts[i] == parts[i]
    {
      CanonicalPartText(parts[i]);
    }
    assert texts == parts;
    JoinSplit(property, '.');
  }

  /** Digit parts become array indices, so `a.0` addresses the first item of `a`. */
  lemma SplitPropertyIndex(name: string, n: nat)
    requires name != "" && '.' !in name && !AllDigits(name)
    ensures SplitProperty(name + "." + NatToDecimal(n)) == [KeyName(name), KeyIndex(n)]
  {
    var d := NatToDecimal(n);
    var p := name + "." + d;
    assert '.' !in d by {
      assert forall i :: 0 <= i < |d| ==> IsAsciiDigit(d[i]);
    }
    SplitJoin([name, d], '.');
    assert Join([name, d], ".") == p;
    DecimalRoundTrip(n);
  }

  // ---------------------------------------------------------------------------
  // recursiveParse
  // ---------------------------------------------------------------------------

  /** A value in a parsed query object; object fields are given in enumeration order. */
  datatype QueryValue =
    | QText(text: string)
    | QNumber(number: int)
    | QBool(flag: bool)
    | QNull
    | QUndefined
    | QList(items: seq<QueryValue>)
    | QObject(fields: seq<(string, QueryValue)>)

  /** `typeof v === 'object'`: arrays, plain objects and `null`. */
  predicate IsObjectValue(v: QueryValue) {
    v.QList? || v.QObject? || v.QNull?
  }

  /** `String(v)`, as `RegExp.prototype.test` converts its argument. */
  function StringOf(v: QueryValue): string
    requires !IsObjectValue(v)
  {
    match v
    case QText(s) => s
    case QNumber(n) => IntToDecimal(n)
    case QBool(b) => if b then "true" else "false"
    case QUndefined => "undefined"
  }

  /** JavaScript truthiness of a scalar. */
  predicate Truthy(v: QueryValue)
    requires !IsObjectValue(v)
  {
    match v
    case QText(s) => s != ""
    case QNumber(n) => n != 0
    case QBool(b) => b
    case QUndefined => false
  }

  /** Unary `+` on a scalar (`None` is `NaN`); strings as `Strings.NumericValue` reads them. */
  function NumberOf(v: QueryValue): Option<int>
    requires !IsObjectValue(v)
  {
    match v
    case QText(s) => NumericValue(s)
    case QNumber(n) => Some(n)
    case QBool(b) => Some(if b then 1 else 0)
    case QUndefined => None
  }

  /** What `recursiveParse` stores: a boolean, a number, the value unchanged, or a nested result with its assignments in order. */
  datatype Parsed =
    | PBool(flag: bool)
    | PNumber(number: int)
    | PKeep(value: QueryValue)
    | PNode(isArray: bool, sets: seq<(seq<PathKey>, Parsed)>)

  /** The scalar branches of `recursiveParse`'s `switch (true)`, in order. */
  function ParseScalar(v: QueryValue): (r: Parsed)
    requires !IsObjectValue(v)
    ensures v.QBool? ==> r == PBool(v.flag)
    ensures v.QUndefined? || v == QText("") || v == QNumber(0) ==> r == PBool(true)
    ensures r.PKeep? ==> r.value == v && v.QText?
  {
    var s := StringOf(v);
    ScalarSpellings();
    if IsFalseWord(s) then PBool(false)
    else if IsTrueWord(s) || !Truthy(v) then PBool(true)
    else match NumberOf(v)
      case Some(n) => PNumber(n)
      case None => PKeep(v)
  }

  /** How the booleans, `undefined`, `''` and `0` read under the keyword tests. */
  lemma ScalarSpellings()
    ensures IsFalseWord("false") && IsTrueWord("true")
    ensures !IsFalseWord("undefined") && !IsTrueWord("undefined")
    ensures !IsFalseWord("") && !IsTrueWord("")
    ensures !IsFalseWord(IntToDecimal(0)) && !IsTrueWord(IntToDecimal(0))
  {
    assert AsciiLower("false") == "false";
    assert AsciiLower("true") == "true";
    assert AsciiLower("undefined") == "undefined";
    assert IntToDecimal(0) == "0";
    assert AsciiLower("0") == "0";
  }

  /** A value of a field: objects are parsed recursively, scalars by the scalar rules. */
  function ParseValue(v: QueryValue): Parsed
    decreases v, 1
  {
    if IsObjectValue(v) then RecursiveParse(v) else ParseScalar(v)
  }

  /**
    `recursiveParse(obj)`: an array gives an array, anything else an object;
    every enumerable entry is assigned at the path its key spells. A string
    enumerates its characters, and other scalars enumerate nothing.
   */
  function RecursiveParse(v: QueryValue): (r: Parsed)
    decreases v, 0
  {
    match v
    case QList(items) =>
      PNode(true, seq(|items|, i requires 0 <= i < |items| => (SplitProperty(NatToDecimal(i)), ParseValue(items[i]))))
    case QObject(fields) =>
      PNode(false, seq(|fields|, i requires 0 <= i < |fields| =>
        assert fields[i] in fields;
        (SplitProperty(fields[i].0), ParseValue(fields[i].1))))
    case QText(s) =>
      PNode(false, seq(|s|, i requires 0 <= i < |s| => (SplitProperty(NatToDecimal(i)), ParseScalar(QText([s[i]])))))
    case _ => PNode(false, [])
  }

  /** Each field of an object is assigned once, in order, at its split key, with objects parsed recursively and scalars typed. */
  lemma RecursiveParseObject(fields: seq<(string, QueryValue)>, i: nat)
    requires i < |fields|
    ensures var r := RecursiveParse(QObject(fields));
      && r.PNode? && !r.isArray && |r.sets| == |fields|
      && r.sets[i].0 == SplitProperty(fields[i].0)
      && (IsObjectValue(fields[i].1) ==> r.sets[i].1 == RecursiveParse(fields[i].1))
      && (!IsObjectValue(fields[i].1) ==> r.sets[i].1 == ParseScalar(fields[i].1))
  {
  }

  /** An array yields an array node whose `i`-th assignment is at index `i`. */
  lemma RecursiveParseList(items: seq<QueryValue>, i: nat)
    requires i < |items|
    ensures var r := RecursiveParse(QList(items));
      r.PNode? && r.isArray && |r.sets| == |items| && r.sets[i].0 == [KeyIndex(i)] && r.sets[i].1 == ParseValue(items[i])
  {
    var d := NatToDecimal(i);
    DecimalRoundTrip(i);
    assert '.' !in d by {
      assert forall j :: 0 <= j < |d| ==> IsAsciiDigit(d[j]);
    }
    assert Split(d, '.') == [d] by {
      SplitJoin([d], '.');
    }
  }

  /** `null` and non-string scalars enumerate nothing. */
  lemma RecursiveParseEmpty(v: QueryValue)
    requires v.QNull? || v.QNumber? || v.QBool? || v.QUndefined?
    ensures RecursiveParse(v) == PNode(false, [])
  {
  }

  /** Keyword spellings: the false words give `false` and the true words `true`, whatever their case. */
  lemma ParseScalarWords(s: string)
    ensures IsFalseWord(s) ==> ParseScalar(QText(s)) == PBool(false)
    ensures IsTrueWord(s) ==> ParseScalar(QText(s)) == PBool(true)
  {
    WordsDisjoint(s);
  }

  /** A decimal numeral becomes its number, and a non-zero number stays a number. */
  lemma ParseScalarNumbers(n: nat, m: int)
    requires m != 0
    ensures ParseScalar(QText(NatToDecimal(n))) == PNumber(n)
    ensures ParseScalar(QNumber(m)) == PNumber(m)
  {
    AutoDetectNumber(n);
    NotWord(NatToDecimal(n));
    NotWord(IntToDecimal(m));
  }

  /** A numeral, signed or not, is neither a false nor a true word. */
  lemma NotWord(s: string)
    requires |s| > 0 && (s[0] == '-' || IsAsciiDigit(s[0]))
    ensures !IsFalseWord(s) && !IsTrueWord(s)
  {
    assert AsciiLower(s)[0] == s[0];
  }

  /** Text that is not a keyword, not empty and not a numeral is kept as it is. */
  lemma ParseScalarKeeps(s: string)
    ensures ParseScalar(QText(s)) == PKeep(QText(s)) <==> !IsFalseWord(s) && !IsTrueWord(s) && s != "" && !AllDigits(s)
  {
  }
}

=== FILE: custom_data.dfy ===
/**
  The `custom` request data that middlewares pass on with `next(partial)`,
  and lodash's `_.merge`, which folds each partial into it.

  `_.merge(object, source)` walks the source's own keys: a nested plain
  object is merged into a nested plain object under the same key, an array
  into an array index by index, an `undefined` source value never overwrites
  a key or index the object already has, and any other value replaces the
  object's (an array or object by a copy of itself).
 */
module CustomData {
  import opened Wrappers
  import opened Protocol

  /** A JSON value that is not a container. */
  type JsonScalar = v: JsonValue | !v.JArray? && !v.JObject? witness JNull

  /** A value in the custom data: `undefined`, a JSON scalar, an array, or a nested plain object. */
  datatype Custom = Undefined | Value(v: JsonScalar) | List(items: seq<Custom>) | Node(fields: map<string, Custom>)

  type CustomMap = map<string, Custom>

  /** `_.merge(a, b)` on plain objects. */
  function Merge(a: CustomMap, b: CustomMap): (r: CustomMap)
    ensures r.Keys == a.Keys + b.Keys
    ensures forall k :: k in a && k !in b ==> r[k] == a[k]
    ensures forall k :: k in b && b[k].Value? ==> r[k] == b[k]
    ensures forall k :: k in b && b[k].Undefined? ==> r[k] == if k in a then a[k] else Undefined
    decreases Node(b), 0
  {
    map k | k in a.Keys + b.Keys ::
      if k in b then
        assert b[k] in b.Values;
        MergeValue(if k in a then Some(a[k]) else None, b[k])
      else a[k]
  }

  /**
    `_.merge` on two arrays: index by index, as if they were objects keyed by
    index, so the result is as long as the longer one.
   */
  function MergeList(a: seq<Custom>, b: seq<Custom>): (r: seq<Custom>)
    ensures |r| == if |a| < |b| then |b| else |a|
    ensures forall i :: |b| <= i < |a| ==> r[i] == a[i]
    ensures forall i :: 0 <= i < |b| && b[i].Value? ==> r[i] == b[i]
    ensures forall i :: 0 <= i < |b| && b[i].Undefined? ==> r[i] == if i < |a| then a[i] else Undefined
    decreases List(b), 0
  {
    seq(if |a| < |b| then |b| else |a|, i requires 0 <= i < (if |a| < |b| then |b| else |a|) =>
      if i < |b| then
        assert b[i] in b;
        MergeValue(if i < |a| then Some(a[i]) else None, b[i])
      else a[i])
  }

  /** The value one key or index receives: `prior` is the object's value, `None` when it lacks the key. */
  function MergeValue(prior: Option<Custom>, src: Custom): (r: Custom)
    ensures src.Undefined? ==> r == if prior.Some? then prior.value else Undefined
    ensures src.Value? ==> r == src
    ensures src.Node? ==> r.Node?
    ensures src.List? ==> r.List?
    ensures prior.None? ==> r == src
    decreases src, 1
  {
    match src
    case Undefined => if prior.Some? then prior.value else Undefined
    case Value(_) => src
    case List(xs) => if prior.Some? && prior.value.List? then List(MergeList(prior.value.items, xs)) else src
    case Node(fs) => if prior.Some? && prior.value.Node? then Node(Merge(prior.value.fields, fs)) else src
  }

  /** Arrays under the same key are merged index by index: `{a: [1, 2, 3]}` merged with `{a: [9]}` gives `{a: [9, 2, 3]}`. */
  lemma MergeArrays(a: CustomMap, b: CustomMap, k: string)
    requires k in a && k in b && a[k].List? && b[k].List?
    ensures Merge(a, b)[k] == List(MergeList(a[k].items, b[k].items))
  {
  }

  lemma MergeArraysExample()
    ensures var one, two, three, nine := Value(JNumber(1)), Value(JNumber(2)), Value(JNumber(3)), Value(JNumber(9));
      Merge(map["a" := List([one, two, three])], map["a" := List([nine])]) == map["a" := List([nine, two, three])]
  {
    var one, two, three, nine := Value(JNumber(1)), Value(JNumber(2)), Value(JNumber(3)), Value(JNumber(9));
    var merged := MergeList([one, two, three], [nine]);
    assert merged == [nine, two, three];
    MergeArrays(map["a" := List([one, two, three])], map["a" := List([nine])], "a");
  }

  /** An array replaces whatever non-array value the key held, and an absent key. */
  lemma MergeArrayReplaces(a: CustomMap, b: CustomMap, k: string)
    requires k in b && b[k].List? && (k !in a || !a[k].List?)
    ensures Merge(a, b)[k] == b[k]
  {
  }

  /** Nested objects under the same key are merged, so keys only the object had survive. */
  lemma MergeNested(a: CustomMap, b: CustomMap, k: string)
    requires k in a && k in b && a[k].Node? && b[k].Node?
    ensures Merge(a, b)[k] == Node(Merge(a[k].fields, b[k].fields))
    ensures Merge(a, b)[k].fields.Keys == a[k].fields.Keys + b[k].fields.Keys
  {
  }

  /** A nested object replaces whatever non-object value the key held. */
  lemma MergeNodeReplaces(a: CustomMap, b: CustomMap, k: string)
    requires k in b && b[k].Node? && (k !in a || !a[k].Node?)
    ensures Merge(a, b)[k] == b[k]
  {
  }

  /** Merging into an empty object copies the source. */
  lemma {:induction false} MergeIntoEmpty(b: CustomMap)
    ensures Merge(map[], b) == b
  {
    var r := Merge(map[], b);
    forall k | k in b ensures r[k] == b[k] {
      assert MergeValue(None, b[k]) == b[k];
    }
  }

  /** Merging an object with itself changes nothing. */
  lemma {:induction false} MergeIdempotent(a: CustomMap)
    ensures Merge(a, a) == a
    decreases Node(a), 0
  {
    var r := Merge(a, a);
    forall k | k in a ensures r[k] == a[k] {
      assert a[k] in a.Values;
      MergeValueSame(a[k]);
    }
  }

  lemma {:induction false} MergeValueSame(v: Custom)
    ensures MergeValue(Some(v), v) == v
    decreases v, 1
  {
    if v.Node? {
      MergeIdempotent(v.fields);
    } else if v.List? {
      MergeListSame(v.items);
    }
  }

  /** Merging an array with itself changes nothing. */
  lemma {:induction false} MergeListSame(xs: seq<Custom>)
    ensures MergeList(xs, xs) == xs
    decreases List(xs), 0
  {
    var r := MergeList(xs, xs);
    forall i | 0 <= i < |xs| ensures r[i] == xs[i] {
      assert xs[i] in xs;
      MergeValueSame(xs[i]);
    }
  }

  /** `_.merge(custom, undefined)`: an absent partial leaves the data as it was. */
  function MergePartial(custom: CustomMap, partial: Option<CustomMap>): (r: CustomMap)
    ensures partial.None? ==> r == custom
    ensures partial.Some? ==> r.Keys == custom.Keys + partial.value.Keys
  {
    match partial
    case None => custom
    case Some(p) => Merge(custom, p)
  }
}

=== FILE: directory_list.dfy ===
/**
  `recursiveDirectoryList`, the ancestor-directory chain the routers search
  for middleware files. The function is written identically in
  `src/utils/response.ts`, `src/utils/router-tools.ts` and
  `src/lib/router-tools.ts`; it is defined once here.
 */
module DirectoryList {
  import opened Strings
  import opened Paths

  /** `arr.slice(0, i + 1).join('/')` for every index `i` of the parts. */
  function PrefixJoins(parts: seq<string>): (r: seq<string>)
    ensures |r| == |parts|
  {
    seq(|parts|, i requires 0 <= i < |parts| => Join(parts[..i + 1], "/"))
  }

  lemma PrefixJoinsFacts(n: string)
    requires Canonical(n)
    ensures var parts := Split(n, '/'); var dirs := PrefixJoins(parts);
      && dirs[0] == parts[0]
      && dirs[|dirs| - 1] == n
      && (forall i :: 0 <= i < |dirs| - 1 ==> dirs[i + 1] == dirs[i] + "/" + parts[i + 1])
      && ("" in dirs <==> n == "")
  {
    var parts := Split(n, '/');
    var dirs := PrefixJoins(parts);
    assert parts[..|parts|] == parts;
    JoinSplit(n, '/');
    forall i | 0 <= i < |dirs| - 1
      ensures dirs[i + 1] == dirs[i] + "/" + parts[i + 1]
    {
      assert parts[..i + 2] == parts[..i + 1] + [parts[i + 1]];
      JoinSnoc(parts[..i + 1], parts[i + 1], "/");
    }
    SplitFirstEmpty(n, '/');
    assert forall i :: 1 <= i < |dirs| ==> |dirs[i]| > 0 by {
      forall i | 1 <= i < |dirs|
        ensures |dirs[i]| > 0
      {
        assert dirs[i] == dirs[i - 1] + "/" + parts[i];
      }
    }
    assert dirs[0] == Join(parts[..1], "/") == parts[0] by {
      assert parts[..1] == [parts[0]];
    }
  }

  /**
    `recursiveDirectoryList(path)`: the empty root directory, then every
    successive prefix of the normalised path, the last being the path itself.
   */
  function RecursiveDirectoryList(path: string): (r: seq<string>)
    ensures var n := NormalizePath(path); var parts := Split(n, '/');
      && |r| >= 1 && r[0] == "" && r[|r| - 1] == n
      && (n == "" ==> r == [""])
      && (n != "" ==> |r| == |parts| + 1 && r[1] == parts[0])
      && (forall i :: 1 <= i < |r| - 1 ==> r[i + 1] == r[i] + "/" + parts[i])
  {
    var n := NormalizePath(path);
    var dirs := PrefixJoins(Split(n, '/'));
    PrefixJoinsFacts(n);
    if "" in dirs then dirs else [""] + dirs
  }

  lemma {:induction false} StepChainPrefixes(r: seq<string>, parts: seq<string>, i: nat, j: nat)
    requires |r| >= 1 && r[0] == ""
    requires |parts| >= |r| - 1
    requires forall k :: 1 <= k < |r| - 1 ==> r[k + 1] == r[k] + "/" + parts[k]
    requires i <= j < |r|
    ensures StartsWith(r[j], r[i])
    decreases j - i
  {
    if i < j {
      StepChainPrefixes(r, parts, i, j - 1);
      if j - 1 >= 1 {
        assert r[j] == r[j - 1] + "/" + parts[j - 1];
        assert r[j][..|r[i]|] == r[j - 1][..|r[i]|];
      }
    }
  }

  /** Each directory of the chain is a prefix of every later one: the chain runs from the root down to the path. */
  lemma DirectoryChainPrefixes(path: string, i: nat, j: nat)
    requires i <= j < |RecursiveDirectoryList(path)|
    ensures StartsWith(RecursiveDirectoryList(path)[j], RecursiveDirectoryList(path)[i])
  {
    var r := RecursiveDirectoryList(path);
    var parts := Split(NormalizePath(path), '/');
    StepChainPrefixes(r, parts, i, j);
  }
}

=== FILE: handlers.dfy ===
/**
  What the router sees of user code: the request context handed to
  middlewares and handlers, and the outcome of one call.

  A middleware or handler is a function of the context. Its asynchronous
  behaviour is reduced to what the routers distinguish: whether it returned
  a response, whether it called `next(partial)`, whether it did neither
  (the promise never settles, and the current generation's timer fires), or
  what it threw.
 */
module Handlers {
  import opened Wrappers
  import opened Protocol
  import opened CustomData

  /** The request as a middleware or handler receives it. */
  datatype Context = Context(
    verb: string,
    path: string,
    params: seq<(string, Option<string>)>,
    custom: CustomMap)

  /** What was thrown: an `Error` with its message, a non-null object (sent as a response), or any other value. */
  datatype Thrown = ThrownError(message: string) | ThrownObject(response: Response) | ThrownValue

  /**
    One middleware call, by what it did with `next` and what its promise did:
    returned a response without `next`; called `next` (with an optional
    partial custom object) before its promise resolved to nothing, or to a
    response; did neither; threw; called `next` only after its promise had
    resolved to nothing (from a timer, say); or called `next` and then threw.
   */
  datatype Outcome =
    | Respond(response: Response)
    | Continue(partial: Option<CustomMap>)
    | ContinueAndRespond(partial: Option<CustomMap>, response: Response)
    | Stall
    | Throw(thrown: Thrown)
    | NextLate(partial: Option<CustomMap>)
    | NextThenThrow(partial: Option<CustomMap>, thrown: Thrown)

  /** One handler call: the value it resolved to (`None` for nullish) or what it threw. */
  datatype HandlerOutcome = Returns(response: Option<Response>) | Raises(thrown: Thrown)

  datatype Middleware = Middleware(pathname: string, run: Context -> Outcome)

  type Handler = Context -> HandlerOutcome

  /** `context.custom = _.merge(context.custom, c)`. */
  function WithPartial(ctx: Context, partial: Option<CustomMap>): (r: Context)
    ensures r.verb == ctx.verb && r.path == ctx.path && r.params == ctx.params
    ensures partial.None? ==> r == ctx
  {
    ctx.(custom := MergePartial(ctx.custom, partial))
  }

  /**
    The context the `i`-th middleware sees when every middleware before it
    called `next` and returned nothing.
   */
  function ContextAt(mws: seq<Middleware>, ctx: Context, i: nat): Context
    requires i <= |mws|
    decreases i
  {
    if i == 0 then ctx
    else
      var prev := ContextAt(mws, ctx, i - 1);
      match mws[i - 1].run(prev)
      case Continue(p) => WithPartial(prev, p)
      case _ => prev
  }

  /** Every middleware before index `i` called `next` and returned nothing. */
  predicate AllContinue(mws: seq<Middleware>, ctx: Context, i: nat)
    requires i <= |mws|
  {
    forall j :: 0 <= j < i ==> mws[j].run(ContextAt(mws, ctx, j)).Continue?
  }

  /** Continuing middlewares keep the method, path and parameters; only the custom data changes. */
  lemma {:induction false} ContextAtKeeps(mws: seq<Middleware>, ctx: Context, i: nat)
    requires i <= |mws|
    ensures var c := ContextAt(mws, ctx, i);
      c.verb == ctx.verb && c.path == ctx.path && c.params == ctx.params
    decreases i
  {
    if i > 0 {
      ContextAtKeeps(mws, ctx, i - 1);
    }
  }

  /** Dropping the first middleware shifts the contexts by one, starting from the one it passed on. */
  lemma {:induction false} ContextAtTail(mws: seq<Middleware>, ctx: Context, i: nat)
    requires 0 < |mws| && mws[0].run(ctx).Continue?
    requires 1 <= i <= |mws|
    ensures ContextAt(mws, ctx, i) == ContextAt(mws[1..], WithPartial(ctx, mws[0].run(ctx).partial), i - 1)
    decreases i
  {
    if i > 1 {
      ContextAtTail(mws, ctx, i - 1);
    }
  }

  /** When the first `i` middlewares pass on, the first does, and the next `i - 1` pass on from the context it leaves. */
  lemma AllContinueTail(mws: seq<Middleware>, ctx: Context, i: nat)
    requires 0 < i <= |mws| && AllContinue(mws, ctx, i)
    ensures mws[0].run(ctx).Continue?
    ensures AllContinue(mws[1..], WithPartial(ctx, mws[0].run(ctx).partial), i - 1)
  {
    assert mws[0].run(ContextAt(mws, ctx, 0)).Continue?;
    var next := WithPartial(ctx, mws[0].run(ctx).partial);
    forall j | 0 <= j < i - 1 ensures mws[1..][j].run(ContextAt(mws[1..], next, j)).Continue? {
      assert mws[j + 1].run(ContextAt(mws, ctx, j + 1)).Continue?;
      ContinueShifted(mws, ctx, next, j + 1);
    }
  }

  lemma ContinueShifted(mws: seq<Middleware>, ctx: Context, next: Context, j: nat)
    requires 0 < |mws| && mws[0].run(ctx).Continue? && next == WithPartial(ctx, mws[0].run(ctx).partial)
    requires 1 <= j < |mws| && mws[j].run(ContextAt(mws, ctx, j)).Continue?
    ensures mws[1..][j - 1].run(ContextAt(mws[1..], next, j - 1)).Continue?
  {
    ContextAtTail(mws, ctx, j);
  }
}

=== FILE: lib_router_tools.dfy ===
/**
  The oldest generation's route lookup (`src/lib/router-tools.ts`). A route
  file serves exactly the route its cleaned path spells: there are no
  parameters, so `[id]` in a folder name is matched literally. Middleware
  files are looked up with one glob over every ancestor directory of the
  route file.
 */
module LibRouterTools {
  import opened Wrappers
  import opened Strings
  import opened Paths
  import opened RouteCleaning
  import opened Sorting
  import RouteMiddle

  // ---------------------------------------------------------------------------
  // findRoutePathname
  // ---------------------------------------------------------------------------

  /** The route a compiled route file serves: its path below the application folder, cleaned with the `[a-z0-1]` group rules. */
  function CleanedRoute(pathname: string, appFolder: string): string {
    CleanRoute(Legacy, EscapePath(pathname, appFolder))
  }

  /** `routes.map((r, i) => (r === route ? i : -1))`. */
  function Indexes(routes: seq<string>, route: string): (r: seq<int>)
    ensures |r| == |routes|
    ensures forall i :: 0 <= i < |r| ==> (r[i] >= 0 <==> routes[i] == route)
  {
    seq(|routes|, i requires 0 <= i < |routes| => if routes[i] == route then i else -1)
  }

  /** `routesPathnames.map((r, i) => (indexes[i] >= 0 ? r : null))`. */
  function KeepIndexed(pathnames: seq<string>, indexes: seq<int>): (r: seq<Option<string>>)
    requires |indexes| == |pathnames|
    ensures |r| == |pathnames|
  {
    seq(|pathnames|, i requires 0 <= i < |pathnames| => if indexes[i] >= 0 then Some(pathnames[i]) else None)
  }

  /** `.filter(Boolean)` on strings and nulls: nulls and empty strings are dropped. */
  function Truthy(xs: seq<Option<string>>): (r: seq<string>)
    ensures forall i :: 0 <= i < |r| ==> r[i] != ""
    decreases |xs|
  {
    if |xs| == 0 then []
    else (if xs[0].Some? && xs[0].value != "" then [xs[0].value] else []) + Truthy(xs[1..])
  }

  /**
    `findRoutePathname(basePath, route)` over the route files the glob found:
    every file is cleaned, compared with the route, and kept in place when
    it serves it.
   */
  function FindRoutePathname(pathnames: seq<string>, basePath: string, route: string, join: seq<string> -> string): seq<string> {
    var appFolder := RouteMiddle.AppFolder(basePath, join);
    var routes := seq(|pathnames|, i requires 0 <= i < |pathnames| => CleanedRoute(pathnames[i], appFolder));
    Truthy(KeepIndexed(pathnames, Indexes(routes, route)))
  }

  /** The reference reading: the non-empty pathnames whose cleaned form is the route, in their original order. */
  function Serving(pathnames: seq<string>, appFolder: string, route: string): seq<string> {
    Filter(pathnames, (p: string) => p != "" && CleanedRoute(p, appFolder) == route)
  }

  /** The list of options that keeps exactly the pathnames serving the route. */
  function Marked(pathnames: seq<string>, appFolder: string, route: string): (r: seq<Option<string>>)
    decreases |pathnames|
  {
    if |pathnames| == 0 then []
    else [if CleanedRoute(pathnames[0], appFolder) == route then Some(pathnames[0]) else None] + Marked(pathnames[1..], appFolder, route)
  }

  lemma {:induction false} MarkedIndex(pathnames: seq<string>, appFolder: string, route: string, i: nat)
    requires i < |pathnames|
    ensures |Marked(pathnames, appFolder, route)| == |pathnames|
    ensures Marked(pathnames, appFolder, route)[i] == if CleanedRoute(pathnames[i], appFolder) == route then Some(pathnames[i]) else None
    decreases |pathnames|
  {
    if i > 0 {
      MarkedIndex(pathnames[1..], appFolder, route, i - 1);
    } else if |pathnames| > 1 {
      MarkedIndex(pathnames[1..], appFolder, route, 0);
    }
  }

  lemma {:induction false} TruthyMarked(pathnames: seq<string>, appFolder: string, route: string)
    ensures Truthy(Marked(pathnames, appFolder, route)) == Serving(pathnames, appFolder, route)
    decreases |pathnames|
  {
    if |pathnames| > 0 {
      TruthyMarked(pathnames[1..], appFolder, route);
      assert Marked(pathnames, appFolder, route)[1..] == Marked(pathnames[1..], appFolder, route);
    }
  }

  /** The index-and-null formulation keeps exactly the non-empty pathnames that serve the route, in their original order. */
  lemma FindRoutePathnameServing(pathnames: seq<string>, basePath: string, route: string, join: seq<string> -> string)
    ensures FindRoutePathname(pathnames, basePath, route, join) == Serving(pathnames, RouteMiddle.AppFolder(basePath, join), route)
  {
    var appFolder := RouteMiddle.AppFolder(basePath, join);
    var routes := seq(|pathnames|, i requires 0 <= i < |pathnames| => CleanedRoute(pathnames[i], appFolder));
    var kept := KeepIndexed(pathnames, Indexes(routes, route));
    var marked := Marked(pathnames, appFolder, route);
    if |pathnames| > 0 {
      MarkedIndex(pathnames, appFolder, route, 0);
    }
    forall i | 0 <= i < |pathnames|
      ensures kept[i] == marked[i]
    {
      MarkedIndex(pathnames, appFolder, route, i);
    }
    assert kept == marked;
    TruthyMarked(pathnames, appFolder, route);
  }

  /** A pathname is returned exactly when it is one of the route files, is not empty, and its cleaned form is the route itself. */
  lemma FindRoutePathnameMembers(pathnames: seq<string>, basePath: string, route: string, join: seq<string> -> string, p: string)
    ensures p in FindRoutePathname(pathnames, basePath, route, join) <==>
      p in pathnames && p != "" && CleanedRoute(p, RouteMiddle.AppFolder(basePath, join)) == route
  {
    var appFolder := RouteMiddle.AppFolder(basePath, join);
    FindRoutePathnameServing(pathnames, basePath, route, join);
    FilterMembers(pathnames, (q: string) => q != "" && CleanedRoute(q, appFolder) == route, p);
  }

  /** Two routes never share a route file: the lookups for different routes are disjoint. */
  lemma FindRoutePathnameDisjoint(pathnames: seq<string>, basePath: string, route1: string, route2: string, join: seq<string> -> string, p: string)
    requires route1 != route2
    ensures !(p in FindRoutePathname(pathnames, basePath, route1, join) && p in FindRoutePathname(pathnames, basePath, route2, join))
  {
    FindRoutePathnameMembers(pathnames, basePath, route1, join, p);
    FindRoutePathnameMembers(pathnames, basePath, route2, join, p);
  }

  // ---------------------------------------------------------------------------
  // findMiddlewarePathnames
  // ---------------------------------------------------------------------------

  function Reverse(xs: seq<string>): (r: seq<string>)
    ensures |r| == |xs|
    ensures forall i :: 0 <= i < |xs| ==> r[i] == xs[|xs| - 1 - i]
  {
    seq(|xs|, i requires 0 <= i < |xs| => xs[|xs| - 1 - i])
  }

  /**
    The glob patterns, leaf directory first: `globFindAllList` reverses the
    search list before handing it to the glob. The search list itself is
    built as the middle generation builds it.
   */
  function MiddlewarePatterns(basePath: string, routeFilePath: string, join: seq<string> -> string): (r: seq<string>)
    ensures var list := RouteMiddle.MiddlewareSearchList(basePath, routeFilePath, join);
      && |r| == |list|
      && (forall i :: 0 <= i < |r| ==> r[i] == list[|list| - 1 - i])
  {
    Reverse(RouteMiddle.MiddlewareSearchList(basePath, routeFilePath, join))
  }

  /**
    `findMiddlewarePathnames(basePath, routeFilePath)`: the files the glob
    finds for the patterns, normalised. The glob is a parameter; the order it
    returns matches in is its own.
   */
  function FindMiddlewarePathnames(basePath: string, routeFilePath: string, join: seq<string> -> string, glob: seq<string> -> seq<string>): (r: seq<string>)
    ensures |r| == |glob(MiddlewarePatterns(basePath, routeFilePath, join))|
    ensures forall i :: 0 <= i < |r| ==> Canonical(r[i])
  {
    NormalizeAll(glob(MiddlewarePatterns(basePath, routeFilePath, join)))
  }

  /** `res.map(normalizePath)`. */
  function NormalizeAll(xs: seq<string>): (r: seq<string>)
    ensures |r| == |xs|
    ensures forall i :: 0 <= i < |r| ==> Canonical(r[i]) && r[i] == NormalizePath(xs[i])
  {
    seq(|xs|, i requires 0 <= i < |xs| => NormalizePath(xs[i]))
  }

  /** The last pattern is the application folder's own middleware. */
  lemma MiddlewarePatternsRootLast(basePath: string, routeFilePath: string, join: seq<string> -> string)
    requires basePath != ""
    ensures var r := MiddlewarePatterns(basePath, routeFilePath, join);
      |r| >= 1 && r[|r| - 1] == join([basePath, RouteMiddle.CompiledApp, "middleware.mjs"])
  {
    RouteMiddle.MiddlewareSearchRoot(basePath, routeFilePath, join);
    var r := MiddlewarePatterns(basePath, routeFilePath, join);
    var list := RouteMiddle.MiddlewareSearchList(basePath, routeFilePath, join);
    assert r[|r| - 1] == list[0];
  }

  /** The first pattern is the middleware of the route file's own directory, the end of the directory chain. */
  lemma MiddlewarePatternsLeafFirst(basePath: string, routeFilePath: string, join: seq<string> -> string)
    ensures var r := MiddlewarePatterns(basePath, routeFilePath, join);
      var dirs := RouteMiddle.MiddlewareDirs(basePath, routeFilePath, join);
      |r| >= 1 && r[0] == RouteMiddle.MiddlewareFile(basePath, dirs[|dirs| - 1], join)
  {
    var r := MiddlewarePatterns(basePath, routeFilePath, join);
    var list := RouteMiddle.MiddlewareSearchList(basePath, routeFilePath, join);
    var dirs := RouteMiddle.MiddlewareDirs(basePath, routeFilePath, join);
    assert |dirs| >= 1;
    assert |list| == |dirs|;
    assert list[|list| - 1] == RouteMiddle.MiddlewareFile(basePath, dirs[|dirs| - 1], join);
    assert r[0] == list[|list| - 1];
  }
}

=== FILE: lib_worker_router.dfy ===
/**
  The oldest generation's per-request worker script
  (`src/lib/worker-router.ts`). It makes the same 404 / 500 / 405 decisions
  as the middle generation, but posts the response message itself, with the
  payload of its own answers under `data`. Its middleware loop is a chain of
  promises built with `reduce`: a step resolves as soon as the middleware
  calls `next`, and rejects with the middleware's returned response when it
  returns one without having called `next`.

  `sendResponse` posts one message and exits the worker, so the first reply
  is the only one.
 */
module LibWorkerRouter {
  import opened Wrappers
  import opened Strings
  import opened Protocol
  import opened CustomData
  import opened Handlers
  import opened MiddlewareChain
  import opened Paths
  import opened Sorting
  import opened WorkerRouter
  import LibRouterTools

  /** What the worker posts: a response handed over as it is, or an answer of its own, `{status, data, headers: {'Content-Type': 'application/json'}}`. */
  datatype Reply = Handed(response: Response) | DataReply(status: int, data: JsonValue)

  /** How the worker ends: the one message it posts, no message at all (a step that never settles), or an uncaught rethrow. */
  datatype LibEnd = Replied(reply: Reply) | Silent | Rethrows

  /**
    What the worker reads from disk, as functions: the compiled route files,
    the module a route file exports, the glob over middleware patterns, and
    the middleware a middleware file exports.
   */
  datatype LibProject = LibProject(
    basePath: string,
    routeFiles: seq<string>,
    join: seq<string> -> string,
    modules: string -> RouteModule,
    glob: seq<string> -> seq<string>,
    middlewareOf: string -> Option<Context -> Outcome>)

  // ---------------------------------------------------------------------------
  // The reduce-based middleware chain
  // ---------------------------------------------------------------------------

  /** How the promise chain settles: resolved with the context, rejected, or never. */
  datatype Settlement = Resolved(ctx: Context) | Rejected(thrown: Thrown) | Pending

  /**
    The promise chain over the middlewares. `next(c)` merges `c` and resolves
    the step at once, so a response returned after it is lost, a throw after
    it rejects an already resolved step and is lost too, and a `next` that
    comes late still resolves the step; a response returned without `next`
    rejects the step with the response itself.
   */
  function LibChain(mws: seq<Middleware>, ctx: Context): Settlement
    decreases |mws|
  {
    if |mws| == 0 then Resolved(ctx)
    else match mws[0].run(ctx)
      case Continue(p) => LibChain(mws[1..], WithPartial(ctx, p))
      case ContinueAndRespond(p, _) => LibChain(mws[1..], WithPartial(ctx, p))
      case Respond(r) => Rejected(ThrownObject(r))
      case Stall => Pending
      case Throw(t) => Rejected(t)
      case NextLate(p) => LibChain(mws[1..], WithPartial(ctx, p))
      case NextThenThrow(p, _) => LibChain(mws[1..], WithPartial(ctx, p))
  }

  /** One middleware's outcome as the promise chain reads it. */
  function Settled(o: Outcome): (r: Outcome)
    ensures !r.ContinueAndRespond? && !r.Respond? && !r.NextLate? && !r.NextThenThrow?
  {
    match o
    case ContinueAndRespond(p, _) => Continue(p)
    case NextLate(p) => Continue(p)
    case NextThenThrow(p, _) => Continue(p)
    case Respond(r) => Throw(ThrownObject(r))
    case _ => o
  }

  function AsSettled(m: Middleware): Middleware {
    Middleware(m.pathname, (c: Context) => Settled(m.run(c)))
  }

  /** The middlewares with each outcome read as the promise chain reads it. */
  function AllSettled(mws: seq<Middleware>): (r: seq<Middleware>)
    ensures |r| == |mws|
    decreases |mws|
  {
    if |mws| == 0 then [] else [AsSettled(mws[0])] + AllSettled(mws[1..])
  }

  /** How a settlement reads as the end of the middle generation's chain. */
  function AsChainEnd(s: Settlement): ChainEnd {
    match s
    case Resolved(c) => NextCalled(c)
    case Rejected(t) => ChainThrows(t)
    case Pending => ChainHangs
  }

  /**
    The promise chain is the sequential loop run on the settled outcomes:
    a late response is dropped and an early one is thrown.
   */
  lemma {:induction false} LibChainIsSettledLoop(mws: seq<Middleware>, ctx: Context)
    ensures RunChain(AllSettled(mws), ctx) == AsChainEnd(LibChain(mws, ctx))
    decreases |mws|
  {
    if |mws| > 0 {
      var s := AllSettled(mws);
      assert s[0].run(ctx) == Settled(mws[0].run(ctx));
      assert s[1..] == AllSettled(mws[1..]);
      match mws[0].run(ctx)
      case Continue(p) => LibChainIsSettledLoop(mws[1..], WithPartial(ctx, p));
      case ContinueAndRespond(p, _) => LibChainIsSettledLoop(mws[1..], WithPartial(ctx, p));
      case NextLate(p) => LibChainIsSettledLoop(mws[1..], WithPartial(ctx, p));
      case NextThenThrow(p, _) => LibChainIsSettledLoop(mws[1..], WithPartial(ctx, p));
      case Respond(_) =>
      case Stall =>
      case Throw(_) =>
    }
  }

  /** A middleware that called `next` and then returned a response is passed over: the chain goes on with the merged context. */
  lemma ResponseAfterNextIgnored(m: Middleware, rest: seq<Middleware>, ctx: Context)
    requires m.run(ctx).ContinueAndRespond?
    ensures LibChain([m] + rest, ctx) == LibChain(rest, WithPartial(ctx, m.run(ctx).partial))
  {
    assert ([m] + rest)[1..] == rest;
  }

  /**
    A middleware that calls `next` only after its promise resolved still
    moves the chain on with the merged context, where the middle
    generation's loop never settles.
   */
  lemma LateNextContinues(m: Middleware, rest: seq<Middleware>, ctx: Context)
    requires m.run(ctx).NextLate?
    ensures LibChain([m] + rest, ctx) == LibChain(rest, WithPartial(ctx, m.run(ctx).partial))
    ensures RunChain([m] + rest, ctx) == ChainHangs
  {
    assert ([m] + rest)[1..] == rest;
  }

  /**
    A middleware that calls `next` and then throws is passed over: the throw
    is lost and the chain goes on with the merged context, where the middle
    generation's loop ends with the error.
   */
  lemma ThrowAfterNextIgnored(m: Middleware, rest: seq<Middleware>, ctx: Context)
    requires m.run(ctx).NextThenThrow?
    ensures LibChain([m] + rest, ctx) == LibChain(rest, WithPartial(ctx, m.run(ctx).partial))
    ensures RunChain([m] + rest, ctx) == ChainThrows(m.run(ctx).thrown)
  {
    assert ([m] + rest)[1..] == rest;
  }

  /** The chain resolves exactly when every middleware called `next`, early or late, whatever it returned or threw after it. */
  lemma LibChainResolvesIff(mws: seq<Middleware>, ctx: Context)
    ensures LibChain(mws, ctx).Resolved? <==> AllContinue(AllSettled(mws), ctx, |mws|)
    ensures LibChain(mws, ctx).Resolved? ==> LibChain(mws, ctx).ctx == ContextAt(AllSettled(mws), ctx, |mws|)
  {
    LibChainIsSettledLoop(mws, ctx);
    NextCalledIffAllContinue(AllSettled(mws), ctx);
  }

  /** The first middleware that neither calls `next` nor throws decides: a response it returns is rejected and then sent, and silence leaves the chain pending. */
  lemma LibChainFirstStop(mws: seq<Middleware>, ctx: Context, k: nat)
    requires k < |mws| && AllContinue(AllSettled(mws), ctx, k)
    ensures var o := mws[k].run(ContextAt(AllSettled(mws), ctx, k));
      && (o.Respond? ==> LibChain(mws, ctx) == Rejected(ThrownObject(o.response)))
      && (o.Stall? ==> LibChain(mws, ctx) == Pending)
      && (o.Throw? ==> LibChain(mws, ctx) == Rejected(o.thrown))
  {
    LibChainIsSettledLoop(mws, ctx);
    ChainFirstStop(AllSettled(mws), ctx, k);
    AllSettledIndex(mws, k);
  }

  lemma {:induction false} AllSettledIndex(mws: seq<Middleware>, k: nat)
    requires k < |mws|
    ensures AllSettled(mws)[k] == AsSettled(mws[k])
    decreases k
  {
    if k > 0 {
      AllSettledIndex(mws[1..], k - 1);
    }
  }

  // ---------------------------------------------------------------------------
  // The script
  // ---------------------------------------------------------------------------

  /** The `catch` block: an `Error` is a 500 with its message under `data`, an object is posted as it is, anything else is rethrown. */
  function LibCatch(t: Thrown): (r: LibEnd)
    ensures t.ThrownError? <==> r.Replied? && r.reply.DataReply?
    ensures t.ThrownError? ==> r.reply == DataReply(500, JsonMessage(t.message))
    ensures t.ThrownObject? <==> r.Replied? && r.reply.Handed?
    ensures t.ThrownObject? ==> r.reply.response == t.response
    ensures t.ThrownValue? <==> r == Rethrows
  {
    match t
    case ThrownError(m) => Replied(DataReply(500, JsonMessage(m)))
    case ThrownObject(res) => Replied(Handed(res))
    case ThrownValue => Rethrows
  }

  /** The `try` block: the promise chain, then the handler; a falsy handler result posts `{status: 200}`. */
  function LibRunRoute(mws: seq<Middleware>, handler: Handler, ctx: Context): LibEnd {
    match LibChain(mws, ctx)
    case Pending => Silent
    case Rejected(t) => LibCatch(t)
    case Resolved(c) =>
      match handler(c)
      case Returns(Some(r)) => Replied(Handed(r))
      case Returns(None) => Replied(Handed(StatusOnly(200)))
      case Raises(t) => LibCatch(t)
  }

  /** The route files, among those found, whose module exports the verb. */
  function LibWithMethod(found: seq<string>, modules: string -> RouteModule, verb: string): (r: seq<string>)
    ensures forall i :: 0 <= i < |r| ==> !MethodExport(modules(r[i]), verb).Absent?
  {
    Filter(found, (p: string) => !MethodExport(modules(p), verb).Absent?)
  }

  /** The middlewares of the route file at `pathname`. */
  function LibMiddlewaresFor(project: LibProject, pathname: string): seq<Middleware> {
    LoadMiddlewares(LibRouterTools.FindMiddlewarePathnames(project.basePath, pathname, project.join, project.glob), project.middlewareOf)
  }

  /** `{message, details}` with each route file relative to the project. */
  function LibMultipleRoutes(message: string, filtered: seq<string>, basePath: string): JsonValue {
    MultipleRoutesBody(message, seq(|filtered|, i requires 0 <= i < |filtered| => EscapePath(filtered[i], basePath)))
  }

  /** The script for one request. */
  function LibRoute(project: LibProject, route: string, data: WorkerData, msgs: Messages): LibEnd {
    var found := LibRouterTools.FindRoutePathname(project.routeFiles, project.basePath, route, project.join);
    if |found| == 0 then Replied(DataReply(404, JsonMessage(MessageOr(msgs.notFound, "Not found Route"))))
    else
      var verb := RequestMethod(data.verb);
      var filtered := LibWithMethod(found, project.modules, verb);
      if |filtered| > 1 then
        Replied(DataReply(500, LibMultipleRoutes(MessageOr(msgs.multipleRoutes, "Multiple routes found"), filtered, project.basePath)))
      else if |filtered| == 0 then Replied(DataReply(405, JsonMessage(MessageOr(msgs.methodNotAllowed, "Method not allowed"))))
      else match MethodExport(project.modules(filtered[0]), verb)
        case Func(h) => LibRunRoute(LibMiddlewaresFor(project, filtered[0]), h, ContextOf(data, route))
        case _ => Replied(DataReply(500, JsonMessage(MessageOr(msgs.internalServerError, "Internal server error"))))
  }

  // ---------------------------------------------------------------------------
  // Properties
  // ---------------------------------------------------------------------------

  /** No route file serves the route: a 404 whose message sits under `data`. */
  lemma LibRouteNotFound(project: LibProject, route: string, data: WorkerData, msgs: Messages)
    requires LibRouterTools.FindRoutePathname(project.routeFiles, project.basePath, route, project.join) == []
    ensures LibRoute(project, route, data, msgs) == Replied(DataReply(404, JsonMessage(MessageOr(msgs.notFound, "Not found Route"))))
  {
  }

  /**
    The same decisions as the middle generation, over the route files that
    serve the route: two or more exporting the verb give a 500 listing them,
    none gives a 405, and a single one whose export is not a function gives a 500.
   */
  lemma LibRouteMethodChoice(project: LibProject, route: string, data: WorkerData, msgs: Messages)
    ensures var found := LibRouterTools.FindRoutePathname(project.routeFiles, project.basePath, route, project.join);
      var verb := RequestMethod(data.verb);
      var filtered := LibWithMethod(found, project.modules, verb);
      var r := LibRoute(project, route, data, msgs);
      && (|filtered| > 1 ==>
            r == Replied(DataReply(500, LibMultipleRoutes(MessageOr(msgs.multipleRoutes, "Multiple routes found"), filtered, project.basePath))))
      && (|found| > 0 && |filtered| == 0 ==> r == Replied(DataReply(405, JsonMessage(MessageOr(msgs.methodNotAllowed, "Method not allowed")))))
      && (|filtered| == 1 && MethodExport(project.modules(filtered[0]), verb).NotFunction? ==>
            r == Replied(DataReply(500, JsonMessage(MessageOr(msgs.internalServerError, "Internal server error")))))
  {
    var found := LibRouterTools.FindRoutePathname(project.routeFiles, project.basePath, route, project.join);
    var filtered := LibWithMethod(found, project.modules, RequestMethod(data.verb));
    if |filtered| > 0 {
      assert |found| > 0;
    }
  }

  /** A route file is a candidate exactly when it serves the route and its module exports the verb. */
  lemma LibWithMethodMembers(found: seq<string>, modules: string -> RouteModule, verb: string, p: string)
    ensures p in LibWithMethod(found, modules, verb) <==> p in found && !MethodExport(modules(p), verb).Absent?
  {
    FilterMembers(found, (q: string) => !MethodExport(modules(q), verb).Absent?, p);
  }

  /** When every middleware called `next`, the handler decides: a response is posted as it is, none posts `{status: 200}`, and what it throws goes to the catch block. */
  lemma LibHandlerDecides(mws: seq<Middleware>, handler: Handler, ctx: Context)
    requires AllContinue(AllSettled(mws), ctx, |mws|)
    ensures var c := ContextAt(AllSettled(mws), ctx, |mws|);
      match handler(c)
      case Returns(Some(r)) => LibRunRoute(mws, handler, ctx) == Replied(Handed(r))
      case Returns(None) => LibRunRoute(mws, handler, ctx) == Replied(Handed(StatusOnly(200)))
      case Raises(t) => LibRunRoute(mws, handler, ctx) == LibCatch(t)
  {
    LibChainResolvesIff(mws, ctx);
  }

  /** A middleware that returns a response without calling `next` has it posted, and the handler never runs. */
  lemma LibEarlyResponseSent(mws: seq<Middleware>, handler: Handler, ctx: Context, k: nat)
    requires k < |mws| && AllContinue(AllSettled(mws), ctx, k)
    requires mws[k].run(ContextAt(AllSettled(mws), ctx, k)).Respond?
    ensures LibRunRoute(mws, handler, ctx) == Replied(Handed(mws[k].run(ContextAt(AllSettled(mws), ctx, k)).response))
  {
    LibChainFirstStop(mws, ctx, k);
  }

  /** A middleware that neither calls `next` nor returns leaves the worker without a reply. */
  lemma LibStallSilent(mws: seq<Middleware>, handler: Handler, ctx: Context, k: nat)
    requires k < |mws| && AllContinue(AllSettled(mws), ctx, k)
    requires mws[k].run(ContextAt(AllSettled(mws), ctx, k)).Stall?
    ensures LibRunRoute(mws, handler, ctx) == Silent
  {
    LibChainFirstStop(mws, ctx, k);
  }
}

=== FILE: middleware_chain.dfy ===
/**
  `middlewareChain(...middlewares)` (`src/utils/middleware-tools.ts`):
  composes several middlewares into one. Each runs in turn on the shared
  context; the first one that returns a response ends the chain with it,
  and when every one has called `next`, the outer `next` is called once.

  Unlike the router's own loop there is no timer here: a middleware that
  neither returns a response nor calls `next` leaves the chain pending, and
  so does one that calls `next` only after its promise resolved.
 */
module MiddlewareChain {
  import opened Wrappers
  import opened Protocol
  import opened Handlers

  /** How one call of the composed middleware ends. */
  datatype ChainEnd =
    | ChainResponds(response: Response)
    | NextCalled(ctx: Context)
    | ChainHangs
    | ChainThrows(thrown: Thrown)

  /** `middlewareChainLoop(context, next)`. */
  function RunChain(mws: seq<Middleware>, ctx: Context): ChainEnd
    decreases |mws|
  {
    if |mws| == 0 then NextCalled(ctx)
    else match mws[0].run(ctx)
      case Respond(r) => ChainResponds(r)
      case ContinueAndRespond(p, r) => ChainResponds(r)
      case Continue(p) => RunChain(mws[1..], WithPartial(ctx, p))
      case Stall => ChainHangs
      case Throw(t) => ChainThrows(t)
      case NextLate(_) => ChainHangs
      case NextThenThrow(_, t) => ChainThrows(t)
  }

  /** Middlewares that pass on can be skipped, carrying their merged custom data forward. */
  lemma {:induction false} RunChainSkip(mws: seq<Middleware>, ctx: Context, i: nat)
    requires i <= |mws| && AllContinue(mws, ctx, i)
    ensures RunChain(mws, ctx) == RunChain(mws[i..], ContextAt(mws, ctx, i))
    decreases i
  {
    if i > 0 {
      var next := WithPartial(ctx, mws[0].run(ctx).partial);
      AllContinueTail(mws, ctx, i);
      RunChainSkip(mws[1..], next, i - 1);
      ContextAtTail(mws, ctx, i);
      assert mws[1..][i - 1..] == mws[i..];
    }
  }

  /** The outer `next` is called exactly when every middleware called `next` without returning a response. */
  lemma {:induction false} NextCalledIffAllContinue(mws: seq<Middleware>, ctx: Context)
    ensures RunChain(mws, ctx).NextCalled? <==> AllContinue(mws, ctx, |mws|)
    ensures AllContinue(mws, ctx, |mws|) ==> RunChain(mws, ctx) == NextCalled(ContextAt(mws, ctx, |mws|))
    decreases |mws|
  {
    if |mws| > 0 && mws[0].run(ctx).Continue? {
      var next := WithPartial(ctx, mws[0].run(ctx).partial);
      NextCalledIffAllContinue(mws[1..], next);
      forall j | 1 <= j <= |mws| ensures ContextAt(mws, ctx, j) == ContextAt(mws[1..], next, j - 1) {
        ContextAtTail(mws, ctx, j);
      }
      assert ContextAt(mws, ctx, 0) == ctx;
      assert AllContinue(mws, ctx, |mws|) <==> AllContinue(mws[1..], next, |mws| - 1) by {
        forall j | 0 <= j < |mws| - 1
          ensures mws[j + 1].run(ContextAt(mws, ctx, j + 1)) == mws[1..][j].run(ContextAt(mws[1..], next, j))
        {
        }
      }
    } else if |mws| > 0 {
      assert ContextAt(mws, ctx, 0) == ctx;
    }
  }

  /** The first middleware that does not pass on decides: its response, a pending chain, or its error; `next` is not called. */
  lemma ChainFirstStop(mws: seq<Middleware>, ctx: Context, k: nat)
    requires k < |mws| && AllContinue(mws, ctx, k)
    ensures match mws[k].run(ContextAt(mws, ctx, k))
      case Respond(r) => RunChain(mws, ctx) == ChainResponds(r)
      case ContinueAndRespond(_, r) => RunChain(mws, ctx) == ChainResponds(r)
      case Stall => RunChain(mws, ctx) == ChainHangs
      case Throw(t) => RunChain(mws, ctx) == ChainThrows(t)
      case NextLate(_) => RunChain(mws, ctx) == ChainHangs
      case NextThenThrow(_, t) => RunChain(mws, ctx) == ChainThrows(t)
      case Continue(_) => true
  {
    RunChainSkip(mws, ctx, k);
    assert mws[k..][0] == mws[k];
  }
}

=== FILE: openapi.dfy ===
/**
  The OpenAPI 3.1.0 document the study worker derives from the compiled
  routes (`study/openapi.ts`), and the `/__api` dispatch that serves it.

  Each route descriptor carries its cleaned route as a list of segments (the
  route text is `RouteTokens.RouteText` of them) and its `vars`. A route
  becomes a Paths Object key with every `[name]` and `[...name]` written
  `{name}`; its vars become `in: path` parameters, put before any parameters
  an earlier route with the same key left; its exported method handlers
  become operations.
 */
module OpenApi {
  import opened Wrappers
  import opened Strings
  import opened Protocol
  import opened RouteCleaning
  import opened RouteTokens

  // ---------------------------------------------------------------------------
  // Path keys
  // ---------------------------------------------------------------------------

  /** A segment as the Paths Object spells it: a parameter becomes `{name}`. */
  function ApiSegmentText(g: Segment): string {
    match g
    case Static(t) => t
    case Dynamic(n) => "{" + n + "}"
    case CatchAll(n) => "{" + n + "}"
  }

  function ApiText(segs: seq<Segment>): string
    decreases |segs|
  {
    if |segs| == 0 then "" else "/" + ApiSegmentText(segs[0]) + ApiText(segs[1..])
  }

  /**
    `r.route.replace(/\[(?:\.\.\.)?([class]+)\]/g, '{$1}')` on a route made
    of segments: the class is the identifier class of the names, which holds
    neither `/` nor `.`, so every `[name]` and `[...name]` is one match.
   */
  function ApiKey(segs: seq<Segment>): string {
    if |segs| == 0 then "/" else ApiText(segs)
  }

  /** Braces turned back into brackets. */
  function Unbrace(s: string): (r: string)
    ensures |r| == |s|
    ensures forall i :: 0 <= i < |s| ==> r[i] == if s[i] == '{' then '[' else if s[i] == '}' then ']' else s[i]
  {
    seq(|s|, i requires 0 <= i < |s| => if s[i] == '{' then '[' else if s[i] == '}' then ']' else s[i])
  }

  /** Every catch-all read as a plain parameter. */
  function Erase(segs: seq<Segment>): (r: seq<Segment>)
    ensures |r| == |segs|
    ensures forall i :: 0 <= i < |segs| ==> r[i] == if segs[i].CatchAll? then Dynamic(segs[i].name) else segs[i]
  {
    seq(|segs|, i requires 0 <= i < |segs| => if segs[i].CatchAll? then Dynamic(segs[i].name) else segs[i])
  }

  lemma UnbraceConcat(a: string, b: string)
    ensures Unbrace(a + b) == Unbrace(a) + Unbrace(b)
  {
  }

  /** Text without braces is left alone. */
  lemma UnbraceNoBrace(s: string)
    requires forall i :: 0 <= i < |s| ==> s[i] != '{' && s[i] != '}'
    ensures Unbrace(s) == s
  {
  }

  /** A parameter name holds no brace, so `{name}` turns back into `[name]`. */
  lemma UnbraceName(n: string)
    requires ValidName(n)
    ensures Unbrace("{" + n + "}") == "[" + n + "]"
  {
    var s := "{" + n + "}";
    assert forall i :: 0 < i < |s| - 1 ==> s[i] == n[i - 1];
    assert forall i :: 0 <= i < |n| ==> IsNameChar(n[i]);
  }

  lemma UnbraceSegment(g: Segment)
    requires ValidSegment(g)
    ensures Unbrace(ApiSegmentText(g)) == SegmentText(if g.CatchAll? then Dynamic(g.name) else g)
  {
    match g
    case Static(t) =>
      assert forall i :: 0 <= i < |t| ==> IsPlainChar(t[i]);
      UnbraceNoBrace(t);
    case Dynamic(n) =>
      UnbraceName(n);
    case CatchAll(n) =>
      UnbraceName(n);
  }

  lemma {:induction false} UnbraceText(segs: seq<Segment>)
    requires ValidSegments(segs)
    ensures Unbrace(ApiText(segs)) == RouteTokens.Text(Erase(segs))
    decreases |segs|
  {
    if |segs| > 0 {
      UnbraceText(segs[1..]);
      UnbraceSegment(segs[0]);
      assert Erase(segs)[1..] == Erase(segs[1..]);
      UnbraceConcat("/" + ApiSegmentText(segs[0]), ApiText(segs[1..]));
      UnbraceConcat("/", ApiSegmentText(segs[0]));
    }
  }

  /**
    The key is the route with its brackets replaced by braces: turning the
    braces back gives the route text with every `[...name]` written `[name]`.
   */
  lemma ApiKeyUnbraced(segs: seq<Segment>)
    requires ValidSegments(segs)
    ensures Unbrace(ApiKey(segs)) == RouteText(Erase(segs))
    ensures forall i :: 0 <= i < |ApiKey(segs)| ==> ApiKey(segs)[i] != '[' && ApiKey(segs)[i] != ']'
  {
    if |segs| > 0 {
      UnbraceText(segs);
    }
    ApiKeyNoBracket(segs);
  }

  lemma ApiSegmentNoBracket(g: Segment)
    requires ValidSegment(g)
    ensures forall i :: 0 <= i < |ApiSegmentText(g)| ==> ApiSegmentText(g)[i] != '[' && ApiSegmentText(g)[i] != ']'
  {
    match g
    case Static(t) =>
      assert forall i :: 0 <= i < |t| ==> IsPlainChar(t[i]);
    case Dynamic(n) =>
      assert forall i :: 0 <= i < |n| ==> IsNameChar(n[i]);
    case CatchAll(n) =>
      assert forall i :: 0 <= i < |n| ==> IsNameChar(n[i]);
  }

  lemma {:induction false} ApiKeyNoBracket(segs: seq<Segment>)
    requires ValidSegments(segs)
    ensures forall i :: 0 <= i < |ApiKey(segs)| ==> ApiKey(segs)[i] != '[' && ApiKey(segs)[i] != ']'
    decreases |segs|
  {
    if |segs| > 0 {
      ApiKeyNoBracket(segs[1..]);
      ApiSegmentNoBracket(segs[0]);
      var a := "/" + ApiSegmentText(segs[0]);
      var b := ApiText(segs[1..]);
      assert ApiKey(segs) == a + b;
      forall i | 0 <= i < |a + b| ensures (a + b)[i] != '[' && (a + b)[i] != ']' {
        if i == 0 {
        } else if i < |a| {
          assert (a + b)[i] == ApiSegmentText(segs[0])[i - 1];
        } else if |segs| > 1 {
          assert (a + b)[i] == ApiKey(segs[1..])[i - |a|];
        } else {
          assert false;
        }
      }
    }
  }

  /** A route and its catch-all-free reading share a key: `/a/[id]` and `/a/[...id]` describe the same Path Item. */
  lemma {:induction false} ApiKeyIgnoresCatchAll(segs: seq<Segment>)
    ensures ApiKey(Erase(segs)) == ApiKey(segs)
    decreases |segs|
  {
    if |segs| > 0 {
      ApiKeyIgnoresCatchAll(segs[1..]);
      assert Erase(segs)[1..] == Erase(segs[1..]);
      assert ApiText(Erase(segs)) == "/" + ApiSegmentText(Erase(segs)[0]) + ApiText(Erase(segs)[1..]);
      if |segs| > 1 {
        assert ApiText(Erase(segs[1..])) == ApiText(segs[1..]);
      }
    }
  }

  // ---------------------------------------------------------------------------
  // The catch-all test
  // ---------------------------------------------------------------------------

  /** `/\[\.\.\.[class]+\]$/.test(route)`: `[...`, one or more identifier characters, and `]` as the last character. */
  predicate IsCatchAllText(s: string) {
    exists i :: 0 <= i < |s| && CatchAllAt(s, i)
  }

  /** The match of the catch-all test starting at `i`. */
  predicate CatchAllAt(s: string, i: int) {
    0 <= i && i + 6 <= |s| && s[i..i + 4] == "[..." && s[|s| - 1] == ']' && AllIdent(s[i + 4..|s| - 1])
  }

  lemma {:induction false} TextSnoc(segs: seq<Segment>, g: Segment)
    ensures RouteTokens.Text(segs + [g]) == RouteTokens.Text(segs) + "/" + SegmentText(g)
    decreases |segs|
  {
    if |segs| == 0 {
      assert segs + [g] == [g];
    } else {
      assert (segs + [g])[1..] == segs[1..] + [g];
      TextSnoc(segs[1..], g);
    }
  }

  /** The last segment's text is the end of the route text, right after a `/`. */
  lemma LastSegmentEnd(segs: seq<Segment>) returns (p: nat)
    requires |segs| > 0
    ensures var s := RouteText(segs);
      && 1 <= p <= |s| && s[p - 1] == '/' && s[p..] == SegmentText(segs[|segs| - 1])
  {
    var init := segs[..|segs| - 1];
    var g := segs[|segs| - 1];
    assert segs == init + [g];
    TextSnoc(init, g);
    var s := RouteText(segs);
    p := |RouteTokens.Text(init)| + 1;
    assert s == (RouteTokens.Text(init) + "/") + SegmentText(g);
    assert s[p..] == SegmentText(g);
  }

  /** Inside a segment's text, `[...` starts a catch-all and nothing else. */
  lemma OpenCatchAllIn(g: Segment, j: nat)
    requires ValidSegment(g)
    requires j + 4 <= |SegmentText(g)| && SegmentText(g)[j..j + 4] == "[..."
    ensures g.CatchAll?
  {
    var t := SegmentText(g);
    assert t[j] == '[';
    match g
    case Static(x) =>
    case Dynamic(n) =>
      DynamicNoOpen(n, j);
    case CatchAll(_) =>
  }

  /** `[name]` holds no `[...`: its name has no `[` and no `.`. */
  lemma DynamicNoOpen(n: string, j: nat)
    requires ValidName(n)
    requires j + 4 <= |"[" + n + "]"|
    ensures ("[" + n + "]")[j..j + 4] != "[..."
  {
    var t := "[" + n + "]";
    if j > 0 {
      assert t[j] == n[j - 1];
      assert IsNameChar(n[j - 1]);
    } else {
      assert t[1] == n[0];
      assert IsNameChar(n[0]);
    }
  }

  /** On a route made of segments, the test holds exactly when the last segment is a catch-all. */
  lemma CatchAllIff(segs: seq<Segment>)
    requires ValidSegments(segs)
    ensures IsCatchAllText(RouteText(segs)) <==> |segs| > 0 && segs[|segs| - 1].CatchAll?
  {
    if IsCatchAllText(RouteText(segs)) {
      CatchAllOnlyLast(segs);
    }
    if |segs| > 0 && segs[|segs| - 1].CatchAll? {
      CatchAllLastMatches(segs);
    }
  }

  /** A match of the test cannot cross a `/`: in `s` with a `/` at `p - 1`, it starts at or after `p`. */
  lemma CatchAllAfterSlash(s: string, p: nat, i: int)
    requires 1 <= p <= |s| && s[p - 1] == '/'
    requires CatchAllAt(s, i)
    ensures p <= i && s[i..i + 4] == "[..."
  {
  }

  /** A match of the test lies inside the last segment, which is therefore a catch-all. */
  lemma CatchAllOnlyLast(segs: seq<Segment>)
    requires ValidSegments(segs)
    requires IsCatchAllText(RouteText(segs))
    ensures |segs| > 0 && segs[|segs| - 1].CatchAll?
  {
    var s := RouteText(segs);
    var i :| 0 <= i < |s| && CatchAllAt(s, i);
    if |segs| > 0 {
      var p := LastSegmentEnd(segs);
      CatchAllInSegment(s, p, segs[|segs| - 1], i);
    }
  }

  /** A match after the last `/` of a text lies in its final segment, which must then be a catch-all. */
  lemma CatchAllInSegment(s: string, p: nat, g: Segment, i: int)
    requires 1 <= p <= |s| && s[p - 1] == '/' && s[p..] == SegmentText(g)
    requires ValidSegment(g)
    requires CatchAllAt(s, i)
    ensures g.CatchAll?
  {
    CatchAllAfterSlash(s, p, i);
    assert SegmentText(g)[i - p..i - p + 4] == s[i..i + 4];
    OpenCatchAllIn(g, i - p);
  }

  /** A text ending in `[...name]` matches the test there. */
  lemma CatchAllAtTail(s: string, p: nat, n: string)
    requires p <= |s| && s[p..] == "[..." + n + "]"
    requires ValidName(n)
    ensures CatchAllAt(s, p)
  {
    assert s[p..p + 4] == s[p..][..4] == "[...";
    assert s[p + 4..|s| - 1] == n;
    assert forall k :: 0 <= k < |n| ==> IsNameChar(n[k]);
  }

  /** A route ending in `[...name]` matches the test at that segment. */
  lemma CatchAllLastMatches(segs: seq<Segment>)
    requires ValidSegments(segs)
    requires |segs| > 0 && segs[|segs| - 1].CatchAll?
    ensures IsCatchAllText(RouteText(segs))
  {
    var p := LastSegmentEnd(segs);
    var g := segs[|segs| - 1];
    assert ValidSegment(g);
    CatchAllAtTail(RouteText(segs), p, g.name);
  }

  // ---------------------------------------------------------------------------
  // Parameters
  // ---------------------------------------------------------------------------

  /** A Parameter Object with `in: 'path'` and a string schema. */
  datatype Parameter = Parameter(name: string, required: bool)

  /** `r.vars.map(...)`: one parameter per var, required unless it is the last var of a catch-all route. */
  function RouteParameters(vars: seq<string>, catchAll: bool): (r: seq<Parameter>)
    ensures |r| == |vars|
  {
    seq(|vars|, i requires 0 <= i < |vars| => Parameter(vars[i], i != |vars| - 1 || !catchAll))
  }

  lemma {:induction false} NamesSnoc(segs: seq<Segment>, g: Segment)
    ensures Names(segs + [g]) == Names(segs) + (if g.Static? then [] else [g.name])
    decreases |segs|
  {
    if |segs| == 0 {
      assert segs + [g] == [g];
    } else {
      assert (segs + [g])[1..] == segs[1..] + [g];
      NamesSnoc(segs[1..], g);
    }
  }

  /**
    With the vars the route scan yields, the parameters name the route's
    parameters in order, and exactly one is optional when the route ends in
    a catch-all: the catch-all's own. Section 4.8.12.2 of OpenAPI 3.1.0
    requires every `in: path` parameter to be required, so a catch-all route
    yields a parameter the specification does not allow.
   */
  lemma ParametersOfRoute(segs: seq<Segment>, i: nat)
    requires ValidSegments(segs)
    requires i < |Names(segs)|
    ensures var ps := RouteParameters(Names(segs), IsCatchAllText(RouteText(segs)));
      && ps[i].name == Names(segs)[i]
      && (!ps[i].required <==> i == |Names(segs)| - 1 && segs[|segs| - 1].CatchAll?)
      && (!ps[i].required ==> ps[i].name == segs[|segs| - 1].name)
  {
    var names := Names(segs);
    var c := IsCatchAllText(RouteText(segs));
    CatchAllIff(segs);
    var ps := RouteParameters(names, c);
    assert ps[i] == Parameter(names[i], i != |names| - 1 || !c);
    if c {
      LastNameOfCatchAll(segs);
    }
  }

  lemma LastNameOfCatchAll(segs: seq<Segment>)
    requires |segs| > 0 && segs[|segs| - 1].CatchAll?
    ensures |Names(segs)| > 0 && Names(segs)[|Names(segs)| - 1] == segs[|segs| - 1].name
  {
    var g := segs[|segs| - 1];
    assert segs == segs[..|segs| - 1] + [g];
    NamesSnoc(segs[..|segs| - 1], g);
  }

  // ---------------------------------------------------------------------------
  // Operations
  // ---------------------------------------------------------------------------

  /** The methods that become operations. */
  predicate IsApiMethod(m: string) {
    m in {"get", "post", "put", "patch", "delete"}
  }

  /**
    The operation an export key names: `default` is skipped, any other key is
    lower-cased and kept when it is one of the five methods. Only ASCII
    letters lower-case into those words, so ASCII folding decides exactly as
    `toLowerCase` does.
   */
  function MethodOf(key: string): (r: Option<string>)
    ensures r.Some? ==> IsApiMethod(r.value) && r.value == AsciiLower(key)
    ensures r.None? <==> key == "default" || !IsApiMethod(AsciiLower(key))
  {
    if key == "default" then None
    else if IsApiMethod(AsciiLower(key)) then Some(AsciiLower(key))
    else None
  }

  /** An Operation Object: the fixed responses, and a non-required generic body when `hasBody`. */
  datatype Operation = Operation(hasBody: bool)

  predicate HasMethod(ops: seq<(string, Operation)>, m: string) {
    exists i :: 0 <= i < |ops| && ops[i].0 == m
  }

  /** Every operation has a request body exactly when its method is not `get`, and no method appears twice. */
  predicate WellFormedOps(ops: seq<(string, Operation)>) {
    && (forall i :: 0 <= i < |ops| ==> IsApiMethod(ops[i].0) && (ops[i].1.hasBody <==> ops[i].0 != "get"))
    && (forall i, j :: 0 <= i < j < |ops| ==> ops[i].0 != ops[j].0)
  }

  /** `pathData[method] = {...}`: an existing method keeps its place, a new one goes last. */
  function SetOperation(ops: seq<(string, Operation)>, m: string): (r: seq<(string, Operation)>)
    requires IsApiMethod(m)
    requires WellFormedOps(ops)
    ensures WellFormedOps(r)
    ensures forall x :: HasMethod(r, x) <==> HasMethod(ops, x) || x == m
  {
    if HasMethod(ops, m) then
      var r := seq(|ops|, i requires 0 <= i < |ops| => if ops[i].0 == m then (m, Operation(m != "get")) else ops[i]);
      assert forall i :: 0 <= i < |ops| ==> r[i].0 == ops[i].0;
      assert forall x :: HasMethod(r, x) <==> HasMethod(ops, x) by {
        forall x ensures HasMethod(r, x) <==> HasMethod(ops, x) {
          if HasMethod(r, x) {
            var i :| 0 <= i < |r| && r[i].0 == x;
            assert ops[i].0 == x;
          }
          if HasMethod(ops, x) {
            var i :| 0 <= i < |ops| && ops[i].0 == x;
            assert r[i].0 == x;
          }
        }
      }
      r
    else
      var r := ops + [(m, Operation(m != "get"))];
      assert r[|ops|].0 == m;
      assert forall x :: HasMethod(ops, x) ==> HasMethod(r, x) by {
        forall x | HasMethod(ops, x) ensures HasMethod(r, x) {
          var i :| 0 <= i < |ops| && ops[i].0 == x;
          assert r[i] == ops[i];
        }
      }
      r
  }

  /** The `for (const key of keys)` loop. */
  function AddOperations(ops: seq<(string, Operation)>, keys: seq<string>): (r: seq<(string, Operation)>)
    requires WellFormedOps(ops)
    ensures WellFormedOps(r)
    ensures forall x :: HasMethod(r, x) <==> HasMethod(ops, x) || exists k :: k in keys && MethodOf(k) == Some(x)
    decreases |keys|
  {
    if |keys| == 0 then ops
    else
      var next := match MethodOf(keys[0]) case Some(m) => SetOperation(ops, m) case None => ops;
      var r := AddOperations(next, keys[1..]);
      assert forall k :: k in keys <==> k == keys[0] || k in keys[1..];
      r
  }

  // ---------------------------------------------------------------------------
  // The Paths Object
  // ---------------------------------------------------------------------------

  datatype PathItem = PathItem(parameters: seq<Parameter>, operations: seq<(string, Operation)>)

  /** A route descriptor: the route file, the cleaned route as segments, and its vars. */
  datatype RouteDescriptor = RouteDescriptor(pathname: string, segments: seq<Segment>, vars: seq<string>)

  /** The Paths Object, its keys in insertion order. */
  type Paths = seq<(string, PathItem)>

  function Lookup(ps: Paths, key: string): (r: Option<PathItem>)
    ensures r.Some? <==> exists i :: 0 <= i < |ps| && ps[i].0 == key
    ensures WellFormedPaths(ps) && r.Some? ==> WellFormedOps(r.value.operations)
    decreases |ps|
  {
    if |ps| == 0 then None
    else if ps[0].0 == key then Some(ps[0].1)
    else
      assert forall i :: 1 <= i < |ps| ==> ps[i] == ps[1..][i - 1];
      Lookup(ps[1..], key)
  }

  /** Keys are unique and every Path Item's operations are well formed. */
  predicate WellFormedPaths(ps: Paths)
    decreases |ps|
  {
    |ps| == 0 || (WellFormedOps(ps[0].1.operations) && (forall j :: 1 <= j < |ps| ==> ps[j].0 != ps[0].0) && WellFormedPaths(ps[1..]))
  }

  /** `acc[key] = item`: an existing key keeps its place, a new one goes last. */
  function AssignPath(ps: Paths, key: string, item: PathItem): (r: Paths)
    ensures forall k :: Lookup(r, k) == if k == key then Some(item) else Lookup(ps, k)
    ensures WellFormedPaths(ps) && WellFormedOps(item.operations) ==> WellFormedPaths(r)
    decreases |ps|
  {
    if |ps| == 0 then [(key, item)]
    else if ps[0].0 == key then [(key, item)] + ps[1..]
    else
      var rest := AssignPath(ps[1..], key, item);
      assert ([ps[0]] + rest)[1..] == rest;
      assert Lookup(rest, ps[0].0) == Lookup(ps[1..], ps[0].0);
      assert WellFormedPaths(ps) ==> Lookup(ps[1..], ps[0].0).None?;
      [ps[0]] + rest
  }

  /** One step of the `reduce`: the route's parameters go before those already under its key, and its operations are added. */
  function AddRoute(ps: Paths, d: RouteDescriptor, keys: seq<string>): (r: Paths)
    requires WellFormedPaths(ps)
    ensures WellFormedPaths(r)
  {
    var key := ApiKey(d.segments);
    var item := match Lookup(ps, key) case Some(x) => x case None => PathItem([], []);
    var params := RouteParameters(d.vars, IsCatchAllText(RouteText(d.segments)));
    AssignPath(ps, key, PathItem(params + item.parameters, AddOperations(item.operations, keys)))
  }

  /**
    After a route is added, its key holds the route's parameters followed by
    the parameters already there, and the operations already there plus one
    per export key that names a method; every other key is unchanged.
   */
  lemma AddRouteSpec(ps: Paths, d: RouteDescriptor, keys: seq<string>, k: string, m: string)
    requires WellFormedPaths(ps)
    ensures var r := AddRoute(ps, d, keys);
      var key := ApiKey(d.segments);
      var before := match Lookup(ps, key) case Some(x) => x case None => PathItem([], []);
      && Lookup(r, key).Some?
      && Lookup(r, key).value.parameters == RouteParameters(d.vars, IsCatchAllText(RouteText(d.segments))) + before.parameters
      && (HasMethod(Lookup(r, key).value.operations, m) <==> HasMethod(before.operations, m) || exists x :: x in keys && MethodOf(x) == Some(m))
      && (k != key ==> Lookup(r, k) == Lookup(ps, k))
  {
  }

  /** Two routes that differ only in a final `[...name]` against `[name]` share one Path Item, the later route's parameters first. */
  lemma SharedKeyMerges(ps: Paths, d1: RouteDescriptor, d2: RouteDescriptor, keys1: seq<string>, keys2: seq<string>)
    requires WellFormedPaths(ps)
    requires Lookup(ps, ApiKey(d1.segments)).None?
    requires d2.segments == Erase(d1.segments)
    ensures var r := AddRoute(AddRoute(ps, d1, keys1), d2, keys2);
      && Lookup(r, ApiKey(d1.segments)).Some?
      && Lookup(r, ApiKey(d1.segments)).value.parameters
         == RouteParameters(d2.vars, IsCatchAllText(RouteText(d2.segments))) + RouteParameters(d1.vars, IsCatchAllText(RouteText(d1.segments)))
  {
    ApiKeyIgnoresCatchAll(d1.segments);
  }

  /** The `reduce` over the route descriptors; `exportsOf` lists a route module's export keys, empty when the import fails. */
  function BuildPaths(routes: seq<RouteDescriptor>, exportsOf: string -> seq<string>): (r: Paths)
    ensures WellFormedPaths(r)
    decreases |routes|
  {
    if |routes| == 0 then []
    else
      var init := routes[..|routes| - 1];
      var d := routes[|routes| - 1];
      AddRoute(BuildPaths(init, exportsOf), d, exportsOf(d.pathname))
  }

  /** Every route has a Path Item under its key, and every Path Item comes from some route. */
  lemma {:induction false} BuildPathsKeys(routes: seq<RouteDescriptor>, exportsOf: string -> seq<string>, key: string)
    ensures Lookup(BuildPaths(routes, exportsOf), key).Some? <==> exists i :: 0 <= i < |routes| && ApiKey(routes[i].segments) == key
    decreases |routes|
  {
    if |routes| > 0 {
      var init := routes[..|routes| - 1];
      var d := routes[|routes| - 1];
      BuildPathsKeys(init, exportsOf, key);
      AddRouteSpec(BuildPaths(init, exportsOf), d, exportsOf(d.pathname), key, "get");
      if exists i :: 0 <= i < |routes| && ApiKey(routes[i].segments) == key {
        var i :| 0 <= i < |routes| && ApiKey(routes[i].segments) == key;
        if i < |routes| - 1 {
          assert init[i] == routes[i];
        }
      }
      if exists i :: 0 <= i < |init| && ApiKey(init[i].segments) == key {
        var i :| 0 <= i < |init| && ApiKey(init[i].segments) == key;
        assert routes[i] == init[i];
      }
    }
  }

  /** Every operation in the document has a request body exactly when its method is not `get`, and no method appears twice under a key. */
  lemma RequestBodyUnlessGet(routes: seq<RouteDescriptor>, exportsOf: string -> seq<string>, key: string, i: nat, j: nat)
    requires Lookup(BuildPaths(routes, exportsOf), key).Some?
    requires i < j < |Lookup(BuildPaths(routes, exportsOf), key).value.operations|
    ensures var ops := Lookup(BuildPaths(routes, exportsOf), key).value.operations;
      && IsApiMethod(ops[i].0) && (ops[i].1.hasBody <==> ops[i].0 != "get")
      && ops[i].0 != ops[j].0
  {
  }

  // ---------------------------------------------------------------------------
  // The document as JSON
  // ---------------------------------------------------------------------------

  function ParameterJson(p: Parameter): JsonValue {
    JObject([
      ("name", JString(p.name)),
      ("in", JString("path")),
      ("required", JBool(p.required)),
      ("schema", JObject([("type", JString("string"))]))])
  }

  function SchemaRef(name: string): JsonValue {
    JObject([("schema", JObject([("$ref", JString("#/components/schemas/" + name))]))])
  }

  function OperationJson(op: Operation): JsonValue {
    var responses := JObject([
      ("200", JObject([("description", JString("Success response")), ("content", JObject([("*/*", JObject([]))]))])),
      ("default", JObject([("description", JString("Error payload")), ("content", JObject([("application/json", SchemaRef("GeneralError"))]))]))]);
    var body := JObject([
      ("required", JBool(false)),
      ("description", JString("Request generic body")),
      ("content", JObject([("application/json", SchemaRef("GenericRecord"))]))]);
    JObject([("responses", responses)] + (if op.hasBody then [("requestBody", body)] else []))
  }

  function PathItemJson(item: PathItem): JsonValue {
    JObject([("parameters", JArray(seq(|item.parameters|, i requires 0 <= i < |item.parameters| => ParameterJson(item.parameters[i]))))]
      + seq(|item.operations|, i requires 0 <= i < |item.operations| => (item.operations[i].0, OperationJson(item.operations[i].1))))
  }

  /** The two shared schemas of `components`. */
  const Components: JsonValue := JObject([("schemas", JObject([
    ("GeneralError", JObject([
      ("required", JArray([JString("message")])),
      ("type", JString("object")),
      ("description", JString("A general error object")),
      ("properties", JObject([("message", JObject([("type", JString("string")), ("description", JString("The error message"))]))])),
      ("additionalProperties", JBool(true))])),
    ("GenericRecord", JObject([
      ("type", JString("object")),
      ("description", JString("A generic record with any properties")),
      ("additionalProperties", JBool(true))]))]))])

  /** The document; `info` and `servers` come from the configuration and `package.json`, which the model takes as given. */
  function DocumentJson(info: JsonValue, servers: Option<JsonValue>, ps: Paths): JsonValue {
    JObject([("openapi", JString("3.1.0")), ("info", info)]
      + (if servers.Some? then [("servers", JArray([servers.value]))] else [])
      + [("components", Components),
         ("paths", JObject(seq(|ps|, i requires 0 <= i < |ps| => (ps[i].0, PathItemJson(ps[i].1)))))])
  }

  /** `v` is an object with a field called `name`. */
  predicate HasField(v: JsonValue, name: string) {
    v.JObject? && exists i :: 0 <= i < |v.fields| && v.fields[i].0 == name
  }

  /** An operation object carries a `requestBody` exactly when the operation takes a body; its responses always come first. */
  lemma OperationJsonBody(op: Operation)
    ensures OperationJson(op).fields[0].0 == "responses"
    ensures HasField(OperationJson(op), "requestBody") <==> op.hasBody
  {
    var j := OperationJson(op);
    if op.hasBody {
      assert j.fields[1].0 == "requestBody";
    } else {
      assert |j.fields| == 1;
    }
  }

  /**
    A Path Item object lists its parameters first, in order, with their names
    and whether they are required, and then one field per operation, named by
    its method, holding a `requestBody` exactly when the method is not `get`.
   */
  lemma PathItemJsonShape(item: PathItem)
    requires WellFormedOps(item.operations)
    ensures var j := PathItemJson(item);
      && |j.fields| == 1 + |item.operations|
      && j.fields[0].0 == "parameters" && |j.fields[0].1.items| == |item.parameters|
      && (forall i :: 0 <= i < |item.parameters| ==>
            && j.fields[0].1.items[i].fields[0] == ("name", JString(item.parameters[i].name))
            && j.fields[0].1.items[i].fields[2] == ("required", JBool(item.parameters[i].required)))
      && (forall i :: 1 <= i < |j.fields| ==>
            && j.fields[i].0 == item.operations[i - 1].0
            && (HasField(j.fields[i].1, "requestBody") <==> j.fields[i].0 != "get"))
  {
    var j := PathItemJson(item);
    forall i | 1 <= i < |j.fields|
      ensures j.fields[i].0 == item.operations[i - 1].0
      ensures HasField(j.fields[i].1, "requestBody") <==> j.fields[i].0 != "get"
    {
      assert j.fields[i] == (item.operations[i - 1].0, OperationJson(item.operations[i - 1].1));
      OperationJsonBody(item.operations[i - 1].1);
    }
  }

  /** The document declares OpenAPI 3.1.0 and lists one Path Item per key, in the order the keys were first met. */
  lemma DocumentPaths(info: JsonValue, servers: Option<JsonValue>, ps: Paths)
    ensures var d := DocumentJson(info, servers, ps);
      && d.fields[0] == ("openapi", JString("3.1.0"))
      && (servers.Some? <==> HasField(d, "servers"))
      && d.fields[|d.fields| - 1].0 == "paths"
      && |d.fields[|d.fields| - 1].1.fields| == |ps|
      && (forall i :: 0 <= i < |ps| ==> d.fields[|d.fields| - 1].1.fields[i] == (ps[i].0, PathItemJson(ps[i].1)))
  {
    var d := DocumentJson(info, servers, ps);
    if servers.Some? {
      assert d.fields[2].0 == "servers";
    } else {
      assert |d.fields| == 4;
      assert d.fields[0].0 == "openapi" && d.fields[1].0 == "info" && d.fields[2].0 == "components" && d.fields[3].0 == "paths";
    }
  }

  // ---------------------------------------------------------------------------
  // `/__api` dispatch
  // ---------------------------------------------------------------------------

  /** `/^\/__api\/api\.json\/?$/`. */
  predicate IsDocumentPath(path: string) {
    path == "/__api/api.json" || path == "/__api/api.json/"
  }

  /** `/^\/__api(?:\/index\.html)?\/?$/`. */
  predicate IsPagePath(path: string) {
    path == "/__api" || path == "/__api/" || path == "/__api/index.html" || path == "/__api/index.html/"
  }

  /** The response for a request path; `page` is the Swagger UI page text. */
  function ApiResponse(path: string, document: JsonValue, page: string): Response {
    if IsDocumentPath(path) then Response(Some(200), [], [], [], Json(document))
    else if IsPagePath(path) then Response(Some(200), [("Content-Type", HText("text/html"))], [], [], Text(page))
    else Response(Some(404), [], [], [], Json(JsonMessage("Not found")))
  }

  /**
    Exactly one of three answers: the document for `/__api/api.json` with an
    optional trailing slash, the HTML page for `/__api`, `/__api/` and
    `/__api/index.html` (slash optional), and a 404 `Not found` otherwise.
   */
  lemma ApiDispatch(path: string, document: JsonValue, page: string)
    ensures !(IsDocumentPath(path) && IsPagePath(path))
    ensures var r := ApiResponse(path, document, page);
      && (r.body == Json(document) && r.status == Some(200) <==> IsDocumentPath(path))
      && (r.body == Text(page) <==> IsPagePath(path))
      && (r.status == Some(404) <==> !IsDocumentPath(path) && !IsPagePath(path))
      && (r.status == Some(404) ==> r.body == Json(JsonMessage("Not found")))
  {
  }
}

=== FILE: parser.dfy ===
/**
  Configuration value parsers (`src/utils/parser.ts`): byte-size strings such
  as `10mb`, and the auto-typing of environment strings into booleans and
  numbers. The size grammar and the boolean keywords are shared with the
  older copies in `src/utils/app-tools.ts`, which differ only in the units
  they accept.
 */
module Parser {
  import opened Wrappers
  import opened Strings

  // ---------------------------------------------------------------------------
  // Byte sizes
  // ---------------------------------------------------------------------------

  /** A size setting as the configuration holds it: a string, a number, or `undefined`. */
  datatype SizeSetting = SizeText(text: string) | SizeNumber(number: int) | SizeUndefined

  /** The unit letters `parseStringBytesToNumber` accepts here: `[kmgt]`. */
  const SizeLetters: string := "kmgt"

  /** Length of the leading run of ASCII digits. */
  function DigitRun(s: string): (k: nat)
    ensures k <= |s|
    ensures forall i :: 0 <= i < k ==> IsAsciiDigit(s[i])
    ensures k < |s| ==> !IsAsciiDigit(s[k])
    decreases |s|
  {
    if |s| > 0 && IsAsciiDigit(s[0]) then 1 + DigitRun(s[1..]) else 0
  }

  /** A unit spelled `[letters]b?`, in any letter case. */
  predicate IsUnit(u: string, letters: string) {
    var l := AsciiLower(u);
    && (|l| == 1 || (|l| == 2 && l[1] == 'b'))
    && l[0] in letters
  }

  /**
    `s.match(/^(\d+)([letters]b?)$/i)`: the digits and the unit, or `None`
    when the string does not match. Digits and unit letters never overlap,
    so the digits are the whole leading digit run.
   */
  function SizeParts(s: string, letters: string): (r: Option<(string, string)>)
    requires forall i :: 0 <= i < |letters| ==> IsAsciiLower(letters[i])
    ensures r.Some? ==> s == r.value.0 + r.value.1 && |r.value.0| >= 1 && AllDigits(r.value.0) && IsUnit(r.value.1, letters)
  {
    var k := DigitRun(s);
    if k >= 1 && IsUnit(s[k..], letters) then
      assert s == s[..k] + s[k..];
      Some((s[..k], s[k..]))
    else None
  }

  /** The factor a lower-cased unit stands for: `kb`, `mb`, `gb`, `tb` are powers of 1024; a bare letter is 1. */
  function Scale(unit: string): (r: nat)
    ensures r >= 1
  {
    if unit == "tb" then 1024 * 1024 * 1024 * 1024
    else if unit == "gb" then 1024 * 1024 * 1024
    else if unit == "mb" then 1024 * 1024
    else if unit == "kb" then 1024
    else 1
  }

  /** The number a size string stands for, `0` when it does not match the size grammar. */
  function BytesOfText(s: string, letters: string): nat
    requires forall i :: 0 <= i < |letters| ==> IsAsciiLower(letters[i])
  {
    match SizeParts(s, letters)
    case None => 0
    case Some((digits, unit)) => DecimalValue(digits) * Scale(AsciiLower(unit))
  }

  /** `parseStringBytesToNumber(bytes)`: a string is parsed, anything else is returned as it is (`None` is `undefined`). */
  function ParseStringBytesToNumber(bytes: SizeSetting): (r: Option<int>)
    ensures bytes.SizeNumber? ==> r == Some(bytes.number)
    ensures bytes.SizeUndefined? ==> r == None
    ensures bytes.SizeText? ==> r.Some? && r.value >= 0
  {
    match bytes
    case SizeText(s) => Some(BytesOfText(s, SizeLetters))
    case SizeNumber(n) => Some(n)
    case SizeUndefined => None
  }

  /** Exactly the strings made of one or more digits followed by a unit match the size grammar. */
  lemma SizePartsIff(s: string, letters: string)
    requires forall i :: 0 <= i < |letters| ==> IsAsciiLower(letters[i])
    ensures SizeParts(s, letters).Some? <==>
      exists n :: 1 <= n <= |s| && AllDigits(s[..n]) && IsUnit(s[n..], letters)
  {
    var k := DigitRun(s);
    if SizeParts(s, letters).Some? {
      assert AllDigits(s[..k]);
      assert 1 <= k <= |s| && AllDigits(s[..k]) && IsUnit(s[k..], letters);
    }
    if exists n :: 1 <= n <= |s| && AllDigits(s[..n]) && IsUnit(s[n..], letters) {
      var n :| 1 <= n <= |s| && AllDigits(s[..n]) && IsUnit(s[n..], letters);
      UnitNotDigit(s[n..], letters);
      assert s[n..][0] == s[n];
      DigitRunIs(s, n);
    }
  }

  lemma UnitNotDigit(u: string, letters: string)
    requires forall i :: 0 <= i < |letters| ==> IsAsciiLower(letters[i])
    requires IsUnit(u, letters)
    ensures |u| > 0 && !IsAsciiDigit(u[0])
  {
    assert AsciiLower(u)[0] in letters;
  }

  lemma {:induction false} DigitRunIs(s: string, n: nat)
    requires n < |s| && AllDigits(s[..n]) && !IsAsciiDigit(s[n])
    ensures DigitRun(s) == n
    decreases n
  {
    if n > 0 {
      assert s[..n][0] == s[0];
      assert s[1..][..n - 1] == s[..n][1..];
      DigitRunIs(s[1..], n - 1);
    }
  }

  /** Writing a number followed by a unit and parsing it back gives the number times the unit's factor. */
  lemma SizeRoundTrip(n: nat, unit: string, letters: string)
    requires forall i :: 0 <= i < |letters| ==> IsAsciiLower(letters[i])
    requires IsUnit(unit, letters)
    ensures BytesOfText(NatToDecimal(n) + unit, letters) == n * Scale(AsciiLower(unit))
  {
    var d := NatToDecimal(n);
    var s := d + unit;
    assert s[..|d|] == d && s[|d|..] == unit;
    UnitNotDigit(unit, letters);
    DigitRunOf(d, unit);
    DecimalRoundTrip(n);
  }

  lemma {:induction false} DigitRunOf(d: string, unit: string)
    requires AllDigits(d)
    requires |unit| > 0 && !IsAsciiDigit(unit[0])
    ensures DigitRun(d + unit) == |d|
    decreases |d|
  {
    if |d| > 0 {
      assert (d + unit)[1..] == d[1..] + unit;
      DigitRunOf(d[1..], unit);
    } else {
      assert d + unit == unit;
    }
  }

  /** `100` and other bare digit strings have no unit and count as 0. */
  lemma BareDigitsAreZero(s: string, letters: string)
    requires forall i :: 0 <= i < |letters| ==> IsAsciiLower(letters[i])
    requires AllDigits(s)
    ensures BytesOfText(s, letters) == 0
  {
    assert DigitRun(s) == |s| by {
      DigitRunAll(s);
    }
  }

  lemma {:induction false} DigitRunAll(s: string)
    requires AllDigits(s)
    ensures DigitRun(s) == |s|
    decreases |s|
  {
    if |s| > 0 {
      DigitRunAll(s[1..]);
    }
  }

  /** A unit of one letter and an optional `b`, in lower case, scales by its factor. */
  lemma UnitScale(n: nat, unit: string, factor: nat)
    requires |unit| >= 1 && unit[0] in SizeLetters && (|unit| == 1 || (|unit| == 2 && unit[1] == 'b'))
    requires Scale(unit) == factor
    ensures BytesOfText(NatToDecimal(n) + unit, SizeLetters) == n * factor
  {
    assert forall i :: 0 <= i < |unit| ==> IsAsciiLower(unit[i]);
    assert AsciiLower(unit) == unit;
    SizeRoundTrip(n, unit, SizeLetters);
  }

  /** The four binary units scale by 1024 to the first to fourth power; letter case does not matter. */
  lemma SizeUnitsScale(n: nat)
    ensures BytesOfText(NatToDecimal(n) + "kb", SizeLetters) == n * 1024
    ensures BytesOfText(NatToDecimal(n) + "mb", SizeLetters) == n * (1024 * 1024)
    ensures BytesOfText(NatToDecimal(n) + "gb", SizeLetters) == n * (1024 * 1024 * 1024)
    ensures BytesOfText(NatToDecimal(n) + "tb", SizeLetters) == n * (1024 * 1024 * 1024 * 1024)
    ensures BytesOfText(NatToDecimal(n) + "m", SizeLetters) == n
  {
    UnitScale(n, "kb", 1024);
    UnitScale(n, "mb", 1024 * 1024);
    UnitScale(n, "gb", 1024 * 1024 * 1024);
    UnitScale(n, "tb", 1024 * 1024 * 1024 * 1024);
    UnitScale(n, "m", 1);
  }

  /** Upper-case units read as their lower-case spelling. */
  lemma SizeUnitsIgnoreCase(n: nat, unit: string)
    requires IsUnit(unit, SizeLetters)
    ensures BytesOfText(NatToDecimal(n) + unit, SizeLetters) == BytesOfText(NatToDecimal(n) + AsciiLower(unit), SizeLetters)
  {
    var l := AsciiLower(unit);
    assert AsciiLower(l) == l;
    assert IsUnit(l, SizeLetters);
    SizeRoundTrip(n, unit, SizeLetters);
    SizeRoundTrip(n, l, SizeLetters);
  }

  // ---------------------------------------------------------------------------
  // Auto-detected values
  // ---------------------------------------------------------------------------

  /** `/^(no|n|false|f|off)$/i`. */
  predicate IsFalseWord(s: string) {
    AsciiLower(s) in {"no", "n", "false", "f", "off"}
  }

  /** `/^(yes|y|true|t|on)$/i`. */
  predicate IsTrueWord(s: string) {
    AsciiLower(s) in {"yes", "y", "true", "t", "on"}
  }

  lemma WordsDisjoint(s: string)
    ensures !(IsFalseWord(s) && IsTrueWord(s))
  {
  }

  /** What `parseStringToAutoDetectValue` returns. */
  datatype AutoValue = AUndefined | ABool(flag: bool) | ANumber(number: int) | AText(text: string)

  /** `parseStringToAutoDetectValue(val)`: `undefined` for a missing value, then the keywords, then numbers, else the string itself. */
  function ParseStringToAutoDetectValue(val: Option<string>): (r: AutoValue)
    ensures val.None? <==> r.AUndefined?
    ensures r.AText? ==> r.text == val.value
  {
    match val
    case None => AUndefined
    case Some(s) =>
      if IsFalseWord(s) then ABool(false)
      else if IsTrueWord(s) then ABool(true)
      else match NumericValue(s)
        case Some(n) => ANumber(n)
        case None => AText(s)
  }

  /** The keywords, in any letter case, decide the boolean. */
  lemma AutoDetectKeywords(s: string)
    ensures IsFalseWord(s) <==> ParseStringToAutoDetectValue(Some(s)) == ABool(false)
    ensures IsTrueWord(s) <==> ParseStringToAutoDetectValue(Some(s)) == ABool(true)
  {
  }

  /** A number written in decimal reads back as that number. */
  lemma AutoDetectNumber(n: nat)
    ensures ParseStringToAutoDetectValue(Some(NatToDecimal(n))) == ANumber(n)
  {
    DecimalRoundTrip(n);
    var s := NatToDecimal(n);
    assert !IsFalseWord(s) && !IsTrueWord(s) by {
      assert AllDigits(AsciiLower(s));
      assert !IsAsciiDigit('n') && !IsAsciiDigit('y') && !IsAsciiDigit('f') && !IsAsciiDigit('t') && !IsAsciiDigit('o');
    }
  }

  /** A string that is neither a keyword nor a number comes back unchanged. */
  lemma AutoDetectKeepsText(s: string)
    ensures ParseStringToAutoDetectValue(Some(s)) == AText(s) <==> !IsFalseWord(s) && !IsTrueWord(s) && NumericValue(s).None?
  {
  }
}

=== FILE: path.dfy ===
/**
  Path-string helpers of `src/utils/path.ts` (`normalizePath`, `escapePath`,
  `clearExtension`) and the POSIX `dirname` the routers call on their
  results. `join` touches the platform's path module and is left as a
  parameter wherever it is used.
 */
module Paths {
  import opened Wrappers
  import opened Strings

  predicate IsSeparator(c: char) {
    c == '/' || c == '\\'
  }

  predicate NoDoubleSlash(s: string) {
    forall i :: 0 <= i < |s| - 1 ==> !(s[i] == '/' && s[i + 1] == '/')
  }

  /** The shape `normalizePath` produces: forward slashes only, never two in a row, none in front. */
  predicate Canonical(s: string) {
    '\\' !in s && NoDoubleSlash(s) && (|s| > 0 ==> s[0] != '/')
  }

  /** The text with every separator removed: what normalisation must keep. */
  function Unseparated(s: string): string
    decreases |s|
  {
    if |s| == 0 then "" else if IsSeparator(s[0]) then Unseparated(s[1..]) else [s[0]] + Unseparated(s[1..])
  }

  /** Drops the leading run of separators. */
  function SkipSeparators(s: string): (r: string)
    ensures |r| <= |s| && r == s[|s| - |r|..]
    ensures |s| > 0 && IsSeparator(s[0]) ==> |r| < |s|
    ensures |r| > 0 ==> !IsSeparator(r[0])
    ensures forall i :: 0 <= i < |s| - |r| ==> IsSeparator(s[i])
    decreases |s|
  {
    if |s| > 0 && IsSeparator(s[0]) then
      var r := SkipSeparators(s[1..]);
      assert s[1..][|s| - 1 - |r|..] == s[|s| - |r|..];
      assert forall i :: 1 <= i < |s| - |r| ==> s[i] == s[1..][i - 1];
      r
    else s
  }

  /** `s.replace(/[\\\/]+/g, '/')`: every run of separators becomes one `/`. */
  function CollapseSeparators(s: string): (r: string)
    ensures '\\' !in r
    ensures NoDoubleSlash(r)
    ensures |s| == 0 <==> |r| == 0
    ensures |s| > 0 ==> (r[0] == '/' <==> IsSeparator(s[0]))
    decreases |s|
  {
    if |s| == 0 then ""
    else if IsSeparator(s[0]) then "/" + CollapseSeparators(SkipSeparators(s))
    else [s[0]] + CollapseSeparators(s[1..])
  }

  /** `normalizePath`: collapse separator runs to `/`, then drop the leading separator. */
  function NormalizePath(path: string): (r: string)
    ensures Canonical(r)
  {
    var c := CollapseSeparators(path);
    if |c| > 0 && c[0] == '/' then c[1..] else c
  }

  lemma {:induction false} CollapseIdentity(s: string)
    requires '\\' !in s && NoDoubleSlash(s)
    ensures CollapseSeparators(s) == s
    decreases |s|
  {
    if |s| > 0 {
      assert '\\' !in s[1..] && NoDoubleSlash(s[1..]) by {
        forall i | 0 <= i < |s[1..]| - 1
          ensures !(s[1..][i] == '/' && s[1..][i + 1] == '/')
        {
          assert s[1..][i] == s[i + 1] && s[1..][i + 1] == s[i + 2];
        }
      }
      if s[0] == '/' {
        assert |s| > 1 ==> s[1] != '/' && s[1] != '\\';
        assert SkipSeparators(s) == s[1..];
      }
      CollapseIdentity(s[1..]);
    }
  }

  /** A string is its own normalisation exactly when it already has the canonical shape. */
  lemma NormalizeFixpoint(s: string)
    ensures NormalizePath(s) == s <==> Canonical(s)
  {
    if Canonical(s) {
      CollapseIdentity(s);
    }
  }

  /** Normalising twice is normalising once. */
  lemma NormalizeIdempotent(s: string)
    ensures NormalizePath(NormalizePath(s)) == NormalizePath(s)
  {
    NormalizeFixpoint(NormalizePath(s));
  }

  /** Text without separators is left alone. */
  lemma NormalizeNoSeparators(s: string)
    requires forall i :: 0 <= i < |s| ==> !IsSeparator(s[i])
    ensures NormalizePath(s) == s
  {
    NormalizeFixpoint(s);
  }

  lemma {:induction false} UnseparatedSkip(s: string)
    ensures Unseparated(SkipSeparators(s)) == Unseparated(s)
    decreases |s|
  {
    if |s| > 0 && IsSeparator(s[0]) {
      UnseparatedSkip(s[1..]);
    }
  }

  lemma {:induction false} UnseparatedCollapse(s: string)
    ensures Unseparated(CollapseSeparators(s)) == Unseparated(s)
    decreases |s|
  {
    if |s| > 0 {
      if IsSeparator(s[0]) {
        var t := SkipSeparators(s);
        UnseparatedCollapse(t);
        UnseparatedSkip(s);
        assert ("/" + CollapseSeparators(t))[1..] == CollapseSeparators(t);
      } else {
        UnseparatedCollapse(s[1..]);
        assert ([s[0]] + CollapseSeparators(s[1..]))[1..] == CollapseSeparators(s[1..]);
      }
    }
  }

  /** Normalisation changes separators only: every other character survives, in order. */
  lemma NormalizeKeepsText(s: string)
    ensures Unseparated(NormalizePath(s)) == Unseparated(s)
  {
    UnseparatedCollapse(s);
    var c := CollapseSeparators(s);
    if |c| > 0 && c[0] == '/' {
      assert Unseparated(c) == Unseparated(c[1..]);
    }
  }

  lemma {:induction false} CollapseTrailing(s: string)
    requires |s| > 0
    ensures CollapseSeparators(s)[|CollapseSeparators(s)| - 1] == '/' <==> IsSeparator(s[|s| - 1])
    decreases |s|
  {
    var r := CollapseSeparators(s);
    if IsSeparator(s[0]) {
      var t := SkipSeparators(s);
      if |t| > 0 {
        CollapseTrailing(t);
        assert t[|t| - 1] == s[|s| - 1];
      } else {
        assert IsSeparator(s[|s| - 1]);
      }
    } else if |s| > 1 {
      CollapseTrailing(s[1..]);
    }
  }

  lemma {:induction false} UnseparatedEmpty(s: string)
    ensures Unseparated(s) == "" <==> forall i :: 0 <= i < |s| ==> IsSeparator(s[i])
    decreases |s|
  {
    if |s| > 0 {
      UnseparatedEmpty(s[1..]);
      assert forall i :: 1 <= i < |s| ==> s[i] == s[1..][i - 1];
    }
  }

  /**
    A trailing separator survives normalisation, collapsed to one `/`, unless
    the path held nothing but separators.
   */
  lemma NormalizeTrailing(s: string)
    requires |s| > 0
    ensures var r := NormalizePath(s);
      |r| > 0 && r[|r| - 1] == '/' <==> IsSeparator(s[|s| - 1]) && Unseparated(s) != ""
  {
    var c := CollapseSeparators(s);
    var r := NormalizePath(s);
    CollapseTrailing(s);
    NormalizeKeepsText(s);
    UnseparatedEmpty(s);
    UnseparatedEmpty(r);
    if |c| > 0 && c[0] == '/' && |c| == 1 {
      assert r == "";
    }
  }

  /** `escapePath`: remove the first occurrence of the normalised escape from the normalised path, then one leading `/`. */
  function EscapePath(path: string, escape: string): (r: string)
    ensures |r| > 0 ==> r[0] != '/'
  {
    var n := NormalizePath(path);
    var e := NormalizePath(escape);
    var replaced := ReplaceFirst(n, e, "");
    EscapeSlashLemma(n, e);
    if |replaced| > 0 && replaced[0] == '/' then replaced[1..] else replaced
  }

  lemma EscapeSlashLemma(n: string, e: string)
    requires Canonical(n)
    ensures var replaced := ReplaceFirst(n, e, "");
      |replaced| > 1 && replaced[0] == '/' ==> replaced[1] != '/'
  {
    match FindFirst(n, e)
    case None =>
    case Some(i) =>
      var replaced := n[..i] + "" + n[i + |e|..];
      if i > 0 {
        assert replaced[0] == n[0];
      } else if |replaced| > 1 {
        assert replaced[0] == n[|e|] && replaced[1] == n[|e| + 1];
      }
  }

  /** When the escape is a prefix of the path, escaping leaves the remainder, without its leading `/`. */
  lemma EscapePathPrefix(path: string, escape: string)
    requires StartsWith(NormalizePath(path), NormalizePath(escape))
    ensures var rest := NormalizePath(path)[|NormalizePath(escape)|..];
      EscapePath(path, escape) == if |rest| > 0 && rest[0] == '/' then rest[1..] else rest
  {
    var n := NormalizePath(path);
    var e := NormalizePath(escape);
    assert OccursAt(n, e, 0);
    assert FindFirst(n, e) == Some(0);
    assert ReplaceFirst(n, e, "") == n[|e|..];
  }

  function LastIndexOfChar(s: string, c: char): (r: Option<nat>)
    ensures r.Some? ==> r.value < |s| && s[r.value] == c && c !in s[r.value + 1..]
    ensures r.None? ==> c !in s
    decreases |s|
  {
    if |s| == 0 then None
    else if s[|s| - 1] == c then Some(|s| - 1)
    else match LastIndexOfChar(s[..|s| - 1], c)
      case None => None
      case Some(i) => (assert s[i + 1..] == s[..|s| - 1][i + 1..] + [s[|s| - 1]]; Some(i))
  }

  /** `/\.[a-z0-9]+$/i` matches at position `i`. */
  predicate ExtensionAt(s: string, i: nat) {
    && i + 1 < |s|
    && s[i] == '.'
    && forall j :: i < j < |s| ==> IsAsciiAlphanumeric(s[j])
  }

  /** Only the last `.` of a string can start an extension. */
  lemma ExtensionAtLastDot(n: string, i: nat, k: nat)
    requires i < |n| && n[i] == '.' && '.' !in n[i + 1..]
    requires k < |n| && ExtensionAt(n, k)
    ensures k == i
  {
  }

  /** `clearExtension`: normalise, then strip a final `.` followed by ASCII letters and digits. */
  function ClearExtension(path: string): (r: string)
    ensures var n := NormalizePath(path);
      && StartsWith(n, r)
      && (r == n <==> forall i :: 0 <= i < |n| ==> !ExtensionAt(n, i))
      && (r != n ==> ExtensionAt(n, |r|))
  {
    var n := NormalizePath(path);
    match LastIndexOfChar(n, '.')
    case None => n
    case Some(i) =>
      if ExtensionAt(n, i) then n[..i]
      else
        assert forall k :: 0 <= k < |n| ==> !ExtensionAt(n, k) by {
          forall k | 0 <= k < |n| && ExtensionAt(n, k)
            ensures false
          {
            ExtensionAtLastDot(n, i, k);
          }
        }
        n
  }

  /**
    POSIX `path.dirname`, scanning from the end: the index of the `/` that ends
    the directory part, found after any trailing slashes have been skipped.
   */
  function DirnameEnd(p: string, i: nat, matchedSlash: bool): (r: Option<nat>)
    requires 1 <= i < |p|
    ensures r.Some? ==> 1 <= r.value <= i && p[r.value] == '/'
    decreases i
  {
    if p[i] == '/' then
      if !matchedSlash then Some(i) else if i == 1 then None else DirnameEnd(p, i - 1, matchedSlash)
    else if i == 1 then None
    else DirnameEnd(p, i - 1, false)
  }

  /** POSIX `path.dirname`. */
  function Dirname(p: string): string {
    if |p| == 0 then "."
    else
      var hasRoot := p[0] == '/';
      var end := if |p| == 1 then None else DirnameEnd(p, |p| - 1, true);
      match end
      case None => if hasRoot then "/" else "."
      case Some(e) => if hasRoot && e == 1 then "//" else p[..e]
  }

  lemma {:induction false} DirnameEndScan(p: string, d: nat, i: nat, matched: bool)
    requires 1 <= d < i < |p| && p[d] == '/'
    requires forall j :: d < j <= i ==> p[j] != '/'
    ensures DirnameEnd(p, i, matched) == Some(d)
    decreases i
  {
    if i - 1 > d {
      DirnameEndScan(p, d, i - 1, false);
    }
  }

  lemma {:induction false} DirnameEndNone(p: string, i: nat, matched: bool)
    requires 1 <= i < |p|
    requires forall j :: 1 <= j <= i ==> p[j] != '/'
    ensures DirnameEnd(p, i, matched).None?
    decreases i
  {
    if i > 1 {
      DirnameEndNone(p, i - 1, false);
    }
  }

  /** The directory of `dir/file` is `dir`, and a bare file name lives in `.`. */
  lemma DirnameOfFile(dir: string, file: string)
    requires |file| > 0 && '/' !in file
    requires |dir| > 0 && dir[0] != '/' && dir[|dir| - 1] != '/'
    ensures Dirname(dir + "/" + file) == dir
    ensures Dirname(file) == "."
  {
    var p := dir + "/" + file;
    assert p[|dir|] == '/';
    assert forall j :: |dir| < j < |p| ==> p[j] == file[j - |dir| - 1];
    DirnameEndScan(p, |dir|, |p| - 1, true);
    assert p[..|dir|] == dir;
    if |file| > 1 {
      DirnameEndNone(file, |file| - 1, true);
    }
  }
}

=== FILE: patterns.dfy ===
/**
  The file-name and content-type regular expressions of
  `src/controllers/constants.ts` (`regexpPatterns`), each written as a
  predicate on strings. Case-insensitive patterns fold ASCII letters only,
  which is what a JavaScript `i` flag does for an ASCII pattern.
 */
module Patterns {
  import opened Strings

  /** `s` equals the lower-case ASCII pattern `p`, letters compared without case. */
  predicate EqualsFolded(s: string, p: string) {
    AsciiLower(s) == p
  }

  /** `s` starts with the lower-case ASCII pattern `p`, letters compared without case. */
  predicate StartsFolded(s: string, p: string) {
    |s| >= |p| && AsciiLower(s[..|p|]) == p
  }

  /** The characters `.` does not match: the four line terminators. */
  predicate IsLineTerminator(c: char) {
    c == '\n' || c == '\r' || c == '\U{2028}' || c == '\U{2029}'
  }

  /** `.*` followed by `$`: the rest holds no line terminator. */
  predicate NoLineTerminator(s: string) {
    forall i :: 0 <= i < |s| ==> !IsLineTerminator(s[i])
  }

  // ---------------------------------------------------------------------------
  // File names
  // ---------------------------------------------------------------------------

  /** `[a-z-_]`: lower-case ASCII letters, `-` and `_`. */
  predicate IsEnvSuffixChar(c: char) {
    IsAsciiLower(c) || c == '-' || c == '_'
  }

  /** `/^\.env(?:\.[a-z-_]*)?$/`. */
  predicate IsEnvFile(s: string) {
    s == ".env" || (StartsWith(s, ".env.") && forall i :: 5 <= i < |s| ==> IsEnvSuffixChar(s[i]))
  }

  /** `/^intrest\.config\.[mc]?js$/`. */
  predicate IsConfigFile(s: string) {
    s in {"intrest.config.js", "intrest.config.mjs", "intrest.config.cjs"}
  }

  /** `/^bootstrap\.ts$/`. */
  predicate IsBootstrapFile(s: string) {
    s == "bootstrap.ts"
  }

  /** `/(?:^|\/)(?:route|middleware|validation)\.ts$/`: the last path segment is one of the three entry files. */
  predicate IsEntryFile(s: string) {
    exists name :: name in {"route.ts", "middleware.ts", "validation.ts"} && (s == name || EndsWith(s, "/" + name))
  }

  /** `/(?:route)\.ts$/`: any name ending in `route.ts`, not only a segment. */
  predicate IsObservable(s: string) {
    EndsWith(s, "route.ts")
  }

  /** An env file name is `.env` or `.env.` with a lower-case suffix; the mode names qualify, upper case and dots do not. */
  lemma EnvFileExamples(suffix: string)
    requires forall i :: 0 <= i < |suffix| ==> IsEnvSuffixChar(suffix[i])
    ensures IsEnvFile(".env." + suffix)
    ensures !IsEnvFile(".env.Local") && !IsEnvFile(".env.a.b") && !IsEnvFile("x.env")
  {
    assert (".env." + suffix)[..5] == ".env.";
    assert ".env.Local"[5] == 'L';
    assert ".env.a.b"[6] == '.';
    assert "x.env"[..5] != ".env." by {
      assert "x.env"[0] == 'x';
    }
  }

  /** Every entry file is observable only when it is a route, and a route file is an entry file only as a whole segment. */
  lemma EntryAndObservable(dir: string)
    ensures IsEntryFile(dir + "/route.ts") && IsObservable(dir + "/route.ts")
    ensures IsObservable("myroute.ts") && !IsEntryFile("myroute.ts")
  {
    var s := dir + "/route.ts";
    assert s[|s| - |"/route.ts"|..] == "/route.ts";
    assert s[|s| - |"route.ts"|..] == "route.ts";
    assert "myroute.ts"[2..] == "route.ts";
    forall name | name in {"route.ts", "middleware.ts", "validation.ts"}
      ensures !("myroute.ts" == name || EndsWith("myroute.ts", "/" + name))
    {
      assert "myroute.ts"[|"myroute.ts"| - |"/route.ts"|] == 'y';
    }
  }

  // ---------------------------------------------------------------------------
  // Content types
  // ---------------------------------------------------------------------------

  /** `/^(?:x-www-form-urlencoded|multipart\/form-data.*)$/i`. */
  predicate IsBusboyContentType(s: string) {
    EqualsFolded(s, "x-www-form-urlencoded")
    || (StartsFolded(s, "multipart/form-data") && NoLineTerminator(s[|"multipart/form-data"|..]))
  }

  /** `/^application\/json$/i`. */
  predicate IsJsonContentType(s: string) {
    EqualsFolded(s, "application/json")
  }

  /** `/^application\/xml$/i`. */
  predicate IsXmlContentType(s: string) {
    EqualsFolded(s, "application/xml")
  }

  /** `/^(?:x-www-form-urlencoded|multipart\/form-data.*|application\/(?:json|xml))$/i`, its own expression. */
  predicate IsAcceptableContentType(s: string) {
    || EqualsFolded(s, "x-www-form-urlencoded")
    || (StartsFolded(s, "multipart/form-data") && NoLineTerminator(s[|"multipart/form-data"|..]))
    || (StartsFolded(s, "application/") && (EqualsFolded(s[|"application/"|..], "json") || EqualsFolded(s[|"application/"|..], "xml")))
  }

  lemma FoldedSplit(s: string, a: string, b: string)
    requires |s| >= |a|
    ensures AsciiLower(s) == a + b <==> AsciiLower(s[..|a|]) == a && AsciiLower(s[|a|..]) == b
  {
    var l := AsciiLower(s);
    assert AsciiLower(s[..|a|]) == l[..|a|];
    assert AsciiLower(s[|a|..]) == l[|a|..];
    if AsciiLower(s[..|a|]) == a && AsciiLower(s[|a|..]) == b {
      assert l == l[..|a|] + l[|a|..];
    }
  }

  /** The acceptable types are exactly the busboy, JSON and XML ones. */
  lemma AcceptableIsUnion(s: string)
    ensures IsAcceptableContentType(s) <==> IsBusboyContentType(s) || IsJsonContentType(s) || IsXmlContentType(s)
  {
    if |s| >= |"application/"| {
      FoldedSplit(s, "application/", "json");
      FoldedSplit(s, "application/", "xml");
    }
  }

  /** No content type is both a busboy type and JSON. */
  lemma JsonNotBusboy(s: string)
    ensures !(IsJsonContentType(s) && IsBusboyContentType(s))
  {
    if IsJsonContentType(s) {
      assert AsciiLower(s)[0] == 'a';
    }
  }

  /** The bare `x-www-form-urlencoded` is accepted, but the registered `application/x-www-form-urlencoded` is not. */
  lemma FormUrlencodedBareOnly()
    ensures IsAcceptableContentType("x-www-form-urlencoded")
    ensures !IsAcceptableContentType("application/x-www-form-urlencoded")
  {
    assert AsciiLower("x-www-form-urlencoded") == "x-www-form-urlencoded";
    var s := "application/x-www-form-urlencoded";
    AcceptableIsUnion(s);
    assert |AsciiLower(s)| != |"x-www-form-urlencoded"| && |AsciiLower(s)| != |"application/json"| && |AsciiLower(s)| != |"application/xml"|;
    assert s[..|"multipart/form-data"|][0] == s[0] == 'a';
  }

  /** A parameter after JSON makes the type unacceptable. */
  lemma JsonParameterRejected(p: string)
    requires p != ""
    ensures !IsAcceptableContentType("application/json" + p)
  {
    var j := "application/json" + p;
    AcceptableIsUnion(j);
    assert |AsciiLower(j)| > |"application/json"|;
    assert AsciiLower(j)[0] == 'a';
    if |j| >= |"multipart/form-data"| {
      assert j[..|"multipart/form-data"|][0] == 'a';
    }
  }

  /** A parameter after XML makes the type unacceptable. */
  lemma XmlParameterRejected(p: string)
    requires p != ""
    ensures !IsAcceptableContentType("application/xml" + p)
  {
    var x := "application/xml" + p;
    AcceptableIsUnion(x);
    assert |AsciiLower(x)| > |"application/xml"|;
    assert AsciiLower(x)[0] == 'a';
    assert AsciiLower(x)[12] == 'x';
    if |x| >= |"multipart/form-data"| {
      assert x[..|"multipart/form-data"|][0] == 'a';
    }
  }

  /** After `multipart/form-data` any parameter on the same line is accepted. */
  lemma MultipartParameterAccepted(p: string)
    requires NoLineTerminator(p)
    ensures IsAcceptableContentType("multipart/form-data" + p)
  {
    var m := "multipart/form-data" + p;
    assert m[..|"multipart/form-data"|] == "multipart/form-data";
    assert AsciiLower("multipart/form-data") == "multipart/form-data";
    assert m[|"multipart/form-data"|..] == p;
  }

  /** Letter case does not matter: a type is accepted exactly when its lower-cased spelling is. */
  lemma AcceptableIgnoresCase(s: string)
    ensures IsAcceptableContentType(s) <==> IsAcceptableContentType(AsciiLower(s))
  {
    var l := AsciiLower(s);
    assert AsciiLower(l) == l;
    forall k | 0 <= k <= |s|
      ensures AsciiLower(l[..k]) == AsciiLower(s[..k]) && AsciiLower(l[k..]) == AsciiLower(s[k..])
      ensures NoLineTerminator(l[k..]) <==> NoLineTerminator(s[k..])
    {
      assert forall i :: 0 <= i < |s| ==> IsLineTerminator(l[i]) == IsLineTerminator(s[i]);
    }
  }
}

=== FILE: protocol.dfy ===
/**
  Shapes shared by every generation of the router: the values a handler may
  put in a response (header values, JSON values, bodies, cookies), the
  declarative response itself, the transfer events a worker streams back to
  the HTTP edge, and the user-overridable error messages of the configuration.
 */
module Protocol {
  import opened Wrappers
  import opened Strings

  type Byte = b: int | 0 <= b < 256

  type Bytes = seq<Byte>

  /** A response header value: a string, a number, a list of strings, or `undefined`. */
  datatype HeaderValue = HText(text: string) | HNumber(number: int) | HList(items: seq<string>) | HUndefined

  /** JavaScript truthiness of a header value. */
  predicate HeaderTruthy(v: HeaderValue) {
    match v
    case HText(s) => s != ""
    case HNumber(n) => n != 0
    case HList(_) => true
    case HUndefined => false
  }

  /** Unary `+` on a header value (`None` is `NaN`); see `Strings.NumericValue`. */
  function HeaderNumber(v: HeaderValue): Option<int> {
    match v
    case HText(s) => NumericValue(s)
    case HNumber(n) => Some(n)
    case HList(xs) => if |xs| == 0 then Some(0) else if |xs| == 1 then NumericValue(xs[0]) else None
    case HUndefined => None
  }

  /** `String(v)`, as a template literal renders it. */
  function HeaderText(v: HeaderValue): string {
    match v
    case HText(s) => s
    case HNumber(n) => IntToDecimal(n)
    case HList(xs) => Join(xs, ",")
    case HUndefined => "undefined"
  }

  /** A JSON-serialisable value, as a handler builds a response body object. */
  datatype JsonValue =
    | JNull
    | JBool(flag: bool)
    | JNumber(number: int)
    | JString(text: string)
    | JArray(items: seq<JsonValue>)
    | JObject(fields: seq<(string, JsonValue)>)

  predicate JsonTruthy(v: JsonValue) {
    match v
    case JNull => false
    case JBool(b) => b
    case JNumber(n) => n != 0
    case JString(s) => s != ""
    case JArray(_) => true
    case JObject(_) => true
  }

  /**
    A response body: absent, a string, a byte buffer, any other value (sent
    as JSON, except a bare string, which is sent as a string), or a readable
    stream given as its chunks in arrival order.
   */
  datatype Body =
    | NoBody
    | Text(text: string)
    | Bytes(bytes: Bytes)
    | Json(value: JsonValue)
    | Stream(chunks: seq<Bytes>)

  /** `if (res.body)`: the empty string and falsy JSON values count as no body. */
  predicate BodyTruthy(b: Body) {
    match b
    case NoBody => false
    case Text(s) => s != ""
    case Bytes(_) => true
    case Json(v) => JsonTruthy(v)
    case Stream(_) => true
  }

  /** Cookie serialisation options, kept as opaque attribute pairs. */
  datatype CookieOptions = CookieOptions(attributes: seq<(string, string)>)

  datatype CookieValue = CookieValue(value: string, options: Option<CookieOptions>)

  /** The declarative response a handler or middleware returns; `status: None` is an absent status. */
  datatype Response = Response(
    status: Option<int>,
    headers: seq<(string, HeaderValue)>,
    cookies: seq<(string, CookieValue)>,
    clearCookies: seq<(string, Option<CookieOptions>)>,
    body: Body)

  /** The transfer-event vocabulary: `set`, `cookie`, `clear-cookie`, `write`, `status`, `end`. */
  datatype Event =
    | SetHeader(name: string, value: HeaderValue)
    | Cookie(cookieName: string, cookieValue: string, options: Option<CookieOptions>)
    | ClearCookie(clearName: string, clearOptions: Option<CookieOptions>)
    | Write(data: Bytes)
    | Status(code: Option<int>)
    | End

  predicate IsHeaderEvent(e: Event) {
    e.SetHeader? || e.Cookie? || e.ClearCookie?
  }

  /**
    The ordering every response stream keeps: header, cookie and clear-cookie
    events all come before any write; exactly one status event, immediately
    before exactly one end event, which is last.
   */
  predicate ProtocolShape(evs: seq<Event>) {
    && |evs| >= 2
    && evs[|evs| - 1] == End
    && evs[|evs| - 2].Status?
    && (forall i :: 0 <= i < |evs| - 2 ==> !evs[i].Status? && !evs[i].End?)
    && (forall i, j :: 0 <= i < j < |evs| && IsHeaderEvent(evs[j]) ==> !evs[i].Write?)
  }

  /** Conversions the runtime performs that this model leaves uninterpreted: `Buffer.from(string)` and `JSON.stringify`. */
  datatype Serializers = Serializers(utf8: string -> Bytes, stringify: JsonValue -> string)

  /** The user-overridable error messages of the configuration (`config.messages`). */
  datatype Messages = Messages(
    notFound: Option<string>,
    methodNotAllowed: Option<string>,
    multipleRoutes: Option<string>,
    internalServerError: Option<string>,
    unsupportedMediaType: Option<string>,
    requestTooLong: Option<string>)

  /** `config.messages?.X || fallback`: an absent or empty message falls back. */
  function MessageOr(m: Option<string>, fallback: string): (r: string)
    ensures m.Some? && m.value != "" ==> r == m.value
    ensures m.None? || m.value == "" ==> r == fallback
  {
    if m.Some? && m.value != "" then m.value else fallback
  }

  function JsonMessage(message: string): JsonValue {
    JObject([("message", JString(message))])
  }

  /** `{status, body: {message}, headers: {'Content-Type': 'application/json'}}`. */
  function JsonError(status: int, message: string): Response {
    Response(Some(status), [("Content-Type", HText("application/json"))], [], [], Json(JsonMessage(message)))
  }

  /** `{status}` alone. */
  function StatusOnly(status: int): Response {
    Response(Some(status), [], [], [], NoBody)
  }

  /** Header-name matching with `/^name$/i` for an ASCII lower-case name. */
  predicate HeaderNameIs(key: string, lowerName: string) {
    AsciiLower(key) == lowerName
  }
}

=== FILE: request_handler.dfy ===
/**
  The HTTP edge of the current generation (`src/utils/request-handler.ts`):
  how an incoming request is read (method, path, query, content type,
  origin), the statuses it gets before any route runs (204 for a preflight,
  415, 413, 400), and how the transfer events a worker streams back are
  applied to Node's outgoing response.

  The outgoing response is modelled the way Node's `ServerResponse` behaves:
  header changes accumulate in a case-insensitive map until the head (status
  line and headers) is sent, which happens at the first write, at `end`, or
  at `writeHead`; after that the status code property no longer reaches the
  client.
 */
module RequestHandler {
  import opened Wrappers
  import opened Strings
  import opened Protocol
  import Parser
  import Patterns
  import TransferCurrent
  import WorkerRouter

  // ---------------------------------------------------------------------------
  // The request line
  // ---------------------------------------------------------------------------

  /** `(req.url || '/').split('?')`: the text before the first `?`, and the text between the first and the second when there is a `?`. */
  function UrlParts(url: Option<string>): (r: (string, Option<string>))
    ensures '?' !in r.0
    ensures r.1.Some? ==> '?' !in r.1.value
  {
    var u := if url.Some? && url.value != "" then url.value else "/";
    var parts := Split(u, '?');
    (parts[0], if |parts| > 1 then Some(parts[1]) else None)
  }

  /** `preQuery || ''`. */
  function QueryOf(url: Option<string>): (r: string)
    ensures '?' !in r
  {
    var q := UrlParts(url).1;
    if q.Some? then q.value else ""
  }

  /** A url with a query: the path is the text before the first `?`, the query the text up to the next `?`. */
  lemma UrlPartsOf(a: string, q: string, rest: string)
    requires '?' !in a && '?' !in q
    requires rest == "" || rest[0] == '?'
    ensures UrlParts(Some(a + "?" + q + rest)) == (a, Some(q))
    ensures QueryOf(Some(a + "?" + q + rest)) == q
  {
    var u := a + "?" + q + rest;
    assert u[..|a|] == a;
    IndexOfCharFirst(u, '?', |a|);
    assert u[|a| + 1..] == q + rest;
    assert Split(u, '?') == [a] + Split(q + rest, '?');
    if rest == "" {
      assert q + rest == q;
      assert Split(q, '?') == [q];
    } else {
      assert (q + rest)[..|q|] == q;
      IndexOfCharFirst(q + rest, '?', |q|);
    }
  }

  /** A url without `?` is all path and has an empty query; a missing or empty url is `/`. */
  lemma UrlPartsNoQuery(url: Option<string>)
    requires url.Some? ==> '?' !in url.value
    ensures UrlParts(url) == (if url.Some? && url.value != "" then url.value else "/", None)
    ensures QueryOf(url) == ""
  {
  }

  /** `req.headers['content-type'] || 'application/json'`. */
  function ContentTypeOf(header: Option<string>): string {
    if header.Some? && header.value != "" then header.value else "application/json"
  }

  /** A request that declares no content type is read as JSON, which is acceptable. */
  lemma MissingContentTypeAccepted(header: Option<string>)
    requires header.None? || header.value == ""
    ensures Patterns.IsAcceptableContentType(ContentTypeOf(header))
  {
    Patterns.AcceptableIsUnion(ContentTypeOf(header));
    assert AsciiLower("application/json") == "application/json";
  }

  // ---------------------------------------------------------------------------
  // The origin
  // ---------------------------------------------------------------------------

  /** Length of the leading run of lower-case ASCII letters. */
  function LetterRun(s: string): (k: nat)
    ensures k <= |s|
    ensures forall i :: 0 <= i < k ==> IsAsciiLower(s[i])
    ensures k < |s| ==> !IsAsciiLower(s[k])
    decreases |s|
  {
    if |s| > 0 && IsAsciiLower(s[0]) then 1 + LetterRun(s[1..]) else 0
  }

  lemma {:induction false} LetterRunOf(w: string, rest: string)
    requires forall i :: 0 <= i < |w| ==> IsAsciiLower(w[i])
    requires |rest| > 0 && !IsAsciiLower(rest[0])
    ensures LetterRun(w + rest) == |w|
    decreases |w|
  {
    if |w| > 0 {
      assert (w + rest)[1..] == w[1..] + rest;
      LetterRunOf(w[1..], rest);
    } else {
      assert w + rest == rest;
    }
  }

  /** `/^[a-z]+:\/\//.test(s)`: lower-case letters then `://`; the letter run is maximal because `:` is not a letter. */
  predicate HasScheme(s: string) {
    var k := LetterRun(s);
    k >= 1 && StartsWith(s[k..], "://")
  }

  /** `s.replace(/^[a-z]+:\/\//, '')`. */
  function StripScheme(s: string): (r: string)
    ensures !HasScheme(s) ==> r == s
    ensures HasScheme(s) ==> s == s[..LetterRun(s)] + "://" + r
  {
    if HasScheme(s) then
      var k := LetterRun(s);
      assert s == s[..k] + s[k..k + 3] + s[k + 3..];
      s[k + 3..]
    else s
  }

  /** `req.headers.origin || req.headers.host || ''`. */
  function PureOrigin(origin: Option<string>, host: Option<string>): string {
    if origin.Some? && origin.value != "" then origin.value
    else if host.Some? && host.value != "" then host.value
    else ""
  }

  /** `originWithProtocol`: kept when it has a scheme, `http://` for localhost or in development, `https://` otherwise, `*` when there is no origin at all. */
  function OriginWithProtocol(pure: string, dev: bool): string {
    if HasScheme(pure) then pure
    else if Includes(pure, "localhost") || dev then "http://" + (if pure == "" then "localhost" else pure)
    else if pure != "" then "https://" + pure
    else "*"
  }

  lemma SchemePrefix(w: string, p: string)
    requires w == "http" || w == "https"
    ensures HasScheme(w + "://" + p) && StripScheme(w + "://" + p) == p
  {
    var s := w + "://" + p;
    assert s == w + ("://" + p);
    LetterRunOf(w, "://" + p);
    assert s[|w|..] == "://" + p;
    assert s[|w| + 3..] == p;
  }

  /**
    The origin with a protocol is `*` exactly when there is no origin and the
    server is not in development; otherwise it carries a scheme, and without
    it it names the same host the CORS check compares (`localhost` when empty).
   */
  lemma OriginWithProtocolShape(pure: string, dev: bool)
    ensures var r := OriginWithProtocol(pure, dev);
      && (r == "*" <==> pure == "" && !dev)
      && (r != "*" ==> HasScheme(r) && StripScheme(r) == (if pure == "" then "localhost" else StripScheme(pure)))
      && (HasScheme(pure) ==> r == pure)
  {
    if !HasScheme(pure) {
      if Includes(pure, "localhost") || dev {
        var p := if pure == "" then "localhost" else pure;
        SchemePrefix("http", p);
        assert "http" + "://" + p == "http://" + p;
      } else if pure != "" {
        SchemePrefix("https", pure);
        assert "https" + "://" + pure == "https://" + pure;
      }
    }
  }

  /** `config.limits.allowOrigin`: unset, one origin, or a list. */
  datatype AllowOrigin = AllowUnset | AllowOne(origin: string) | AllowList(origins: seq<string>)

  /** A string setting is truthy when non-empty; an array always is. */
  predicate AllowConfigured(a: AllowOrigin) {
    match a
    case AllowUnset => false
    case AllowOne(s) => s != ""
    case AllowList(_) => true
  }

  /** The configured origins as a list, each stripped of its scheme. */
  function AllowEntries(a: AllowOrigin): (r: seq<string>)
    ensures a.AllowList? ==> |r| == |a.origins| && forall i :: 0 <= i < |r| ==> r[i] == StripScheme(a.origins[i])
    ensures a.AllowOne? ==> r == [StripScheme(a.origin)]
  {
    match a
    case AllowUnset => []
    case AllowOne(s) => [StripScheme(s)]
    case AllowList(xs) => seq(|xs|, i requires 0 <= i < |xs| => StripScheme(xs[i]))
  }

  /** `xs.find((o) => origin.endsWith(o))`, as an index: the first entry the origin ends with. */
  function FirstEndingMatch(xs: seq<string>, origin: string): (r: Option<nat>)
    ensures r.Some? ==> r.value < |xs| && EndsWith(origin, xs[r.value])
    ensures r.Some? ==> forall j :: 0 <= j < r.value ==> !EndsWith(origin, xs[j])
    ensures r.None? ==> forall j :: 0 <= j < |xs| ==> !EndsWith(origin, xs[j])
    decreases |xs|
  {
    if |xs| == 0 then None
    else if EndsWith(origin, xs[0]) then Some(0)
    else match FirstEndingMatch(xs[1..], origin)
      case None => None
      case Some(i) => Some(i + 1)
  }

  /** The `Access-Control-Allow-Origin` value. */
  function AllowOriginHeader(allow: AllowOrigin, dev: bool, origin: string, withProtocol: string): string {
    if AllowConfigured(allow) && !dev then
      var entries := AllowEntries(allow);
      match FirstEndingMatch(entries, origin)
      case Some(i) => if entries[i] != "" then entries[i] else "*"
      case None => "*"
    else withProtocol
  }

  /**
    With origins configured outside development, the header is the first
    configured origin (scheme stripped) the request's origin ends with, or `*`
    when none does or the first that does is empty; otherwise it is the
    origin with its protocol.
   */
  lemma AllowOriginChoice(allow: AllowOrigin, dev: bool, origin: string, withProtocol: string, i: nat)
    ensures var r := AllowOriginHeader(allow, dev, origin, withProtocol);
      var es := AllowEntries(allow);
      && (!(AllowConfigured(allow) && !dev) ==> r == withProtocol)
      && (AllowConfigured(allow) && !dev ==> r == "*" || (r in es && EndsWith(origin, r) && r != ""))
      && (AllowConfigured(allow) && !dev && (forall j :: 0 <= j < |es| ==> !EndsWith(origin, es[j])) ==> r == "*")
      && ((AllowConfigured(allow) && !dev && i < |es| && es[i] != "" && EndsWith(origin, es[i])
           && forall j :: 0 <= j < i ==> !EndsWith(origin, es[j])) ==> r == es[i])
  {
    var es := AllowEntries(allow);
    if AllowConfigured(allow) && !dev && i < |es| && EndsWith(origin, es[i]) && forall j :: 0 <= j < i ==> !EndsWith(origin, es[j]) {
      var m := FirstEndingMatch(es, origin);
      assert m.Some?;
      assert !(m.value < i);
      assert !(i < m.value);
    }
  }

  /** An empty configured origin (or one that is only a scheme) matches every origin, so when it comes first the header is `*`. */
  lemma EmptyAllowEntryGivesStar(xs: seq<string>, dev: bool, origin: string, withProtocol: string)
    requires !dev && |xs| > 0 && StripScheme(xs[0]) == ""
    ensures AllowOriginHeader(AllowList(xs), dev, origin, withProtocol) == "*"
  {
    assert AllowEntries(AllowList(xs))[0] == "";
    assert EndsWith(origin, "") by {
      assert origin[|origin| - 0..] == "";
    }
  }

  // ---------------------------------------------------------------------------
  // The body size
  // ---------------------------------------------------------------------------

  /** `parseInt(s)` on an optional sign and decimal digits; `None` is `NaN`. Leading blanks are not modelled. */
  function ParseIntPrefix(s: string): (r: Option<int>) {
    if |s| > 0 && (s[0] == '-' || s[0] == '+') then
      var t := s[1..];
      var k := Parser.DigitRun(t);
      if k == 0 then None
      else
        var n: int := DecimalValue(t[..k]);
        Some(if s[0] == '-' then 0 - n else n)
    else
      var k := Parser.DigitRun(s);
      if k == 0 then None else Some(DecimalValue(s[..k]))
  }

  /** `(req.headers['content-length'] && parseInt(...)) || 0`. */
  function BodySize(contentLength: Option<string>): int {
    if contentLength.Some? && contentLength.value != "" then
      match ParseIntPrefix(contentLength.value)
      case Some(n) => n
      case None => 0
    else 0
  }

  /** A declared length written in decimal reads back as that length; a missing or non-numeric one counts as 0. */
  lemma BodySizeRoundTrip(n: nat, junk: string)
    ensures BodySize(Some(NatToDecimal(n))) == n
    ensures junk == "" || !(IsAsciiDigit(junk[0]) || junk[0] == '-' || junk[0] == '+') ==> BodySize(Some(junk)) == 0
    ensures BodySize(None) == 0
  {
    var d := NatToDecimal(n);
    Parser.DigitRunAll(d);
    assert d[..|d|] == d;
    DecimalRoundTrip(n);
  }

  /** A size setting's truthiness, for `bodyMaxSize || '10mb'`. */
  predicate SizeTruthy(s: Parser.SizeSetting) {
    match s
    case SizeText(t) => t != ""
    case SizeNumber(n) => n != 0
    case SizeUndefined => false
  }

  /** `parseStringBytesToNumber(config.limits?.bodyMaxSize || '10mb')`. */
  function MaxBodySize(setting: Parser.SizeSetting): int {
    var s := if SizeTruthy(setting) then setting else Parser.SizeText("10mb");
    Parser.ParseStringBytesToNumber(s).value
  }

  /** Without a configured limit the maximum is ten mebibytes; a configured number is used as it is. */
  lemma MaxBodySizeDefault(n: int)
    ensures MaxBodySize(Parser.SizeUndefined) == 10 * 1024 * 1024
    ensures MaxBodySize(Parser.SizeText("")) == 10 * 1024 * 1024
    ensures n != 0 ==> MaxBodySize(Parser.SizeNumber(n)) == n
  {
    TenMebibytes();
    assert !SizeTruthy(Parser.SizeUndefined) && !SizeTruthy(Parser.SizeText(""));
  }

  lemma TenMebibytes()
    ensures Parser.BytesOfText("10mb", Parser.SizeLetters) == 10 * 1024 * 1024
  {
    assert NatToDecimal(10) == "10";
    assert NatToDecimal(10) + "mb" == "10mb";
    Parser.UnitScale(10, "mb", 1024 * 1024);
  }

  // ---------------------------------------------------------------------------
  // The outgoing response
  // ---------------------------------------------------------------------------

  /** What has reached the client: the status line and the headers. */
  datatype Head = Head(status: Option<int>, headers: map<string, HeaderValue>)

  /**
    Node's `ServerResponse` as the handler drives it: the `statusCode`
    property (`None` is `undefined`), the headers set so far keyed by their
    lower-cased name, the head once sent, the body bytes, and whether the
    response has ended.
   */
  datatype Outgoing = Outgoing(statusCode: Option<int>, headers: map<string, HeaderValue>, head: Option<Head>, body: Bytes, ended: bool)

  /** A new response: status 200, nothing set or sent. */
  const Fresh: Outgoing := Outgoing(Some(200), map[], None, [], false)

  /** `cookie.serialize(name, value, options)`, left uninterpreted. */
  type CookieSerializer = (string, string, Option<CookieOptions>) -> string

  /** `res.setHeader(name, v)`; after the head is sent the change no longer applies. */
  function SetHeaderOn(o: Outgoing, name: string, v: HeaderValue): Outgoing {
    if o.head.Some? then o else o.(headers := o.headers[AsciiLower(name) := v])
  }

  /** The values of a header, as `appendHeader` collects them into a list. */
  function ValuesOf(v: HeaderValue): seq<string> {
    match v
    case HText(s) => [s]
    case HNumber(n) => [IntToDecimal(n)]
    case HList(xs) => xs
    case HUndefined => []
  }

  /** All values held under a lower-cased name. */
  function ValuesAt(hs: map<string, HeaderValue>, key: string): seq<string> {
    if key in hs then ValuesOf(hs[key]) else []
  }

  /** `res.appendHeader(name, s)`: a new header holds `s`, an existing one becomes the list of its values followed by `s`. */
  function AppendHeaderOn(o: Outgoing, name: string, s: string): Outgoing {
    var key := AsciiLower(name);
    if o.head.Some? then o
    else if key in o.headers then o.(headers := o.headers[key := HList(ValuesOf(o.headers[key]) + [s])])
    else o.(headers := o.headers[key := HText(s)])
  }

  /** Sending the head with the current status code and headers, once. */
  function Flush(o: Outgoing): Outgoing {
    if o.head.None? then o.(head := Some(Head(o.statusCode, o.headers))) else o
  }

  /** `res.write(data)`: sends the head first if it has not been sent. */
  function WriteOn(o: Outgoing, data: Bytes): Outgoing {
    if o.ended then o else var f := Flush(o); f.(body := f.body + data)
  }

  /** `res.end()`. */
  function EndOn(o: Outgoing): Outgoing {
    if o.ended then o else Flush(o).(ended := true)
  }

  /**
    `res.writeHead(code, {'Content-Type': 'application/json'})` followed by
    `res.end(bytes)`; `None` when the head was already sent, where
    `writeHead` throws.
   */
  function JsonEnd(o: Outgoing, code: int, bytes: Bytes): (r: Option<Outgoing>)
    ensures r.Some? <==> o.head.None?
    ensures r.Some? ==> r.value.ended && r.value.head == Some(Head(Some(code), r.value.headers))
    ensures r.Some? ==> "content-type" in r.value.headers && r.value.headers["content-type"] == HText("application/json") && r.value.body == o.body + bytes
  {
    if o.head.Some? then None
    else
      assert AsciiLower("Content-Type") == "content-type";
      var hs := o.headers[AsciiLower("Content-Type") := HText("application/json")];
      Some(Outgoing(Some(code), hs, Some(Head(Some(code), hs)), o.body + bytes, true))
  }

  /** The callback the tunnel calls for each transfer event. */
  function ApplyEvent(o: Outgoing, e: Event, serialize: CookieSerializer): Outgoing {
    match e
    case Cookie(name, value, options) => AppendHeaderOn(o, "Set-Cookie", serialize(name, value, options))
    case ClearCookie(name, options) => AppendHeaderOn(o, "Set-Cookie", serialize(name, "", options))
    case SetHeader(name, value) => SetHeaderOn(o, name, if HeaderTruthy(value) then value else HText(""))
    case Write(data) => WriteOn(o, data)
    case Status(code) => o.(statusCode := code)
    case End => EndOn(o)
  }

  function ApplyAll(o: Outgoing, evs: seq<Event>, serialize: CookieSerializer): Outgoing
    decreases |evs|
  {
    if |evs| == 0 then o else ApplyAll(ApplyEvent(o, evs[0], serialize), evs[1..], serialize)
  }

  lemma {:induction false} ApplyAllConcat(o: Outgoing, a: seq<Event>, b: seq<Event>, serialize: CookieSerializer)
    ensures ApplyAll(o, a + b, serialize) == ApplyAll(ApplyAll(o, a, serialize), b, serialize)
    decreases |a|
  {
    if |a| == 0 {
      assert a + b == b;
    } else {
      assert (a + b)[0] == a[0];
      assert (a + b)[1..] == a[1..] + b;
      ApplyAllConcat(ApplyEvent(o, a[0], serialize), a[1..], b, serialize);
    }
  }

  /** Once the head is sent, no event changes it. */
  lemma {:induction false} HeadStays(o: Outgoing, evs: seq<Event>, serialize: CookieSerializer)
    requires o.head.Some?
    ensures ApplyAll(o, evs, serialize).head == o.head
    decreases |evs|
  {
    if |evs| > 0 {
      HeadStays(ApplyEvent(o, evs[0], serialize), evs[1..], serialize);
    }
  }

  /** Header and cookie events leave the status code, the head, the body and the end state alone. */
  lemma {:induction false} HeaderEventsKeep(o: Outgoing, evs: seq<Event>, serialize: CookieSerializer)
    requires forall i :: 0 <= i < |evs| ==> IsHeaderEvent(evs[i])
    ensures var r := ApplyAll(o, evs, serialize);
      r.statusCode == o.statusCode && r.head == o.head && r.body == o.body && r.ended == o.ended
    decreases |evs|
  {
    if |evs| > 0 {
      HeaderEventsKeep(ApplyEvent(o, evs[0], serialize), evs[1..], serialize);
    }
  }

  /**
    Without a `status` event, the head that reaches the client carries the
    status code the response had before the events, as soon as there is a
    write or an end.
   */
  lemma {:induction false} HeadFixed(o: Outgoing, evs: seq<Event>, serialize: CookieSerializer)
    requires o.head.None? && !o.ended
    requires forall i :: 0 <= i < |evs| ==> !evs[i].Status?
    requires exists i :: 0 <= i < |evs| && (evs[i].Write? || evs[i].End?)
    ensures var r := ApplyAll(o, evs, serialize);
      r.head.Some? && r.head.value.status == o.statusCode
    decreases |evs|
  {
    var o1 := ApplyEvent(o, evs[0], serialize);
    if evs[0].Write? || evs[0].End? {
      HeadStays(o1, evs[1..], serialize);
    } else {
      var i :| 0 <= i < |evs| && (evs[i].Write? || evs[i].End?);
      assert evs[1..][i - 1] == evs[i];
      HeadFixed(o1, evs[1..], serialize);
    }
  }

  /** Before the end, the body is everything the write events carried, in order. */
  lemma {:induction false} AppliedBody(o: Outgoing, evs: seq<Event>, serialize: CookieSerializer)
    requires !o.ended
    requires forall i :: 0 <= i < |evs| ==> !evs[i].End?
    ensures var r := ApplyAll(o, evs, serialize);
      r.body == o.body + TransferCurrent.Written(evs) && !r.ended
    decreases |evs|
  {
    if |evs| > 0 {
      var o1 := ApplyEvent(o, evs[0], serialize);
      var x := if evs[0].Write? then evs[0].data else [];
      assert o1.body == o.body + x && !o1.ended;
      AppliedBody(o1, evs[1..], serialize);
      assert o.body + x + TransferCurrent.Written(evs[1..]) == o.body + (x + TransferCurrent.Written(evs[1..]));
    }
  }

  /** The lower-cased name every cookie event appends to. */
  lemma SetCookieKey()
    ensures AsciiLower("Set-Cookie") == "set-cookie"
  {
  }

  /** The `Set-Cookie` values a run of cookie events produces: `value` for `cookie`, the empty value for `clear-cookie`. */
  function SerializedCookies(evs: seq<Event>, serialize: CookieSerializer): seq<string>
    requires forall i :: 0 <= i < |evs| ==> evs[i].Cookie? || evs[i].ClearCookie?
    decreases |evs|
  {
    if |evs| == 0 then []
    else
      var e := evs[0];
      [if e.Cookie? then serialize(e.cookieName, e.cookieValue, e.options) else serialize(e.clearName, "", e.clearOptions)]
        + SerializedCookies(evs[1..], serialize)
  }

  /** Cookie and clear-cookie events append their serialised cookies to `Set-Cookie`, in order, after the values already there. */
  lemma {:induction false} CookiesAppended(o: Outgoing, evs: seq<Event>, serialize: CookieSerializer)
    requires o.head.None?
    requires forall i :: 0 <= i < |evs| ==> evs[i].Cookie? || evs[i].ClearCookie?
    ensures var r := ApplyAll(o, evs, serialize);
      ValuesAt(r.headers, "set-cookie") == ValuesAt(o.headers, "set-cookie") + SerializedCookies(evs, serialize)
    decreases |evs|
  {
    if |evs| > 0 {
      SetCookieKey();
      var o1 := ApplyEvent(o, evs[0], serialize);
      var s := SerializedCookies(evs, serialize)[0];
      assert ValuesAt(o1.headers, "set-cookie") == ValuesAt(o.headers, "set-cookie") + [s];
      CookiesAppended(o1, evs[1..], serialize);
      assert SerializedCookies(evs, serialize) == [s] + SerializedCookies(evs[1..], serialize);
    } else {
      assert ValuesAt(o.headers, "set-cookie") + [] == ValuesAt(o.headers, "set-cookie");
    }
  }

  /** Whether an event changes the header held under the lower-cased name `key`. */
  predicate Touches(e: Event, key: string) {
    || (e.SetHeader? && AsciiLower(e.name) == key)
    || ((e.Cookie? || e.ClearCookie?) && key == "set-cookie")
  }

  lemma {:induction false} KeyUntouched(o: Outgoing, evs: seq<Event>, key: string, serialize: CookieSerializer)
    requires forall i :: 0 <= i < |evs| ==> !Touches(evs[i], key)
    ensures var r := ApplyAll(o, evs, serialize);
      (key in r.headers <==> key in o.headers) && (key in o.headers ==> r.headers[key] == o.headers[key])
    decreases |evs|
  {
    if |evs| > 0 {
      SetCookieKey();
      KeyUntouched(ApplyEvent(o, evs[0], serialize), evs[1..], key, serialize);
    }
  }

  /** The last `set` of a header before the head is sent decides it, names compared without case; a falsy value becomes `''`. */
  lemma LastSetWins(o: Outgoing, pre: seq<Event>, name: string, v: HeaderValue, post: seq<Event>, serialize: CookieSerializer)
    requires forall i :: 0 <= i < |pre| ==> IsHeaderEvent(pre[i])
    requires o.head.None?
    requires forall i :: 0 <= i < |post| ==> !Touches(post[i], AsciiLower(name))
    ensures var r := ApplyAll(o, pre + [SetHeader(name, v)] + post, serialize);
      AsciiLower(name) in r.headers && r.headers[AsciiLower(name)] == if HeaderTruthy(v) then v else HText("")
  {
    ApplyAllConcat(o, pre + [SetHeader(name, v)], post, serialize);
    ApplyAllConcat(o, pre, [SetHeader(name, v)], serialize);
    HeaderEventsKeep(o, pre, serialize);
    var mid := ApplyAll(ApplyAll(o, pre, serialize), [SetHeader(name, v)], serialize);
    KeyUntouched(mid, post, AsciiLower(name), serialize);
  }

  // ---------------------------------------------------------------------------
  // Applying a worker's response stream
  // ---------------------------------------------------------------------------

  /**
    The events of `sendResponseParser` applied to a response whose head is
    not yet sent: the body is exactly the payload's bytes and the response
    ends.
   */
  lemma SentBody(o: Outgoing, res: Response, range: Option<TransferCurrent.ByteRange>, ser: Serializers, serialize: CookieSerializer)
    requires !o.ended
    ensures var r := ApplyAll(o, TransferCurrent.SendResponseParser(res, range, ser), serialize);
      && r.ended
      && r.body == o.body + TransferCurrent.Written(TransferCurrent.SendResponseParser(res, range, ser))
  {
    var evs := TransferCurrent.SendResponseParser(res, range, ser);
    var n := |evs| - 1;
    assert evs == evs[..n] + [End];
    AppliedBody(o, evs[..n], serialize);
    ApplyAllConcat(o, evs[..n], [End], serialize);
    TransferCurrent.WrittenConcat(evs[..n], [End]);
    assert TransferCurrent.Written([End]) == [];
  }

  /**
    As written, the status comes after the writes; a string, buffer or JSON
    body is written first, which sends the head with the status code the
    response already had, so the declared status never reaches the client.
   */
  lemma StatusAfterBodyLost(o: Outgoing, res: Response, range: Option<TransferCurrent.ByteRange>, ser: Serializers, serialize: CookieSerializer)
    requires o.head.None? && !o.ended
    requires BodyTruthy(res.body) && !res.body.Stream?
    ensures var r := ApplyAll(o, TransferCurrent.SendResponseParser(res, range, ser), serialize);
      r.head.Some? && r.head.value.status == o.statusCode
  {
    var heads := TransferCurrent.HeadEvents(res, range);
    var body := TransferCurrent.BodyEvents(res.body, TransferCurrent.ContentType(res.headers), range, ser);
    var tail := [Status(Some(TransferCurrent.FinalStatus(res.status, range))), End];
    var first := heads + body;
    assert TransferCurrent.SendResponseParser(res, range, ser) == first + tail;
    assert first[|first| - 1] == body[|body| - 1];
    assert forall i :: 0 <= i < |first| ==> !first[i].Status? by {
      forall i | 0 <= i < |first| ensures !first[i].Status? {
        if i < |heads| { assert first[i] == heads[i]; } else { assert first[i] == body[i - |heads|]; }
      }
    }
    HeadFixed(o, first, serialize);
    ApplyAllConcat(o, first, tail, serialize);
    HeadStays(ApplyAll(o, first, serialize), tail, serialize);
  }

  /** A concrete case: a 404 with a text body reaches the client as 200. */
  lemma NotFoundSentAsOk(s: string, ser: Serializers, serialize: CookieSerializer)
    requires s != ""
    ensures var r := ApplyAll(Fresh, TransferCurrent.SendResponseParser(Response(Some(404), [], [], [], Text(s)), None, ser), serialize);
      r.head.Some? && r.head.value.status == Some(200) && TransferCurrent.FinalStatus(Some(404), None) == 404
  {
    StatusAfterBodyLost(Fresh, Response(Some(404), [], [], [], Text(s)), None, ser, serialize);
  }

  /** The evidently intended order: headers and cookies, then the status, then the body, then the end. */
  function SendResponseStatusFirst(res: Response, range: Option<TransferCurrent.ByteRange>, ser: Serializers): (evs: seq<Event>)
    ensures |evs| == |TransferCurrent.SendResponseParser(res, range, ser)|
    ensures TransferCurrent.Written(evs) == TransferCurrent.Written(TransferCurrent.SendResponseParser(res, range, ser))
  {
    var heads := TransferCurrent.HeadEvents(res, range);
    var body := TransferCurrent.BodyEvents(res.body, TransferCurrent.ContentType(res.headers), range, ser);
    var code := Some(TransferCurrent.FinalStatus(res.status, range));
    WrittenEitherOrder(heads, body, code);
    heads + [Status(code)] + body + [End]
  }

  /** Moving the status event ahead of the body changes no written byte. */
  lemma WrittenEitherOrder(heads: seq<Event>, body: seq<Event>, code: Option<int>)
    requires forall i :: 0 <= i < |heads| ==> !heads[i].Write?
    ensures TransferCurrent.Written(heads + [Status(code)] + body + [End]) == TransferCurrent.Written(body)
    ensures TransferCurrent.Written(heads + body + [Status(code), End]) == TransferCurrent.Written(body)
  {
    TransferCurrent.WrittenNone(heads);
    TransferCurrent.WrittenNone([Status(code)]);
    TransferCurrent.WrittenNone([End]);
    TransferCurrent.WrittenNone([Status(code), End]);
    TransferCurrent.WrittenNone(heads + [Status(code)]);
    TransferCurrent.WrittenConcat(heads + [Status(code)] + body, [End]);
    TransferCurrent.WrittenConcat(heads + [Status(code)], body);
    TransferCurrent.WrittenConcat(heads + body, [Status(code), End]);
    TransferCurrent.WrittenConcat(heads, body);
  }

  /** Header events, then a status, leave a response that has not been sent with that status and nothing else changed. */
  lemma HeadsThenStatus(o: Outgoing, heads: seq<Event>, code: Option<int>, serialize: CookieSerializer)
    requires forall i :: 0 <= i < |heads| ==> IsHeaderEvent(heads[i])
    ensures var o1 := ApplyAll(o, heads + [Status(code)], serialize);
      o1.statusCode == code && o1.head == o.head && o1.ended == o.ended && o1.body == o.body
  {
    ApplyAllConcat(o, heads, [Status(code)], serialize);
    HeaderEventsKeep(o, heads, serialize);
  }

  /** A body part then the end, from a response not yet sent: the head carries the current status, and the body gains the written bytes. */
  lemma BodyThenEnd(o: Outgoing, body: seq<Event>, serialize: CookieSerializer)
    requires o.head.None? && !o.ended
    requires forall i :: 0 <= i < |body| ==> body[i].Write? || body[i].SetHeader?
    ensures var r := ApplyAll(o, body + [End], serialize);
      && r.head.Some? && r.head.value.status == o.statusCode
      && r.ended && r.body == o.body + TransferCurrent.Written(body)
  {
    var rest := body + [End];
    assert forall i :: 0 <= i < |rest| ==> !rest[i].Status? by {
      forall i | 0 <= i < |rest| ensures !rest[i].Status? {
        if i < |body| { assert rest[i] == body[i]; }
      }
    }
    assert rest[|rest| - 1] == End;
    HeadFixed(o, rest, serialize);
    AppliedBody(o, body, serialize);
    ApplyAllConcat(o, body, [End], serialize);
  }

  /** With the status sent first, the client gets the response's own final status and the same body bytes, and the response ends. */
  lemma StatusFirstDelivered(o: Outgoing, res: Response, range: Option<TransferCurrent.ByteRange>, ser: Serializers, serialize: CookieSerializer)
    requires o.head.None? && !o.ended
    ensures var r := ApplyAll(o, SendResponseStatusFirst(res, range, ser), serialize);
      && r.head.Some? && r.head.value.status == Some(TransferCurrent.FinalStatus(res.status, range))
      && r.ended
      && r.body == o.body + TransferCurrent.Written(TransferCurrent.SendResponseParser(res, range, ser))
  {
    var heads := TransferCurrent.HeadEvents(res, range);
    var body := TransferCurrent.BodyEvents(res.body, TransferCurrent.ContentType(res.headers), range, ser);
    var code := Some(TransferCurrent.FinalStatus(res.status, range));
    var evs := SendResponseStatusFirst(res, range, ser);
    assert evs == (heads + [Status(code)]) + (body + [End]);
    ApplyAllConcat(o, heads + [Status(code)], body + [End], serialize);
    HeadsThenStatus(o, heads, code, serialize);
    BodyThenEnd(ApplyAll(o, heads + [Status(code)], serialize), body, serialize);
    WrittenEitherOrder(heads, body, code);
    assert TransferCurrent.SendResponseParser(res, range, ser) == heads + body + [Status(code), End];
  }

  // ---------------------------------------------------------------------------
  // The handler
  // ---------------------------------------------------------------------------

  datatype RequestHeaders = RequestHeaders(contentType: Option<string>, origin: Option<string>, host: Option<string>, contentLength: Option<string>)

  /** The parts of Node's `IncomingMessage` the handler reads. */
  datatype IncomingRequest = IncomingRequest(verb: Option<string>, url: Option<string>, headers: RequestHeaders)

  /** The configuration fields the handler reads. */
  datatype Config = Config(allowOrigin: AllowOrigin, allowHeaders: seq<string>, bodyMaxSize: Parser.SizeSetting, messages: Messages)

  /** The request as the tunnel receives it. */
  datatype RequestData = RequestData(verb: string, path: string, query: string, contentType: string)

  /** What the tunnel did: the events it delivered, and whether it then threw. */
  datatype TunnelRun = TunnelRun(events: seq<Event>, throws: bool)

  /**
    The collaborators the handler cannot see: development mode,
    `decodeURIComponent` (`None` when it throws), `new URL` (whether it
    accepts the string), the body parsers (`Some(error)` when they fail),
    the cookie serialiser, the two byte conversions, and the tunnel.
   */
  datatype Environment = Environment(
    dev: bool,
    decode: string -> Option<string>,
    validUrl: string -> bool,
    bodyError: Option<string>,
    serialize: CookieSerializer,
    ser: Serializers,
    tunnel: RequestData -> TunnelRun)

  /** The handler's outcome: the response as it stands when the handler returns, or a rejected promise. */
  datatype Handled = Sent(response: Outgoing) | Rejected

  /** `/^options$/i.test(method)`. */
  predicate IsOptions(verb: string) {
    AsciiLower(verb) == "options"
  }

  /** `/^get$/i.test(method)`. */
  predicate IsGet(verb: string) {
    AsciiLower(verb) == "get"
  }

  /** The method, path, query and content type; `None` when the path cannot be percent-decoded. */
  function ReadRequest(req: IncomingRequest, decode: string -> Option<string>): (r: Option<RequestData>)
    ensures r.Some? ==> r.value.verb == WorkerRouter.RequestMethod(req.verb) && r.value.query == QueryOf(req.url)
    ensures r.Some? <==> decode(UrlParts(req.url).0).Some?
  {
    match decode(UrlParts(req.url).0)
    case None => None
    case Some(path) => Some(RequestData(WorkerRouter.RequestMethod(req.verb), path, QueryOf(req.url), ContentTypeOf(req.headers.contentType)))
  }

  /** The headers every response starts with, after the CORS origin. */
  function DefaultHeaders(allowHeaders: seq<string>): seq<(string, HeaderValue)> {
    [ ("Server", HText("IntREST")),
      ("Accept", HList(["application/json", "application/xml", "x-www-form-urlencoded", "multipart/form-data"])),
      ("Accept-Encoding", HList(["gzip", "x-gzip", "deflate", "identity"])),
      ("Access-Control-Allow-Methods", HList(["GET", "POST", "PUT", "PATCH", "DELETE", "OPTIONS"])),
      ("Access-Control-Allow-Headers", HList(["Content-Length", "Content-Type", "Authorization", "Range", "*"] + allowHeaders)),
      ("Access-Control-Allow-Credentials", HText("true")),
      ("Access-Control-Max-Age", HText("86400")),
      ("Accept-Ranges", HText("bytes")),
      ("Connection", HText("keep-alive")),
      ("Keep-Alive", HList(["timeout=5", "max=30"])) ]
  }

  /** No default header name is as long as `Access-Control-Allow-Origin`. */
  lemma DefaultHeaderNames(allowHeaders: seq<string>)
    ensures forall i :: 0 <= i < |DefaultHeaders(allowHeaders)| ==> |DefaultHeaders(allowHeaders)[i].0| != 27
  {
    var hs := DefaultHeaders(allowHeaders);
    assert |hs| == 10;
    assert |hs[0].0| == 6 && |hs[1].0| == 6 && |hs[2].0| == 15 && |hs[3].0| == 28 && |hs[4].0| == 28;
    assert |hs[5].0| == 32 && |hs[6].0| == 22 && |hs[7].0| == 13 && |hs[8].0| == 10 && |hs[9].0| == 10;
  }

  function SetHeaders(o: Outgoing, hs: seq<(string, HeaderValue)>): (r: Outgoing)
    ensures r.head == o.head && r.statusCode == o.statusCode && r.body == o.body && r.ended == o.ended
    decreases |hs|
  {
    if |hs| == 0 then o else SetHeaders(SetHeaderOn(o, hs[0].0, hs[0].1), hs[1..])
  }

  lemma {:induction false} SetHeadersKeep(o: Outgoing, hs: seq<(string, HeaderValue)>, key: string)
    requires forall i :: 0 <= i < |hs| ==> |hs[i].0| != |key|
    requires key in o.headers
    ensures var r := SetHeaders(o, hs); key in r.headers && r.headers[key] == o.headers[key]
    decreases |hs|
  {
    if |hs| > 0 {
      assert |AsciiLower(hs[0].0)| != |key|;
      SetHeadersKeep(SetHeaderOn(o, hs[0].0, hs[0].1), hs[1..], key);
    }
  }

  /** The response once the CORS origin and the default headers are set, before any status is decided. */
  function Prepared(req: IncomingRequest, config: Config, dev: bool): (o: Outgoing)
    ensures o.head.None? && o.statusCode == Some(200) && o.body == [] && !o.ended
  {
    var pure := PureOrigin(req.headers.origin, req.headers.host);
    var allow := AllowOriginHeader(config.allowOrigin, dev, StripScheme(pure), OriginWithProtocol(pure, dev));
    SetHeaders(SetHeaderOn(Fresh, "Access-Control-Allow-Origin", HText(allow)), DefaultHeaders(config.allowHeaders))
  }

  /** A JSON error response: `writeHead(code)` and the message object as the body. */
  function ErrorResponse(o: Outgoing, code: int, message: JsonValue, ser: Serializers): Handled {
    match JsonEnd(o, code, ser.utf8(ser.stringify(message)))
    case Some(r) => Sent(r)
    case None => Rejected
  }

  /** `requestHandler(req, res)`. */
  function HandleRequest(req: IncomingRequest, config: Config, env: Environment): Handled {
    match ReadRequest(req, env.decode)
    case None => Rejected
    case Some(data) =>
      var o := Prepared(req, config, env.dev);
      var withProtocol := OriginWithProtocol(PureOrigin(req.headers.origin, req.headers.host), env.dev);
      if IsOptions(data.verb) then Sent(EndOn(o.(statusCode := Some(204))))
      else if !Patterns.IsAcceptableContentType(data.contentType) then
        ErrorResponse(o, 415, JsonMessage(MessageOr(config.messages.unsupportedMediaType, "Unsupported media type")), env.ser)
      else if BodySize(req.headers.contentLength) > MaxBodySize(config.bodyMaxSize) then
        ErrorResponse(o, 413, JsonMessage(MessageOr(config.messages.requestTooLong, "Request entity too large")), env.ser)
      else if !IsGet(data.verb) && env.bodyError.Some? then
        ErrorResponse(o, 400, JObject([("message", JString("Invalid body")), ("error", JString(env.bodyError.value))]), env.ser)
      else if withProtocol != "*" && !env.validUrl(withProtocol) then
        ErrorResponse(o, 500, JsonMessage(MessageOr(config.messages.internalServerError, "Internal server error")), env.ser)
      else
        var run := env.tunnel(data);
        var after := ApplyAll(o, run.events, env.serialize);
        if run.throws then
          ErrorResponse(after, 500, JsonMessage(MessageOr(config.messages.internalServerError, "Internal server error")), env.ser)
        else Sent(after)
  }

  /** The head status of a handled request, when one was sent. */
  function SentStatus(h: Handled): Option<int> {
    if h.Sent? && h.response.head.Some? then h.response.head.value.status else None
  }

  /** A path that cannot be decoded rejects the handler before anything is set. */
  lemma UndecodablePathRejects(req: IncomingRequest, config: Config, env: Environment)
    requires env.decode(UrlParts(req.url).0).None?
    ensures HandleRequest(req, config, env) == Rejected
  {
  }

  /** The lower-cased name of the CORS origin header. */
  lemma AllowOriginKey()
    ensures AsciiLower("Access-Control-Allow-Origin") == "access-control-allow-origin"
  {
  }

  /** The CORS origin set first survives the default headers: no default header name is as long. */
  lemma AllowOriginSurvives(allow: string, allowHeaders: seq<string>)
    ensures var o := SetHeaders(SetHeaderOn(Fresh, "Access-Control-Allow-Origin", HText(allow)), DefaultHeaders(allowHeaders));
      "access-control-allow-origin" in o.headers && o.headers["access-control-allow-origin"] == HText(allow)
  {
    AllowOriginKey();
    DefaultHeaderNames(allowHeaders);
    SetHeadersKeep(SetHeaderOn(Fresh, "Access-Control-Allow-Origin", HText(allow)), DefaultHeaders(allowHeaders), "access-control-allow-origin");
  }

  /** The prepared response carries the chosen CORS origin. */
  lemma PreparedAllowOrigin(req: IncomingRequest, config: Config, dev: bool)
    ensures var pure := PureOrigin(req.headers.origin, req.headers.host);
      var o := Prepared(req, config, dev);
      && "access-control-allow-origin" in o.headers
      && o.headers["access-control-allow-origin"] == HText(AllowOriginHeader(config.allowOrigin, dev, StripScheme(pure), OriginWithProtocol(pure, dev)))
  {
    var pure := PureOrigin(req.headers.origin, req.headers.host);
    AllowOriginSurvives(AllowOriginHeader(config.allowOrigin, dev, StripScheme(pure), OriginWithProtocol(pure, dev)), config.allowHeaders);
  }

  /** A preflight gets 204 with an empty body, whatever its content type and declared length, and carries the CORS origin. */
  lemma PreflightFirst(req: IncomingRequest, config: Config, env: Environment)
    requires env.decode(UrlParts(req.url).0).Some?
    requires IsOptions(WorkerRouter.RequestMethod(req.verb))
    ensures var h := HandleRequest(req, config, env);
      var pure := PureOrigin(req.headers.origin, req.headers.host);
      && h.Sent? && SentStatus(h) == Some(204) && h.response.body == [] && h.response.ended
      && "access-control-allow-origin" in h.response.head.value.headers
      && h.response.head.value.headers["access-control-allow-origin"] == HText(AllowOriginHeader(config.allowOrigin, env.dev, StripScheme(pure), OriginWithProtocol(pure, env.dev)))
  {
    PreparedAllowOrigin(req, config, env.dev);
  }

  /** An unacceptable content type gets 415 before the declared length is looked at. */
  lemma UnsupportedBeforeSize(req: IncomingRequest, config: Config, env: Environment)
    requires env.decode(UrlParts(req.url).0).Some?
    requires !IsOptions(WorkerRouter.RequestMethod(req.verb))
    requires !Patterns.IsAcceptableContentType(ContentTypeOf(req.headers.contentType))
    ensures var h := HandleRequest(req, config, env);
      && h.Sent? && SentStatus(h) == Some(415) && h.response.ended
      && h.response.body == env.ser.utf8(env.ser.stringify(JsonMessage(MessageOr(config.messages.unsupportedMediaType, "Unsupported media type"))))
  {
  }

  /** An acceptable non-preflight request whose declared length exceeds the maximum gets 413 with the message. */
  lemma TooLargeRejected(req: IncomingRequest, config: Config, env: Environment)
    requires env.decode(UrlParts(req.url).0).Some?
    requires !IsOptions(WorkerRouter.RequestMethod(req.verb))
    requires Patterns.IsAcceptableContentType(ContentTypeOf(req.headers.contentType))
    requires BodySize(req.headers.contentLength) > MaxBodySize(config.bodyMaxSize)
    ensures var h := HandleRequest(req, config, env);
      && h.Sent? && SentStatus(h) == Some(413) && h.response.ended
      && h.response.body == env.ser.utf8(env.ser.stringify(JsonMessage(MessageOr(config.messages.requestTooLong, "Request entity too large"))))
  {
  }

  /** A non-GET request whose body cannot be parsed gets 400 with `Invalid body` and the parser's error; a GET body is never read. */
  lemma InvalidBodyRejected(req: IncomingRequest, config: Config, env: Environment)
    requires env.decode(UrlParts(req.url).0).Some?
    requires !IsOptions(WorkerRouter.RequestMethod(req.verb))
    requires Patterns.IsAcceptableContentType(ContentTypeOf(req.headers.contentType))
    requires BodySize(req.headers.contentLength) <= MaxBodySize(config.bodyMaxSize)
    ensures var h := HandleRequest(req, config, env);
      && (!IsGet(WorkerRouter.RequestMethod(req.verb)) && env.bodyError.Some? ==>
            && h.Sent? && SentStatus(h) == Some(400) && h.response.ended
            && h.response.body == env.ser.utf8(env.ser.stringify(JObject([("message", JString("Invalid body")), ("error", JString(env.bodyError.value))]))))
      && (IsGet(WorkerRouter.RequestMethod(req.verb)) ==> h == HandleRequest(req, config, env.(bodyError := None)))
  {
  }

  /** An origin that `new URL` refuses makes the handler answer 500 before the tunnel runs; a `*` origin is never parsed. */
  lemma InvalidOriginFails(req: IncomingRequest, config: Config, env: Environment)
    requires env.decode(UrlParts(req.url).0).Some?
    requires !IsOptions(WorkerRouter.RequestMethod(req.verb))
    requires Patterns.IsAcceptableContentType(ContentTypeOf(req.headers.contentType))
    requires BodySize(req.headers.contentLength) <= MaxBodySize(config.bodyMaxSize)
    requires IsGet(WorkerRouter.RequestMethod(req.verb)) || env.bodyError.None?
    requires var w := OriginWithProtocol(PureOrigin(req.headers.origin, req.headers.host), env.dev); w != "*" && !env.validUrl(w)
    ensures var h := HandleRequest(req, config, env);
      && h.Sent? && SentStatus(h) == Some(500) && h.response.ended
      && h.response.body == env.ser.utf8(env.ser.stringify(JsonMessage(MessageOr(config.messages.internalServerError, "Internal server error"))))
  {
  }

  /**
    A request that passes every check hands its data to the tunnel, and the
    response is the prepared one with the tunnel's events applied.
   */
  lemma TunnelEventsApplied(req: IncomingRequest, config: Config, env: Environment)
    requires env.decode(UrlParts(req.url).0).Some?
    requires !IsOptions(WorkerRouter.RequestMethod(req.verb))
    requires Patterns.IsAcceptableContentType(ContentTypeOf(req.headers.contentType))
    requires BodySize(req.headers.contentLength) <= MaxBodySize(config.bodyMaxSize)
    requires IsGet(WorkerRouter.RequestMethod(req.verb)) || env.bodyError.None?
    requires var w := OriginWithProtocol(PureOrigin(req.headers.origin, req.headers.host), env.dev); w == "*" || env.validUrl(w)
    ensures var data := ReadRequest(req, env.decode).value;
      var run := env.tunnel(data);
      !run.throws ==> HandleRequest(req, config, env) == Sent(ApplyAll(Prepared(req, config, env.dev), run.events, env.serialize))
    ensures var data := ReadRequest(req, env.decode).value;
      data.query == QueryOf(req.url) && data.path == env.decode(UrlParts(req.url).0).value
  {
  }

  /** A tunnel that throws before the head is sent gets 500; one that throws after the head is sent rejects the handler. */
  lemma TunnelFailure(req: IncomingRequest, config: Config, env: Environment)
    requires env.decode(UrlParts(req.url).0).Some?
    requires !IsOptions(WorkerRouter.RequestMethod(req.verb))
    requires Patterns.IsAcceptableContentType(ContentTypeOf(req.headers.contentType))
    requires BodySize(req.headers.contentLength) <= MaxBodySize(config.bodyMaxSize)
    requires IsGet(WorkerRouter.RequestMethod(req.verb)) || env.bodyError.None?
    requires var w := OriginWithProtocol(PureOrigin(req.headers.origin, req.headers.host), env.dev); w == "*" || env.validUrl(w)
    requires env.tunnel(ReadRequest(req, env.decode).value).throws
    ensures var run := env.tunnel(ReadRequest(req, env.decode).value);
      var after := ApplyAll(Prepared(req, config, env.dev), run.events, env.serialize);
      var h := HandleRequest(req, config, env);
      && (after.head.None? ==> SentStatus(h) == Some(500))
      && (after.head.Some? ==> h == Rejected)
  {
  }
}

=== FILE: route_clean.dfy ===
/**
  Route-file path cleaning: the chain of regular-expression replacements that
  turns a compiled route file's path (relative to the routes folder) into the
  route string it serves. Three generations share the chain's shape and
  differ in the group character class and in the route file names they strip:

  - `src/utils/response.ts` (`parseRoutePathname`): groups of
    `[A-zÀ-ú0-9-_$]` under the `i` flag, and `route.{mjs,cjs,js,ts}`;
  - `src/utils/router-tools.ts` and `src/lib/router-tools.ts`: groups of
    `[a-z0-1]` under the `i` flag, and `route.mjs` only.
 */
module RouteCleaning {
  import opened Wrappers
  import opened Strings

  /** The identifier class `[A-zÀ-ú0-9-_$]`. The ASCII range `A-z` also holds `[ \ ] ^ _` and the backquote. */
  predicate IsIdentChar(c: char) {
    ('A' <= c <= 'z') || ('À' <= c <= 'ú') || IsAsciiDigit(c) || c == '-' || c == '_' || c == '$'
  }

  /**
    The identifier class under a regular expression's `i` flag. Both sides are
    upper-cased before comparing, so û ü ý þ (U+00FB..U+00FE), whose capitals
    lie in À..Þ, match as well; no other character is added.
   */
  predicate IsIdentCharFolded(c: char) {
    IsIdentChar(c) || ('û' <= c <= 'þ')
  }

  /** The generation whose cleaning rules apply. */
  datatype Dialect = Current | Legacy

  /** The class a `(group)` name is made of, case-insensitively. */
  predicate InGroupClass(d: Dialect, c: char) {
    match d
    case Current => IsIdentCharFolded(c)
    case Legacy => IsAsciiUpper(c) || IsAsciiLower(c) || c == '0' || c == '1'
  }

  lemma GroupClassExcludesPunctuation(d: Dialect)
    ensures !InGroupClass(d, '/') && !InGroupClass(d, '(') && !InGroupClass(d, ')')
  {
  }

  /** Length of the longest prefix of `s` made of group-class characters. */
  function ClassRun(d: Dialect, s: string): (k: nat)
    ensures k <= |s|
    ensures forall i :: 0 <= i < k ==> InGroupClass(d, s[i])
    ensures k < |s| ==> !InGroupClass(d, s[k])
    decreases |s|
  {
    if |s| == 0 || !InGroupClass(d, s[0]) then 0 else 1 + ClassRun(d, s[1..])
  }

  /** `\([class]+\)` at the start of `s`: the class run must be closed by `)` right after it. */
  function ParenGroupLength(d: Dialect, s: string): (r: Option<nat>)
    ensures r.Some? ==> 3 <= r.value <= |s| && s[0] == '(' && s[r.value - 1] == ')'
  {
    if |s| >= 1 && s[0] == '(' then
      var k := ClassRun(d, s[1..]);
      if k >= 1 && 1 + k < |s| && s[1 + k] == ')' then Some(k + 2) else None
    else None
  }

  /** `[\/\\]?\([class]+\)` at the start of `s`: the optional separator is taken when a group follows it. */
  function GroupLength(d: Dialect, s: string): (r: Option<nat>)
    ensures r.Some? ==> 3 <= r.value <= |s|
    ensures r.Some? ==> s[0] == '(' || s[1] == '('
  {
    if |s| >= 1 && (s[0] == '/' || s[0] == '\\') && ParenGroupLength(d, s[1..]).Some? then
      Some(1 + ParenGroupLength(d, s[1..]).value)
    else ParenGroupLength(d, s)
  }

  /** `s.replace(/[\/\\]?\([class]+\)/gi, '')`: scanning left to right, every match is deleted. */
  function RemoveGroups(d: Dialect, s: string): string
    decreases |s|
  {
    if |s| == 0 then ""
    else match GroupLength(d, s)
      case Some(n) => RemoveGroups(d, s[n..])
      case None => [s[0]] + RemoveGroups(d, s[1..])
  }

  /** The route file names a generation strips. */
  function RouteFileNames(d: Dialect): seq<string> {
    match d
    case Current => ["route.mjs", "route.cjs", "route.js", "route.ts"]
    case Legacy => ["route.mjs"]
  }

  /** `s.replace(/route\.(mj|cj|j|t)s$/, '')` (or `/route\.mjs$/`): the file name is removed only at the very end. */
  function StripRouteFile(d: Dialect, s: string): (r: string)
    ensures r == s || exists f :: f in RouteFileNames(d) && EndsWith(s, f) && r == s[..|s| - |f|]
  {
    if EndsWith(s, "route.mjs") then s[..|s| - 9]
    else if d == Current && EndsWith(s, "route.cjs") then s[..|s| - 9]
    else if d == Current && EndsWith(s, "route.js") then s[..|s| - 8]
    else if d == Current && EndsWith(s, "route.ts") then s[..|s| - 8]
    else s
  }

  // `s.replace(/\/*$/, '')`.
  function StripTrailingSlashes(s: string): (r: string)
    ensures StartsWith(s, r)
    ensures |r| > 0 ==> r[|r| - 1] != '/'
    ensures forall i :: |r| <= i < |s| ==> s[i] == '/'
    decreases |s|
  {
    if |s| > 0 && s[|s| - 1] == '/' then StripTrailingSlashes(s[..|s| - 1]) else s
  }

  /** The text after the leading run of `/`. */
  function StripLeadingSlashes(s: string): (r: string)
    ensures EndsWith(s, r)
    ensures |r| > 0 ==> r[0] != '/'
    ensures forall i :: 0 <= i < |s| - |r| ==> s[i] == '/'
    decreases |s|
  {
    if |s| > 0 && s[0] == '/' then StripLeadingSlashes(s[1..]) else s
  }

  /**
    The cleaning chain: remove groups, remove the route file name at the end,
    remove trailing slashes, and replace the leading slashes by exactly one.
    The result starts with one `/` and ends with `/` only when it is `/`.
   */
  function CleanRoute(d: Dialect, pathname: string): (r: string)
    ensures |r| >= 1 && r[0] == '/'
    ensures |r| >= 2 ==> r[1] != '/' && r[|r| - 1] != '/'
  {
    var trimmed := StripTrailingSlashes(StripRouteFile(d, RemoveGroups(d, pathname)));
    var rest := StripLeadingSlashes(trimmed);
    assert |rest| > 0 ==> rest[|rest| - 1] == trimmed[|trimmed| - 1];
    "/" + rest
  }

  // ---------------------------------------------------------------------------
  // Group removal distributes over `/`-separated pieces
  // ---------------------------------------------------------------------------

  lemma ClassRunAppend(d: Dialect, p: string, q: string)
    requires |q| > 0 && !InGroupClass(d, q[0])
    ensures ClassRun(d, p + q) == ClassRun(d, p)
  {
    var k := ClassRun(d, p);
    assert forall i :: 0 <= i < k ==> (p + q)[i] == p[i];
    assert (p + q)[k] == if k < |p| then p[k] else q[0];
  }

  lemma ParenGroupAppend(d: Dialect, p: string, q: string)
    requires |p| > 0 && |q| > 0 && q[0] == '/'
    ensures ParenGroupLength(d, p + q) == ParenGroupLength(d, p)
  {
    var s := p + q;
    if p[0] == '(' {
      assert s[1..] == p[1..] + q;
      ClassRunAppend(d, p[1..], q);
      var k := ClassRun(d, p[1..]);
      if 1 + k < |p| {
        assert s[1 + k] == p[1 + k];
      } else {
        assert 1 + k == |p|;
        assert s[1 + k] == q[0];
      }
    }
  }

  lemma GroupAppend(d: Dialect, p: string, q: string)
    requires |p| > 0 && |q| > 0 && q[0] == '/'
    ensures GroupLength(d, p + q) == GroupLength(d, p)
    ensures GroupLength(d, p).Some? ==> GroupLength(d, p).value <= |p|
  {
    var s := p + q;
    ParenGroupAppend(d, p, q);
    if p[0] == '/' || p[0] == '\\' {
      assert s[1..] == p[1..] + q;
      if |p| > 1 {
        ParenGroupAppend(d, p[1..], q);
      } else {
        assert s[1..] == q;
      }
    }
  }

  lemma RemoveGroupsAtGroup(d: Dialect, s: string, n: nat)
    requires |s| > 0 && GroupLength(d, s) == Some(n)
    ensures n <= |s| && RemoveGroups(d, s) == RemoveGroups(d, s[n..])
  {
  }

  lemma RemoveGroupsAtChar(d: Dialect, s: string)
    requires |s| > 0 && GroupLength(d, s).None?
    ensures RemoveGroups(d, s) == [s[0]] + RemoveGroups(d, s[1..])
  {
  }

  lemma AppendKeepsGroupLength(d: Dialect, p: string, q: string)
    requires |p| > 0 && |q| > 0 && q[0] == '/'
    ensures GroupLength(d, p + q) == GroupLength(d, p)
  {
    GroupAppend(d, p, q);
  }

  lemma RemoveGroupsAppendAtGroup(d: Dialect, p: string, q: string, n: nat)
    requires n <= |p| && |p + q| > 0 && GroupLength(d, p + q) == Some(n)
    ensures RemoveGroups(d, p + q) == RemoveGroups(d, p[n..] + q)
  {
    RemoveGroupsAtGroup(d, p + q, n);
    assert (p + q)[n..] == p[n..] + q;
  }

  lemma RemoveGroupsAppendAtChar(d: Dialect, p: string, q: string)
    requires |p| > 0 && GroupLength(d, p + q).None?
    ensures RemoveGroups(d, p + q) == [p[0]] + RemoveGroups(d, p[1..] + q)
  {
    RemoveGroupsAtChar(d, p + q);
    assert (p + q)[1..] == p[1..] + q;
  }

  lemma AppendStepGroup(d: Dialect, p: string, q: string, n: nat)
    requires |p| > 0 && |q| > 0 && q[0] == '/'
    requires GroupLength(d, p) == Some(n)
    requires RemoveGroups(d, p[n..] + q) == RemoveGroups(d, p[n..]) + RemoveGroups(d, q)
    ensures RemoveGroups(d, p + q) == RemoveGroups(d, p) + RemoveGroups(d, q)
  {
    AppendKeepsGroupLength(d, p, q);
    RemoveGroupsAtGroup(d, p, n);
    RemoveGroupsAppendAtGroup(d, p, q, n);
  }

  lemma AppendStepChar(d: Dialect, p: string, q: string)
    requires |p| > 0 && |q| > 0 && q[0] == '/'
    requires GroupLength(d, p).None?
    requires RemoveGroups(d, p[1..] + q) == RemoveGroups(d, p[1..]) + RemoveGroups(d, q)
    ensures RemoveGroups(d, p + q) == RemoveGroups(d, p) + RemoveGroups(d, q)
  {
    AppendKeepsGroupLength(d, p, q);
    RemoveGroupsAppendAtChar(d, p, q);
    RemoveGroupsAtChar(d, p);
    ConcatAssoc([p[0]], RemoveGroups(d, p[1..]), RemoveGroups(d, q));
  }

  /** Group removal of two pieces, the second starting with `/`, is the removal of each. */
  lemma {:induction false} RemoveGroupsAppend(d: Dialect, p: string, q: string)
    requires |q| > 0 && q[0] == '/'
    ensures RemoveGroups(d, p + q) == RemoveGroups(d, p) + RemoveGroups(d, q)
    decreases |p|
  {
    if |p| == 0 {
      assert p + q == q;
    } else {
      match GroupLength(d, p)
      case Some(n) =>
        RemoveGroupsAppend(d, p[n..], q);
        AppendStepGroup(d, p, q, n);
      case None =>
        RemoveGroupsAppend(d, p[1..], q);
        AppendStepChar(d, p, q);
    }
  }

  /** Text without `(` has no group to remove. */
  lemma {:induction false} RemoveGroupsNoParen(d: Dialect, s: string)
    requires '(' !in s
    ensures RemoveGroups(d, s) == s
    decreases |s|
  {
    if |s| > 0 {
      assert GroupLength(d, s).None? by {
        if |s| > 1 {
          assert s[1] in s;
        }
      }
      RemoveGroupsNoParen(d, s[1..]);
    }
  }

  /** A group of class characters, with or without its leading `/`, disappears entirely. */
  lemma RemoveGroupsOfGroup(d: Dialect, name: string)
    requires |name| > 0 && forall i :: 0 <= i < |name| ==> InGroupClass(d, name[i])
    ensures RemoveGroups(d, "(" + name + ")") == ""
    ensures RemoveGroups(d, "/(" + name + ")") == ""
  {
    var g := "(" + name + ")";
    GroupLengthOfGroup(d, name);
    RemoveGroupsAtGroup(d, g, |g|);
    assert g[|g|..] == "";
    var h := "/(" + name + ")";
    assert h[1..] == g;
    assert GroupLength(d, h) == Some(|h|);
    RemoveGroupsAtGroup(d, h, |h|);
    assert h[|h|..] == "";
  }

  lemma GroupLengthOfGroup(d: Dialect, name: string)
    requires |name| > 0 && forall i :: 0 <= i < |name| ==> InGroupClass(d, name[i])
    ensures ParenGroupLength(d, "(" + name + ")") == Some(|name| + 2)
    ensures GroupLength(d, "(" + name + ")") == Some(|name| + 2)
  {
    var g := "(" + name + ")";
    assert g[1..] == name + ")";
    ClassRunAppend(d, name, ")");
    assert ClassRun(d, name) == |name|;
  }

  // ---------------------------------------------------------------------------
  // Cleaning a path made of directory entries
  // ---------------------------------------------------------------------------

  /** A directory on the way to a route file: a plain directory, or a `(group)` that does not show in the route. */
  datatype DirEntry = Plain(name: string) | Group(name: string)

  predicate ValidEntry(d: Dialect, e: DirEntry) {
    match e
    case Plain(n) => |n| > 0 && '/' !in n && '(' !in n
    case Group(n) => |n| > 0 && forall i :: 0 <= i < |n| ==> InGroupClass(d, n[i])
  }

  function EntryText(e: DirEntry): string {
    match e
    case Plain(n) => n
    case Group(n) => "(" + n + ")"
  }

  function EntryTexts(es: seq<DirEntry>): (r: seq<string>)
    ensures |r| == |es|
    ensures forall i :: 0 <= i < |es| ==> r[i] == EntryText(es[i])
  {
    seq(|es|, i requires 0 <= i < |es| => EntryText(es[i]))
  }

  /** The names of the plain directories, in order: the route's visible segments. */
  function PlainNames(es: seq<DirEntry>): seq<string>
    decreases |es|
  {
    if |es| == 0 then [] else (if es[0].Plain? then [es[0].name] else []) + PlainNames(es[1..])
  }

  /** Every piece preceded by `/`. */
  function SlashJoin(parts: seq<string>): string
    decreases |parts|
  {
    if |parts| == 0 then "" else "/" + parts[0] + SlashJoin(parts[1..])
  }

  lemma {:induction false} JoinHeadSlashJoin(parts: seq<string>)
    requires |parts| > 0
    ensures Join(parts, "/") == parts[0] + SlashJoin(parts[1..])
    decreases |parts|
  {
    if |parts| > 1 {
      JoinHeadSlashJoin(parts[1..]);
      assert parts[1..][1..] == parts[2..];
    }
  }

  lemma {:induction false} SlashJoinSnoc(parts: seq<string>, last: string)
    ensures SlashJoin(parts + [last]) == SlashJoin(parts) + "/" + last
    decreases |parts|
  {
    if |parts| > 0 {
      assert (parts + [last])[1..] == parts[1..] + [last];
      SlashJoinSnoc(parts[1..], last);
    } else {
      assert parts + [last] == [last];
    }
  }

  lemma SlashJoinCons(p: string, rest: seq<string>)
    ensures SlashJoin([p] + rest) == "/" + p + SlashJoin(rest)
  {
    assert ([p] + rest)[1..] == rest;
  }

  lemma SlashJoinPlainNames(es: seq<DirEntry>)
    requires |es| > 0
    ensures SlashJoin(PlainNames(es)) == KeptPiece(es[0]) + SlashJoin(PlainNames(es[1..]))
  {
    if es[0].Plain? {
      SlashJoinCons(es[0].name, PlainNames(es[1..]));
    } else {
      assert PlainNames(es) == PlainNames(es[1..]);
    }
  }

  /** What group removal leaves of one `/`-prefixed directory entry. */
  function KeptPiece(e: DirEntry): string {
    if e.Plain? then "/" + e.name else ""
  }

  lemma RemoveGroupsEntry(d: Dialect, e: DirEntry)
    requires ValidEntry(d, e)
    ensures RemoveGroups(d, "/" + EntryText(e)) == KeptPiece(e)
  {
    match e
    case Plain(n) =>
      RemoveGroupsNoParen(d, "/" + n);
    case Group(n) =>
      RemoveGroupsOfGroup(d, n);
      assert "/" + EntryText(e) == "/(" + n + ")";
  }

  /** Removing groups from the `/`-prefixed entry texts leaves exactly the `/`-prefixed plain names. */
  lemma {:induction false} RemoveGroupsSlashJoin(d: Dialect, es: seq<DirEntry>)
    requires forall i :: 0 <= i < |es| ==> ValidEntry(d, es[i])
    ensures RemoveGroups(d, SlashJoin(EntryTexts(es))) == SlashJoin(PlainNames(es))
    decreases |es|
  {
    if |es| > 0 {
      var ts := EntryTexts(es);
      assert ts[1..] == EntryTexts(es[1..]);
      RemoveGroupsSlashJoin(d, es[1..]);
      RemoveGroupsEntry(d, es[0]);
      var head := "/" + ts[0];
      var tail := SlashJoin(ts[1..]);
      assert SlashJoin(ts) == head + tail;
      if |es| > 1 {
        RemoveGroupsAppend(d, head, tail);
      } else {
        assert SlashJoin(ts) == head;
        assert tail == "";
      }
      SlashJoinPlainNames(es);
    }
  }

  lemma {:induction false} StripLeadingSlashJoin(parts: seq<string>)
    requires forall i :: 0 <= i < |parts| ==> |parts[i]| > 0 && '/' !in parts[i]
    ensures StripLeadingSlashes(SlashJoin(parts)) == Join(parts, "/")
  {
    if |parts| > 0 {
      var s := SlashJoin(parts);
      assert s == "/" + (parts[0] + SlashJoin(parts[1..]));
      assert s[1..] == parts[0] + SlashJoin(parts[1..]);
      assert s[1..][0] == parts[0][0];
      assert parts[0][0] in parts[0];
      JoinHeadSlashJoin(parts);
    }
  }

  lemma {:induction false} SlashJoinEnd(parts: seq<string>)
    requires forall i :: 0 <= i < |parts| ==> |parts[i]| > 0 && '/' !in parts[i]
    ensures |SlashJoin(parts)| > 0 ==> SlashJoin(parts)[|SlashJoin(parts)| - 1] != '/'
    decreases |parts|
  {
    if |parts| > 0 {
      SlashJoinEnd(parts[1..]);
      var last := parts[0][|parts[0]| - 1];
      assert last in parts[0];
    }
  }

  lemma {:induction false} PlainNamesValid(d: Dialect, es: seq<DirEntry>)
    requires forall i :: 0 <= i < |es| ==> ValidEntry(d, es[i])
    ensures forall i :: 0 <= i < |PlainNames(es)| ==> |PlainNames(es)[i]| > 0 && '/' !in PlainNames(es)[i]
    decreases |es|
  {
    if |es| > 0 {
      PlainNamesValid(d, es[1..]);
    }
  }

  /** The path of a route file below the given directories: `dir/(group)/.../route.mjs`. */
  function RouteFilePath(es: seq<DirEntry>, file: string): string {
    Join(EntryTexts(es) + [file], "/")
  }

  lemma StripRouteFileOf(d: Dialect, prefix: string, file: string)
    requires file in RouteFileNames(d)
    ensures StripRouteFile(d, prefix + "/" + file) == prefix + "/"
  {
    var s := prefix + "/" + file;
    var n := |s|;
    assert s[n - |file|..] == file;
    assert s[..n - |file|] == prefix + "/";
    assert s[n - 1] == file[|file| - 1] && s[n - 2] == file[|file| - 2] && s[n - 3] == file[|file| - 3];
    if file == "route.cjs" {
      assert s[n - 3] != "route.mjs"[6];
    } else if file == "route.js" {
      assert s[n - 3] != "route.mjs"[6] && s[n - 3] != "route.cjs"[6];
    } else if file == "route.ts" {
      assert s[n - 3] != "route.mjs"[6] && s[n - 3] != "route.cjs"[6] && s[n - 2] != "route.js"[6];
    }
  }

  /** What group removal keeps of a non-empty directory list: the first plain name bare, later ones `/`-prefixed. */
  function Kept(es: seq<DirEntry>): string
    requires |es| > 0
  {
    (if es[0].Plain? then es[0].name else "") + SlashJoin(PlainNames(es[1..]))
  }

  lemma {:induction false} RouteFilePathSplit(es: seq<DirEntry>, file: string)
    requires |es| > 0
    ensures RouteFilePath(es, file) == EntryText(es[0]) + (SlashJoin(EntryTexts(es[1..])) + ("/" + file))
  {
    var ts := EntryTexts(es);
    JoinHeadSlashJoin(ts + [file]);
    assert (ts + [file])[0] == ts[0];
    assert (ts + [file])[1..] == ts[1..] + [file];
    SlashJoinSnoc(ts[1..], file);
    assert ts[1..] == EntryTexts(es[1..]);
  }

  /** The first character of a non-empty `SlashJoin` is `/`. */
  lemma SlashJoinStart(parts: seq<string>)
    ensures |SlashJoin(parts)| > 0 ==> SlashJoin(parts)[0] == '/'
  {
  }

  lemma RemoveGroupsHead(d: Dialect, e: DirEntry)
    requires ValidEntry(d, e)
    ensures RemoveGroups(d, EntryText(e)) == if e.Plain? then e.name else ""
  {
    if e.Plain? {
      RemoveGroupsNoParen(d, EntryText(e));
    } else {
      RemoveGroupsOfGroup(d, e.name);
    }
  }

  lemma RemoveGroupsTail(d: Dialect, es: seq<DirEntry>, file: string)
    requires forall i :: 0 <= i < |es| ==> ValidEntry(d, es[i])
    requires '(' !in file
    ensures RemoveGroups(d, SlashJoin(EntryTexts(es)) + ("/" + file)) == SlashJoin(PlainNames(es)) + ("/" + file)
    ensures (SlashJoin(EntryTexts(es)) + ("/" + file))[0] == '/'
  {
    var mid := SlashJoin(EntryTexts(es));
    var slashFile := "/" + file;
    RemoveGroupsNoParen(d, slashFile);
    RemoveGroupsSlashJoin(d, es);
    RemoveGroupsAppend(d, mid, slashFile);
    SlashJoinStart(EntryTexts(es));
  }

  lemma {:induction false} RemoveGroupsRouteFilePath(d: Dialect, es: seq<DirEntry>, file: string)
    requires |es| > 0
    requires forall i :: 0 <= i < |es| ==> ValidEntry(d, es[i])
    requires '(' !in file
    ensures RemoveGroups(d, RouteFilePath(es, file)) == Kept(es) + "/" + file
  {
    RouteFilePathSplit(es, file);
    var head := EntryText(es[0]);
    var rest := SlashJoin(EntryTexts(es[1..])) + ("/" + file);
    assert RouteFilePath(es, file) == head + rest;
    RemoveGroupsTail(d, es[1..], file);
    RemoveGroupsHead(d, es[0]);
    RemoveGroupsAppend(d, head, rest);
    var khead := if es[0].Plain? then es[0].name else "";
    var kmid := SlashJoin(PlainNames(es[1..]));
    ConcatAssoc(khead, kmid, "/" + file);
    ConcatAssoc(khead + kmid, "/", file);
  }

  lemma KeptStrip(d: Dialect, es: seq<DirEntry>)
    requires |es| > 0
    requires forall i :: 0 <= i < |es| ==> ValidEntry(d, es[i])
    ensures StripLeadingSlashes(Kept(es)) == Join(PlainNames(es), "/")
  {
    if es[0].Plain? {
      KeptStripPlain(d, es);
    } else {
      var tail := PlainNames(es[1..]);
      assert forall i :: 0 <= i < |es| - 1 ==> es[1..][i] == es[i + 1];
      PlainNamesValid(d, es[1..]);
      assert PlainNames(es) == tail;
      assert Kept(es) == SlashJoin(tail);
      StripLeadingSlashJoin(tail);
    }
  }

  lemma KeptStripPlain(d: Dialect, es: seq<DirEntry>)
    requires |es| > 0 && es[0].Plain? && ValidEntry(d, es[0])
    ensures StripLeadingSlashes(Kept(es)) == Join(PlainNames(es), "/")
  {
    var n := es[0].name;
    var names := [n] + PlainNames(es[1..]);
    assert PlainNames(es) == names;
    JoinHeadSlashJoin(names);
    assert names[0] == n && names[1..] == PlainNames(es[1..]);
    assert Kept(es)[0] == n[0];
    assert n[0] in n;
  }

  lemma KeptEnd(d: Dialect, es: seq<DirEntry>)
    requires |es| > 0
    requires forall i :: 0 <= i < |es| ==> ValidEntry(d, es[i])
    ensures |Kept(es)| > 0 ==> Kept(es)[|Kept(es)| - 1] != '/'
  {
    var tailNames := PlainNames(es[1..]);
    PlainNamesValid(d, es[1..]);
    SlashJoinEnd(tailNames);
    var head := if es[0].Plain? then es[0].name else "";
    var tail := SlashJoin(tailNames);
    assert Kept(es) == head + tail;
    if |tail| == 0 && |head| > 0 {
      assert head[|head| - 1] in head;
      assert (head + tail)[|head + tail| - 1] == head[|head| - 1];
    } else if |tail| > 0 {
      assert (head + tail)[|head + tail| - 1] == tail[|tail| - 1];
    }
  }

  /**
    Cleaning the path of a route file gives `/` followed by the plain
    directory names joined with `/`: every group is removed, the route file
    name and the slashes around it are removed, and nothing else changes.
   */
  lemma {:induction false} CleanRouteFilePath(d: Dialect, es: seq<DirEntry>, file: string)
    requires forall i :: 0 <= i < |es| ==> ValidEntry(d, es[i])
    requires file in RouteFileNames(d)
    ensures CleanRoute(d, RouteFilePath(es, file)) == "/" + Join(PlainNames(es), "/")
  {
    RouteFileNamesPlain(d, file);
    if |es| == 0 {
      assert RouteFilePath(es, file) == file;
      RemoveGroupsNoParen(d, file);
      StripRouteFileAlone(d, file);
    } else {
      var kept := Kept(es);
      RemoveGroupsRouteFilePath(d, es, file);
      StripRouteFileOf(d, kept, file);
      TrailingSlashOfKept(d, es);
      KeptStrip(d, es);
    }
  }

  lemma RouteFileNamesPlain(d: Dialect, file: string)
    requires file in RouteFileNames(d)
    ensures '(' !in file && |file| >= 8
  {
  }

  lemma StripRouteFileAlone(d: Dialect, file: string)
    requires file in RouteFileNames(d)
    ensures StripRouteFile(d, file) == ""
  {
    assert EndsWith(file, file);
  }

  lemma TrailingSlashOfKept(d: Dialect, es: seq<DirEntry>)
    requires |es| > 0
    requires forall i :: 0 <= i < |es| ==> ValidEntry(d, es[i])
    ensures StripTrailingSlashes(Kept(es) + "/") == Kept(es)
  {
    var kept := Kept(es);
    KeptEnd(d, es);
    assert (kept + "/")[..|kept + "/"| - 1] == kept;
  }

  // ---------------------------------------------------------------------------
  // What cleaning does not promise
  // ---------------------------------------------------------------------------

  /** Group removal is a single left-to-right pass: a group nested in another leaves the outer one behind. */
  lemma NestedGroupSurvives()
    ensures RemoveGroups(Current, "(a(b))") == "(a)"
  {
    var s := "(a(b))";
    assert ClassRun(Current, s[1..]) == 1;
    assert GroupLength(Current, s) == None;
    assert GroupLength(Current, s[1..]) == None;
    assert s[2..][1..] == "b))";
    assert ClassRun(Current, s[2..][1..]) == 1;
    assert GroupLength(Current, s[2..]) == Some(3);
    assert s[2..][3..] == ")";
    assert GroupLength(Current, ")") == None;
  }

  lemma TwoDirPath(a: string, b: string, file: string)
    ensures RouteFilePath([Plain(a), Plain(b)], file) == a + "/" + b + "/" + file
  {
    var parts := [a, b, file];
    assert EntryTexts([Plain(a), Plain(b)]) + [file] == parts;
    assert parts[1..] == [b, file];
    assert parts[1..][1..] == [file];
    assert Join(parts[1..], "/") == b + "/" + file;
    assert Join(parts, "/") == (a + "/") + ((b + "/") + file);
    ConcatAssoc(a + "/", b + "/", file);
    ConcatAssoc(a + "/", b, "/");
  }

  lemma TwoDirNames(a: string, b: string)
    ensures Join(PlainNames([Plain(a), Plain(b)]), "/") == a + "/" + b
  {
    var es := [Plain(a), Plain(b)];
    assert es[1..] == [Plain(b)];
    assert es[1..][1..] == [];
    assert PlainNames(es[1..]) == [b] + PlainNames([]);
    assert PlainNames(es) == [a] + [b];
    assert [a, b][1..] == [b];
  }

  /** The route file name is stripped before the trailing slashes, so a directory named like a route file can end the route. */
  lemma RouteFileNameCanEndRoute(dir: string)
    requires |dir| > 0 && '/' !in dir && '(' !in dir
    ensures CleanRoute(Current, dir + "/" + "route.js" + "/" + "route.mjs") == "/" + (dir + "/" + "route.js")
  {
    TwoDirPath(dir, "route.js", "route.mjs");
    TwoDirNames(dir, "route.js");
    CleanRouteFilePath(Current, [Plain(dir), Plain("route.js")], "route.mjs");
  }
}

=== FILE: route_current.dfy ===
/**
  Route compilation, matching and ordering of the current generation
  (`src/utils/response.ts`): `parseRoutePathnameToRegexp`,
  `findRoutePathnames`, `sortCompiledRoutes` and `findMiddlewarePathnames`.

  The generated regular expression is modelled by a segment matcher. For a
  route of segments `s1 ... sn` the expression is `^` followed by one part
  per segment and an optional trailing `/`:

  - static text `t`: the literal `/t`;
  - `[name]`: `/` then one or more characters of `[A-zÀ-ú0-9-_:$%]`;
  - `[...name]`: an optional `/` then any number of those characters or `/`.

  Each capture is forced: a dynamic capture runs up to the next `/` or the
  end, and a catch-all (always last in a compiled route) takes the rest.
 */
module RouteCurrent {
  import opened Wrappers
  import opened Strings
  import opened Paths
  import opened RouteCleaning
  import opened RouteTokens
  import opened Sorting
  import opened DirectoryList

  /** The compiled output folder and the routes folder inside it. */
  const CompiledFolder: string := ".intrest"
  const CompiledRoutes: string := "routes"

  datatype CompiledRoute = CompiledRoute(pathname: string, route: string, vars: seq<string>, segments: seq<Segment>)

  /** Why a route file yields no compiled route: the source throws `Invalid route path`, or the route lies outside this model. */
  datatype CompileError = InvalidRoutePath(escaped: string) | OutsideModel(route: string)

  // ---------------------------------------------------------------------------
  // Compilation
  // ---------------------------------------------------------------------------

  /**
    `parseRoutePathnameToRegexp(pathname, basePath)`: escape, clean, reject a
    catch-all that is not last, then collect the names and the segments.
   */
  function CompileRoute(pathname: string, basePath: string): (r: Result<CompiledRoute, CompileError>)
    ensures var escaped := EscapePath(pathname, basePath);
      var cleaned := CleanRoute(Current, escaped);
      && (r.Success? ==>
            && r.value.pathname == pathname && r.value.route == cleaned
            && ValidSegments(r.value.segments) && RouteText(r.value.segments) == cleaned
            && r.value.vars == Names(r.value.segments)
            && !CatchAllBeforeEnd(r.value.segments))
      && (r.Failure? && r.error.InvalidRoutePath? ==> r.error.escaped == escaped)
      && (ClassifyRoute(cleaned).Some? ==> (r.Failure? <==> CatchAllBeforeEnd(ClassifyRoute(cleaned).value)))
      && (ClassifyRoute(cleaned).Some? && r.Failure? ==> r.error.InvalidRoutePath?)
  {
    var escaped := EscapePath(pathname, basePath);
    var cleaned := CleanRoute(Current, escaped);
    if InvalidRoute(cleaned) then
      InvalidRouteClassified(cleaned);
      Failure(InvalidRoutePath(escaped))
    else
      match ClassifyRoute(cleaned)
      case None => Failure(OutsideModel(cleaned))
      case Some(segs) =>
        VarsIff(segs);
        InvalidRouteIff(segs);
        Success(CompiledRoute(pathname, cleaned, Vars(cleaned), segs))
  }

  lemma InvalidRouteClassified(cleaned: string)
    ensures ClassifyRoute(cleaned).Some? ==> (InvalidRoute(cleaned) <==> CatchAllBeforeEnd(ClassifyRoute(cleaned).value))
  {
    if ClassifyRoute(cleaned).Some? {
      InvalidRouteIff(ClassifyRoute(cleaned).value);
    }
  }

  // ---------------------------------------------------------------------------
  // Matching
  // ---------------------------------------------------------------------------

  /** The capture class of a dynamic segment, `[A-zÀ-ú0-9-_:$%]`. */
  predicate IsParamChar(c: char) {
    IsIdentChar(c) || c == ':' || c == '%'
  }

  /** The capture class of a catch-all, which adds `/`. */
  predicate IsRestChar(c: char) {
    IsParamChar(c) || c == '/'
  }

  /** A value a catch-all can capture. */
  predicate IsRestValue(s: string) {
    forall i :: 0 <= i < |s| ==> IsRestChar(s[i])
  }

  /** What a catch-all captures of the rest of the path: all of it after an optional leading `/`. */
  function CatchAllCapture(path: string): string {
    if |path| > 0 && path[0] == '/' then path[1..] else path
  }

  function ParamRun(s: string): (k: nat)
    ensures k <= |s|
    ensures forall i :: 0 <= i < k ==> IsParamChar(s[i])
    ensures k < |s| ==> !IsParamChar(s[k])
    decreases |s|
  {
    if |s| == 0 || !IsParamChar(s[0]) then 0 else 1 + ParamRun(s[1..])
  }

  /** Matches the segments against `path` and then the optional trailing `/` and the end; the captures in order. */
  function MatchFrom(segs: seq<Segment>, path: string): (r: Option<seq<string>>)
    ensures r.Some? ==> |r.value| == |Names(segs)|
    decreases |segs|
  {
    if |segs| == 0 then
      if path == "" || path == "/" then Some([]) else None
    else match segs[0]
      case Static(t) =>
        if StartsWith(path, "/" + t) then MatchFrom(segs[1..], path[|t| + 1..]) else None
      case Dynamic(_) =>
        if |path| > 0 && path[0] == '/' && ParamRun(path[1..]) > 0 then
          var k := ParamRun(path[1..]);
          var rest :- MatchFrom(segs[1..], path[k + 1..]);
          Some([path[1..k + 1]] + rest)
        else None
      case CatchAll(_) =>
        if |segs| == 1 then
          var t := CatchAllCapture(path);
          if IsRestValue(t) then Some([t]) else None
        else None
  }

  /** `paramRegexp.exec(path)`: the captures when the route's expression matches. The root route matches `/` and `//`. */
  function MatchRoute(segs: seq<Segment>, path: string): (r: Option<seq<string>>)
    ensures r.Some? ==> |r.value| == |Names(segs)|
    ensures |segs| == 0 ==> (r.Some? <==> path == "/" || path == "//")
  {
    if |segs| == 0 then
      if path == "/" || path == "//" then Some([]) else None
    else MatchFrom(segs, path)
  }

  /** The values a route's parameters can take: a dynamic value is one or more capture characters, a catch-all value any run of them and `/`. */
  predicate Fits(segs: seq<Segment>, vals: seq<string>)
    decreases |segs|
  {
    if |segs| == 0 then vals == []
    else if segs[0].Static? then Fits(segs[1..], vals)
    else
      && |vals| > 0
      && (segs[0].Dynamic? ==> |vals[0]| > 0 && forall i :: 0 <= i < |vals[0]| ==> IsParamChar(vals[0][i]))
      && (segs[0].CatchAll? ==> IsRestValue(vals[0]))
      && Fits(segs[1..], vals[1..])
  }

  lemma {:induction false} FitsLength(segs: seq<Segment>, vals: seq<string>)
    requires Fits(segs, vals)
    ensures |vals| == |Names(segs)|
    decreases |segs|
  {
    if |segs| > 0 {
      if segs[0].Static? {
        FitsLength(segs[1..], vals);
      } else {
        FitsLength(segs[1..], vals[1..]);
      }
    }
  }

  /** The path a route serves for the given parameter values: each segment after a `/`, the values in place of the parameters. */
  function Instantiate(segs: seq<Segment>, vals: seq<string>): (p: string)
    requires Fits(segs, vals)
    ensures |p| == 0 || p[0] == '/'
    decreases |segs|
  {
    if |segs| == 0 then ""
    else if segs[0].Static? then "/" + segs[0].text + Instantiate(segs[1..], vals)
    else "/" + vals[0] + Instantiate(segs[1..], vals[1..])
  }

  lemma ParamRunOf(v: string, rest: string)
    requires forall i :: 0 <= i < |v| ==> IsParamChar(v[i])
    requires |rest| == 0 || rest[0] == '/'
    ensures ParamRun(v + rest) == |v|
  {
    var s := v + rest;
    assert forall i :: 0 <= i < |v| ==> s[i] == v[i];
    assert |rest| > 0 ==> s[|v|] == rest[0];
  }

  lemma CatchAllLast(segs: seq<Segment>)
    requires |segs| > 0 && segs[0].CatchAll? && !CatchAllBeforeEnd(segs)
    ensures |segs| == 1
  {
    assert !(segs[0].CatchAll? && 0 < |segs| - 1);
  }

  lemma CatchAllBeforeEndTail(segs: seq<Segment>)
    requires |segs| > 0 && !CatchAllBeforeEnd(segs)
    ensures !CatchAllBeforeEnd(segs[1..])
  {
    forall i | 0 <= i < |segs[1..]| - 1 ensures !segs[1..][i].CatchAll? {
      assert !segs[i + 1].CatchAll?;
    }
  }

  lemma MatchStaticStep(segs: seq<Segment>, t: string, rest: string)
    requires |segs| > 0 && segs[0] == Static(t)
    ensures MatchFrom(segs, "/" + t + rest) == MatchFrom(segs[1..], rest)
  {
    var path := "/" + t + rest;
    assert path[..|t| + 1] == "/" + t;
    assert path[|t| + 1..] == rest;
  }

  lemma MatchDynamicStep(segs: seq<Segment>, v: string, rest: string)
    requires |segs| > 0 && segs[0].Dynamic?
    requires |v| > 0 && forall i :: 0 <= i < |v| ==> IsParamChar(v[i])
    requires |rest| == 0 || rest[0] == '/'
    ensures MatchFrom(segs, "/" + v + rest) ==
      (if MatchFrom(segs[1..], rest).Some? then Some([v] + MatchFrom(segs[1..], rest).value) else None)
  {
    var path := "/" + v + rest;
    assert path[1..] == v + rest;
    ParamRunOf(v, rest);
    assert path[1..|v| + 1] == v;
    assert path[|v| + 1..] == rest;
  }

  lemma MatchCatchAllStep(segs: seq<Segment>, v: string)
    requires |segs| == 1 && segs[0].CatchAll?
    requires IsRestValue(v)
    ensures MatchFrom(segs, "/" + v) == Some([v])
  {
    var path := "/" + v;
    assert path[1..] == v;
  }

  /** A route matches the path it serves for any parameter values, and gives those values back as its captures. */
  lemma {:induction false} MatchInstantiate(segs: seq<Segment>, vals: seq<string>)
    requires ValidSegments(segs) && !CatchAllBeforeEnd(segs) && Fits(segs, vals)
    ensures MatchFrom(segs, Instantiate(segs, vals)) == Some(vals)
    decreases |segs|
  {
    if |segs| > 0 {
      CatchAllBeforeEndTail(segs);
      if segs[0].Static? {
        MatchInstantiate(segs[1..], vals);
        MatchStaticStep(segs, segs[0].text, Instantiate(segs[1..], vals));
      } else if segs[0].Dynamic? {
        MatchInstantiate(segs[1..], vals[1..]);
        MatchDynamicStep(segs, vals[0], Instantiate(segs[1..], vals[1..]));
        assert vals == [vals[0]] + vals[1..];
      } else {
        CatchAllLast(segs);
        assert segs == [segs[0]];
        assert Instantiate(segs, vals) == "/" + vals[0];
        MatchCatchAllStep(segs, vals[0]);
        assert vals == [vals[0]];
      }
    }
  }

  /** The path a route serves with the `/` before its final catch-all left out. */
  function InstantiateJoined(segs: seq<Segment>, vals: seq<string>): string
    requires Fits(segs, vals)
    decreases |segs|
  {
    if |segs| == 0 then ""
    else if segs[0].Static? then "/" + segs[0].text + InstantiateJoined(segs[1..], vals)
    else if segs[0].CatchAll? && |segs| == 1 then vals[0]
    else "/" + vals[0] + InstantiateJoined(segs[1..], vals[1..])
  }

  predicate EndsInCatchAll(segs: seq<Segment>) {
    |segs| > 0 && segs[|segs| - 1].CatchAll?
  }

  /**
    The paths a route serves for the values `vals`: the instantiated path,
    that path with a trailing `/`, or, when the route ends in a catch-all, the
    path with the `/` before the catch-all left out.
   */
  predicate ServedAs(segs: seq<Segment>, vals: seq<string>, path: string) {
    && Fits(segs, vals)
    && (|| path == Instantiate(segs, vals)
        || path == Instantiate(segs, vals) + "/"
        || (EndsInCatchAll(segs) && path == InstantiateJoined(segs, vals)))
  }

  lemma ServedAsStatic(segs: seq<Segment>, vals: seq<string>, rest: string)
    requires |segs| > 0 && segs[0].Static? && ServedAs(segs[1..], vals, rest)
    ensures ServedAs(segs, vals, "/" + segs[0].text + rest)
  {
    var pre := "/" + segs[0].text;
    assert Instantiate(segs, vals) == pre + Instantiate(segs[1..], vals);
    assert InstantiateJoined(segs, vals) == pre + InstantiateJoined(segs[1..], vals);
    assert pre + (Instantiate(segs[1..], vals) + "/") == pre + Instantiate(segs[1..], vals) + "/";
    assert EndsInCatchAll(segs[1..]) ==> EndsInCatchAll(segs);
  }

  lemma ServedAsDynamic(segs: seq<Segment>, v: string, vals: seq<string>, rest: string)
    requires |segs| > 0 && segs[0].Dynamic?
    requires |v| > 0 && forall i :: 0 <= i < |v| ==> IsParamChar(v[i])
    requires ServedAs(segs[1..], vals, rest)
    ensures ServedAs(segs, [v] + vals, "/" + v + rest)
  {
    var all := [v] + vals;
    assert all[0] == v && all[1..] == vals;
    var pre := "/" + v;
    assert Instantiate(segs, all) == pre + Instantiate(segs[1..], vals);
    assert |segs| > 1 ==> InstantiateJoined(segs, all) == pre + InstantiateJoined(segs[1..], vals);
    assert pre + (Instantiate(segs[1..], vals) + "/") == pre + Instantiate(segs[1..], vals) + "/";
    assert EndsInCatchAll(segs[1..]) ==> EndsInCatchAll(segs);
  }

  lemma SoundStatic(segs: seq<Segment>, path: string, rest: string)
    requires |segs| > 0 && segs[0].Static? && StartsWith(path, "/" + segs[0].text)
    requires rest == path[|segs[0].text| + 1..]
    requires MatchFrom(segs[1..], rest).Some? && ServedAs(segs[1..], MatchFrom(segs[1..], rest).value, rest)
    ensures MatchFrom(segs, path).Some? && ServedAs(segs, MatchFrom(segs, path).value, path)
  {
    var t := segs[0].text;
    assert path == "/" + t + rest by {
      assert path == path[..|t| + 1] + rest;
    }
    assert MatchFrom(segs, path) == MatchFrom(segs[1..], rest);
    ServedAsStatic(segs, MatchFrom(segs[1..], rest).value, rest);
  }

  lemma SoundDynamic(segs: seq<Segment>, path: string, k: nat)
    requires |segs| > 0 && segs[0].Dynamic? && |path| > 0 && path[0] == '/'
    requires k == ParamRun(path[1..]) && k > 0
    requires MatchFrom(segs[1..], path[k + 1..]).Some?
    requires ServedAs(segs[1..], MatchFrom(segs[1..], path[k + 1..]).value, path[k + 1..])
    ensures MatchFrom(segs, path).Some? && ServedAs(segs, MatchFrom(segs, path).value, path)
  {
    var v := path[1..k + 1];
    var rest := path[k + 1..];
    var tail := MatchFrom(segs[1..], rest).value;
    DynamicSplit(path, k);
    assert forall i :: 0 <= i < |v| ==> v[i] == path[1..][i];
    assert MatchFrom(segs, path) == Some([v] + tail);
    ServedAsDynamic(segs, v, tail, rest);
  }

  /** The path a dynamic segment matched splits into `/`, the capture and the rest. */
  lemma DynamicSplit(path: string, k: nat)
    requires |path| > 0 && path[0] == '/' && k == ParamRun(path[1..]) && k > 0
    ensures path == "/" + path[1..k + 1] + path[k + 1..]
  {
    assert path == path[..1] + path[1..k + 1] + path[k + 1..];
  }

  lemma SoundCatchAll(segs: seq<Segment>, path: string)
    requires |segs| > 0 && segs[0].CatchAll? && MatchFrom(segs, path).Some?
    ensures ServedAs(segs, MatchFrom(segs, path).value, path)
  {
    var t := CatchAllCapture(path);
    var vals := MatchFrom(segs, path).value;
    assert |segs| == 1 && vals == [t] && vals[1..] == [];
    assert Fits(segs, vals);
    assert Instantiate(segs, vals) == "/" + t;
    assert InstantiateJoined(segs, vals) == t;
    if |path| > 0 && path[0] == '/' {
      assert path == "/" + t;
    }
  }

  /**
    Whatever the matcher accepts is served by the route: the captures fit the
    parameters, and the path is the route with those values in place, up to a
    trailing `/` and the optional `/` before a catch-all.
   */
  lemma {:induction false} MatchFromSound(segs: seq<Segment>, path: string)
    requires MatchFrom(segs, path).Some?
    ensures ServedAs(segs, MatchFrom(segs, path).value, path)
    decreases |segs|
  {
    if |segs| > 0 {
      match segs[0]
      case Static(t) =>
        var rest := path[|t| + 1..];
        MatchFromSound(segs[1..], rest);
        SoundStatic(segs, path, rest);
      case Dynamic(_) =>
        var k := ParamRun(path[1..]);
        MatchFromSound(segs[1..], path[k + 1..]);
        SoundDynamic(segs, path, k);
      case CatchAll(_) =>
        SoundCatchAll(segs, path);
    }
  }

  /** `MatchFromSound` for the whole expression, where the root route also matches `//`. */
  lemma MatchRouteSound(segs: seq<Segment>, path: string)
    requires MatchRoute(segs, path).Some?
    ensures ServedAs(segs, MatchRoute(segs, path).value, path) || (segs == [] && path == "//")
  {
    if |segs| > 0 {
      MatchFromSound(segs, path);
    }
  }

  /**
    The `/` before a catch-all is optional, so the text before it can run on
    into the capture: `/a/[...rest]` matches `/ab`, capturing `b`.
   */
  lemma CatchAllSlashOptional(a: string, v: string)
    requires ValidSegment(Static(a)) && |v| > 0 && v[0] != '/'
    requires IsRestValue(v)
    ensures MatchRoute([Static(a), CatchAll("rest")], "/" + a + v) == Some([v])
  {
    var segs := [Static(a), CatchAll("rest")];
    MatchStaticStep(segs, a, v);
    assert segs[1..] == [CatchAll("rest")];
    assert MatchFrom([CatchAll("rest")], v) == Some([v]);
  }

  // ---------------------------------------------------------------------------
  // Ordering: `sortCompiledRoutes`
  // ---------------------------------------------------------------------------

  predicate OpensBracket(s: string) {
    |s| > 0 && s[0] == '['
  }

  /**
    The segment loop of the comparator from index `i`, over the `/`-pieces of
    the two pathnames: `None` when it ends without deciding. A piece of `a`
    that opens a bracket where `b` has no piece raises a `TypeError`.
   */
  function SegmentOrder(xs: seq<string>, ys: seq<string>, i: nat): Option<Comparison>
    decreases |xs| - i
  {
    if i >= |xs| then None
    else if OpensBracket(xs[i]) then
      if i >= |ys| then Some(Throws)
      else if OpensBracket(ys[i]) then SegmentOrder(xs, ys, i + 1)
      else Some(Ordered(1))
    else if i < |ys| && OpensBracket(ys[i]) then Some(Ordered(-1))
    else SegmentOrder(xs, ys, i + 1)
  }

  /** `sortCompiledRoutes(a, b)`. */
  function CompareRoutes(a: CompiledRoute, b: CompiledRoute): Comparison {
    match SegmentOrder(Split(a.pathname, '/'), Split(b.pathname, '/'), 0)
    case Some(c) => c
    case None =>
      var la := Lower(a.route);
      var lb := Lower(b.route);
      if StrLess(la, lb) then Ordered(-1)
      else if StrLess(lb, la) then Ordered(1)
      else Ordered(|b.pathname| - |a.pathname|)
  }

  /** At the first index where exactly one side opens a bracket, the side without the bracket sorts first. */
  lemma {:induction false} SegmentOrderFirstDifference(xs: seq<string>, ys: seq<string>, i: nat, k: nat)
    requires i <= k < |xs| && k < |ys|
    requires forall j :: i <= j < k ==> OpensBracket(xs[j]) == OpensBracket(ys[j])
    requires OpensBracket(xs[k]) != OpensBracket(ys[k])
    ensures SegmentOrder(xs, ys, i) == Some(Ordered(if OpensBracket(xs[k]) then 1 else -1))
    decreases k - i
  {
    if i < k {
      SegmentOrderFirstDifference(xs, ys, i + 1, k);
    }
  }

  /** Past the end of `ys` the loop either throws or runs out undecided. */
  lemma {:induction false} SegmentOrderPastEnd(xs: seq<string>, ys: seq<string>, i: nat)
    requires i >= |ys|
    ensures SegmentOrder(xs, ys, i) == None || SegmentOrder(xs, ys, i) == Some(Throws)
    decreases |xs| - i
  {
    if i < |xs| && !OpensBracket(xs[i]) {
      SegmentOrderPastEnd(xs, ys, i + 1);
    }
  }

  lemma {:induction false} SegmentOrderSameLength(xs: seq<string>, ys: seq<string>, i: nat)
    requires |xs| == |ys|
    ensures SegmentOrder(xs, ys, i) != Some(Throws)
    decreases |xs| - i
  {
    if i < |xs| {
      SegmentOrderSameLength(xs, ys, i + 1);
    }
  }

  function FlipOrder(o: Option<Comparison>): Option<Comparison> {
    match o
    case Some(Ordered(v)) => Some(Ordered(-v))
    case _ => o
  }

  lemma {:induction false} SegmentOrderSwap(xs: seq<string>, ys: seq<string>, i: nat)
    requires SegmentOrder(xs, ys, i) != Some(Throws) && SegmentOrder(ys, xs, i) != Some(Throws)
    ensures SegmentOrder(ys, xs, i) == FlipOrder(SegmentOrder(xs, ys, i))
    decreases |xs| + |ys| - 2 * i
  {
    if i < |xs| && i < |ys| {
      if OpensBracket(xs[i]) == OpensBracket(ys[i]) {
        SegmentOrderSwap(xs, ys, i + 1);
      }
    } else if i < |xs| {
      SegmentOrderPastEnd(xs, ys, i);
    } else if i < |ys| {
      SegmentOrderPastEnd(ys, xs, i);
    }
  }

  /** Whenever neither call throws, swapping the arguments negates the comparator's result. */
  lemma CompareRoutesAntisymmetric(a: CompiledRoute, b: CompiledRoute)
    requires CompareRoutes(a, b).Ordered? && CompareRoutes(b, a).Ordered?
    ensures CompareRoutes(b, a) == Ordered(-CompareRoutes(a, b).sign)
  {
    var xs := Split(a.pathname, '/');
    var ys := Split(b.pathname, '/');
    SegmentOrderSwap(xs, ys, 0);
    StrLessTrichotomy(Lower(a.route), Lower(b.route));
  }

  /** Pathnames with the same number of `/`-pieces never make the comparator throw. */
  lemma CompareRoutesSameDepth(a: CompiledRoute, b: CompiledRoute)
    requires |Split(a.pathname, '/')| == |Split(b.pathname, '/')|
    ensures CompareRoutes(a, b).Ordered?
  {
    SegmentOrderSameLength(Split(a.pathname, '/'), Split(b.pathname, '/'), 0);
  }

  /**
    A pathname with fewer pieces whose extra pieces in the other open a
    bracket makes the comparison throw in one direction: the comparator is not
    a consistent ordering on arbitrary route files.
   */
  lemma CompareRoutesThrows(a: CompiledRoute, b: CompiledRoute)
    requires Split(a.pathname, '/') == ["x", "[id]"] && Split(b.pathname, '/') == ["x"]
    ensures CompareRoutes(a, b) == Throws
  {
    var xs := Split(a.pathname, '/');
    var ys := Split(b.pathname, '/');
    assert !OpensBracket(xs[0]) && !OpensBracket(ys[0]);
    assert OpensBracket(xs[1]);
    assert SegmentOrder(xs, ys, 1) == Some(Throws);
    assert SegmentOrder(xs, ys, 0) == Some(Throws);
  }

  /** The number of `/`-pieces of a route file's pathname. */
  function Depth(m: CompiledRoute): nat {
    |Split(m.pathname, '/')|
  }

  predicate SameDepth(routes: seq<CompiledRoute>, d: nat) {
    forall i :: 0 <= i < |routes| ==> Depth(routes[i]) == d
  }

  lemma SameDepthConsistent(routes: seq<CompiledRoute>, d: nat)
    requires SameDepth(routes, d)
    ensures Consistent(CompareRoutes, routes)
  {
    forall a, b | a in routes && b in routes
      ensures CompareRoutes(a, b).Ordered? && (CompareRoutes(a, b).sign > 0 ==> NotAfter(CompareRoutes, b, a))
    {
      CompareRoutesSameDepth(a, b);
      CompareRoutesSameDepth(b, a);
      CompareRoutesAntisymmetric(a, b);
    }
  }

  // ---------------------------------------------------------------------------
  // `findRoutePathnames` and `findMiddlewarePathnames`
  // ---------------------------------------------------------------------------

  datatype FindError = CompileFailed(error: CompileError) | ComparatorThrew

  /** `routesPathnames.map(parseRoutePathnameToRegexp)`: the first route file that fails stops the map. */
  function CompileAll(pathnames: seq<string>, basePath: string): (r: Result<seq<CompiledRoute>, CompileError>)
    ensures r.Success? ==> |r.value| == |pathnames|
    ensures r.Success? ==> forall i :: 0 <= i < |pathnames| ==> CompileRoute(pathnames[i], basePath) == Success(r.value[i])
    ensures r.Failure? ==> exists i ::
      && 0 <= i < |pathnames|
      && CompileRoute(pathnames[i], basePath) == Failure(r.error)
      && (forall j :: 0 <= j < i ==> CompileRoute(pathnames[j], basePath).Success?)
  {
    MapAll(pathnames, (p: string) => CompileRoute(p, basePath))
  }

  /** The routes folder under the project, as `join` builds it. */
  function RoutesFolder(basePath: string, join: seq<string> -> string): string {
    join([basePath, CompiledFolder, CompiledRoutes])
  }

  /**
    `findRoutePathnames(basePath, route)` over the given route files: compile
    every file, keep those whose expression matches `route` when `route` is
    not empty, and sort with `sortCompiledRoutes`.
   */
  function FindRoutePathnames(pathnames: seq<string>, basePath: string, route: string, join: seq<string> -> string): (r: Result<seq<CompiledRoute>, FindError>)
    ensures r.Success? ==> CompileAll(pathnames, RoutesFolder(basePath, join)).Success?
    ensures r.Success? ==> forall m :: m in r.value ==> route == "" || MatchRoute(m.segments, route).Some?
    ensures CompileAll(pathnames, RoutesFolder(basePath, join)).Failure? ==> r == Failure(CompileFailed(CompileAll(pathnames, RoutesFolder(basePath, join)).error))
  {
    var maps := CompileAll(pathnames, RoutesFolder(basePath, join));
    if maps.Failure? then Failure(CompileFailed(maps.error))
    else
      var candidates := Candidates(maps.value, route);
      match Sort(candidates, CompareRoutes)
      case None => Failure(ComparatorThrew)
      case Some(sorted) =>
        assert forall m :: m in sorted ==> m in multiset(candidates);
        Success(sorted)
  }

  /** The compiled routes kept before sorting: those that match a non-empty `route`, or all of them. */
  function Candidates(maps: seq<CompiledRoute>, route: string): (r: seq<CompiledRoute>)
    ensures forall m :: m in r ==> route == "" || MatchRoute(m.segments, route).Some?
  {
    if route != "" then
      var kept := Filter(maps, (m: CompiledRoute) => MatchRoute(m.segments, route).Some?);
      assert forall m :: m in kept ==> MatchRoute(m.segments, route).Some? by {
        forall m | m in kept ensures MatchRoute(m.segments, route).Some? {
          var i :| 0 <= i < |kept| && kept[i] == m;
        }
      }
      kept
    else maps
  }

  /** The result holds every compiled route that matches, and nothing else. */
  lemma FindRoutePathnamesMembers(pathnames: seq<string>, basePath: string, route: string, join: seq<string> -> string, m: CompiledRoute)
    requires FindRoutePathnames(pathnames, basePath, route, join).Success?
    ensures var maps := CompileAll(pathnames, RoutesFolder(basePath, join)).value;
      m in FindRoutePathnames(pathnames, basePath, route, join).value <==> m in maps && (route == "" || MatchRoute(m.segments, route).Some?)
  {
    var maps := CompileAll(pathnames, RoutesFolder(basePath, join)).value;
    var r := FindRoutePathnames(pathnames, basePath, route, join).value;
    var candidates := Candidates(maps, route);
    assert multiset(r) == multiset(candidates);
    assert m in r <==> m in multiset(candidates);
    if route != "" {
      FilterMembers(maps, (m: CompiledRoute) => MatchRoute(m.segments, route).Some?, m);
    }
  }

  lemma CompileAllDepth(pathnames: seq<string>, basePath: string, d: nat)
    requires CompileAll(pathnames, basePath).Success?
    requires forall i :: 0 <= i < |pathnames| ==> |Split(pathnames[i], '/')| == d
    ensures SameDepth(CompileAll(pathnames, basePath).value, d)
  {
    var maps := CompileAll(pathnames, basePath).value;
    forall i | 0 <= i < |maps| ensures Depth(maps[i]) == d {
      assert CompileRoute(pathnames[i], basePath) == Success(maps[i]);
    }
  }

  lemma CandidatesDepth(maps: seq<CompiledRoute>, route: string, d: nat)
    requires SameDepth(maps, d)
    ensures SameDepth(Candidates(maps, route), d)
  {
    var c := Candidates(maps, route);
    if route != "" {
      forall i | 0 <= i < |c| ensures Depth(c[i]) == d {
        FilterMembers(maps, (m: CompiledRoute) => MatchRoute(m.segments, route).Some?, c[i]);
      }
    }
  }

  /** When all route files lie at the same depth the sort succeeds and the result is in comparator order. */
  lemma FindRoutePathnamesSorted(pathnames: seq<string>, basePath: string, route: string, join: seq<string> -> string, d: nat)
    requires CompileAll(pathnames, RoutesFolder(basePath, join)).Success?
    requires forall i :: 0 <= i < |pathnames| ==> |Split(pathnames[i], '/')| == d
    ensures FindRoutePathnames(pathnames, basePath, route, join).Success?
    ensures Sorted(FindRoutePathnames(pathnames, basePath, route, join).value, CompareRoutes)
  {
    var maps := CompileAll(pathnames, RoutesFolder(basePath, join)).value;
    CompileAllDepth(pathnames, RoutesFolder(basePath, join), d);
    CandidatesDepth(maps, route, d);
    var candidates := Candidates(maps, route);
    SameDepthConsistent(candidates, d);
    SortSorted(candidates, CompareRoutes);
  }

  /** The middleware file of one directory under the routes folder. */
  function MiddlewareFile(basePath: string, dir: string, join: seq<string> -> string): string {
    join(NonEmpty([basePath, CompiledFolder, CompiledRoutes, dir, "middleware.mjs"]))
  }

  /** The directory chain from the routes folder down to the route file's own directory. */
  function MiddlewareDirs(basePath: string, routeFilePath: string, join: seq<string> -> string): seq<string> {
    RecursiveDirectoryList(Dirname(EscapePath(routeFilePath, RoutesFolder(basePath, join))))
  }

  /** One candidate middleware file per directory from the routes folder down to the route file's directory. */
  function MiddlewareSearchList(basePath: string, routeFilePath: string, join: seq<string> -> string): (r: seq<string>)
    ensures var dirs := MiddlewareDirs(basePath, routeFilePath, join);
      |r| == |dirs| && forall i :: 0 <= i < |r| ==> r[i] == MiddlewareFile(basePath, dirs[i], join)
  {
    var dirs := MiddlewareDirs(basePath, routeFilePath, join);
    seq(|dirs|, i requires 0 <= i < |dirs| => MiddlewareFile(basePath, dirs[i], join))
  }

  /** The root directory of the chain is empty and drops out of the joined path: the first candidate is the routes folder's own middleware. */
  lemma MiddlewareSearchRoot(basePath: string, routeFilePath: string, join: seq<string> -> string)
    requires basePath != ""
    ensures MiddlewareSearchList(basePath, routeFilePath, join)[0] == join([basePath, CompiledFolder, CompiledRoutes, "middleware.mjs"])
  {
    var dirs := MiddlewareDirs(basePath, routeFilePath, join);
    assert dirs[0] == "";
    NonEmptyRoot(basePath);
  }

  lemma NonEmptyRoot(basePath: string)
    requires basePath != ""
    ensures NonEmpty([basePath, CompiledFolder, CompiledRoutes, "", "middleware.mjs"]) == [basePath, CompiledFolder, CompiledRoutes, "middleware.mjs"]
  {
    var parts := [basePath, CompiledFolder, CompiledRoutes, "", "middleware.mjs"];
    var p := (s: string) => s != "";
    assert Filter(parts[4..], p) == ["middleware.mjs"];
    assert Filter(parts[3..], p) == ["middleware.mjs"];
    assert Filter(parts[2..], p) == [CompiledRoutes, "middleware.mjs"];
    assert Filter(parts[1..], p) == [CompiledFolder, CompiledRoutes, "middleware.mjs"];
  }

  /** `findMiddlewarePathnames`: the candidates that exist, in root-to-leaf order. */
  function FindMiddlewarePathnames(basePath: string, routeFilePath: string, join: seq<string> -> string, fileExists: string -> bool): (r: seq<string>)
    ensures forall i :: 0 <= i < |r| ==> fileExists(r[i])
  {
    Filter(MiddlewareSearchList(basePath, routeFilePath, join), fileExists)
  }

  lemma FindMiddlewareMembers(basePath: string, routeFilePath: string, join: seq<string> -> string, fileExists: string -> bool, x: string)
    ensures x in FindMiddlewarePathnames(basePath, routeFilePath, join, fileExists) <==> x in MiddlewareSearchList(basePath, routeFilePath, join) && fileExists(x)
  {
    FilterMembers(MiddlewareSearchList(basePath, routeFilePath, join), fileExists, x);
  }
}

=== FILE: route_middle.dfy ===
/**
  Route compilation, matching and ordering of the middle generation
  (`src/utils/router-tools.ts`): `findRoutePathname` and
  `findMiddlewarePathnames`.

  Route files live under `.intelli-rest/app`. Each cleaned route is compiled
  into a weight (one per `[name]`, two per `[...name]`) and a regular
  expression anchored at both ends. The expression is modelled by a segment
  matcher with the backtracking semantics of `RegExp.prototype.test`: every
  segment after a literal `/`, a `[name]` taking one or more characters of
  `[A-zÀ-ú0-9-_]`, a `[...name]` one or more of those characters or `/`, and
  no optional trailing `/`; the root route matches `/` only.

  The source builds the expression with `replace` calls that lack the `g`
  flag, so only the first `[name]` and the first `[...name]` become captures;
  a later `[name]` stays in the text and is read as a one-character class.
  `MatchAsWritten` models that expression, and `MatchCorrected` the one the
  current generation builds with the flag. `FindRoutePathname` takes the
  expression as a parameter: the source's search is `AsWritten`, and
  `FindRoutePathnameAgrees` gives the inputs on which the two searches agree.
 */
module RouteMiddle {
  import opened Wrappers
  import opened Strings
  import opened Paths
  import opened RouteCleaning
  import opened RouteTokens
  import opened Sorting
  import opened DirectoryList

  /** The compiled application folder, relative to the project. */
  const CompiledApp: string := ".intelli-rest/app"

  // ---------------------------------------------------------------------------
  // Character classes
  // ---------------------------------------------------------------------------

  /** The first character of a parameter name, `[A-zÀ-ú-_]`, without the brackets the ASCII range holds. */
  predicate IsNameStart(c: char) {
    (('A' <= c <= 'z') || ('À' <= c <= 'ú') || c == '-' || c == '_') && c != '[' && c != ']'
  }

  /** A later character of a parameter name, which may also be a digit. */
  predicate IsNameRest(c: char) {
    IsNameStart(c) || IsAsciiDigit(c)
  }

  /** A name the compiler's patterns accept: a first character, then one or more further characters. */
  predicate MiddleName(n: string) {
    |n| >= 2 && IsNameStart(n[0]) && forall i :: 1 <= i < |n| ==> IsNameRest(n[i])
  }

  /** The capture class of a `[name]`, `[A-zÀ-ú0-9-_]`. */
  predicate IsCaptureChar(c: char) {
    ('A' <= c <= 'z') || ('À' <= c <= 'ú') || IsAsciiDigit(c) || c == '-' || c == '_'
  }

  /** The capture class of a `[...name]`, which adds `/`. */
  predicate IsRestChar(c: char) {
    IsCaptureChar(c) || c == '/'
  }

  predicate AllCapture(s: string) {
    forall i :: 0 <= i < |s| ==> IsCaptureChar(s[i])
  }

  predicate AllRest(s: string) {
    forall i :: 0 <= i < |s| ==> IsRestChar(s[i])
  }

  // ---------------------------------------------------------------------------
  // Segments of a cleaned route
  // ---------------------------------------------------------------------------

  predicate ValidMiddleSegment(g: Segment) {
    match g
    case Static(t) => forall i :: 0 <= i < |t| ==> IsPlainChar(t[i])
    case Dynamic(n) => MiddleName(n)
    case CatchAll(n) => MiddleName(n)
  }

  predicate ValidMiddleSegments(segs: seq<Segment>) {
    forall i :: 0 <= i < |segs| ==> ValidMiddleSegment(segs[i])
  }

  /** Reads one piece between separators as a segment; `None` for text outside the model. */
  function ClassifyMiddleSegment(p: string): (r: Option<Segment>)
    ensures r.Some? ==> ValidMiddleSegment(r.value) && SegmentText(r.value) == p
  {
    if |p| >= 5 && p[..4] == "[..." && p[|p| - 1] == ']' && MiddleName(p[4..|p| - 1]) then
      assert p == "[..." + p[4..|p| - 1] + "]";
      Some(CatchAll(p[4..|p| - 1]))
    else if |p| >= 3 && p[0] == '[' && p[|p| - 1] == ']' && MiddleName(p[1..|p| - 1]) then
      assert p == "[" + p[1..|p| - 1] + "]";
      Some(Dynamic(p[1..|p| - 1]))
    else if forall i :: 0 <= i < |p| ==> IsPlainChar(p[i]) then
      Some(Static(p))
    else None
  }

  function ClassifyMiddleParts(parts: seq<string>): (r: Option<seq<Segment>>)
    ensures r.Some? ==> |r.value| == |parts| && ValidMiddleSegments(r.value)
    ensures r.Some? ==> forall i :: 0 <= i < |parts| ==> SegmentText(r.value[i]) == parts[i]
    decreases |parts|
  {
    if |parts| == 0 then Some([])
    else
      var g :- ClassifyMiddleSegment(parts[0]);
      var gs :- ClassifyMiddleParts(parts[1..]);
      Some([g] + gs)
  }

  /** Reads a cleaned route as segments: `/` is the root, anything else is split after its leading `/`. */
  function ClassifyMiddleRoute(route: string): (r: Option<seq<Segment>>)
    ensures r.Some? ==> ValidMiddleSegments(r.value) && RouteText(r.value) == route
  {
    if route == "/" then Some([])
    else if |route| >= 2 && route[0] == '/' then
      var parts := Split(route[1..], '/');
      var r := ClassifyMiddleParts(parts);
      if r.Some? then
        TextOfParts(r.value, parts);
        JoinSplit(route[1..], '/');
        r
      else None
    else None
  }

  lemma ClassifyMiddleSegmentText(g: Segment)
    requires ValidMiddleSegment(g)
    ensures ClassifyMiddleSegment(SegmentText(g)) == Some(g)
  {
    var p := SegmentText(g);
    match g
    case Static(t) =>
      if |p| > 0 {
        assert IsPlainChar(p[0]);
      }
    case Dynamic(n) =>
      assert p[1..|p| - 1] == n;
      assert p[1] == n[0] && IsNameStart(n[0]);
    case CatchAll(n) =>
      assert p[..4] == "[...";
      assert p[4..|p| - 1] == n;
  }

  lemma SegmentTextNoSlash(g: Segment)
    requires ValidMiddleSegment(g)
    ensures '/' !in SegmentText(g)
  {
    var p := SegmentText(g);
    forall i | 0 <= i < |p| ensures p[i] != '/' {
      match g
      case Static(t) => assert IsPlainChar(t[i]);
      case Dynamic(n) => if 0 < i < |p| - 1 { assert p[i] == n[i - 1]; assert IsNameRest(n[i - 1]); }
      case CatchAll(n) => if 3 < i < |p| - 1 { assert p[i] == n[i - 4]; assert IsNameRest(n[i - 4]); }
    }
  }

  lemma {:induction false} ClassifyMiddlePartsOf(segs: seq<Segment>, parts: seq<string>)
    requires ValidMiddleSegments(segs) && |segs| == |parts|
    requires forall i :: 0 <= i < |parts| ==> SegmentText(segs[i]) == parts[i]
    ensures ClassifyMiddleParts(parts) == Some(segs)
    decreases |parts|
  {
    if |parts| > 0 {
      var g := segs[0];
      ClassifyMiddleSegmentText(g);
      assert ClassifyMiddleSegment(parts[0]) == Some(g);
      assert forall i :: 0 <= i < |parts| - 1 ==> segs[1..][i] == segs[i + 1] && parts[1..][i] == parts[i + 1];
      ClassifyMiddlePartsOf(segs[1..], parts[1..]);
      assert segs == [g] + segs[1..];
    }
  }

  /**
    A route made of valid segments is read back as those segments. The one
    list excluded, a single empty static piece, has the root's text.
   */
  lemma ClassifyMiddleRouteText(segs: seq<Segment>)
    requires ValidMiddleSegments(segs) && segs != [Static("")]
    ensures ClassifyMiddleRoute(RouteText(segs)) == Some(segs)
  {
    if |segs| > 0 {
      var parts := seq(|segs|, i requires 0 <= i < |segs| => SegmentText(segs[i]));
      TextOfParts(segs, parts);
      var route := RouteText(segs);
      assert route == "/" + Join(parts, "/");
      forall i | 0 <= i < |parts| ensures '/' !in parts[i] {
        SegmentTextNoSlash(segs[i]);
      }
      SplitJoin(parts, '/');
      assert route[1..] == Join(parts, "/");
      if |segs| == 1 {
        assert Join(parts, "/") == parts[0];
        assert |parts[0]| > 0 by {
          if segs[0].Static? {
            assert segs[0] != Static("");
          }
        }
      } else {
        assert |Join(parts, "/")| >= 1;
      }
      ClassifyMiddlePartsOf(segs, parts);
    }
  }

  // ---------------------------------------------------------------------------
  // Compilation
  // ---------------------------------------------------------------------------

  function DynamicCount(segs: seq<Segment>): nat
    decreases |segs|
  {
    if |segs| == 0 then 0 else (if segs[0].Dynamic? then 1 else 0) + DynamicCount(segs[1..])
  }

  function CatchAllCount(segs: seq<Segment>): nat
    decreases |segs|
  {
    if |segs| == 0 then 0 else (if segs[0].CatchAll? then 1 else 0) + CatchAllCount(segs[1..])
  }

  /** The sort key: one for every `[name]`, two for every `[...name]`. */
  function Weight(segs: seq<Segment>): nat {
    DynamicCount(segs) + 2 * CatchAllCount(segs)
  }

  /** A catch-all name the throw test's class `[a-z0-1]` (no `i` flag) spans. */
  predicate ThrowName(n: string) {
    |n| > 0 && forall i :: 0 <= i < |n| ==> IsAsciiLower(n[i]) || n[i] == '0' || n[i] == '1'
  }

  /** The route is rejected with `Invalid route path`: a catch-all the test recognises is followed by another segment. */
  predicate ThrowsMiddle(segs: seq<Segment>) {
    exists i :: 0 <= i < |segs| - 1 && segs[i].CatchAll? && ThrowName(segs[i].name)
  }

  datatype CompiledMiddle = CompiledMiddle(pathname: string, route: string, weight: nat, segments: seq<Segment>)

  /** Why a route file yields no compiled route: the source throws `Invalid route path`, or the route lies outside this model. */
  datatype CompileError = InvalidRoutePath(escaped: string) | OutsideModel(route: string)

  /** The folder the route file paths are escaped against, `join(basePath, compiledApp)`. */
  function AppFolder(basePath: string, join: seq<string> -> string): string {
    join([basePath, CompiledApp])
  }

  /** The `map` callback of `findRoutePathname` for one route file. */
  function CompileMiddle(pathname: string, appFolder: string): (r: Result<CompiledMiddle, CompileError>)
    ensures r.Success? ==> r.value.pathname == pathname && ValidMiddleSegments(r.value.segments) && !ThrowsMiddle(r.value.segments)
  {
    var escaped := EscapePath(pathname, appFolder);
    var cleaned := CleanRoute(Legacy, escaped);
    match ClassifyMiddleRoute(cleaned)
    case None => Failure(OutsideModel(cleaned))
    case Some(segs) =>
      if ThrowsMiddle(segs) then Failure(InvalidRoutePath(escaped))
      else Success(CompiledMiddle(pathname, cleaned, Weight(segs), segs))
  }

  /**
    A compiled route carries the cleaned route, its segments and the weight
    that counts them; a route the model reads as segments fails exactly when
    the throw test fires, and then with the escaped path in the message.
   */
  lemma CompileMiddleSpec(pathname: string, appFolder: string)
    ensures var r := CompileMiddle(pathname, appFolder);
      var escaped := EscapePath(pathname, appFolder);
      var cleaned := CleanRoute(Legacy, escaped);
      && (r.Success? ==>
            && r.value.route == cleaned && RouteText(r.value.segments) == cleaned
            && r.value.weight == DynamicCount(r.value.segments) + 2 * CatchAllCount(r.value.segments))
      && (ClassifyMiddleRoute(cleaned).Some? ==> (r.Failure? <==> ThrowsMiddle(ClassifyMiddleRoute(cleaned).value)))
      && (ClassifyMiddleRoute(cleaned).Some? && r.Failure? ==> r.error == InvalidRoutePath(escaped))
  {
  }

  /** Every route file compiled against the application folder. */
  function CompileAll(pathnames: seq<string>, appFolder: string): Result<seq<CompiledMiddle>, CompileError> {
    MapAll(pathnames, (p: string) => CompileMiddle(p, appFolder))
  }

  // ---------------------------------------------------------------------------
  // Matching, corrected: every parameter is a capture
  // ---------------------------------------------------------------------------

  /** The expression of a non-root route, from its first segment to the end anchor. */
  predicate MatchSegments(segs: seq<Segment>, path: string)
    decreases |segs|, 1
  {
    if |segs| == 0 then path == ""
    else match segs[0]
      case Static(t) => StartsWith(path, "/" + t) && MatchSegments(segs[1..], path[|t| + 1..])
      case Dynamic(_) => exists k :: 1 <= k < |path| && CaptureAt(segs, path, k)
      case CatchAll(_) => exists k :: 1 <= k < |path| && CaptureAt(segs, path, k)
  }

  /** The parameter of `segs[0]` takes `path[1..k + 1]` after a `/`, and the rest of the path matches the remaining segments. */
  predicate CaptureAt(segs: seq<Segment>, path: string, k: int)
    requires |segs| > 0
    decreases |segs|, 0
  {
    && 1 <= k < |path| && path[0] == '/'
    && (if segs[0].CatchAll? then AllRest(path[1..k + 1]) else AllCapture(path[1..k + 1]))
    && MatchSegments(segs[1..], path[k + 1..])
  }

  /** `paramRegexp.test(path)` for the expression built with every parameter replaced. */
  predicate MatchCorrected(segs: seq<Segment>, path: string) {
    if |segs| == 0 then path == "/" else MatchSegments(segs, path)
  }

  /** The values a route's parameters can take: one or more capture characters, `/` allowed in a catch-all's. */
  predicate FitsMiddle(segs: seq<Segment>, vals: seq<string>)
    decreases |segs|
  {
    if |segs| == 0 then vals == []
    else if segs[0].Static? then FitsMiddle(segs[1..], vals)
    else
      && |vals| > 0 && |vals[0]| > 0
      && (if segs[0].CatchAll? then AllRest(vals[0]) else AllCapture(vals[0]))
      && FitsMiddle(segs[1..], vals[1..])
  }

  /** The path of a non-root route for the given parameter values. */
  function PathFor(segs: seq<Segment>, vals: seq<string>): string
    requires FitsMiddle(segs, vals)
    decreases |segs|
  {
    if |segs| == 0 then ""
    else if segs[0].Static? then "/" + segs[0].text + PathFor(segs[1..], vals)
    else "/" + vals[0] + PathFor(segs[1..], vals[1..])
  }

  /** The path a route serves for the given parameter values; the root serves `/`. */
  function ServedPath(segs: seq<Segment>, vals: seq<string>): string
    requires FitsMiddle(segs, vals)
  {
    if |segs| == 0 then "/" else PathFor(segs, vals)
  }

  lemma {:induction false} MatchPathFor(segs: seq<Segment>, vals: seq<string>)
    requires FitsMiddle(segs, vals)
    ensures MatchSegments(segs, PathFor(segs, vals))
    decreases |segs|
  {
    if |segs| > 0 {
      if segs[0].Static? {
        var t := segs[0].text;
        MatchPathFor(segs[1..], vals);
        var rest := PathFor(segs[1..], vals);
        var p := "/" + t + rest;
        assert p[..|t| + 1] == "/" + t;
        assert p[|t| + 1..] == rest;
      } else {
        MatchPathFor(segs[1..], vals[1..]);
        var v := vals[0];
        var rest := PathFor(segs[1..], vals[1..]);
        var p := "/" + v + rest;
        assert p[1..|v| + 1] == v;
        assert p[|v| + 1..] == rest;
        assert CaptureAt(segs, p, |v|);
      }
    }
  }

  /** A matched path is the path the route serves for the values the expression captures. */
  lemma {:induction false} MatchValues(segs: seq<Segment>, path: string) returns (vals: seq<string>)
    requires MatchSegments(segs, path)
    ensures FitsMiddle(segs, vals) && PathFor(segs, vals) == path
    decreases |segs|
  {
    if |segs| == 0 {
      vals := [];
    } else if segs[0].Static? {
      var t := segs[0].text;
      vals := MatchValues(segs[1..], path[|t| + 1..]);
      assert path == "/" + t + path[|t| + 1..];
    } else {
      var k :| 1 <= k < |path| && CaptureAt(segs, path, k);
      var rest := MatchValues(segs[1..], path[k + 1..]);
      vals := [path[1..k + 1]] + rest;
      assert vals[1..] == rest;
      assert path == "/" + path[1..k + 1] + path[k + 1..];
    }
  }

  /** The corrected expression matches exactly the paths the route serves, for some parameter values. */
  lemma MatchCorrectedIff(segs: seq<Segment>, path: string)
    ensures MatchCorrected(segs, path) <==> exists vals :: FitsMiddle(segs, vals) && ServedPath(segs, vals) == path
  {
    if MatchCorrected(segs, path) {
      if |segs| == 0 {
        assert FitsMiddle(segs, []) && ServedPath(segs, []) == path;
      } else {
        var vals := MatchValues(segs, path);
        assert ServedPath(segs, vals) == path;
      }
    }
    if exists vals :: FitsMiddle(segs, vals) && ServedPath(segs, vals) == path {
      var vals :| FitsMiddle(segs, vals) && ServedPath(segs, vals) == path;
      if |segs| > 0 {
        MatchPathFor(segs, vals);
      }
    }
  }

  // ---------------------------------------------------------------------------
  // Matching, as written: only the first of each kind is a capture
  // ---------------------------------------------------------------------------

  /** A later `[name]` or `[...name]` read as a character class: one character of the text between the brackets. */
  predicate InClass(g: Segment, c: char)
    requires !g.Static?
  {
    c in g.name || (g.CatchAll? && c == '.')
  }

  /** Class text whose characters stand for themselves: no range dash, escape, negation or bracket. */
  predicate ClassSafe(n: string) {
    forall i :: 0 <= i < |n| ==> IsAsciiAlphanumeric(n[i]) || n[i] == '_'
  }

  /** Every parameter that stays in the expression as a class has class-safe text. */
  predicate WrittenSafe(segs: seq<Segment>, dynSeen: bool, catchSeen: bool)
    decreases |segs|
  {
    |segs| == 0 ||
    (&& (match segs[0]
         case Static(_) => true
         case Dynamic(n) => !dynSeen || ClassSafe(n)
         case CatchAll(n) => !catchSeen || ClassSafe(n))
     && WrittenSafe(segs[1..], dynSeen || segs[0].Dynamic?, catchSeen || segs[0].CatchAll?))
  }

  /** The expression as the source builds it, from `segs` on; the flags say whether a `[name]` or `[...name]` was replaced already. */
  predicate MatchWritten(segs: seq<Segment>, path: string, dynSeen: bool, catchSeen: bool)
    decreases |segs|, 1
  {
    if |segs| == 0 then path == ""
    else match segs[0]
      case Static(t) => StartsWith(path, "/" + t) && MatchWritten(segs[1..], path[|t| + 1..], dynSeen, catchSeen)
      case Dynamic(_) =>
        if dynSeen then ClassAt(segs, path, dynSeen, catchSeen)
        else exists k :: 1 <= k < |path| && WrittenCaptureAt(segs, path, k, dynSeen, catchSeen)
      case CatchAll(_) =>
        if catchSeen then ClassAt(segs, path, dynSeen, catchSeen)
        else exists k :: 1 <= k < |path| && WrittenCaptureAt(segs, path, k, dynSeen, catchSeen)
  }

  predicate WrittenCaptureAt(segs: seq<Segment>, path: string, k: int, dynSeen: bool, catchSeen: bool)
    requires |segs| > 0
    decreases |segs|, 0
  {
    && 1 <= k < |path| && path[0] == '/'
    && (if segs[0].CatchAll? then AllRest(path[1..k + 1]) else AllCapture(path[1..k + 1]))
    && MatchWritten(segs[1..], path[k + 1..], dynSeen || segs[0].Dynamic?, catchSeen || segs[0].CatchAll?)
  }

  predicate ClassAt(segs: seq<Segment>, path: string, dynSeen: bool, catchSeen: bool)
    requires |segs| > 0 && !segs[0].Static?
    decreases |segs|, 0
  {
    |path| >= 2 && path[0] == '/' && InClass(segs[0], path[1]) && MatchWritten(segs[1..], path[2..], dynSeen, catchSeen)
  }

  /** `paramRegexp.test(path)` for the expression as the source builds it; `None` when a class left in it is outside the model. */
  function MatchAsWritten(segs: seq<Segment>, path: string): Option<bool> {
    if !WrittenSafe(segs, false, false) then None
    else if |segs| == 0 then Some(path == "/")
    else Some(MatchWritten(segs, path, false, false))
  }

  lemma {:induction false} WrittenSafeFew(segs: seq<Segment>, d: bool, c: bool)
    requires if d then DynamicCount(segs) == 0 else DynamicCount(segs) <= 1
    requires if c then CatchAllCount(segs) == 0 else CatchAllCount(segs) <= 1
    ensures WrittenSafe(segs, d, c)
    decreases |segs|
  {
    if |segs| > 0 {
      WrittenSafeFew(segs[1..], d || segs[0].Dynamic?, c || segs[0].CatchAll?);
    }
  }

  lemma {:induction false} MatchWrittenAgrees(segs: seq<Segment>, path: string, d: bool, c: bool)
    requires if d then DynamicCount(segs) == 0 else DynamicCount(segs) <= 1
    requires if c then CatchAllCount(segs) == 0 else CatchAllCount(segs) <= 1
    ensures MatchWritten(segs, path, d, c) == MatchSegments(segs, path)
    decreases |segs|
  {
    if |segs| > 0 {
      match segs[0]
      case Static(t) =>
        if StartsWith(path, "/" + t) {
          MatchWrittenAgrees(segs[1..], path[|t| + 1..], d, c);
        }
      case Dynamic(_) =>
        forall k | 1 <= k < |path| ensures WrittenCaptureAt(segs, path, k, d, c) == CaptureAt(segs, path, k) {
          MatchWrittenAgrees(segs[1..], path[k + 1..], true, c);
        }
      case CatchAll(_) =>
        forall k | 1 <= k < |path| ensures WrittenCaptureAt(segs, path, k, d, c) == CaptureAt(segs, path, k) {
          MatchWrittenAgrees(segs[1..], path[k + 1..], d, true);
        }
    }
  }

  /** With at most one parameter of each kind the expression as written is the corrected one. */
  lemma MatchAsWrittenAgrees(segs: seq<Segment>, path: string)
    requires DynamicCount(segs) <= 1 && CatchAllCount(segs) <= 1
    ensures MatchAsWritten(segs, path) == Some(MatchCorrected(segs, path))
  {
    WrittenSafeFew(segs, false, false);
    MatchWrittenAgrees(segs, path, false, false);
  }

  predicate PlainText(t: string) {
    forall i :: 0 <= i < |t| ==> IsPlainChar(t[i])
  }

  /**
    A route `/a/[n1]/b/[n2]` such as `/users/[id]/posts/[postId]`: the second
    `[n2]` stays in the expression as the class `[n2]`, so for any value of two
    or more characters in its place (`/users/1/posts/42`) the expression as
    written refuses the path the corrected expression matches.
   */
  lemma SecondDynamicAsWritten(a: string, n1: string, b: string, n2: string, v1: string, v2: string)
    requires PlainText(a) && PlainText(b) && MiddleName(n1) && MiddleName(n2) && ClassSafe(n2)
    requires |v1| > 0 && AllCapture(v1) && |v2| >= 2 && AllCapture(v2)
    ensures var segs := [Static(a), Dynamic(n1), Static(b), Dynamic(n2)];
      && FitsMiddle(segs, [v1, v2])
      && MatchCorrected(segs, ServedPath(segs, [v1, v2]))
      && MatchAsWritten(segs, ServedPath(segs, [v1, v2])) == Some(false)
  {
    var segs := [Static(a), Dynamic(n1), Static(b), Dynamic(n2)];
    var vals := [v1, v2];
    assert FitsMiddle(segs[3..], vals[1..]);
    assert FitsMiddle(segs[1..], vals);
    assert PathFor(segs[3..], vals[1..]) == "/" + v2;
    assert PathFor(segs[2..], vals[1..]) == "/" + b + ("/" + v2);
    assert PathFor(segs[1..], vals) == "/" + v1 + ("/" + b + ("/" + v2));
    MatchPathFor(segs, vals);
    SecondDynamicWritten(a, n1, b, n2, v1, v2);
  }

  lemma SecondDynamicWritten(a: string, n1: string, b: string, n2: string, v1: string, v2: string)
    requires PlainText(a) && PlainText(b) && ClassSafe(n2)
    requires |v1| > 0 && AllCapture(v1) && |v2| >= 2 && AllCapture(v2)
    ensures var segs := [Static(a), Dynamic(n1), Static(b), Dynamic(n2)];
      MatchAsWritten(segs, "/" + a + ("/" + v1 + ("/" + b + ("/" + v2)))) == Some(false)
  {
    var segs := [Static(a), Dynamic(n1), Static(b), Dynamic(n2)];
    var tail := "/" + b + ("/" + v2);
    var q := "/" + v1 + tail;
    var p := "/" + a + q;
    assert WrittenSafe(segs, false, false) by {
      assert WrittenSafe(segs[3..], true, false) by {
        assert segs[3..][1..] == [];
      }
      assert segs[2..][1..] == segs[3..];
      assert segs[1..][1..] == segs[2..];
      assert segs[1..] == segs[1..];
    }
    forall k | 1 <= k < |q| ensures !WrittenCaptureAt(segs[1..], q, k, false, false) {
      SecondDynamicNoSplit(segs, b, n2, v1, v2, k);
    }
    assert !MatchWritten(segs[1..], q, false, false);
    assert p[..|a| + 1] == "/" + a;
    assert p[|a| + 1..] == q;
  }

  /** No split of the first value's capture leads to a match of the rest. */
  lemma SecondDynamicNoSplit(segs: seq<Segment>, b: string, n2: string, v1: string, v2: string, k: int)
    requires |segs| == 4 && segs[1].Dynamic? && segs[2] == Static(b) && segs[3] == Dynamic(n2)
    requires PlainText(b) && |v1| > 0 && AllCapture(v1) && |v2| >= 2
    requires 1 <= k < |"/" + v1 + ("/" + b + ("/" + v2))|
    ensures !WrittenCaptureAt(segs[1..], "/" + v1 + ("/" + b + ("/" + v2)), k, false, false)
  {
    var tail := "/" + b + ("/" + v2);
    var q := "/" + v1 + tail;
    assert segs[1..][1..] == segs[2..];
    if k < |v1| {
      SplitInsideCapture(segs[1..], b, v1, tail, k);
    } else if k == |v1| {
      assert q[k + 1..] == tail;
      SecondDynamicTail(segs[2..], b, n2, v2);
    } else {
      assert q[1..k + 1][|v1|] == '/';
    }
  }

  lemma SplitInsideCapture(segs: seq<Segment>, b: string, v1: string, tail: string, k: int)
    requires |segs| == 3 && segs[0].Dynamic? && segs[1] == Static(b)
    requires AllCapture(v1) && 1 <= k < |v1|
    ensures !WrittenCaptureAt(segs, "/" + v1 + tail, k, false, false)
  {
    var q := "/" + v1 + tail;
    assert q[k + 1] == v1[k];
    assert IsCaptureChar(v1[k]);
    assert !StartsWith(q[k + 1..], "/" + b);
    assert segs[1..][0] == Static(b);
  }

  lemma SecondDynamicTail(rest: seq<Segment>, b: string, n2: string, v2: string)
    requires rest == [Static(b), Dynamic(n2)] && |v2| >= 2
    ensures !MatchWritten(rest, "/" + b + ("/" + v2), true, false)
  {
    var tail := "/" + b + ("/" + v2);
    var last := "/" + v2;
    assert tail[..|b| + 1] == "/" + b;
    assert tail[|b| + 1..] == last;
    assert rest[1..] == [Dynamic(n2)];
    assert !MatchWritten([], last[2..], true, false);
    assert !ClassAt(rest[1..], last, true, false);
    assert !MatchWritten(rest[1..], last, true, false);
  }

  // ---------------------------------------------------------------------------
  // Ordering and `findRoutePathname`
  // ---------------------------------------------------------------------------

  /** The `sort` comparator: by weight, then by lower-cased route, then the longer pathname first. */
  function CompareMiddle(a: CompiledMiddle, b: CompiledMiddle): Comparison {
    if b.weight == a.weight then
      var la := Lower(a.route);
      var lb := Lower(b.route);
      if StrLess(la, lb) then Ordered(-1)
      else if StrLess(lb, la) then Ordered(1)
      else Ordered(|b.pathname| - |a.pathname|)
    else Ordered(a.weight - b.weight)
  }

  /** The comparator never throws and is antisymmetric, on any routes. */
  lemma CompareMiddleConsistent(ms: seq<CompiledMiddle>)
    ensures Consistent(CompareMiddle, ms)
  {
    forall a, b | a in ms && b in ms
      ensures CompareMiddle(a, b).Ordered? && (CompareMiddle(a, b).sign > 0 ==> NotAfter(CompareMiddle, b, a))
    {
      StrLessTrichotomy(Lower(a.route), Lower(b.route));
    }
  }

  /** Lighter routes come first. */
  predicate WeightOrdered(ms: seq<CompiledMiddle>) {
    forall i, j :: 0 <= i < j < |ms| ==> ms[i].weight <= ms[j].weight
  }

  lemma {:induction false} AdjacentChain(ms: seq<CompiledMiddle>, i: nat, j: nat)
    requires forall k :: 0 <= k < |ms| - 1 ==> ms[k].weight <= ms[k + 1].weight
    requires i <= j < |ms|
    ensures ms[i].weight <= ms[j].weight
    decreases j - i
  {
    if i < j {
      AdjacentChain(ms, i + 1, j);
    }
  }

  lemma SortedWeights(ms: seq<CompiledMiddle>)
    requires Sorted(ms, CompareMiddle)
    ensures WeightOrdered(ms)
  {
    forall k | 0 <= k < |ms| - 1 ensures ms[k].weight <= ms[k + 1].weight {
      assert NotAfter(CompareMiddle, ms[k], ms[k + 1]);
    }
    forall i, j | 0 <= i < j < |ms| ensures ms[i].weight <= ms[j].weight {
      AdjacentChain(ms, i, j);
    }
  }

  lemma {:induction false} FilterWeightOrdered(ms: seq<CompiledMiddle>, p: CompiledMiddle -> bool)
    requires WeightOrdered(ms)
    ensures WeightOrdered(Filter(ms, p))
    decreases |ms|
  {
    if |ms| > 0 {
      var tail := ms[1..];
      assert WeightOrdered(tail) by {
        forall i, j | 0 <= i < j < |tail| ensures tail[i].weight <= tail[j].weight {
          assert tail[i] == ms[i + 1] && tail[j] == ms[j + 1];
        }
      }
      FilterWeightOrdered(tail, p);
      var rest := Filter(tail, p);
      forall y | y in rest ensures ms[0].weight <= y.weight {
        FilterMembers(tail, p, y);
        var j :| 0 <= j < |tail| && tail[j] == y;
        assert ms[j + 1] == y;
      }
      var r := Filter(ms, p);
      if p(ms[0]) {
        assert r == [ms[0]] + rest;
        forall i, j | 0 <= i < j < |r| ensures r[i].weight <= r[j].weight {
          assert r[j] == rest[j - 1];
          if i > 0 {
            assert r[i] == rest[i - 1];
          } else {
            assert rest[j - 1] in rest;
          }
        }
      } else {
        assert r == rest;
      }
    }
  }

  /**
    The expression a compiled route is tested with: the one the source
    builds (`AsWritten`), or the intended one in which every parameter is a
    capture (`Corrected`).
   */
  datatype Expression = AsWritten | Corrected

  /**
    `paramRegexp.test(path)` under the chosen expression. As written, a route
    whose leftover class is outside the model (`MatchAsWritten` gives `None`)
    counts as not matching.
   */
  predicate Matches(e: Expression, segs: seq<Segment>, path: string) {
    match e
    case AsWritten => MatchAsWritten(segs, path) == Some(true)
    case Corrected => MatchCorrected(segs, path)
  }

  /** The `filter` callback: the route's expression matches the request path. */
  function Matcher(e: Expression, route: string): CompiledMiddle -> bool {
    (m: CompiledMiddle) => Matches(e, m.segments, route)
  }

  /**
    `findRoutePathname(basePath, route)` over the given route files: compile,
    sort, keep the routes whose expression matches. The source is
    `FindRoutePathname(AsWritten, ...)`.
   */
  function FindRoutePathname(e: Expression, pathnames: seq<string>, basePath: string, route: string, join: seq<string> -> string): (r: Result<seq<CompiledMiddle>, CompileError>)
    ensures r.Failure? <==> CompileAll(pathnames, AppFolder(basePath, join)).Failure?
    ensures r.Failure? ==> r.error == CompileAll(pathnames, AppFolder(basePath, join)).error
    ensures r.Success? ==> forall i :: 0 <= i < |r.value| ==> Matches(e, r.value[i].segments, route)
    ensures r.Success? ==> WeightOrdered(r.value)
  {
    var maps :- CompileAll(pathnames, AppFolder(basePath, join));
    CompareMiddleConsistent(maps);
    SortSorted(maps, CompareMiddle);
    var sorted := Sort(maps, CompareMiddle).value;
    SortedWeights(sorted);
    FilterWeightOrdered(sorted, Matcher(e, route));
    Success(Filter(sorted, Matcher(e, route)))
  }

  /** The result holds every compiled route whose expression matches, and nothing else. */
  lemma FindRoutePathnameMembers(e: Expression, pathnames: seq<string>, basePath: string, route: string, join: seq<string> -> string, m: CompiledMiddle)
    requires FindRoutePathname(e, pathnames, basePath, route, join).Success?
    ensures var maps := CompileAll(pathnames, AppFolder(basePath, join)).value;
      m in FindRoutePathname(e, pathnames, basePath, route, join).value <==> m in maps && Matches(e, m.segments, route)
  {
    var maps := CompileAll(pathnames, AppFolder(basePath, join)).value;
    CompareMiddleConsistent(maps);
    SortSorted(maps, CompareMiddle);
    var sorted := Sort(maps, CompareMiddle).value;
    FilterMembers(sorted, Matcher(e, route), m);
    assert m in sorted <==> m in multiset(sorted);
    assert m in maps <==> m in multiset(maps);
  }

  /** The first route found is one of the lightest routes that match. */
  lemma FindRoutePathnameFirst(e: Expression, pathnames: seq<string>, basePath: string, route: string, join: seq<string> -> string, m: CompiledMiddle)
    requires FindRoutePathname(e, pathnames, basePath, route, join).Success?
    requires m in CompileAll(pathnames, AppFolder(basePath, join)).value && Matches(e, m.segments, route)
    ensures var r := FindRoutePathname(e, pathnames, basePath, route, join).value;
      |r| > 0 && r[0].weight <= m.weight
  {
    var r := FindRoutePathname(e, pathnames, basePath, route, join).value;
    FindRoutePathnameMembers(e, pathnames, basePath, route, join, m);
    var j :| 0 <= j < |r| && r[j] == m;
    if j > 0 {
      assert r[0].weight <= r[j].weight;
    }
  }

  /** Routes with at most one parameter of each kind: the as-written and intended expressions coincide on them. */
  predicate FewParameters(ms: seq<CompiledMiddle>) {
    forall i :: 0 <= i < |ms| ==> DynamicCount(ms[i].segments) <= 1 && CatchAllCount(ms[i].segments) <= 1
  }

  /** When no compiled route has a second `[name]` or `[...name]`, the source's search finds exactly the intended routes. */
  lemma FindRoutePathnameAgrees(pathnames: seq<string>, basePath: string, route: string, join: seq<string> -> string)
    requires CompileAll(pathnames, AppFolder(basePath, join)).Success?
    requires FewParameters(CompileAll(pathnames, AppFolder(basePath, join)).value)
    ensures FindRoutePathname(AsWritten, pathnames, basePath, route, join) == FindRoutePathname(Corrected, pathnames, basePath, route, join)
  {
    var maps := CompileAll(pathnames, AppFolder(basePath, join)).value;
    CompareMiddleConsistent(maps);
    SortSorted(maps, CompareMiddle);
    var sorted := Sort(maps, CompareMiddle).value;
    FewParametersPermuted(maps, sorted);
    MatchersAgree(sorted, route);
  }

  lemma FewParametersPermuted(maps: seq<CompiledMiddle>, sorted: seq<CompiledMiddle>)
    requires FewParameters(maps) && multiset(sorted) == multiset(maps)
    ensures FewParameters(sorted)
  {
    forall i | 0 <= i < |sorted|
      ensures DynamicCount(sorted[i].segments) <= 1 && CatchAllCount(sorted[i].segments) <= 1
    {
      assert sorted[i] in multiset(maps);
      var k :| 0 <= k < |maps| && maps[k] == sorted[i];
    }
  }

  lemma MatchersAgree(ms: seq<CompiledMiddle>, route: string)
    requires FewParameters(ms)
    ensures Filter(ms, Matcher(AsWritten, route)) == Filter(ms, Matcher(Corrected, route))
  {
    forall i | 0 <= i < |ms|
      ensures Matcher(AsWritten, route)(ms[i]) == Matcher(Corrected, route)(ms[i])
    {
      MatchAsWrittenAgrees(ms[i].segments, route);
    }
    FilterSame(ms, Matcher(AsWritten, route), Matcher(Corrected, route));
  }

  // ---------------------------------------------------------------------------
  // `findMiddlewarePathnames`
  // ---------------------------------------------------------------------------

  /** The middleware file of one directory under the application folder. */
  function MiddlewareFile(basePath: string, dir: string, join: seq<string> -> string): string {
    join(NonEmpty([basePath, CompiledApp, dir, "middleware.mjs"]))
  }

  /** The directory chain from the application folder down to the route file's own directory. */
  function MiddlewareDirs(basePath: string, routeFilePath: string, join: seq<string> -> string): seq<string> {
    RecursiveDirectoryList(Dirname(EscapePath(routeFilePath, AppFolder(basePath, join))))
  }

  /** One candidate middleware file per directory, root first. */
  function MiddlewareSearchList(basePath: string, routeFilePath: string, join: seq<string> -> string): (r: seq<string>)
    ensures var dirs := MiddlewareDirs(basePath, routeFilePath, join);
      |r| == |dirs| && forall i :: 0 <= i < |r| ==> r[i] == MiddlewareFile(basePath, dirs[i], join)
  {
    var dirs := MiddlewareDirs(basePath, routeFilePath, join);
    seq(|dirs|, i requires 0 <= i < |dirs| => MiddlewareFile(basePath, dirs[i], join))
  }

  /** The empty root directory drops out of the joined path: the first candidate is the application folder's own middleware. */
  lemma MiddlewareSearchRoot(basePath: string, routeFilePath: string, join: seq<string> -> string)
    requires basePath != ""
    ensures var list := MiddlewareSearchList(basePath, routeFilePath, join);
      |list| >= 1 && list[0] == join([basePath, CompiledApp, "middleware.mjs"])
  {
    var dirs := MiddlewareDirs(basePath, routeFilePath, join);
    assert dirs[0] == "";
    NonEmptyAppRoot(basePath);
  }

  lemma NonEmptyAppRoot(basePath: string)
    requires basePath != ""
    ensures NonEmpty([basePath, CompiledApp, "", "middleware.mjs"]) == [basePath, CompiledApp, "middleware.mjs"]
  {
    var parts := [basePath, CompiledApp, "", "middleware.mjs"];
    var p := (s: string) => s != "";
    assert Filter(parts[3..], p) == ["middleware.mjs"];
    assert Filter(parts[2..], p) == ["middleware.mjs"];
    assert Filter(parts[1..], p) == [CompiledApp, "middleware.mjs"];
  }

  /** `findMiddlewarePathnames`: the candidates that exist, root first. */
  function FindMiddlewarePathnames(basePath: string, routeFilePath: string, join: seq<string> -> string, fileExists: string -> bool): (r: seq<string>)
    ensures forall i :: 0 <= i < |r| ==> fileExists(r[i])
  {
    Filter(MiddlewareSearchList(basePath, routeFilePath, join), fileExists)
  }

  lemma FindMiddlewareMembers(basePath: string, routeFilePath: string, join: seq<string> -> string, fileExists: string -> bool, x: string)
    ensures x in FindMiddlewarePathnames(basePath, routeFilePath, join, fileExists) <==> x in MiddlewareSearchList(basePath, routeFilePath, join) && fileExists(x)
  {
    FilterMembers(MiddlewareSearchList(basePath, routeFilePath, join), fileExists, x);
  }
}

=== FILE: route_tokens.dfy ===
/**
  The cleaned route of the current generation (`src/utils/response.ts`) seen
  as a list of `/`-separated segment tokens, and the two scans the compiler
  runs directly on the route text:

  - the "invalid route" test, a search for `[...name]` followed by at least
    one more character;
  - the `vars` scan, every `[name]` or `[...name]` left to right.

  A segment is static text, a dynamic `[name]` or a catch-all `[...name]`.
  The lemmas here show that on a route made of segments the two text scans
  agree with the segment view: the route is invalid exactly when a
  catch-all is not the last segment, and `vars` lists the segment names.
 */
module RouteTokens {
  import opened Wrappers
  import opened Strings
  import opened RouteCleaning

  // ---------------------------------------------------------------------------
  // Character classes
  // ---------------------------------------------------------------------------

  /** Characters a parameter name is made of here: the identifier class without the brackets. */
  predicate IsNameChar(c: char) {
    IsIdentChar(c) && c != '[' && c != ']'
  }

  /** Characters `.` does not match in a regular expression without the `s` flag. */
  predicate IsLineTerminator(c: char) {
    c == '\n' || c == '\r' || c == '\U{2028}' || c == '\U{2029}'
  }

  predicate IsRegexMeta(c: char) {
    c == '\\' || c == '^' || c == '$' || c == '.' || c == '|' || c == '?' || c == '*' || c == '+'
    || c == '(' || c == ')' || c == '[' || c == ']' || c == '{' || c == '}'
  }

  /** Characters static route text may hold in this model: no separator, no regular-expression metacharacter, no line terminator. */
  predicate IsPlainChar(c: char) {
    c != '/' && !IsRegexMeta(c) && !IsLineTerminator(c)
  }

  predicate AllIdent(s: string) {
    forall i :: 0 <= i < |s| ==> IsIdentChar(s[i])
  }

  predicate NoLineTerminator(s: string) {
    forall i :: 0 <= i < |s| ==> !IsLineTerminator(s[i])
  }

  // ---------------------------------------------------------------------------
  // Segments
  // ---------------------------------------------------------------------------

  datatype Segment = Static(text: string) | Dynamic(name: string) | CatchAll(name: string)

  predicate ValidName(n: string) {
    |n| > 0 && forall i :: 0 <= i < |n| ==> IsNameChar(n[i])
  }

  predicate ValidSegment(g: Segment) {
    match g
    case Static(t) => forall i :: 0 <= i < |t| ==> IsPlainChar(t[i])
    case Dynamic(n) => ValidName(n)
    case CatchAll(n) => ValidName(n)
  }

  predicate ValidSegments(segs: seq<Segment>) {
    forall i :: 0 <= i < |segs| ==> ValidSegment(segs[i])
  }

  function SegmentText(g: Segment): string {
    match g
    case Static(t) => t
    case Dynamic(n) => "[" + n + "]"
    case CatchAll(n) => "[..." + n + "]"
  }

  /** Every segment preceded by `/`. */
  function Text(segs: seq<Segment>): string
    decreases |segs|
  {
    if |segs| == 0 then "" else "/" + SegmentText(segs[0]) + Text(segs[1..])
  }

  /** The route text of a segment list; no segments is the root route `/`. */
  function RouteText(segs: seq<Segment>): string {
    if |segs| == 0 then "/" else Text(segs)
  }

  /** The parameter names, in order. */
  function Names(segs: seq<Segment>): seq<string>
    decreases |segs|
  {
    if |segs| == 0 then []
    else (if segs[0].Static? then [] else [segs[0].name]) + Names(segs[1..])
  }

  /** Some catch-all segment is followed by another segment. */
  predicate CatchAllBeforeEnd(segs: seq<Segment>) {
    exists i :: 0 <= i < |segs| - 1 && segs[i].CatchAll?
  }

  // ---------------------------------------------------------------------------
  // Classification of a cleaned route
  // ---------------------------------------------------------------------------

  /** Reads one piece between separators as a segment; `None` for text outside the model (metacharacters, brackets inside names). */
  function ClassifySegment(p: string): (r: Option<Segment>)
    ensures r.Some? ==> ValidSegment(r.value) && SegmentText(r.value) == p
  {
    if |p| >= 5 && p[..4] == "[..." && p[|p| - 1] == ']' && ValidName(p[4..|p| - 1]) then
      assert p == "[..." + p[4..|p| - 1] + "]";
      Some(CatchAll(p[4..|p| - 1]))
    else if |p| >= 3 && p[0] == '[' && p[|p| - 1] == ']' && ValidName(p[1..|p| - 1]) then
      assert p == "[" + p[1..|p| - 1] + "]";
      Some(Dynamic(p[1..|p| - 1]))
    else if forall i :: 0 <= i < |p| ==> IsPlainChar(p[i]) then
      Some(Static(p))
    else None
  }

  function ClassifyParts(parts: seq<string>): (r: Option<seq<Segment>>)
    ensures r.Some? ==> |r.value| == |parts| && ValidSegments(r.value)
    ensures r.Some? ==> forall i :: 0 <= i < |parts| ==> SegmentText(r.value[i]) == parts[i]
    decreases |parts|
  {
    if |parts| == 0 then Some([])
    else
      var g :- ClassifySegment(parts[0]);
      var gs :- ClassifyParts(parts[1..]);
      Some([g] + gs)
  }

  /** Reads a cleaned route as segments: `/` is the root, anything else is split after its leading `/`. */
  function ClassifyRoute(route: string): (r: Option<seq<Segment>>)
    ensures r.Some? ==> ValidSegments(r.value) && RouteText(r.value) == route
  {
    if route == "/" then Some([])
    else if |route| >= 2 && route[0] == '/' then
      var parts := Split(route[1..], '/');
      var r := ClassifyParts(parts);
      if r.Some? then
        TextOfParts(r.value, parts);
        JoinSplit(route[1..], '/');
        r
      else None
    else None
  }

  lemma {:induction false} TextOfParts(segs: seq<Segment>, parts: seq<string>)
    requires |segs| == |parts| >= 1
    requires forall i :: 0 <= i < |parts| ==> SegmentText(segs[i]) == parts[i]
    ensures Text(segs) == "/" + Join(parts, "/")
    decreases |segs|
  {
    if |segs| > 1 {
      assert forall i :: 0 <= i < |parts| - 1 ==> segs[1..][i] == segs[i + 1] && parts[1..][i] == parts[i + 1];
      TextOfParts(segs[1..], parts[1..]);
      TextOfPartsStep(segs, parts);
    } else {
      assert Text(segs) == "/" + parts[0] + Text(segs[1..]);
    }
  }

  lemma TextOfPartsStep(segs: seq<Segment>, parts: seq<string>)
    requires |segs| == |parts| >= 2
    requires SegmentText(segs[0]) == parts[0]
    requires Text(segs[1..]) == "/" + Join(parts[1..], "/")
    ensures Text(segs) == "/" + Join(parts, "/")
  {
    var head := parts[0];
    var rest := Join(parts[1..], "/");
    assert Text(segs) == "/" + head + ("/" + rest);
    assert Join(parts, "/") == head + "/" + rest;
    ConcatAssoc("/" + head, "/", rest);
    ConcatAssoc("/", head, "/");
    ConcatAssoc("/", head + "/", rest);
  }

  /** A valid segment's text is read back as that segment. */
  lemma ClassifySegmentText(g: Segment)
    requires ValidSegment(g)
    ensures ClassifySegment(SegmentText(g)) == Some(g)
  {
    var p := SegmentText(g);
    match g
    case Static(t) =>
      if |p| > 0 {
        assert IsPlainChar(p[0]);
      }
    case Dynamic(n) =>
      assert p[1..|p| - 1] == n;
      assert IsNameChar(n[0]);
      assert p[1] == n[0];
    case CatchAll(n) =>
      assert p[..4] == "[...";
      assert p[4..|p| - 1] == n;
  }

  // ---------------------------------------------------------------------------
  // The invalid-route scan: `/\[\.\.\.[class]+\].+$/`
  // ---------------------------------------------------------------------------

  /** The pattern matches at the start of `s`: `[...`, class characters, `]`, then one or more characters up to the end, none a line terminator. */
  predicate ThrowMatchAt(s: string) {
    |s| >= 4 && s[..4] == "[..." && exists m :: 0 <= m < |s| && ThrowCloseAt(s, m)
  }

  /** The class run after `[...` is closed by the `]` at `4 + m`, and one or more characters up to the end follow it, none a line terminator. */
  predicate ThrowCloseAt(s: string, m: int) {
    1 <= m && 4 + m + 1 < |s| && s[4 + m] == ']' && AllIdent(s[4..4 + m]) && NoLineTerminator(s[4 + m + 1..])
  }

  /** The pattern matches somewhere in `s`: the compiler throws `Invalid route path`. */
  predicate InvalidRoute(s: string)
    decreases |s|
  {
    |s| > 0 && (ThrowMatchAt(s) || InvalidRoute(s[1..]))
  }

  /** A match needs a `[` where it starts, so text without `[` can be skipped. */
  lemma {:induction false} InvalidSkip(p: string, q: string)
    requires '[' !in p
    ensures InvalidRoute(p + q) == InvalidRoute(q)
    decreases |p|
  {
    if |p| > 0 {
      assert (p + q)[0] == p[0];
      assert !ThrowMatchAt(p + q) by {
        if |p + q| >= 4 {
          assert (p + q)[..4][0] == p[0];
        }
      }
      assert (p + q)[1..] == p[1..] + q;
      InvalidSkip(p[1..], q);
    } else {
      assert p + q == q;
    }
  }

  /** `rest` as it follows a segment text inside a route: empty or starting with `/`, and free of line terminators. */
  predicate Follower(rest: string) {
    (|rest| == 0 || rest[0] == '/') && NoLineTerminator(rest)
  }

  lemma CatchAllThrowMatch(n: string, rest: string)
    requires ValidName(n) && Follower(rest)
    ensures ThrowMatchAt("[..." + n + "]" + rest) <==> |rest| > 0
  {
    var s := "[..." + n + "]" + rest;
    assert s[..4] == "[...";
    assert s[4..4 + |n|] == n;
    assert s[4 + |n|] == ']';
    if |rest| > 0 {
      var m := |n|;
      assert s[4 + m + 1..] == rest;
      assert AllIdent(s[4..4 + m]);
      assert ThrowCloseAt(s, m);
    } else {
      forall m ensures !ThrowCloseAt(s, m) {
        if 1 <= m && 4 + m + 1 < |s| {
          assert s[4 + m] == n[m];
          assert IsNameChar(n[m]);
        }
      }
    }
  }

  lemma PlainNoBracket(t: string)
    requires forall i :: 0 <= i < |t| ==> IsPlainChar(t[i])
    ensures '[' !in t
  {
    forall i | 0 <= i < |t| ensures t[i] != '[' {
      assert IsPlainChar(t[i]);
    }
  }

  /** The text of a dynamic or catch-all segment after its opening `[` holds no other `[`. */
  lemma NameTailNoBracket(prefix: string, n: string)
    requires ValidName(n) && '[' !in prefix
    ensures '[' !in prefix + n + "]"
  {
    var u := prefix + n + "]";
    forall i | 0 <= i < |u| ensures u[i] != '[' {
      if |prefix| <= i < |u| - 1 {
        assert u[i] == n[i - |prefix|];
        assert IsNameChar(n[i - |prefix|]);
      } else if i < |prefix| {
        assert u[i] == prefix[i];
      }
    }
  }

  lemma InvalidDynamic(n: string, rest: string)
    requires ValidName(n)
    ensures InvalidRoute("[" + n + "]" + rest) == InvalidRoute(rest)
  {
    var s := "[" + n + "]" + rest;
    assert s[1] == n[0] && IsNameChar(n[0]);
    assert !ThrowMatchAt(s) by {
      assert |s| >= 4 ==> s[..4][1] == s[1];
    }
    assert s[1..] == ("" + n + "]") + rest;
    NameTailNoBracket("", n);
    InvalidSkip("" + n + "]", rest);
  }

  lemma InvalidCatchAll(n: string, rest: string)
    requires ValidName(n) && Follower(rest)
    ensures InvalidRoute("[..." + n + "]" + rest) == (|rest| > 0 || InvalidRoute(rest))
  {
    var s := "[..." + n + "]" + rest;
    CatchAllThrowMatch(n, rest);
    assert s[1..] == ("..." + n + "]") + rest;
    NameTailNoBracket("...", n);
    InvalidSkip("..." + n + "]", rest);
  }

  lemma InvalidSegment(g: Segment, rest: string)
    requires ValidSegment(g) && Follower(rest)
    ensures InvalidRoute(SegmentText(g) + rest) == ((g.CatchAll? && |rest| > 0) || InvalidRoute(rest))
  {
    match g
    case Static(t) =>
      PlainNoBracket(t);
      InvalidSkip(t, rest);
    case Dynamic(n) =>
      InvalidDynamic(n, rest);
    case CatchAll(n) =>
      InvalidCatchAll(n, rest);
  }

  lemma SegmentNoLineTerminator(g: Segment)
    requires ValidSegment(g)
    ensures NoLineTerminator(SegmentText(g))
  {
    var t := SegmentText(g);
    forall i | 0 <= i < |t| ensures !IsLineTerminator(t[i]) {
      match g
      case Static(x) => assert IsPlainChar(x[i]);
      case Dynamic(n) => if 0 < i < |t| - 1 { assert t[i] == n[i - 1]; assert IsNameChar(n[i - 1]); }
      case CatchAll(n) => if 3 < i < |t| - 1 { assert t[i] == n[i - 4]; assert IsNameChar(n[i - 4]); }
    }
  }

  lemma NoLineTerminatorConcat(a: string, b: string)
    requires NoLineTerminator(a) && NoLineTerminator(b)
    ensures NoLineTerminator(a + b)
  {
    forall i | 0 <= i < |a + b| ensures !IsLineTerminator((a + b)[i]) {
      if i < |a| {
        assert (a + b)[i] == a[i];
      } else {
        assert (a + b)[i] == b[i - |a|];
      }
    }
  }

  lemma {:induction false} TextFollower(segs: seq<Segment>)
    requires ValidSegments(segs)
    ensures Follower(Text(segs))
    decreases |segs|
  {
    if |segs| > 0 {
      TextFollower(segs[1..]);
      var t := SegmentText(segs[0]);
      SegmentNoLineTerminator(segs[0]);
      NoLineTerminatorConcat(t, Text(segs[1..]));
      NoLineTerminatorConcat("/", t + Text(segs[1..]));
      assert Text(segs) == "/" + (t + Text(segs[1..]));
    }
  }

  /** Recursive form of `CatchAllBeforeEnd`. */
  predicate CatchAllBeforeEndRec(segs: seq<Segment>)
    decreases |segs|
  {
    |segs| > 1 && (segs[0].CatchAll? || CatchAllBeforeEndRec(segs[1..]))
  }

  lemma {:induction false} CatchAllBeforeEndIff(segs: seq<Segment>)
    ensures CatchAllBeforeEndRec(segs) <==> CatchAllBeforeEnd(segs)
    decreases |segs|
  {
    if |segs| > 1 {
      CatchAllBeforeEndIff(segs[1..]);
      if CatchAllBeforeEnd(segs[1..]) {
        var i :| 0 <= i < |segs[1..]| - 1 && segs[1..][i].CatchAll?;
        assert segs[i + 1].CatchAll?;
      }
      if CatchAllBeforeEnd(segs) && !segs[0].CatchAll? {
        var i :| 0 <= i < |segs| - 1 && segs[i].CatchAll?;
        assert segs[1..][i - 1].CatchAll?;
      }
    }
  }

  lemma {:induction false} InvalidTextRec(segs: seq<Segment>)
    requires ValidSegments(segs)
    ensures InvalidRoute(Text(segs)) <==> CatchAllBeforeEndRec(segs)
    decreases |segs|
  {
    if |segs| > 0 {
      var rest := Text(segs[1..]);
      InvalidTextRec(segs[1..]);
      TextFollower(segs[1..]);
      InvalidSegment(segs[0], rest);
      assert Text(segs) == "/" + (SegmentText(segs[0]) + rest);
      InvalidSkip("/", SegmentText(segs[0]) + rest);
      assert |rest| > 0 <==> |segs| > 1;
    } else {
      assert !InvalidRoute("");
    }
  }

  /** On a route made of segments, the compiler's invalid-route test holds exactly when a catch-all is not the last segment. */
  lemma InvalidRouteIff(segs: seq<Segment>)
    requires ValidSegments(segs)
    ensures InvalidRoute(RouteText(segs)) <==> CatchAllBeforeEnd(segs)
  {
    CatchAllBeforeEndIff(segs);
    if |segs| == 0 {
      assert !InvalidRoute("/"[1..]);
      assert !ThrowMatchAt("/");
    } else {
      InvalidTextRec(segs);
    }
  }

  // ---------------------------------------------------------------------------
  // The `vars` scan: every `/\[(?:\.{3})?([class]+)\]/g` match, left to right
  // ---------------------------------------------------------------------------

  /** Length of the longest prefix of identifier-class characters. */
  function IdentRun(s: string): (k: nat)
    ensures k <= |s|
    ensures forall i :: 0 <= i < k ==> IsIdentChar(s[i])
    ensures k < |s| ==> !IsIdentChar(s[k])
    decreases |s|
  {
    if |s| == 0 || !IsIdentChar(s[0]) then 0 else 1 + IdentRun(s[1..])
  }

  /** The largest `m` with `1 <= m < k` and `s[m] == ']'`: where a greedy `[class]+\]` closes after backtracking. */
  function LastClose(s: string, k: nat): (r: Option<nat>)
    requires k <= |s|
    ensures r.Some? ==> 1 <= r.value < k && s[r.value] == ']'
    ensures r.Some? ==> forall j :: r.value < j < k ==> s[j] != ']'
    ensures r.None? ==> forall j :: 1 <= j < k ==> s[j] != ']'
    decreases k
  {
    if k <= 1 then None else if s[k - 1] == ']' then Some(k - 1) else LastClose(s, k - 1)
  }

  /** A match of the name group and its closing `]` in `body`: the name and the characters consumed. */
  function CloseName(body: string): Option<(string, nat)> {
    match LastClose(body, IdentRun(body))
    case Some(m) => Some((body[..m], m + 1))
    case None => None
  }

  /** The `vars` pattern at the start of `s`: the captured name and the length of the match. */
  function VarAt(s: string): (r: Option<(string, nat)>)
    ensures r.Some? ==> 0 < r.value.1 <= |s|
  {
    if |s| == 0 || s[0] != '[' then None
    else if |s| >= 4 && s[1..4] == "..." then
      match CloseName(s[4..])
      case Some((n, k)) => Some((n, 4 + k))
      case None => None
    else
      match CloseName(s[1..])
      case Some((n, k)) => Some((n, 1 + k))
      case None => None
  }

  /** `Array.from(route.matchAll(...)).map((m) => m[1])`. */
  function Vars(s: string): seq<string>
    decreases |s|
  {
    if |s| == 0 then []
    else match VarAt(s)
      case Some((n, k)) => [n] + Vars(s[k..])
      case None => Vars(s[1..])
  }

  lemma {:induction false} VarsSkip(p: string, q: string)
    requires '[' !in p
    ensures Vars(p + q) == Vars(q)
    decreases |p|
  {
    if |p| > 0 {
      assert (p + q)[0] == p[0];
      assert (p + q)[1..] == p[1..] + q;
      VarsSkip(p[1..], q);
    } else {
      assert p + q == q;
    }
  }

  lemma IdentRunOf(p: string, q: string)
    requires AllIdent(p)
    requires |q| == 0 || !IsIdentChar(q[0])
    ensures IdentRun(p + q) == |p|
  {
    var s := p + q;
    assert forall i :: 0 <= i < |p| ==> s[i] == p[i];
    assert |q| > 0 ==> s[|p|] == q[0];
  }

  /** The body after the opening of a token: the name, `]`, then the rest of the route. */
  lemma CloseNameOf(n: string, rest: string)
    requires ValidName(n) && Follower(rest)
    ensures CloseName(n + "]" + rest) == Some((n, |n| + 1))
  {
    var body := n + "]" + rest;
    assert AllIdent(n + "]") by {
      forall i | 0 <= i < |n| + 1 ensures IsIdentChar((n + "]")[i]) {
        if i < |n| {
          assert IsNameChar(n[i]);
        }
      }
    }
    assert body == (n + "]") + rest;
    IdentRunOf(n + "]", rest);
    assert body[|n|] == ']';
    assert body[..|n|] == n;
  }

  lemma VarsSegment(g: Segment, rest: string)
    requires ValidSegment(g) && Follower(rest)
    ensures Vars(SegmentText(g) + rest) == (if g.Static? then [] else [g.name]) + Vars(rest)
  {
    match g
    case Static(x) => VarsStatic(x, rest);
    case Dynamic(n) => VarsDynamic(n, rest);
    case CatchAll(n) => VarsCatchAll(n, rest);
  }

  lemma VarsStatic(x: string, rest: string)
    requires ValidSegment(Static(x))
    ensures Vars(SegmentText(Static(x)) + rest) == Vars(rest)
  {
    var t := SegmentText(Static(x));
    assert '[' !in t by {
      forall i | 0 <= i < |t| ensures t[i] != '[' {
        assert IsPlainChar(t[i]);
      }
    }
    VarsSkip(t, rest);
  }

  lemma VarsDynamic(n: string, rest: string)
    requires ValidSegment(Dynamic(n)) && Follower(rest)
    ensures Vars(SegmentText(Dynamic(n)) + rest) == [n] + Vars(rest)
  {
    var s := SegmentText(Dynamic(n)) + rest;
    assert s[1] == n[0] && IsNameChar(n[0]);
    assert !(|s| >= 4 && s[1..4] == "...") by {
      if |s| >= 4 {
        assert s[1..4][0] == s[1];
      }
    }
    assert s[1..] == n + "]" + rest;
    CloseNameOf(n, rest);
    assert VarAt(s) == Some((n, |n| + 2));
    assert s[|n| + 2..] == rest;
  }

  lemma VarsCatchAll(n: string, rest: string)
    requires ValidSegment(CatchAll(n)) && Follower(rest)
    ensures Vars(SegmentText(CatchAll(n)) + rest) == [n] + Vars(rest)
  {
    var s := SegmentText(CatchAll(n)) + rest;
    assert s[1..4] == "...";
    assert s[4..] == n + "]" + rest;
    CloseNameOf(n, rest);
    assert VarAt(s) == Some((n, |n| + 5));
    assert s[|n| + 5..] == rest;
  }

  lemma {:induction false} VarsText(segs: seq<Segment>)
    requires ValidSegments(segs)
    ensures Vars(Text(segs)) == Names(segs)
    decreases |segs|
  {
    if |segs| > 0 {
      var rest := Text(segs[1..]);
      VarsText(segs[1..]);
      TextFollower(segs[1..]);
      VarsSegment(segs[0], rest);
      assert Text(segs) == "/" + (SegmentText(segs[0]) + rest);
      VarsSkip("/", SegmentText(segs[0]) + rest);
    }
  }

  /** On a route made of segments, `vars` lists the dynamic and catch-all names in order. */
  lemma VarsIff(segs: seq<Segment>)
    requires ValidSegments(segs)
    ensures Vars(RouteText(segs)) == Names(segs)
  {
    if |segs| == 0 {
      assert VarAt("/").None?;
      assert Vars("/"[1..]) == [];
    } else {
      VarsText(segs);
    }
  }
}

=== FILE: sorting.dfy ===
/**
  `Array.prototype.sort` with a user comparator, and `Array.prototype.filter`.

  The engine's sort is stable, but the comparisons it performs are left to
  the implementation; this model fixes them to those of a stable insertion
  sort that scans from the back. A
  comparator is a function that returns a number, or throws (the current
  generation's comparator can raise a `TypeError`), and a throwing
  comparison aborts the sort.
 */
module Sorting {
  import opened Wrappers

  /** The outcome of one comparator call: the number it returns, or a thrown error. */
  datatype Comparison = Ordered(sign: int) | Throws

  /** `a` may stay before `b`: the comparator returned a number that is not positive. */
  predicate NotAfter<T>(cmp: (T, T) -> Comparison, a: T, b: T) {
    cmp(a, b).Ordered? && cmp(a, b).sign <= 0
  }

  /** Every neighbouring pair is in comparator order. */
  predicate Sorted<T>(s: seq<T>, cmp: (T, T) -> Comparison) {
    forall i :: 0 <= i < |s| - 1 ==> NotAfter(cmp, s[i], s[i + 1])
  }

  /**
    On the given elements the comparator never throws and is antisymmetric:
    when it puts `a` after `b`, it puts `b` before `a`.
   */
  ghost predicate Consistent<T>(cmp: (T, T) -> Comparison, xs: seq<T>) {
    forall a, b :: a in xs && b in xs ==> cmp(a, b).Ordered? && (cmp(a, b).sign > 0 ==> NotAfter(cmp, b, a))
  }

  /** Inserts `x` into `sorted` from the back: it moves left past every element the comparator puts after it. */
  function Insert<T>(sorted: seq<T>, x: T, cmp: (T, T) -> Comparison): (r: Option<seq<T>>)
    ensures r.Some? ==> multiset(r.value) == multiset(sorted) + multiset{x}
    ensures r.Some? && |sorted| > 0 ==> r.value[|r.value| - 1] in {x, sorted[|sorted| - 1]}
    ensures r.Some? ==> |r.value| == |sorted| + 1
    decreases |sorted|
  {
    if |sorted| == 0 then Some([x])
    else
      var last := sorted[|sorted| - 1];
      var init := sorted[..|sorted| - 1];
      match cmp(last, x)
      case Throws => None
      case Ordered(v) =>
        if v > 0 then
          var placed :- Insert(init, x, cmp);
          assert sorted == init + [last];
          Some(placed + [last])
        else Some(sorted + [x])
  }

  /** `xs.sort(cmp)`: `None` when a comparison throws. */
  function Sort<T>(xs: seq<T>, cmp: (T, T) -> Comparison): (r: Option<seq<T>>)
    ensures r.Some? ==> multiset(r.value) == multiset(xs)
    decreases |xs|
  {
    if |xs| == 0 then Some([])
    else
      var init := xs[..|xs| - 1];
      var s :- Sort(init, cmp);
      assert xs == init + [xs[|xs| - 1]];
      Insert(s, xs[|xs| - 1], cmp)
  }

  lemma {:induction false} InsertSorted<T>(sorted: seq<T>, x: T, cmp: (T, T) -> Comparison, xs: seq<T>)
    requires Sorted(sorted, cmp)
    requires x in xs && forall y :: y in sorted ==> y in xs
    requires Consistent(cmp, xs)
    ensures Insert(sorted, x, cmp).Some?
    ensures Sorted(Insert(sorted, x, cmp).value, cmp)
    decreases |sorted|
  {
    if |sorted| > 0 {
      var last := sorted[|sorted| - 1];
      var init := sorted[..|sorted| - 1];
      assert last in sorted;
      if cmp(last, x).sign > 0 {
        assert Sorted(init, cmp);
        forall y | y in init ensures y in xs {
          assert y in sorted;
        }
        InsertSorted(init, x, cmp, xs);
        var placed := Insert(init, x, cmp).value;
        var r := placed + [last];
        if |init| > 0 {
          assert placed[|placed| - 1] in {x, init[|init| - 1]};
          assert NotAfter(cmp, init[|init| - 1], last);
        }
        assert NotAfter(cmp, x, last);
        assert NotAfter(cmp, placed[|placed| - 1], last);
        assert forall i :: 0 <= i < |placed| ==> r[i] == placed[i];
      } else {
        var r := sorted + [x];
        assert forall i :: 0 <= i < |sorted| ==> r[i] == sorted[i];
        assert r[|sorted| - 1] == last;
      }
    }
  }

  /** With a comparator that is consistent on the input, the sort succeeds and its result is in comparator order. */
  lemma {:induction false} SortSorted<T>(xs: seq<T>, cmp: (T, T) -> Comparison)
    requires Consistent(cmp, xs)
    ensures Sort(xs, cmp).Some?
    ensures Sorted(Sort(xs, cmp).value, cmp)
    decreases |xs|
  {
    if |xs| > 0 {
      var init := xs[..|xs| - 1];
      assert Consistent(cmp, init) by {
        forall a | a in init ensures a in xs {
          assert a in xs;
        }
      }
      SortSorted(init, cmp);
      var s := Sort(init, cmp).value;
      forall y | y in s ensures y in xs {
        assert y in multiset(s);
        assert y in multiset(init);
      }
      InsertSorted(s, xs[|xs| - 1], cmp, xs);
    }
  }

  /** `xs.filter(p)`. */
  function Filter<T>(xs: seq<T>, p: T -> bool): (r: seq<T>)
    ensures |r| <= |xs|
    ensures forall i :: 0 <= i < |r| ==> p(r[i])
    decreases |xs|
  {
    if |xs| == 0 then [] else (if p(xs[0]) then [xs[0]] else []) + Filter(xs[1..], p)
  }

  /** `[...].filter(Boolean)` on strings: the empty strings are dropped. */
  function NonEmpty(parts: seq<string>): seq<string> {
    Filter(parts, (s: string) => s != "")
  }

  /** An element is kept exactly when it is in the input and passes the test. */
  lemma {:induction false} FilterMembers<T>(xs: seq<T>, p: T -> bool, x: T)
    ensures x in Filter(xs, p) <==> x in xs && p(x)
    decreases |xs|
  {
    if |xs| > 0 {
      FilterMembers(xs[1..], p, x);
      assert xs == [xs[0]] + xs[1..];
    }
  }

  /** A list whose elements all pass the test is kept whole and in order. */
  lemma {:induction false} FilterAll<T>(xs: seq<T>, p: T -> bool)
    requires forall i :: 0 <= i < |xs| ==> p(xs[i])
    ensures Filter(xs, p) == xs
    decreases |xs|
  {
    if |xs| > 0 {
      FilterAll(xs[1..], p);
      assert xs == [xs[0]] + xs[1..];
    }
  }

  /** Two tests that agree on every element keep the same elements. */
  lemma {:induction false} FilterSame<T>(xs: seq<T>, p: T -> bool, q: T -> bool)
    requires forall i :: 0 <= i < |xs| ==> p(xs[i]) == q(xs[i])
    ensures Filter(xs, p) == Filter(xs, q)
    decreases |xs|
  {
    if |xs| > 0 {
      assert forall i :: 0 <= i < |xs| - 1 ==> xs[1..][i] == xs[i + 1];
      FilterSame(xs[1..], p, q);
    }
  }
}

=== FILE: strings.dfy ===
/**
  String helpers with the meaning JavaScript gives them: `split` on one
  character, `join`, `startsWith`/`endsWith`, `indexOf`, first-occurrence
  `replace`, decimal rendering of numbers, and the two case mappings the
  source relies on (the ASCII folding of a regular expression's `i` flag and
  `toLowerCase` on Latin-1 text).
 */
module Strings {
  import opened Wrappers

  // ---------------------------------------------------------------------------
  // Characters
  // ---------------------------------------------------------------------------

  predicate IsAsciiDigit(c: char) {
    '0' <= c <= '9'
  }

  predicate IsAsciiUpper(c: char) {
    'A' <= c <= 'Z'
  }

  predicate IsAsciiLower(c: char) {
    'a' <= c <= 'z'
  }

  predicate IsAsciiAlphanumeric(c: char) {
    IsAsciiDigit(c) || IsAsciiUpper(c) || IsAsciiLower(c)
  }

  /** Lower-cases ASCII letters only: the folding a regular expression with the
      `i` flag applies when the pattern itself is ASCII text. */
  function AsciiLowerChar(c: char): (r: char)
    ensures IsAsciiUpper(c) ==> IsAsciiLower(r)
    ensures !IsAsciiUpper(c) ==> r == c
  {
    if IsAsciiUpper(c) then (c as int + 32) as char else c
  }

  function AsciiLower(s: string): (r: string)
    ensures |r| == |s|
    ensures forall i :: 0 <= i < |s| ==> r[i] == AsciiLowerChar(s[i])
  {
    seq(|s|, i requires 0 <= i < |s| => AsciiLowerChar(s[i]))
  }

  function AsciiUpperChar(c: char): (r: char)
    ensures IsAsciiLower(c) ==> IsAsciiUpper(r)
    ensures !IsAsciiLower(c) ==> r == c
  {
    if IsAsciiLower(c) then (c as int - 32) as char else c
  }

  /** `String.prototype.toUpperCase` on ASCII text. */
  function AsciiUpper(s: string): (r: string)
    ensures |r| == |s|
    ensures forall i :: 0 <= i < |s| ==> r[i] == AsciiUpperChar(s[i])
  {
    seq(|s|, i requires 0 <= i < |s| => AsciiUpperChar(s[i]))
  }

  /** Latin-1 capitals (U+00C0..U+00DE except the multiplication sign U+00D7). */
  predicate IsLatin1Upper(c: char) {
    'À' <= c <= 'Þ' && c != '×'
  }

  /** `String.prototype.toLowerCase` on ASCII and Latin-1 text. */
  function LowerChar(c: char): char {
    if IsAsciiUpper(c) || IsLatin1Upper(c) then (c as int + 32) as char else c
  }

  function Lower(s: string): (r: string)
    ensures |r| == |s|
    ensures forall i :: 0 <= i < |s| ==> r[i] == LowerChar(s[i])
  {
    seq(|s|, i requires 0 <= i < |s| => LowerChar(s[i]))
  }

  // ---------------------------------------------------------------------------
  // Prefixes, suffixes, occurrences
  // ---------------------------------------------------------------------------

  predicate StartsWith(s: string, prefix: string) {
    |prefix| <= |s| && s[..|prefix|] == prefix
  }

  predicate EndsWith(s: string, suffix: string) {
    |suffix| <= |s| && s[|s| - |suffix|..] == suffix
  }

  predicate OccursAt(s: string, pat: string, i: nat) {
    i + |pat| <= |s| && s[i..i + |pat|] == pat
  }

  function FindFrom(s: string, pat: string, from: nat): (r: Option<nat>)
    requires from <= |s|
    requires forall j :: 0 <= j < from ==> !OccursAt(s, pat, j)
    ensures r.Some? ==> OccursAt(s, pat, r.value)
    ensures r.Some? ==> forall j :: 0 <= j < r.value ==> !OccursAt(s, pat, j)
    ensures r.None? ==> forall j :: 0 <= j <= |s| ==> !OccursAt(s, pat, j)
    decreases |s| - from
  {
    if OccursAt(s, pat, from) then Some(from)
    else if from == |s| then None
    else FindFrom(s, pat, from + 1)
  }

  /** `s.indexOf(pat)`, with `None` for -1. */
  function FindFirst(s: string, pat: string): (r: Option<nat>)
    ensures r.Some? ==> OccursAt(s, pat, r.value)
    ensures r.Some? ==> forall j :: 0 <= j < r.value ==> !OccursAt(s, pat, j)
    ensures r.None? ==> forall j :: 0 <= j <= |s| ==> !OccursAt(s, pat, j)
  {
    FindFrom(s, pat, 0)
  }

  /** `s.includes(pat)`. */
  predicate Includes(s: string, pat: string) {
    FindFirst(s, pat).Some?
  }

  /** `s.replace(pat, rep)` with a string pattern: only the first occurrence is replaced. */
  function ReplaceFirst(s: string, pat: string, rep: string): string {
    match FindFirst(s, pat)
    case None => s
    case Some(i) => s[..i] + rep + s[i + |pat|..]
  }

  // ---------------------------------------------------------------------------
  // split / join on one separator character
  // ---------------------------------------------------------------------------

  function IndexOfChar(s: string, c: char): (r: Option<nat>)
    ensures r.Some? ==> r.value < |s| && s[r.value] == c && c !in s[..r.value]
    ensures r.None? ==> c !in s
  {
    if |s| == 0 then None
    else if s[0] == c then Some(0)
    else match IndexOfChar(s[1..], c)
      case None => None
      case Some(i) => Some(i + 1)
  }

  /** `s.split(c)`: never empty, and no part contains the separator. */
  function Split(s: string, c: char): (r: seq<string>)
    ensures |r| >= 1
    ensures forall i :: 0 <= i < |r| ==> c !in r[i]
    decreases |s|
  {
    match IndexOfChar(s, c)
    case None => [s]
    case Some(i) => [s[..i]] + Split(s[i + 1..], c)
  }

  /** `parts.join(sep)`. */
  function Join(parts: seq<string>, sep: string): string
    decreases |parts|
  {
    if |parts| == 0 then ""
    else if |parts| == 1 then parts[0]
    else parts[0] + sep + Join(parts[1..], sep)
  }

  lemma ConcatAssoc(a: string, b: string, c: string)
    ensures a + (b + c) == (a + b) + c
  {
  }

  lemma JoinCons(p: string, parts: seq<string>, sep: string)
    requires |parts| >= 1
    ensures Join([p] + parts, sep) == p + sep + Join(parts, sep)
  {
    assert ([p] + parts)[1..] == parts;
  }

  lemma {:induction false} JoinSnoc(parts: seq<string>, p: string, sep: string)
    requires |parts| >= 1
    ensures Join(parts + [p], sep) == Join(parts, sep) + sep + p
    decreases |parts|
  {
    if |parts| == 1 {
      assert parts + [p] == [parts[0]] + [p];
      JoinCons(parts[0], [p], sep);
    } else {
      JoinSnoc(parts[1..], p, sep);
      assert parts + [p] == [parts[0]] + (parts[1..] + [p]);
      JoinCons(parts[0], parts[1..] + [p], sep);
      JoinCons(parts[0], parts[1..], sep);
    }
  }

  /** The first part of a split is empty exactly when the text is empty or starts with the separator. */
  lemma SplitFirstEmpty(s: string, c: char)
    ensures Split(s, c)[0] == "" <==> |s| == 0 || s[0] == c
  {
  }

  /** Splitting and joining back on the same character gives the original text. */
  lemma {:induction false} JoinSplit(s: string, c: char)
    ensures Join(Split(s, c), [c]) == s
    decreases |s|
  {
    match IndexOfChar(s, c)
    case None =>
    case Some(i) =>
      JoinSplit(s[i + 1..], c);
      JoinCons(s[..i], Split(s[i + 1..], c), [c]);
      assert s == s[..i] + [c] + s[i + 1..];
  }

  /** Joining separator-free parts and splitting again gives the parts back. */
  lemma {:induction false} SplitJoin(parts: seq<string>, c: char)
    requires |parts| >= 1
    requires forall i :: 0 <= i < |parts| ==> c !in parts[i]
    ensures Split(Join(parts, [c]), c) == parts
    decreases |parts|
  {
    if |parts| == 1 {
      assert Join(parts, [c]) == parts[0];
    } else {
      var rest := Join(parts[1..], [c]);
      var s := parts[0] + [c] + rest;
      assert Join(parts, [c]) == s;
      assert s[|parts[0]|] == c;
      assert s[..|parts[0]|] == parts[0];
      assert c !in s[..|parts[0]|];
      assert IndexOfChar(s, c) == Some(|parts[0]|) by {
        IndexOfCharFirst(s, c, |parts[0]|);
      }
      assert s[|parts[0]| + 1..] == rest;
      SplitJoin(parts[1..], c);
      assert parts == [parts[0]] + parts[1..];
    }
  }

  lemma IndexOfCharFirst(s: string, c: char, i: nat)
    requires i < |s| && s[i] == c && c !in s[..i]
    ensures IndexOfChar(s, c) == Some(i)
  {
    var r := IndexOfChar(s, c);
    assert c in s by { assert s[i] == c; }
    assert forall j :: 0 <= j < i ==> s[j] == s[..i][j];
    assert forall j :: 0 <= j < r.value ==> s[j] == s[..r.value][j];
  }

  // ---------------------------------------------------------------------------
  // Decimal numbers
  // ---------------------------------------------------------------------------

  predicate AllDigits(s: string) {
    forall i :: 0 <= i < |s| ==> IsAsciiDigit(s[i])
  }

  function DigitValue(c: char): nat
    requires IsAsciiDigit(c)
  {
    c as int - '0' as int
  }

  function DigitChar(d: nat): (c: char)
    requires d < 10
    ensures IsAsciiDigit(c) && DigitValue(c) == d
  {
    ('0' as int + d) as char
  }

  /** `parseInt` of a string of decimal digits. */
  function DecimalValue(s: string): nat
    requires AllDigits(s)
    decreases |s|
  {
    if |s| == 0 then 0 else DecimalValue(s[..|s| - 1]) * 10 + DigitValue(s[|s| - 1])
  }

  /** `String(n)` for a non-negative integer. */
  function NatToDecimal(n: nat): (r: string)
    ensures |r| >= 1 && AllDigits(r)
    decreases n
  {
    if n < 10 then [DigitChar(n)] else NatToDecimal(n / 10) + [DigitChar(n % 10)]
  }

  /** `String(n)` for any integer. */
  function IntToDecimal(n: int): string {
    if n < 0 then "-" + NatToDecimal(-n) else NatToDecimal(n)
  }

  /** Rendering a number in decimal and reading it back gives the number. */
  lemma {:induction false} DecimalRoundTrip(n: nat)
    ensures DecimalValue(NatToDecimal(n)) == n
    decreases n
  {
    if n >= 10 {
      DecimalRoundTrip(n / 10);
      var s := NatToDecimal(n);
      assert s[..|s| - 1] == NatToDecimal(n / 10);
    }
  }

  /**
    JavaScript's unary `+` on a string, restricted to the spellings this model
    interprets: the empty string is 0, a string of decimal digits is its value,
    and every other string is taken to be `NaN`.
   */
  function NumericValue(s: string): (r: Option<int>)
    ensures r.Some? <==> (s == "" || AllDigits(s))
    ensures r.Some? ==> r.value >= 0
  {
    if s == "" then Some(0) else if AllDigits(s) then Some(DecimalValue(s)) else None
  }

  // ---------------------------------------------------------------------------
  // Ordering
  // ---------------------------------------------------------------------------

  /** `a < b` on strings: lexicographic by character, a proper prefix first. */
  predicate StrLess(a: string, b: string)
    decreases |a|
  {
    |b| > 0 && (|a| == 0 || a[0] < b[0] || (a[0] == b[0] && StrLess(a[1..], b[1..])))
  }

  /** Exactly one of `a < b`, `a == b`, `b < a` holds. */
  lemma {:induction false} StrLessTrichotomy(a: string, b: string)
    ensures StrLess(a, b) || a == b || StrLess(b, a)
    ensures !(StrLess(a, b) && StrLess(b, a))
    ensures !(StrLess(a, b) && a == b)
    decreases |a|
  {
    if |a| > 0 && |b| > 0 {
      StrLessTrichotomy(a[1..], b[1..]);
      if a[0] == b[0] && a[1..] == b[1..] {
        assert a == [a[0]] + a[1..] && b == [b[0]] + b[1..];
      }
    }
  }
}

=== FILE: transfer_current.dfy ===
/**
  `sendResponseParser` of the current generation (`src/utils/response.ts`):
  a declarative response becomes the ordered stream of transfer events the
  worker posts to the HTTP edge.

  The `Range` request header has already been parsed: the model receives the
  first range `range-parser` returned (`None` when there is no `Range`
  header or the parser found no satisfiable byte range). Headers, cookies and
  cleared cookies are JavaScript objects, modelled as their `Object.entries`
  in order.
 */
module TransferCurrent {
  import opened Wrappers
  import opened Strings
  import opened Protocol

  /** One byte range, both ends inclusive (section 14.1.2 of RFC 9110). */
  datatype ByteRange = ByteRange(start: nat, end: nat)

  type Headers = seq<(string, HeaderValue)>

  // ---------------------------------------------------------------------------
  // Header objects
  // ---------------------------------------------------------------------------

  function FindHeaderFrom(hs: Headers, lowerName: string, i: nat): (r: Option<nat>)
    requires i <= |hs|
    ensures r.Some? ==> i <= r.value < |hs| && HeaderNameIs(hs[r.value].0, lowerName)
    ensures r.Some? ==> forall j :: i <= j < r.value ==> !HeaderNameIs(hs[j].0, lowerName)
    ensures r.None? ==> forall j :: i <= j < |hs| ==> !HeaderNameIs(hs[j].0, lowerName)
    decreases |hs| - i
  {
    if i == |hs| then None
    else if HeaderNameIs(hs[i].0, lowerName) then Some(i)
    else FindHeaderFrom(hs, lowerName, i + 1)
  }

  /** `Object.keys(headers).find((k) => /^name$/i.test(k))`, as an index. */
  function FindHeader(hs: Headers, lowerName: string): (r: Option<nat>)
    ensures r.Some? ==> r.value < |hs| && HeaderNameIs(hs[r.value].0, lowerName)
    ensures r.Some? ==> forall j :: 0 <= j < r.value ==> !HeaderNameIs(hs[j].0, lowerName)
    ensures r.None? ==> forall j :: 0 <= j < |hs| ==> !HeaderNameIs(hs[j].0, lowerName)
  {
    FindHeaderFrom(hs, lowerName, 0)
  }

  /** The declared `Content-Length` value; `None` stands for the default `Infinity`, which `_.get` also returns for an `undefined` value. */
  function ContentLength(hs: Headers): Option<HeaderValue> {
    match FindHeader(hs, "content-length")
    case None => None
    case Some(i) => if hs[i].1.HUndefined? then None else Some(hs[i].1)
  }

  /** The declared `Content-Type` value, `undefined` when there is none. */
  function ContentType(hs: Headers): HeaderValue {
    match FindHeader(hs, "content-type")
    case None => HUndefined
    case Some(i) => hs[i].1
  }

  predicate HasKey(hs: Headers, k: string) {
    exists i :: 0 <= i < |hs| && hs[i].0 == k
  }

  /** `{...hs, [k]: v}`: an existing key keeps its place and takes the new value; a new key goes last. */
  function AssignKey(hs: Headers, k: string, v: HeaderValue): (r: Headers)
    ensures HasKey(r, k)
    ensures forall i :: 0 <= i < |r| && r[i].0 == k ==> r[i].1 == v
    ensures forall i :: 0 <= i < |hs| && hs[i].0 != k ==> hs[i] in r
    ensures forall i :: 0 <= i < |r| && r[i].0 != k ==> r[i] in hs
  {
    if HasKey(hs, k) then
      var r := seq(|hs|, i requires 0 <= i < |hs| => if hs[i].0 == k then (k, v) else hs[i]);
      var w :| 0 <= w < |hs| && hs[w].0 == k;
      assert r[w].0 == k;
      assert forall i :: 0 <= i < |hs| && hs[i].0 != k ==> r[i] == hs[i];
      r
    else
      var r := hs + [(k, v)];
      assert r[|hs|].0 == k;
      assert forall i :: 0 <= i < |hs| ==> r[i] == hs[i];
      r
  }

  /** `delete hs[k]`. */
  function DeleteKey(hs: Headers, k: string): (r: Headers)
    ensures forall i :: 0 <= i < |r| ==> r[i].0 != k
    ensures forall e :: e in r <==> e in hs && e.0 != k
    decreases |hs|
  {
    if |hs| == 0 then []
    else (if hs[0].0 == k then [] else [hs[0]]) + DeleteKey(hs[1..], k)
  }

  // ---------------------------------------------------------------------------
  // Range handling
  // ---------------------------------------------------------------------------

  /** `/len` when the declared length is truthy and a finite number; `Infinity` and `NaN` leave it out. */
  function LengthSuffix(cl: Option<HeaderValue>): string {
    match cl
    case None => ""
    case Some(v) => if HeaderTruthy(v) && HeaderNumber(v).Some? then "/" + HeaderText(v) else ""
  }

  /** The `Content-Range` value `bytes s-e/len` (section 14.4 of RFC 9110). */
  function ContentRangeText(r: ByteRange, cl: Option<HeaderValue>): string {
    "bytes " + NatToDecimal(r.start) + "-" + NatToDecimal(r.end) + LengthSuffix(cl)
  }

  /** The name the length header is deleted under: the declared one, else `Content-Length`. */
  function LengthKey(hs: Headers): string {
    match FindHeader(hs, "content-length")
    case None => "Content-Length"
    case Some(i) => hs[i].0
  }

  /** The headers that are sent: with a range, `Content-Range` is set and the length header removed. */
  function FinalHeaders(hs: Headers, range: Option<ByteRange>): (r: Headers)
    ensures range.None? ==> r == hs
  {
    match range
    case None => hs
    case Some(rg) => DeleteKey(AssignKey(hs, "Content-Range", HText(ContentRangeText(rg, ContentLength(hs)))), LengthKey(hs))
  }

  /**
    Under a range the sent headers carry the `Content-Range` value, no longer
    carry the declared length header, and keep every other header.
   */
  lemma FinalHeadersRange(hs: Headers, rg: ByteRange)
    ensures var r := FinalHeaders(hs, Some(rg));
      && ("Content-Range", HText(ContentRangeText(rg, ContentLength(hs)))) in r
      && !HasKey(r, LengthKey(hs))
      && (forall e :: e in hs && e.0 != LengthKey(hs) && e.0 != "Content-Range" ==> e in r)
      && (forall e :: e in r ==> e in hs || e.0 == "Content-Range")
  {
    var value := HText(ContentRangeText(rg, ContentLength(hs)));
    var withRange := AssignKey(hs, "Content-Range", value);
    var key := LengthKey(hs);
    LengthKeyNotRange(hs);
    var w :| 0 <= w < |withRange| && withRange[w].0 == "Content-Range";
    assert withRange[w] == ("Content-Range", value);
    forall e | e in hs && e.0 != key && e.0 != "Content-Range" ensures e in withRange {
      var i :| 0 <= i < |hs| && hs[i] == e;
    }
    forall e | e in withRange && e.0 != "Content-Range" ensures e in hs {
      var i :| 0 <= i < |withRange| && withRange[i] == e;
    }
  }

  /** The length header's name is never `Content-Range`, so the deletion keeps the new range header. */
  lemma LengthKeyNotRange(hs: Headers)
    ensures LengthKey(hs) != "Content-Range"
  {
    var key := LengthKey(hs);
    if FindHeader(hs, "content-length").Some? {
      assert AsciiLower(key) == "content-length";
      assert AsciiLower("Content-Range") != "content-length" by {
        assert AsciiLower("Content-Range")[8] == 'r';
      }
    }
  }

  /** `!res.status || res.status === 200 ? 206 : res.status` under a range, then `res.status || 200`. */
  function FinalStatus(status: Option<int>, range: Option<ByteRange>): (s: int)
    ensures range.Some? ==> (s == 206 <==> status.None? || status.value == 0 || status.value == 200 || status.value == 206)
    ensures range.None? ==> (s == 200 <==> status.None? || status.value == 0 || status.value == 200)
    ensures status.Some? && status.value != 0 && status.value != 200 ==> s == status.value
  {
    var chosen := if range.Some? && (status.None? || status.value == 0 || status.value == 200) then Some(206) else status;
    if chosen.None? || chosen.value == 0 then 200 else chosen.value
  }

  /** `Buffer.subarray(from, to)` for non-negative bounds: both are clamped to the length. */
  function Subarray(d: Bytes, from: nat, to: nat): (r: Bytes)
    ensures |r| <= |d|
    ensures from <= to <= |d| ==> r == d[from..to]
    ensures to <= from ==> r == []
  {
    var lo := if from < |d| then from else |d|;
    var hi := if to < |d| then to else |d|;
    if hi <= lo then [] else d[lo..hi]
  }

  // ---------------------------------------------------------------------------
  // Stream bodies
  // ---------------------------------------------------------------------------

  function Concat(chunks: seq<Bytes>): Bytes
    decreases |chunks|
  {
    if |chunks| == 0 then [] else chunks[0] + Concat(chunks[1..])
  }

  lemma ConcatCons(chunks: seq<Bytes>)
    requires |chunks| > 0
    ensures Concat(chunks) == chunks[0] + Concat(chunks[1..])
  {
  }

  /** The bytes of the writes among `evs`, in order. */
  function Written(evs: seq<Event>): Bytes
    decreases |evs|
  {
    if |evs| == 0 then []
    else (if evs[0].Write? then evs[0].data else []) + Written(evs[1..])
  }

  lemma {:induction false} WrittenConcat(a: seq<Event>, b: seq<Event>)
    ensures Written(a + b) == Written(a) + Written(b)
    decreases |a|
  {
    if |a| > 0 {
      WrittenConcat(a[1..], b);
      assert (a + b)[0] == a[0];
      assert (a + b)[1..] == a[1..] + b;
      var x := if a[0].Write? then a[0].data else [];
      assert Written(a + b) == x + Written(a[1..] + b);
      assert Written(a) == x + Written(a[1..]);
      assert x + (Written(a[1..]) + Written(b)) == (x + Written(a[1..])) + Written(b);
    } else {
      assert a + b == b;
    }
  }

  /** `v` clamped into `0..n`. */
  function Clamp(v: int, n: nat): (r: nat)
    ensures r <= n
  {
    if v < 0 then 0 else if v > n then n else v
  }

  /** The bytes of `d` between two offsets that may fall outside it. */
  function Window(d: Bytes, a: int, b: int): (r: Bytes)
    ensures |r| <= |d|
  {
    var lo := Clamp(a, |d|);
    var hi := Clamp(b, |d|);
    if hi <= lo then [] else d[lo..hi]
  }

  /** A window over two pieces is the window over the first followed by the shifted window over the second. */
  lemma WindowConcat(x: Bytes, y: Bytes, a: int, b: int)
    ensures Window(x + y, a, b) == Window(x, a, b) + Window(y, a - |x|, b - |x|)
  {
    var xy := x + y;
    var lo := Clamp(a, |xy|);
    var hi := Clamp(b, |xy|);
    if lo >= hi {
      WindowEmpty(x, y, a, b);
    } else if hi <= |x| {
      WindowInFirst(x, y, a, b);
    } else if lo >= |x| {
      WindowInSecond(x, y, a, b);
    } else {
      WindowAcross(x, y, a, b);
    }
  }

  lemma WindowEmpty(x: Bytes, y: Bytes, a: int, b: int)
    requires Clamp(b, |x + y|) <= Clamp(a, |x + y|)
    ensures Window(x + y, a, b) == [] == Window(x, a, b) == Window(y, a - |x|, b - |x|)
  {
  }

  lemma WindowInFirst(x: Bytes, y: Bytes, a: int, b: int)
    requires Clamp(a, |x + y|) < Clamp(b, |x + y|) <= |x|
    ensures Window(x + y, a, b) == Window(x, a, b) && Window(y, a - |x|, b - |x|) == []
  {
    var lo := Clamp(a, |x + y|);
    var hi := Clamp(b, |x + y|);
    assert (x + y)[lo..hi] == x[lo..hi];
  }

  lemma WindowInSecond(x: Bytes, y: Bytes, a: int, b: int)
    requires |x| <= Clamp(a, |x + y|) < Clamp(b, |x + y|)
    ensures Window(x + y, a, b) == Window(y, a - |x|, b - |x|) && Window(x, a, b) == []
  {
    var lo := Clamp(a, |x + y|);
    var hi := Clamp(b, |x + y|);
    assert (x + y)[lo..hi] == y[lo - |x|..hi - |x|];
  }

  lemma WindowAcross(x: Bytes, y: Bytes, a: int, b: int)
    requires Clamp(a, |x + y|) < |x| < Clamp(b, |x + y|)
    ensures Window(x + y, a, b) == Window(x, a, b) + Window(y, a - |x|, b - |x|)
  {
    var lo := Clamp(a, |x + y|);
    var hi := Clamp(b, |x + y|);
    assert Window(x, a, b) == x[lo..];
    assert Window(y, a - |x|, b - |x|) == y[..hi - |x|];
    assert (x + y)[lo..hi] == x[lo..] + y[..hi - |x|];
  }

  /**
    The ranged stream as the source writes it (lines 146-165): a chunk that
    ends before `start` only advances the counter, a counter past `end` stops
    the stream, and otherwise `length` bytes are taken from `offset` with
    `length` measured from the counter, not from `offset`.
   */
  function StreamRangeAsWritten(chunks: seq<Bytes>, start: nat, end: nat, readed: nat): (r: seq<Event>)
    ensures forall i :: 0 <= i < |r| ==> r[i].Write?
    decreases |chunks|
  {
    if |chunks| == 0 then []
    else
      var c := chunks[0];
      if |c| + readed < start then StreamRangeAsWritten(chunks[1..], start, end, readed + |c|)
      else if readed > end then []
      else
        var offset := if start >= readed then start - readed else 0;
        var length := if end + 1 - readed < |c| then end + 1 - readed else |c|;
        [Write(Subarray(c, offset, offset + length))] + StreamRangeAsWritten(chunks[1..], start, end, readed + length)
  }

  /**
    The ranged stream with the slice taken as intended: each chunk contributes
    its bytes that lie between `start` and `end`, and the counter advances by
    the whole chunk.
   */
  function StreamRange(chunks: seq<Bytes>, start: nat, end: nat, readed: nat): (r: seq<Event>)
    ensures forall i :: 0 <= i < |r| ==> r[i].Write?
    decreases |chunks|
  {
    if |chunks| == 0 then []
    else
      var c := chunks[0];
      if |c| + readed < start then StreamRange(chunks[1..], start, end, readed + |c|)
      else if readed > end then []
      else
        var offset := if start >= readed then start - readed else 0;
        var stop := if end + 1 - readed < |c| then end + 1 - readed else |c|;
        [Write(Subarray(c, offset, stop))] + StreamRange(chunks[1..], start, end, readed + |c|)
  }

  /** The corrected slice of one chunk: its bytes from `start` to `end`, counted from the `readed` bytes before it. */
  function ChunkSlice(c: Bytes, start: nat, end: nat, readed: nat): Bytes
    requires readed <= end
  {
    var offset := if start >= readed then start - readed else 0;
    var stop := if end + 1 - readed < |c| then end + 1 - readed else |c|;
    Subarray(c, offset, stop)
  }

  /** A chunk that ends before the window contributes nothing to it. */
  lemma WindowBefore(c: Bytes, a: int, b: int)
    requires |c| < a
    ensures Window(c, a, b) == []
  {
  }

  /** The corrected slice of one chunk is the chunk's part of the window. */
  lemma StreamStepWindow(c: Bytes, start: nat, end: nat, readed: nat)
    requires readed <= end
    ensures var offset := if start >= readed then start - readed else 0;
      var stop := if end + 1 - readed < |c| then end + 1 - readed else |c|;
      Subarray(c, offset, stop) == Window(c, start - readed, end + 1 - readed)
  {
  }

  /** The corrected slicing delivers exactly the stream's bytes from `start` to `end`, counted from the `readed` bytes already seen. */
  lemma {:induction false} StreamRangeExact(chunks: seq<Bytes>, start: nat, end: nat, readed: nat)
    ensures Written(StreamRange(chunks, start, end, readed)) == Window(Concat(chunks), start - readed, end + 1 - readed)
    decreases |chunks|
  {
    if |chunks| > 0 {
      var c := chunks[0];
      if readed > end && |c| + readed >= start {
        assert StreamRange(chunks, start, end, readed) == [];
        assert Concat(chunks) == c + Concat(chunks[1..]);
      } else {
        StreamRangeExact(chunks[1..], start, end, readed + |c|);
        StreamRangeStep(chunks, start, end, readed);
      }
    }
  }

  /** One chunk of the corrected slicing, given the result for the chunks after it. */
  lemma StreamRangeStep(chunks: seq<Bytes>, start: nat, end: nat, readed: nat)
    requires |chunks| > 0 && (readed <= end || |chunks[0]| + readed < start)
    requires Written(StreamRange(chunks[1..], start, end, readed + |chunks[0]|)) == Window(Concat(chunks[1..]), start - (readed + |chunks[0]|), end + 1 - (readed + |chunks[0]|))
    ensures Written(StreamRange(chunks, start, end, readed)) == Window(Concat(chunks), start - readed, end + 1 - readed)
  {
    if |chunks[0]| + readed < start {
      StreamRangeSkipStep(chunks, start, end, readed);
    } else {
      StreamRangeTakeStep(chunks, start, end, readed);
    }
  }

  lemma StreamRangeSkipStep(chunks: seq<Bytes>, start: nat, end: nat, readed: nat)
    requires |chunks| > 0 && |chunks[0]| + readed < start
    requires Written(StreamRange(chunks[1..], start, end, readed + |chunks[0]|)) == Window(Concat(chunks[1..]), start - (readed + |chunks[0]|), end + 1 - (readed + |chunks[0]|))
    ensures Written(StreamRange(chunks, start, end, readed)) == Window(Concat(chunks), start - readed, end + 1 - readed)
  {
    StreamRangeSkips(chunks, start, end, readed);
    SkipGlue(chunks, start, end, readed, Written(StreamRange(chunks[1..], start, end, readed + |chunks[0]|)));
  }

  lemma SkipGlue(chunks: seq<Bytes>, start: nat, end: nat, readed: nat, rest: Bytes)
    requires |chunks| > 0 && |chunks[0]| + readed < start
    requires rest == Window(Concat(chunks[1..]), start - (readed + |chunks[0]|), end + 1 - (readed + |chunks[0]|))
    ensures rest == Window(Concat(chunks), start - readed, end + 1 - readed)
  {
    ConcatCons(chunks);
    WindowSkipChunk(chunks[0], Concat(chunks[1..]), start, end, readed);
  }

  lemma StreamRangeTakeStep(chunks: seq<Bytes>, start: nat, end: nat, readed: nat)
    requires |chunks| > 0 && readed <= end && |chunks[0]| + readed >= start
    requires Written(StreamRange(chunks[1..], start, end, readed + |chunks[0]|)) == Window(Concat(chunks[1..]), start - (readed + |chunks[0]|), end + 1 - (readed + |chunks[0]|))
    ensures Written(StreamRange(chunks, start, end, readed)) == Window(Concat(chunks), start - readed, end + 1 - readed)
  {
    StreamRangeTakes(chunks, start, end, readed);
    TakeGlue(chunks, start, end, readed, Written(StreamRange(chunks, start, end, readed)), Written(StreamRange(chunks[1..], start, end, readed + |chunks[0]|)));
  }

  lemma TakeGlue(chunks: seq<Bytes>, start: nat, end: nat, readed: nat, whole: Bytes, rest: Bytes)
    requires |chunks| > 0 && readed <= end && |chunks[0]| + readed >= start
    requires whole == ChunkSlice(chunks[0], start, end, readed) + rest
    requires rest == Window(Concat(chunks[1..]), start - (readed + |chunks[0]|), end + 1 - (readed + |chunks[0]|))
    ensures whole == Window(Concat(chunks), start - readed, end + 1 - readed)
  {
    ConcatCons(chunks);
    WindowTakeChunk(chunks[0], Concat(chunks[1..]), start, end, readed);
  }

  /** The window over a chunk that ends before `start`, followed by more bytes, is the window over those bytes. */
  lemma WindowSkipChunk(c: Bytes, y: Bytes, start: nat, end: nat, readed: nat)
    requires |c| + readed < start
    ensures Window(c + y, start - readed, end + 1 - readed) == Window(y, start - (readed + |c|), end + 1 - (readed + |c|))
  {
    var a := start - readed;
    var b := end + 1 - readed;
    assert a - |c| == start - (readed + |c|) && b - |c| == end + 1 - (readed + |c|);
    if Clamp(b, |c + y|) <= Clamp(a, |c + y|) {
      WindowEmpty(c, y, a, b);
    } else {
      WindowInSecond(c, y, a, b);
    }
  }

  /** The window over a chunk that reaches `start`, followed by more bytes, is the chunk's slice followed by the window over those bytes. */
  lemma WindowTakeChunk(c: Bytes, y: Bytes, start: nat, end: nat, readed: nat)
    requires readed <= end && |c| + readed >= start
    ensures Window(c + y, start - readed, end + 1 - readed) == ChunkSlice(c, start, end, readed) + Window(y, start - (readed + |c|), end + 1 - (readed + |c|))
  {
    WindowConcat(c, y, start - readed, end + 1 - readed);
    StreamStepWindow(c, start, end, readed);
  }

  lemma StreamRangeSkips(chunks: seq<Bytes>, start: nat, end: nat, readed: nat)
    requires |chunks| > 0 && |chunks[0]| + readed < start
    ensures StreamRange(chunks, start, end, readed) == StreamRange(chunks[1..], start, end, readed + |chunks[0]|)
  {
  }

  lemma StreamRangeTakes(chunks: seq<Bytes>, start: nat, end: nat, readed: nat)
    requires |chunks| > 0 && readed <= end && |chunks[0]| + readed >= start
    ensures Written(StreamRange(chunks, start, end, readed)) == ChunkSlice(chunks[0], start, end, readed) + Written(StreamRange(chunks[1..], start, end, readed + |chunks[0]|))
  {
    var c := chunks[0];
    var offset := if start >= readed then start - readed else 0;
    var stop := if end + 1 - readed < |c| then end + 1 - readed else |c|;
    var e := [Write(Subarray(c, offset, stop))];
    var tail := StreamRange(chunks[1..], start, end, readed + |c|);
    assert StreamRange(chunks, start, end, readed) == e + tail;
    WrittenConcat(e, tail);
    assert Written(e) == Subarray(c, offset, stop);
  }

  /** From the start of the stream, the corrected slicing delivers exactly bytes `start..end` of it. */
  lemma StreamRangeFromStart(chunks: seq<Bytes>, start: nat, end: nat)
    ensures Written(StreamRange(chunks, start, end, 0)) == Subarray(Concat(chunks), start, end + 1)
  {
    StreamRangeExact(chunks, start, end, 0);
  }

  /** As written, a range that starts at byte 0 still yields exactly the first `end + 1` bytes. */
  lemma {:induction false} StreamRangeAsWrittenFromZero(chunks: seq<Bytes>, end: nat, readed: nat)
    requires readed <= end + 1
    ensures Written(StreamRangeAsWritten(chunks, 0, end, readed)) == Window(Concat(chunks), 0, end + 1 - readed)
    decreases |chunks|
  {
    if |chunks| > 0 {
      if readed > end {
        FromZeroStopped(chunks, end, readed);
      } else if |chunks[0]| <= end + 1 - readed {
        StreamRangeAsWrittenFromZero(chunks[1..], end, readed + |chunks[0]|);
        FromZeroWholeStep(chunks, end, readed);
      } else {
        FromZeroLastStep(chunks, end, readed);
      }
    }
  }

  /** A counter past `end` writes nothing, and the window past the end is empty. */
  lemma FromZeroStopped(chunks: seq<Bytes>, end: nat, readed: nat)
    requires |chunks| > 0 && readed == end + 1
    ensures Written(StreamRangeAsWritten(chunks, 0, end, readed)) == Window(Concat(chunks), 0, end + 1 - readed)
  {
    assert StreamRangeAsWritten(chunks, 0, end, readed) == [];
  }

  /** From offset 0, a chunk taken as written is its first `length` bytes followed by the rest of the stream. */
  lemma FromZeroTakes(chunks: seq<Bytes>, end: nat, readed: nat)
    requires |chunks| > 0 && readed <= end
    ensures var length := if end + 1 - readed < |chunks[0]| then end + 1 - readed else |chunks[0]|;
      Written(StreamRangeAsWritten(chunks, 0, end, readed)) == chunks[0][..length] + Written(StreamRangeAsWritten(chunks[1..], 0, end, readed + length))
  {
    var c := chunks[0];
    var length := if end + 1 - readed < |c| then end + 1 - readed else |c|;
    var e := [Write(Subarray(c, 0, length))];
    var tail := StreamRangeAsWritten(chunks[1..], 0, end, readed + length);
    assert StreamRangeAsWritten(chunks, 0, end, readed) == e + tail;
    WrittenConcat(e, tail);
    assert Written(e) == c[..length];
  }

  /** A window that starts at or before 0 starts at 0. */
  lemma WindowFromBelow(d: Bytes, a: int, b: int)
    requires a <= 0
    ensures Window(d, a, b) == Window(d, 0, b)
  {
  }

  lemma FromZeroWholeStep(chunks: seq<Bytes>, end: nat, readed: nat)
    requires |chunks| > 0 && readed <= end && |chunks[0]| <= end + 1 - readed
    requires Written(StreamRangeAsWritten(chunks[1..], 0, end, readed + |chunks[0]|)) == Window(Concat(chunks[1..]), 0, end + 1 - (readed + |chunks[0]|))
    ensures Written(StreamRangeAsWritten(chunks, 0, end, readed)) == Window(Concat(chunks), 0, end + 1 - readed)
  {
    FromZeroTakes(chunks, end, readed);
    WholeGlue(chunks, end, readed, Written(StreamRangeAsWritten(chunks[1..], 0, end, readed + |chunks[0]|)));
  }

  lemma WholeGlue(chunks: seq<Bytes>, end: nat, readed: nat, rest: Bytes)
    requires |chunks| > 0 && readed <= end && |chunks[0]| <= end + 1 - readed
    requires rest == Window(Concat(chunks[1..]), 0, end + 1 - (readed + |chunks[0]|))
    ensures chunks[0][..|chunks[0]|] + rest == Window(Concat(chunks), 0, end + 1 - readed)
  {
    var c := chunks[0];
    var b := end + 1 - readed;
    ConcatCons(chunks);
    WindowConcat(c, Concat(chunks[1..]), 0, b);
    WindowFromBelow(Concat(chunks[1..]), 0 - |c|, b - |c|);
    assert Window(c, 0, b) == c == c[..|c|];
  }

  lemma FromZeroLastStep(chunks: seq<Bytes>, end: nat, readed: nat)
    requires |chunks| > 0 && readed <= end && |chunks[0]| > end + 1 - readed
    ensures Written(StreamRangeAsWritten(chunks, 0, end, readed)) == Window(Concat(chunks), 0, end + 1 - readed)
  {
    var b := end + 1 - readed;
    FromZeroTakes(chunks, end, readed);
    StreamRangeAsWrittenStops(chunks[1..], end, readed + b);
    LastGlue(chunks, b);
  }

  lemma LastGlue(chunks: seq<Bytes>, b: nat)
    requires |chunks| > 0 && |chunks[0]| > b
    ensures chunks[0][..b] + Written([]) == Window(Concat(chunks), 0, b)
  {
    var c := chunks[0];
    ConcatCons(chunks);
    WindowConcat(c, Concat(chunks[1..]), 0, b);
    assert Window(Concat(chunks[1..]), 0 - |c|, b - |c|) == [];
    assert Window(c, 0, b) == c[..b];
  }

  lemma StreamRangeAsWrittenStops(chunks: seq<Bytes>, end: nat, readed: nat)
    requires readed > end
    ensures StreamRangeAsWritten(chunks, 0, end, readed) == []
  {
  }

  /** As written, a ranged stream never delivers past byte `end` in total, whatever it skips. */
  lemma {:induction false} StreamRangeAsWrittenBounded(chunks: seq<Bytes>, start: nat, end: nat, readed: nat)
    ensures |Written(StreamRangeAsWritten(chunks, start, end, readed))| + readed <= if readed <= end + 1 then end + 1 else readed
    decreases |chunks|
  {
    if |chunks| > 0 {
      var c := chunks[0];
      var rest := chunks[1..];
      if |c| + readed < start {
        StreamRangeAsWrittenBounded(rest, start, end, readed + |c|);
        BoundedSkipStep(chunks, start, end, readed);
      } else if readed <= end {
        var length := if end + 1 - readed < |c| then end + 1 - readed else |c|;
        StreamRangeAsWrittenBounded(rest, start, end, readed + length);
        BoundedTakeStep(chunks, start, end, readed);
      } else {
        StreamRangeAsWrittenStopped(chunks, start, end, readed);
      }
    }
  }

  lemma BoundedSkipStep(chunks: seq<Bytes>, start: nat, end: nat, readed: nat)
    requires |chunks| > 0 && |chunks[0]| + readed < start
    requires var r := readed + |chunks[0]|;
      |Written(StreamRangeAsWritten(chunks[1..], start, end, r))| + r <= if r <= end + 1 then end + 1 else r
    ensures |Written(StreamRangeAsWritten(chunks, start, end, readed))| + readed <= if readed <= end + 1 then end + 1 else readed
  {
    StreamRangeAsWrittenSkips(chunks, start, end, readed);
  }

  lemma StreamRangeAsWrittenSkips(chunks: seq<Bytes>, start: nat, end: nat, readed: nat)
    requires |chunks| > 0 && |chunks[0]| + readed < start
    ensures StreamRangeAsWritten(chunks, start, end, readed) == StreamRangeAsWritten(chunks[1..], start, end, readed + |chunks[0]|)
  {
  }

  lemma BoundedTakeStep(chunks: seq<Bytes>, start: nat, end: nat, readed: nat)
    requires |chunks| > 0 && |chunks[0]| + readed >= start && readed <= end
    requires var r := readed + (if end + 1 - readed < |chunks[0]| then end + 1 - readed else |chunks[0]|);
      |Written(StreamRangeAsWritten(chunks[1..], start, end, r))| + r <= if r <= end + 1 then end + 1 else r
    ensures |Written(StreamRangeAsWritten(chunks, start, end, readed))| + readed <= if readed <= end + 1 then end + 1 else readed
  {
    var length := if end + 1 - readed < |chunks[0]| then end + 1 - readed else |chunks[0]|;
    StreamRangeAsWrittenTakes(chunks, start, end, readed);
    BoundGlue(|Written(StreamRangeAsWritten(chunks, start, end, readed))|, |Written(StreamRangeAsWritten(chunks[1..], start, end, readed + length))|, length, readed, end);
  }

  /** A chunk taken as written contributes at most `length` bytes before the rest of the stream. */
  lemma StreamRangeAsWrittenTakes(chunks: seq<Bytes>, start: nat, end: nat, readed: nat)
    requires |chunks| > 0 && |chunks[0]| + readed >= start && readed <= end
    ensures var length := if end + 1 - readed < |chunks[0]| then end + 1 - readed else |chunks[0]|;
      |Written(StreamRangeAsWritten(chunks, start, end, readed))| <= length + |Written(StreamRangeAsWritten(chunks[1..], start, end, readed + length))|
  {
    var c := chunks[0];
    var offset := if start >= readed then start - readed else 0;
    var length := if end + 1 - readed < |c| then end + 1 - readed else |c|;
    var e := [Write(Subarray(c, offset, offset + length))];
    var tail := StreamRangeAsWritten(chunks[1..], start, end, readed + length);
    assert StreamRangeAsWritten(chunks, start, end, readed) == e + tail;
    WrittenConcat(e, tail);
    assert Written(e) == Subarray(c, offset, offset + length);
  }

  lemma StreamRangeAsWrittenStopped(chunks: seq<Bytes>, start: nat, end: nat, readed: nat)
    requires |chunks| > 0 && |chunks[0]| + readed >= start && readed > end
    ensures StreamRangeAsWritten(chunks, start, end, readed) == []
  {
  }

  lemma BoundGlue(whole: nat, rest: nat, length: nat, readed: nat, end: nat)
    requires readed <= end && length <= end + 1 - readed
    requires whole <= length + rest
    requires rest + (readed + length) <= if readed + length <= end + 1 then end + 1 else readed + length
    ensures whole + readed <= end + 1
  {
  }

  /**
    The slice is wrong when `start` falls inside a chunk: for a single chunk
    longer than `end + 1` and a range starting past byte 0, the source
    delivers more than `end - start + 1` bytes, where the corrected slicing
    delivers exactly bytes `start..end`.
   */
  lemma StreamRangeOverDelivers(c: Bytes, start: nat, end: nat)
    requires 0 < start <= end && end + 1 < |c|
    ensures |Written(StreamRangeAsWritten([c], start, end, 0))| > end + 1 - start
    ensures Written(StreamRange([c], start, end, 0)) == c[start..end + 1]
  {
    var asWritten := [Write(Subarray(c, start, start + end + 1))];
    assert StreamRangeAsWritten([c], start, end, 0) == asWritten + StreamRangeAsWritten([c][1..], start, end, end + 1);
    WrittenConcat(asWritten, []);
    StreamRangeFromStart([c], start, end);
    assert Concat([c]) == c + Concat([]);
  }

  // ---------------------------------------------------------------------------
  // The event stream
  // ---------------------------------------------------------------------------

  /**
    `typeof body === 'string' || isBuffer(body)`: a string reaches the sender
    as `Text` or as a top-level `JString`, and both take the string branch.
   */
  predicate StringOrBuffer(body: Body) {
    body.Text? || body.Bytes? || (body.Json? && body.value.JString?)
  }

  /** The Content-Type sent when the response declares none. */
  function InferredType(body: Body): string {
    if StringOrBuffer(body) then "text/plain"
    else if body.Stream? then "application/octet-stream"
    else "application/json"
  }

  /** `Buffer.from(body)` for a string or buffer (a top-level `JString` included), `Buffer.from(JSON.stringify(body))` for any other value. */
  function BodyBytes(body: Body, ser: Serializers): Bytes
    requires !body.Stream?
  {
    match body
    case Text(s) => ser.utf8(s)
    case Bytes(b) => b
    case Json(v) => if v.JString? then ser.utf8(v.text) else ser.utf8(ser.stringify(v))
    case NoBody => ser.utf8(ser.stringify(JNull))
  }

  /** A top-level JSON string is sent exactly as the same text would be: its raw bytes as `text/plain`, unquoted. */
  lemma JsonStringSentAsText(s: string, ser: Serializers)
    ensures InferredType(Json(JString(s))) == InferredType(Text(s)) == "text/plain"
    ensures BodyBytes(Json(JString(s)), ser) == BodyBytes(Text(s), ser) == ser.utf8(s)
  {
  }

  /**
    How a ranged stream is sliced: as the source writes it
    (`StreamRangeAsWritten`), or as intended (`StreamRange`). Every function
    below defaults to the source's slicing.
   */
  datatype Slicing = SliceAsWritten | SliceCorrected

  /** The writes of a ranged stream under the chosen slicing. */
  function RangedStream(chunks: seq<Bytes>, range: ByteRange, slicing: Slicing): (r: seq<Event>)
    ensures forall i :: 0 <= i < |r| ==> r[i].Write?
  {
    match slicing
    case SliceAsWritten => StreamRangeAsWritten(chunks, range.start, range.end, 0)
    case SliceCorrected => StreamRange(chunks, range.start, range.end, 0)
  }

  /** The write events of a body, with the range applied. */
  function Payload(body: Body, range: Option<ByteRange>, ser: Serializers, slicing: Slicing := SliceAsWritten): (r: seq<Event>)
    ensures forall i :: 0 <= i < |r| ==> r[i].Write?
    ensures !body.Stream? ==> |r| == 1
  {
    match body
    case Stream(chunks) =>
      if range.Some? then RangedStream(chunks, range.value, slicing)
      else seq(|chunks|, i requires 0 <= i < |chunks| => Write(chunks[i]))
    case _ =>
      var data := BodyBytes(body, ser);
      [Write(if range.Some? then Subarray(data, range.value.start, range.value.end + 1) else data)]
  }

  /** The inferred Content-Type, when one is sent, followed by the writes; nothing for a falsy body. */
  function BodyEvents(body: Body, contentType: HeaderValue, range: Option<ByteRange>, ser: Serializers, slicing: Slicing := SliceAsWritten): (r: seq<Event>)
    ensures !BodyTruthy(body) ==> r == []
    ensures forall i :: 0 < i < |r| ==> r[i].Write?
    ensures |r| > 0 && !r[0].Write? ==> r[0] == SetHeader("Content-Type", HText(InferredType(body))) && !HeaderTruthy(contentType)
  {
    if !BodyTruthy(body) then []
    else
      var head := if HeaderTruthy(contentType) then [] else [SetHeader("Content-Type", HText(InferredType(body)))];
      var writes := Payload(body, range, ser, slicing);
      assert forall i :: 0 <= i < |writes| ==> (head + writes)[|head| + i] == writes[i];
      head + writes
  }

  function HeaderEvents(hs: Headers): (r: seq<Event>)
    ensures |r| == |hs|
    ensures forall i :: 0 <= i < |r| ==> r[i] == SetHeader(hs[i].0, hs[i].1)
  {
    seq(|hs|, i requires 0 <= i < |hs| => SetHeader(hs[i].0, hs[i].1))
  }

  function CookieEvents(cs: seq<(string, CookieValue)>): (r: seq<Event>)
    ensures |r| == |cs|
    ensures forall i :: 0 <= i < |r| ==> r[i] == Cookie(cs[i].0, cs[i].1.value, cs[i].1.options)
  {
    seq(|cs|, i requires 0 <= i < |cs| => Cookie(cs[i].0, cs[i].1.value, cs[i].1.options))
  }

  function ClearEvents(cs: seq<(string, Option<CookieOptions>)>): (r: seq<Event>)
    ensures |r| == |cs|
    ensures forall i :: 0 <= i < |r| ==> r[i] == ClearCookie(cs[i].0, cs[i].1)
  {
    seq(|cs|, i requires 0 <= i < |cs| => ClearCookie(cs[i].0, cs[i].1))
  }

  predicate AllHeaderEvents(s: seq<Event>) {
    forall i :: 0 <= i < |s| ==> IsHeaderEvent(s[i])
  }

  /** Header-like events, then a body part whose only header event is first, then `status` and `end`, keep the protocol order. */
  lemma ShapeOf(heads: seq<Event>, body: seq<Event>, code: Option<int>)
    requires AllHeaderEvents(heads)
    requires forall i :: 0 < i < |body| ==> body[i].Write?
    requires |body| > 0 ==> body[0].Write? || body[0].SetHeader?
    ensures ProtocolShape(heads + body + [Status(code), End])
  {
    var evs := heads + body + [Status(code), End];
    assert forall i :: 0 <= i < |heads| ==> evs[i] == heads[i];
    assert forall i :: 0 <= i < |body| ==> evs[|heads| + i] == body[i];
    forall i, j | 0 <= i < j < |evs| && IsHeaderEvent(evs[j]) ensures !evs[i].Write? {
      if j >= |heads| {
        assert j == |heads| && i < |heads|;
      }
    }
  }

  /** The `set`, `cookie` and `clear-cookie` events, in that order. */
  function HeadEvents(res: Response, range: Option<ByteRange>): (r: seq<Event>)
    ensures AllHeaderEvents(r)
    ensures |r| == |FinalHeaders(res.headers, range)| + |res.cookies| + |res.clearCookies|
  {
    var hs := HeaderEvents(FinalHeaders(res.headers, range));
    var cs := CookieEvents(res.cookies);
    var ks := ClearEvents(res.clearCookies);
    AllHeaderEventsConcat(hs, cs);
    AllHeaderEventsConcat(hs + cs, ks);
    hs + cs + ks
  }

  lemma AllHeaderEventsConcat(a: seq<Event>, b: seq<Event>)
    requires AllHeaderEvents(a) && AllHeaderEvents(b)
    ensures AllHeaderEvents(a + b)
  {
    forall i | 0 <= i < |a + b| ensures IsHeaderEvent((a + b)[i]) {
      if i < |a| {
        assert (a + b)[i] == a[i];
      } else {
        assert (a + b)[i] == b[i - |a|];
      }
    }
  }

  /**
    `sendResponseParser(res, reqHeaders, requestId, sendMessage)`: the
    messages it posts, in order. With the default slicing a ranged stream is
    sliced as the source writes it; `SliceCorrected` gives the intended
    composition.
   */
  function SendResponseParser(res: Response, range: Option<ByteRange>, ser: Serializers, slicing: Slicing := SliceAsWritten): (evs: seq<Event>)
    ensures ProtocolShape(evs)
    ensures evs[|evs| - 2] == Status(Some(FinalStatus(res.status, range)))
  {
    var heads := HeadEvents(res, range);
    var body := BodyEvents(res.body, ContentType(res.headers), range, ser, slicing);
    ShapeOf(heads, body, Some(FinalStatus(res.status, range)));
    heads + body + [Status(Some(FinalStatus(res.status, range))), End]
  }

  /** The events begin with one `set` per sent header, then one `cookie` per cookie, then one `clear-cookie` per cleared cookie. */
  lemma SendResponseHeaderOrder(res: Response, range: Option<ByteRange>, ser: Serializers)
    ensures var evs := SendResponseParser(res, range, ser);
      var hs := FinalHeaders(res.headers, range);
      var nc := |res.cookies|;
      && |evs| >= |hs| + nc + |res.clearCookies| + 2
      && (forall i :: 0 <= i < |hs| ==> evs[i] == SetHeader(hs[i].0, hs[i].1))
      && (forall i :: 0 <= i < nc ==> evs[|hs| + i] == Cookie(res.cookies[i].0, res.cookies[i].1.value, res.cookies[i].1.options))
      && (forall i :: 0 <= i < |res.clearCookies| ==> evs[|hs| + nc + i] == ClearCookie(res.clearCookies[i].0, res.clearCookies[i].1))
  {
    var evs := SendResponseParser(res, range, ser);
    var heads := HeadEvents(res, range);
    var rest := BodyEvents(res.body, ContentType(res.headers), range, ser) + [Status(Some(FinalStatus(res.status, range))), End];
    assert evs == heads + rest;
    assert forall i :: 0 <= i < |heads| ==> evs[i] == heads[i];
    HeadEventsOrder(res, range);
  }

  lemma HeadEventsOrder(res: Response, range: Option<ByteRange>)
    ensures var heads := HeadEvents(res, range);
      var hs := FinalHeaders(res.headers, range);
      var nc := |res.cookies|;
      && (forall i :: 0 <= i < |hs| ==> heads[i] == SetHeader(hs[i].0, hs[i].1))
      && (forall i :: 0 <= i < nc ==> heads[|hs| + i] == Cookie(res.cookies[i].0, res.cookies[i].1.value, res.cookies[i].1.options))
      && (forall i :: 0 <= i < |res.clearCookies| ==> heads[|hs| + nc + i] == ClearCookie(res.clearCookies[i].0, res.clearCookies[i].1))
  {
    var hs := HeaderEvents(FinalHeaders(res.headers, range));
    var cs := CookieEvents(res.cookies);
    var ks := ClearEvents(res.clearCookies);
    var heads := HeadEvents(res, range);
    assert heads == (hs + cs) + ks;
    assert forall i :: 0 <= i < |hs| + |cs| ==> heads[i] == (hs + cs)[i];
    assert forall i :: 0 <= i < |hs| ==> (hs + cs)[i] == hs[i];
    assert forall i :: 0 <= i < |cs| ==> (hs + cs)[|hs| + i] == cs[i];
    assert forall i :: 0 <= i < |ks| ==> heads[|hs| + |cs| + i] == ks[i];
  }

  /** The bytes written are the payload's: header, status and end events carry none. */
  lemma SendResponseWritten(res: Response, range: Option<ByteRange>, ser: Serializers, slicing: Slicing := SliceAsWritten)
    requires BodyTruthy(res.body)
    ensures Written(SendResponseParser(res, range, ser, slicing)) == Written(Payload(res.body, range, ser, slicing))
  {
    var heads := HeadEvents(res, range);
    var body := BodyEvents(res.body, ContentType(res.headers), range, ser, slicing);
    var tail := [Status(Some(FinalStatus(res.status, range))), End];
    assert SendResponseParser(res, range, ser, slicing) == heads + body + tail;
    WrittenBetween(heads, body, tail);
    BodyEventsWritten(res.body, ContentType(res.headers), range, ser, slicing);
  }

  lemma WrittenBetween(heads: seq<Event>, body: seq<Event>, tail: seq<Event>)
    requires forall i :: 0 <= i < |heads| ==> !heads[i].Write?
    requires forall i :: 0 <= i < |tail| ==> !tail[i].Write?
    ensures Written(heads + body + tail) == Written(body)
  {
    WrittenNone(heads);
    WrittenNone(tail);
    WrittenConcat(heads, body);
    WrittenConcat(heads + body, tail);
  }

  lemma BodyEventsWritten(body: Body, contentType: HeaderValue, range: Option<ByteRange>, ser: Serializers, slicing: Slicing := SliceAsWritten)
    requires BodyTruthy(body)
    ensures Written(BodyEvents(body, contentType, range, ser, slicing)) == Written(Payload(body, range, ser, slicing))
  {
    var payload := Payload(body, range, ser, slicing);
    var head := if HeaderTruthy(contentType) then [] else [SetHeader("Content-Type", HText(InferredType(body)))];
    assert BodyEvents(body, contentType, range, ser, slicing) == head + payload;
    WrittenNone(head);
    WrittenConcat(head, payload);
  }

  /** A falsy body (absent, `''`, a falsy JSON value) yields no write and no inferred Content-Type. */
  lemma SendResponseFalsyBody(res: Response, range: Option<ByteRange>, ser: Serializers)
    requires !BodyTruthy(res.body)
    ensures var evs := SendResponseParser(res, range, ser);
      |evs| == |FinalHeaders(res.headers, range)| + |res.cookies| + |res.clearCookies| + 2
      && forall i :: 0 <= i < |evs| ==> !evs[i].Write?
  {
  }

  /** A Content-Type is added exactly when the body is truthy and the declared type is falsy, and then names the body's kind. */
  lemma SendResponseContentType(res: Response, range: Option<ByteRange>, ser: Serializers)
    ensures var evs := SendResponseParser(res, range, ser);
      var k := |FinalHeaders(res.headers, range)| + |res.cookies| + |res.clearCookies|;
      && k < |evs|
      && (evs[k].SetHeader? <==> BodyTruthy(res.body) && !HeaderTruthy(ContentType(res.headers)))
      && (evs[k].SetHeader? ==> evs[k] == SetHeader("Content-Type", HText(InferredType(res.body))))
  {
    var heads := HeadEvents(res, range);
    var body := BodyEvents(res.body, ContentType(res.headers), range, ser);
    var evs := heads + body + [Status(Some(FinalStatus(res.status, range))), End];
    if |body| > 0 {
      assert evs[|heads|] == body[0];
      if BodyTruthy(res.body) && HeaderTruthy(ContentType(res.headers)) {
        assert body == Payload(res.body, range, ser);
      }
    } else {
      assert evs[|heads|] == Status(Some(FinalStatus(res.status, range)));
    }
  }

  /** A string, buffer or JSON body yields exactly one write: all its bytes, or bytes `start..end` under a range. */
  lemma SendResponseSingleWrite(res: Response, range: Option<ByteRange>, ser: Serializers)
    requires BodyTruthy(res.body) && !res.body.Stream?
    ensures var data := BodyBytes(res.body, ser);
      Written(SendResponseParser(res, range, ser)) == (if range.Some? then Subarray(data, range.value.start, range.value.end + 1) else data)
  {
    SendResponseWritten(res, range, ser);
    var payload := Payload(res.body, range, ser);
    assert Written(payload) == payload[0].data + Written([]);
  }

  /** With the corrected slicing, a ranged stream body delivers exactly bytes `start..end` of the stream. */
  lemma SendResponseStreamRange(res: Response, range: Option<ByteRange>, ser: Serializers)
    requires res.body.Stream? && range.Some?
    ensures Written(SendResponseParser(res, range, ser, SliceCorrected)) == Subarray(Concat(res.body.chunks), range.value.start, range.value.end + 1)
  {
    SendResponseWritten(res, range, ser, SliceCorrected);
    PayloadStreamRange(res.body, range, ser, SliceCorrected);
    StreamRangeFromStart(res.body.chunks, range.value.start, range.value.end);
  }

  /**
    As written, a ranged stream body delivers the as-written slicing's bytes:
    never more than the first `end + 1` bytes' worth, exactly bytes `0..end`
    when the range starts at 0, and too many bytes for a range that starts
    inside the one chunk.
   */
  lemma SendResponseStreamAsWritten(res: Response, range: Option<ByteRange>, ser: Serializers)
    requires res.body.Stream? && range.Some?
    ensures var w := Written(SendResponseParser(res, range, ser));
      && w == Written(StreamRangeAsWritten(res.body.chunks, range.value.start, range.value.end, 0))
      && |w| <= range.value.end + 1
      && (range.value.start == 0 ==> w == Subarray(Concat(res.body.chunks), 0, range.value.end + 1))
      && (|res.body.chunks| == 1 && 0 < range.value.start <= range.value.end < |res.body.chunks[0]| - 1 ==>
            |w| > range.value.end + 1 - range.value.start)
  {
    var chunks := res.body.chunks;
    var start := range.value.start;
    var end := range.value.end;
    SendResponseWritten(res, range, ser);
    PayloadStreamRange(res.body, range, ser, SliceAsWritten);
    StreamRangeAsWrittenBounded(chunks, start, end, 0);
    if start == 0 {
      StreamRangeAsWrittenFromZero(chunks, end, 0);
    }
    if |chunks| == 1 && 0 < start <= end < |chunks[0]| - 1 {
      assert chunks == [chunks[0]];
      StreamRangeOverDelivers(chunks[0], start, end);
    }
  }

  lemma PayloadStreamRange(body: Body, range: Option<ByteRange>, ser: Serializers, slicing: Slicing)
    requires body.Stream? && range.Some?
    ensures Payload(body, range, ser, slicing) == RangedStream(body.chunks, range.value, slicing)
  {
  }

  lemma {:induction false} WrittenNone(evs: seq<Event>)
    requires forall i :: 0 <= i < |evs| ==> !evs[i].Write?
    ensures Written(evs) == []
    decreases |evs|
  {
    if |evs| > 0 {
      WrittenNone(evs[1..]);
    }
  }
}

=== FILE: transfer_middle.dfy ===
/**
  `sendResponseAll` and `sendResponse` of the middle generation
  (`src/utils/router-tools.ts`): the worker script's response becomes
  transfer events posted to the parent thread, and the `end` event exits
  the worker.

  Unlike the current generation, the headers are sent exactly as given (no
  `Content-Range`, the declared length is kept), a stream always announces
  `Accept-Ranges: bytes`, the status is only turned into 206 when it is
  exactly 200, and the ranged stream slices chunks with a counter that is
  never advanced past the first chunk that reaches `start`.
 */
module TransferMiddle {
  import opened Wrappers
  import opened Protocol
  import opened TransferCurrent

  /**
    The ranged stream (lines 111-130 as written): a chunk that ends before
    `start` advances the counter; any other chunk yields the bytes from
    `start - readed`, at most `end - start + 1` of them, and leaves the
    counter where it was.
   */
  function StreamRangeRepeats(chunks: seq<Bytes>, start: nat, end: nat, readed: nat): (r: seq<Event>)
    requires readed <= start
    ensures forall i :: 0 <= i < |r| ==> r[i].Write? && 0 < |r[i].data| <= end - start + 1
    decreases |chunks|
  {
    if |chunks| == 0 then []
    else
      var c := chunks[0];
      if |c| + readed < start then StreamRangeRepeats(chunks[1..], start, end, readed + |c|)
      else
        var offset := start - readed;
        var length := if end - start + 1 < |c| - offset then end - start + 1 else |c| - offset;
        if length <= 0 then StreamRangeRepeats(chunks[1..], start, end, readed)
        else [Write(c[offset..offset + length])] + StreamRangeRepeats(chunks[1..], start, end, readed)
  }

  /** Chunks that all end before `start` emit nothing and only advance the counter. */
  lemma {:induction false} StreamRangeRepeatsSkips(pre: seq<Bytes>, post: seq<Bytes>, start: nat, end: nat, readed: nat)
    requires readed + |Concat(pre)| < start
    ensures StreamRangeRepeats(pre + post, start, end, readed) == StreamRangeRepeats(post, start, end, readed + |Concat(pre)|)
    decreases |pre|
  {
    if |pre| == 0 {
      assert pre + post == post;
    } else {
      assert Concat(pre) == pre[0] + Concat(pre[1..]);
      assert (pre + post)[0] == pre[0];
      assert (pre + post)[1..] == pre[1..] + post;
      StreamRangeRepeatsSkips(pre[1..], post, start, end, readed + |pre[0]|);
    }
  }

  /** The first chunk that reaches `start` is sliced right: bytes `start..end` of the stream as far as that chunk holds them. */
  lemma StreamRangeRepeatsFirst(c: Bytes, start: nat, end: nat)
    ensures Written(StreamRangeRepeats([c], start, end, 0)) == Subarray(c, start, end + 1)
  {
    var r := StreamRangeRepeats([c], start, end, 0);
    assert [c][1..] == [];
    if |c| >= start {
      var length := if end - start + 1 < |c| - start then end - start + 1 else |c| - start;
      if length > 0 {
        assert r == [Write(c[start..start + length])];
        assert Written(r) == c[start..start + length] + Written([]);
      }
    }
  }

  /** `n` copies of one chunk. */
  function Copies(c: Bytes, n: nat): (r: seq<Bytes>)
    ensures |r| == n
    decreases n
  {
    if n == 0 then [] else [c] + Copies(c, n - 1)
  }

  /**
    The total is not bounded by the range: a stream of `n` chunks each
    longer than the range, asked from byte 0, delivers `n` times
    `end + 1` bytes.
   */
  lemma {:induction false} StreamRangeRepeatsUnbounded(c: Bytes, end: nat, n: nat)
    requires |c| > end
    ensures |Written(StreamRangeRepeats(Copies(c, n), 0, end, 0))| == n * (end + 1)
    decreases n
  {
    if n > 0 {
      var rest := Copies(c, n - 1);
      assert Copies(c, n)[0] == c && Copies(c, n)[1..] == rest;
      var e := [Write(c[0..end + 1])];
      assert StreamRangeRepeats(Copies(c, n), 0, end, 0) == e + StreamRangeRepeats(rest, 0, end, 0);
      WrittenConcat(e, StreamRangeRepeats(rest, 0, end, 0));
      assert Written(e) == c[0..end + 1] + Written([]);
      StreamRangeRepeatsUnbounded(c, end, n - 1);
    }
  }

  /** The status sent: 206 only for a range on a status of exactly 200; anything else, absent included, passes through. */
  function StatusSent(status: Option<int>, range: Option<ByteRange>): (r: Option<int>)
    ensures r == Some(206) ==> status == Some(206) || (range.Some? && status == Some(200))
    ensures r != status ==> range.Some? && status == Some(200)
  {
    if range.Some? && status == Some(200) then Some(206) else status
  }

  /**
    The writes of a body, with the range applied. A ranged stream is sliced
    as written (the counter that stops advancing) unless the corrected
    slicing of the current generation is asked for.
   */
  function PayloadAll(body: Body, range: Option<ByteRange>, ser: Serializers, slicing: Slicing := SliceAsWritten): (r: seq<Event>)
    ensures forall i :: 0 <= i < |r| ==> r[i].Write?
  {
    match body
    case Stream(chunks) =>
      if range.Some? then
        match slicing
        case SliceAsWritten => StreamRangeRepeats(chunks, range.value.start, range.value.end, 0)
        case SliceCorrected => StreamRange(chunks, range.value.start, range.value.end, 0)
      else seq(|chunks|, i requires 0 <= i < |chunks| => Write(chunks[i]))
    case _ =>
      var data := BodyBytes(body, ser);
      [Write(if range.Some? then Subarray(data, range.value.start, range.value.end + 1) else data)]
  }

  /** The header events a body adds: the inferred Content-Type when none is declared, and `Accept-Ranges` for a stream. */
  function BodyHeaders(body: Body, contentType: HeaderValue): (r: seq<Event>)
    ensures AllHeaderEvents(r)
  {
    (if HeaderTruthy(contentType) then [] else [SetHeader("Content-Type", HText(InferredType(body)))])
    + (if body.Stream? then [SetHeader("Accept-Ranges", HText("bytes"))] else [])
  }

  function BodyEventsAll(body: Body, contentType: HeaderValue, range: Option<ByteRange>, ser: Serializers, slicing: Slicing := SliceAsWritten): seq<Event> {
    if !BodyTruthy(body) then [] else BodyHeaders(body, contentType) + PayloadAll(body, range, ser, slicing)
  }

  /** `sendResponseAll(res, reqHeaders)`: every message posted, up to the `end` that exits the worker. */
  function SendResponseAll(res: Response, range: Option<ByteRange>, ser: Serializers, slicing: Slicing := SliceAsWritten): (evs: seq<Event>)
    ensures ProtocolShape(evs)
    ensures evs[|evs| - 2] == Status(StatusSent(res.status, range))
  {
    var heads := HeaderEvents(res.headers) + CookieEvents(res.cookies) + ClearEvents(res.clearCookies);
    AllHeaderEventsConcat(HeaderEvents(res.headers), CookieEvents(res.cookies));
    AllHeaderEventsConcat(HeaderEvents(res.headers) + CookieEvents(res.cookies), ClearEvents(res.clearCookies));
    var code := StatusSent(res.status, range);
    if BodyTruthy(res.body) then
      var bh := BodyHeaders(res.body, ContentType(res.headers));
      var ws := PayloadAll(res.body, range, ser, slicing);
      AllHeaderEventsConcat(heads, bh);
      ShapeOf(heads + bh, ws, code);
      assert heads + (bh + ws) + [Status(code), End] == (heads + bh) + ws + [Status(code), End];
      heads + BodyEventsAll(res.body, ContentType(res.headers), range, ser, slicing) + [Status(code), End]
    else
      ShapeOf(heads, [], code);
      assert heads + [] == heads;
      heads + BodyEventsAll(res.body, ContentType(res.headers), range, ser, slicing) + [Status(code), End]
  }

  /** The header events are exactly the declared headers, in order, with no `Content-Range` added and none removed, followed by cookies and cleared cookies. */
  lemma SendResponseAllHeaders(res: Response, range: Option<ByteRange>, ser: Serializers)
    ensures var evs := SendResponseAll(res, range, ser);
      var nh := |res.headers|;
      var nc := |res.cookies|;
      && |evs| >= nh + nc + |res.clearCookies| + 2
      && (forall i :: 0 <= i < nh ==> evs[i] == SetHeader(res.headers[i].0, res.headers[i].1))
      && (forall i :: 0 <= i < nc ==> evs[nh + i] == Cookie(res.cookies[i].0, res.cookies[i].1.value, res.cookies[i].1.options))
      && (forall i :: 0 <= i < |res.clearCookies| ==> evs[nh + nc + i] == ClearCookie(res.clearCookies[i].0, res.clearCookies[i].1))
  {
    var hs := HeaderEvents(res.headers);
    var cs := CookieEvents(res.cookies);
    var ks := ClearEvents(res.clearCookies);
    var evs := SendResponseAll(res, range, ser);
    var rest := BodyEventsAll(res.body, ContentType(res.headers), range, ser) + [Status(StatusSent(res.status, range)), End];
    assert evs == hs + cs + ks + rest;
    assert forall i :: 0 <= i < |hs| ==> evs[i] == hs[i];
    assert forall i :: 0 <= i < |cs| ==> evs[|hs| + i] == cs[i];
    assert forall i :: 0 <= i < |ks| ==> evs[|hs| + |cs| + i] == ks[i];
  }

  /** A stream body always announces `Accept-Ranges: bytes`, right after the Content-Type it infers when none is declared. */
  lemma SendResponseAllStreamHeaders(res: Response, range: Option<ByteRange>, ser: Serializers)
    requires res.body.Stream?
    ensures var evs := SendResponseAll(res, range, ser);
      var k := |res.headers| + |res.cookies| + |res.clearCookies|;
      var inferred := !HeaderTruthy(ContentType(res.headers));
      && k + (if inferred then 2 else 1) < |evs|
      && (inferred ==> evs[k] == SetHeader("Content-Type", HText("application/octet-stream")))
      && evs[k + (if inferred then 1 else 0)] == SetHeader("Accept-Ranges", HText("bytes"))
  {
    var heads := HeaderEvents(res.headers) + CookieEvents(res.cookies) + ClearEvents(res.clearCookies);
    var bh := BodyHeaders(res.body, ContentType(res.headers));
    var evs := SendResponseAll(res, range, ser);
    var rest := PayloadAll(res.body, range, ser) + [Status(StatusSent(res.status, range)), End];
    assert evs == heads + bh + rest;
    assert forall i :: 0 <= i < |bh| ==> evs[|heads| + i] == bh[i];
  }

  /** The bytes written are the payload's; a falsy body writes nothing. */
  lemma SendResponseAllWritten(res: Response, range: Option<ByteRange>, ser: Serializers, slicing: Slicing := SliceAsWritten)
    ensures Written(SendResponseAll(res, range, ser, slicing)) == if BodyTruthy(res.body) then Written(PayloadAll(res.body, range, ser, slicing)) else []
  {
    var heads := HeaderEvents(res.headers) + CookieEvents(res.cookies) + ClearEvents(res.clearCookies);
    var body := BodyEventsAll(res.body, ContentType(res.headers), range, ser, slicing);
    var tail := [Status(StatusSent(res.status, range)), End];
    assert SendResponseAll(res, range, ser, slicing) == heads + body + tail;
    WrittenNone(heads);
    WrittenNone(tail);
    WrittenConcat(heads, body);
    WrittenConcat(heads + body, tail);
    BodyEventsAllWritten(res.body, ContentType(res.headers), range, ser, slicing);
  }

  lemma BodyEventsAllWritten(body: Body, contentType: HeaderValue, range: Option<ByteRange>, ser: Serializers, slicing: Slicing := SliceAsWritten)
    ensures Written(BodyEventsAll(body, contentType, range, ser, slicing)) == if BodyTruthy(body) then Written(PayloadAll(body, range, ser, slicing)) else []
  {
    if BodyTruthy(body) {
      var bh := BodyHeaders(body, contentType);
      WrittenNone(bh);
      WrittenConcat(bh, PayloadAll(body, range, ser, slicing));
    } else {
      assert Written([]) == [];
    }
  }

  /** A ranged stream of `n` chunks each longer than the range delivers `n` copies of bytes `0..end`. */
  lemma SendResponseAllStreamUnbounded(res: Response, c: Bytes, end: nat, n: nat, ser: Serializers)
    requires res.body == Stream(Copies(c, n)) && |c| > end
    ensures |Written(SendResponseAll(res, Some(ByteRange(0, end)), ser))| == n * (end + 1)
  {
    SendResponseAllWritten(res, Some(ByteRange(0, end)), ser);
    assert BodyTruthy(res.body);
    assert PayloadAll(res.body, Some(ByteRange(0, end)), ser) == StreamRangeRepeats(Copies(c, n), 0, end, 0);
    StreamRangeRepeatsUnbounded(c, end, n);
  }

  /** With the corrected slicing, a ranged stream body delivers exactly bytes `start..end` of the stream, however it is chunked. */
  lemma SendResponseAllStreamRange(res: Response, range: ByteRange, ser: Serializers)
    requires res.body.Stream?
    ensures Written(SendResponseAll(res, Some(range), ser, SliceCorrected)) == Subarray(Concat(res.body.chunks), range.start, range.end + 1)
  {
    SendResponseAllWritten(res, Some(range), ser, SliceCorrected);
    StreamRangeFromStart(res.body.chunks, range.start, range.end);
  }

  /** On the stream that shows the repetition, the corrected slicing delivers bytes `0..end` once. */
  lemma SendResponseAllCopiesOnce(res: Response, c: Bytes, end: nat, n: nat, ser: Serializers)
    requires res.body == Stream(Copies(c, n)) && |c| > end && n > 0
    ensures Written(SendResponseAll(res, Some(ByteRange(0, end)), ser, SliceCorrected)) == c[..end + 1]
  {
    SendResponseAllStreamRange(res, ByteRange(0, end), ser);
    var chunks := Copies(c, n);
    assert chunks[0] == c && chunks[1..] == Copies(c, n - 1);
    assert Concat(chunks) == c + Concat(chunks[1..]);
    assert (c + Concat(chunks[1..]))[0..end + 1] == c[..end + 1];
  }

  /** A string, buffer or JSON body yields one write: all its bytes, or bytes `start..end` under a range. */
  lemma SendResponseAllSingleWrite(res: Response, range: Option<ByteRange>, ser: Serializers)
    requires BodyTruthy(res.body) && !res.body.Stream?
    ensures var data := BodyBytes(res.body, ser);
      Written(SendResponseAll(res, range, ser)) == (if range.Some? then Subarray(data, range.value.start, range.value.end + 1) else data)
  {
    SendResponseAllWritten(res, range, ser);
    var payload := PayloadAll(res.body, range, ser);
    assert Written(payload) == payload[0].data + Written([]);
  }
}

=== FILE: tunnel.dfy ===
/**
  `tunnel` (`src/utils/tunnel.ts`): the current generation's per-request
  decision. Given the route records the generated routes map returns for
  the path, it picks the route and its handler, fills in the parameters,
  runs the route's middlewares in order, calls the handler, and turns the
  result or the error into the one response that is sent.

  The routes map module, its `getMiddlewares` lookup, the regular expression
  each record carries and `querystring.unescape` are parameters. The
  static-file branch is not part of this model.
 */
module Tunnel {
  import opened Wrappers
  import opened Strings
  import opened Protocol
  import opened CustomData
  import opened Handlers
  import opened TransferCurrent

  /** A module export: a function (a handler) or any other value. */
  datatype Export = Func(handler: Handler) | NotFunction

  /**
    One record of the routes map: the route file's pathname, its parameter
    names, its expression (returning the capture groups when it matches)
    and its exports by name.
   */
  datatype RouteRecord = RouteRecord(
    pathname: string,
    paramKeys: seq<string>,
    extract: string -> Option<seq<string>>,
    exports: map<string, Export>)

  /** `typeof r[method] === 'function'`. */
  predicate ExportsMethod(r: RouteRecord, verb: string) {
    verb in r.exports && r.exports[verb].Func?
  }

  /** `routes.find((r) => typeof r[method] === 'function')`, as an index. */
  function FindRoute(routes: seq<RouteRecord>, verb: string): (r: Option<nat>)
    ensures r.Some? ==> r.value < |routes| && ExportsMethod(routes[r.value], verb)
    ensures r.Some? ==> forall j :: 0 <= j < r.value ==> !ExportsMethod(routes[j], verb)
    ensures r.None? ==> forall j :: 0 <= j < |routes| ==> !ExportsMethod(routes[j], verb)
    decreases |routes|
  {
    if |routes| == 0 then None
    else if ExportsMethod(routes[0], verb) then Some(0)
    else match FindRoute(routes[1..], verb)
      case None => None
      case Some(i) => Some(i + 1)
  }

  /** `_.zipObject(paramKeys, paramValues.map(unescape))` as its entries; a key without a value gets `undefined`. */
  function ZipParams(keys: seq<string>, values: seq<string>, unescape: string -> string): (r: seq<(string, Option<string>)>)
    ensures |r| == |keys|
    decreases |keys|
  {
    if |keys| == 0 then []
    else
      var first := if |values| > 0 then Some(unescape(values[0])) else None;
      [(keys[0], first)] + ZipParams(keys[1..], if |values| > 0 then values[1..] else [], unescape)
  }

  /** `params[key]`: the value the last entry with that key assigned. */
  function ParamValue(params: seq<(string, Option<string>)>, key: string): Option<string>
    decreases |params|
  {
    if |params| == 0 then None
    else if params[|params| - 1].0 == key then params[|params| - 1].1
    else ParamValue(params[..|params| - 1], key)
  }

  predicate Distinct(keys: seq<string>) {
    forall i, j :: 0 <= i < j < |keys| ==> keys[i] != keys[j]
  }

  /** Each parameter name reads back the unescaped capture at its position, or `undefined` past the last capture. */
  lemma {:induction false} ZipParamsLookup(keys: seq<string>, values: seq<string>, unescape: string -> string, i: nat)
    requires Distinct(keys) && i < |keys|
    ensures ParamValue(ZipParams(keys, values, unescape), keys[i]) == if i < |values| then Some(unescape(values[i])) else None
    decreases |keys|
  {
    var r := ZipParams(keys, values, unescape);
    var rest := ZipParams(keys[1..], if |values| > 0 then values[1..] else [], unescape);
    assert r == [(keys[0], if |values| > 0 then Some(unescape(values[0])) else None)] + rest;
    if i == 0 {
      forall j | 1 <= j < |r| ensures r[j].0 != keys[0] {
        assert r[j] == rest[j - 1];
        ZipParamsKeys(keys[1..], if |values| > 0 then values[1..] else [], unescape, j - 1);
        assert keys[1..][j - 1] == keys[j];
      }
      ParamValueFirst(r, keys[0]);
    } else {
      ZipParamsLookup(keys[1..], if |values| > 0 then values[1..] else [], unescape, i - 1);
      assert keys[1..][i - 1] == keys[i];
      ParamValueAppendFront(r[0], rest, keys[i]);
    }
  }

  lemma {:induction false} ZipParamsKeys(keys: seq<string>, values: seq<string>, unescape: string -> string, j: nat)
    requires j < |keys|
    ensures ZipParams(keys, values, unescape)[j].0 == keys[j]
    decreases |keys|
  {
    if j > 0 {
      ZipParamsKeys(keys[1..], if |values| > 0 then values[1..] else [], unescape, j - 1);
    }
  }

  /** A key found only in the first entry reads that entry's value. */
  lemma {:induction false} ParamValueFirst(params: seq<(string, Option<string>)>, key: string)
    requires |params| > 0 && params[0].0 == key
    requires forall j :: 1 <= j < |params| ==> params[j].0 != key
    ensures ParamValue(params, key) == params[0].1
    decreases |params|
  {
    if |params| > 1 {
      ParamValueFirst(params[..|params| - 1], key);
    }
  }

  /** An entry in front does not change the value of a key the rest assigns. */
  lemma {:induction false} ParamValueAppendFront(e: (string, Option<string>), rest: seq<(string, Option<string>)>, key: string)
    requires e.0 != key || exists j :: 0 <= j < |rest| && rest[j].0 == key
    ensures ParamValue([e] + rest, key) == ParamValue(rest, key)
    decreases |rest|
  {
    var all := [e] + rest;
    if |rest| > 0 {
      assert all[|all| - 1] == rest[|rest| - 1];
      assert all[..|all| - 1] == [e] + rest[..|rest| - 1];
      if rest[|rest| - 1].0 != key {
        if e.0 == key {
          var j :| 0 <= j < |rest| && rest[j].0 == key;
          assert rest[..|rest| - 1][j] == rest[j];
        }
        ParamValueAppendFront(e, rest[..|rest| - 1], key);
      }
    }
  }

  // ---------------------------------------------------------------------------
  // Middleware loop
  // ---------------------------------------------------------------------------

  /** How the middleware loop ends: a response, all middlewares passed, a rejection, or a step that never settles. */
  datatype LoopEnd = Answered(response: Response, ctx: Context) | Passed(ctx: Context) | Failed(thrown: Thrown) | Hung

  function TimeoutMessage(pathname: string): string {
    "Middleware handler timeout: " + pathname
  }

  /**
    The `for` loop over the middlewares: each call's promise resolves with
    the response once the middleware returned one or called `next`, and is
    rejected by the timer when it did neither. A `next` that comes only
    after the middleware's promise resolved to nothing clears the timer but
    resolves nothing, so the step never settles; a `next` followed by a
    throw leaves the step unresolved, and the throw rejects it.
   */
  function RunMiddlewares(mws: seq<Middleware>, ctx: Context): LoopEnd
    decreases |mws|
  {
    if |mws| == 0 then Passed(ctx)
    else match mws[0].run(ctx)
      case Respond(r) => Answered(r, ctx)
      case Continue(p) => RunMiddlewares(mws[1..], WithPartial(ctx, p))
      case ContinueAndRespond(p, r) => Answered(r, WithPartial(ctx, p))
      case Stall => Failed(ThrownError(TimeoutMessage(mws[0].pathname)))
      case Throw(t) => Failed(t)
      case NextLate(_) => Hung
      case NextThenThrow(_, t) => Failed(t)
  }

  /** Middlewares that pass on can be skipped, carrying their merged custom data forward. */
  lemma {:induction false} RunMiddlewaresSkip(mws: seq<Middleware>, ctx: Context, i: nat)
    requires i <= |mws| && AllContinue(mws, ctx, i)
    ensures RunMiddlewares(mws, ctx) == RunMiddlewares(mws[i..], ContextAt(mws, ctx, i))
    decreases i
  {
    if i > 0 {
      var next := WithPartial(ctx, mws[0].run(ctx).partial);
      AllContinueTail(mws, ctx, i);
      RunMiddlewaresSkip(mws[1..], next, i - 1);
      ContextAtTail(mws, ctx, i);
      assert mws[1..][i - 1..] == mws[i..];
    }
  }

  /**
    The first middleware that does not simply pass on decides the loop: its
    response (after its own `next` merge, if it called `next`), the
    timeout error naming it, what it threw, or a loop that never settles
    after a late `next`.
   */
  lemma RunMiddlewaresFirstStop(mws: seq<Middleware>, ctx: Context, i: nat)
    requires i < |mws| && AllContinue(mws, ctx, i)
    ensures var c := ContextAt(mws, ctx, i);
      match mws[i].run(c)
      case Respond(r) => RunMiddlewares(mws, ctx) == Answered(r, c)
      case ContinueAndRespond(p, r) => RunMiddlewares(mws, ctx) == Answered(r, WithPartial(c, p))
      case Stall => RunMiddlewares(mws, ctx) == Failed(ThrownError(TimeoutMessage(mws[i].pathname)))
      case Throw(t) => RunMiddlewares(mws, ctx) == Failed(t)
      case NextLate(_) => RunMiddlewares(mws, ctx) == Hung
      case NextThenThrow(_, t) => RunMiddlewares(mws, ctx) == Failed(t)
      case Continue(_) => true
  {
    RunMiddlewaresSkip(mws, ctx, i);
    assert mws[i..][0] == mws[i];
  }

  /** When every middleware passes on, the loop hands the handler the context with every partial merged in order. */
  lemma RunMiddlewaresAllContinue(mws: seq<Middleware>, ctx: Context)
    requires AllContinue(mws, ctx, |mws|)
    ensures RunMiddlewares(mws, ctx) == Passed(ContextAt(mws, ctx, |mws|))
  {
    RunMiddlewaresSkip(mws, ctx, |mws|);
  }

  // ---------------------------------------------------------------------------
  // The request
  // ---------------------------------------------------------------------------

  /** What `tunnel` does in the end: send one response, rethrow a thrown primitive, or never settle. */
  datatype Reply = Send(response: Response) | Rethrow | NoReply

  /** The `catch` block: an `Error` becomes a 500 with its message, a non-null object is sent as it is, anything else is rethrown. */
  function Catch(t: Thrown): (r: Reply)
    ensures t.ThrownError? ==> r == Send(JsonError(500, t.message))
    ensures t.ThrownObject? ==> r == Send(t.response)
    ensures t.ThrownValue? <==> r.Rethrow?
  {
    match t
    case ThrownError(m) => Send(JsonError(500, m))
    case ThrownObject(r) => Send(r)
    case ThrownValue => Rethrow
  }

  /** After the middleware loop: its response, or the handler's (204 when nullish), or the caught error. */
  function Finish(end: LoopEnd, handler: Handler): Reply {
    match end
    case Failed(t) => Catch(t)
    case Hung => NoReply
    case Answered(r, _) => Send(r)
    case Passed(c) =>
      match handler(c)
      case Raises(t) => Catch(t)
      case Returns(None) => Send(StatusOnly(204))
      case Returns(Some(r)) => Send(r)
  }

  /** The parameters of the chosen route for the request's path. */
  function RouteParams(route: RouteRecord, path: string, unescape: string -> string): seq<(string, Option<string>)> {
    ZipParams(route.paramKeys, route.extract(path).GetOr([]), unescape)
  }

  /** `tunnel(...)`: `request` is the context before parameters are filled in. */
  function TunnelReply(
    routes: seq<RouteRecord>,
    request: Context,
    msgs: Messages,
    unescape: string -> string,
    middlewaresOf: string -> seq<Middleware>): Reply
  {
    if |routes| == 0 then Send(JsonError(404, MessageOr(msgs.notFound, "Not found")))
    else match FindRoute(routes, request.verb)
      case None => Send(JsonError(405, MessageOr(msgs.methodNotAllowed, "Method not allowed")))
      case Some(i) =>
        var route := routes[i];
        var ctx := request.(params := RouteParams(route, request.path, unescape));
        Finish(RunMiddlewares(middlewaresOf(route.pathname), ctx), route.exports[request.verb].handler)
  }

  /**
    The transfer events `tunnel` emits; `None` when it rethrows. The reply
    goes through `SendResponseParser` with its default, as-written slicing
    of ranged streams.
   */
  function TunnelEvents(
    routes: seq<RouteRecord>,
    request: Context,
    msgs: Messages,
    unescape: string -> string,
    middlewaresOf: string -> seq<Middleware>,
    range: Option<ByteRange>,
    ser: Serializers): (r: Option<seq<Event>>)
    ensures r.Some? ==> ProtocolShape(r.value)
  {
    match TunnelReply(routes, request, msgs, unescape, middlewaresOf)
    case Send(res) => Some(SendResponseParser(res, range, ser))
    case Rethrow => None
    case NoReply => None
  }

  /** No route for the path: a 404 JSON message, whatever the middlewares and handlers would do. */
  lemma TunnelNotFound(request: Context, msgs: Messages, unescape: string -> string, middlewaresOf: string -> seq<Middleware>)
    ensures TunnelReply([], request, msgs, unescape, middlewaresOf) == Send(JsonError(404, MessageOr(msgs.notFound, "Not found")))
  {
  }

  /** Routes exist but none exports the method as a function: a 405 JSON message. */
  lemma TunnelMethodNotAllowed(routes: seq<RouteRecord>, request: Context, msgs: Messages, unescape: string -> string, middlewaresOf: string -> seq<Middleware>)
    requires |routes| > 0 && forall j :: 0 <= j < |routes| ==> !ExportsMethod(routes[j], request.verb)
    ensures TunnelReply(routes, request, msgs, unescape, middlewaresOf) == Send(JsonError(405, MessageOr(msgs.methodNotAllowed, "Method not allowed")))
  {
  }

  /**
    With a chosen route, the reply is decided by the first middleware that
    does not simply pass on; the handler is not called.
   */
  lemma TunnelMiddlewareDecides(routes: seq<RouteRecord>, request: Context, msgs: Messages, unescape: string -> string, middlewaresOf: string -> seq<Middleware>, k: nat)
    requires |routes| > 0 && FindRoute(routes, request.verb).Some?
    requires var route := routes[FindRoute(routes, request.verb).value];
      var mws := middlewaresOf(route.pathname);
      var ctx := request.(params := RouteParams(route, request.path, unescape));
      k < |mws| && AllContinue(mws, ctx, k) && !mws[k].run(ContextAt(mws, ctx, k)).Continue?
    ensures var route := routes[FindRoute(routes, request.verb).value];
      var mws := middlewaresOf(route.pathname);
      var ctx := request.(params := RouteParams(route, request.path, unescape));
      var reply := TunnelReply(routes, request, msgs, unescape, middlewaresOf);
      match mws[k].run(ContextAt(mws, ctx, k))
      case Respond(r) => reply == Send(r)
      case ContinueAndRespond(_, r) => reply == Send(r)
      case Stall => reply == Send(JsonError(500, TimeoutMessage(mws[k].pathname)))
      case Throw(t) => reply == Catch(t)
      case NextLate(_) => reply == NoReply
      case NextThenThrow(_, t) => reply == Catch(t)
      case Continue(_) => false
  {
    var route := routes[FindRoute(routes, request.verb).value];
    var mws := middlewaresOf(route.pathname);
    var ctx := request.(params := RouteParams(route, request.path, unescape));
    RunMiddlewaresFirstStop(mws, ctx, k);
  }

  /**
    When every middleware passes on, the handler runs on the context that
    carries the route's parameters and every merged partial: a nullish
    result is a 204, a response is sent, and an error is caught.
   */
  lemma TunnelHandlerDecides(routes: seq<RouteRecord>, request: Context, msgs: Messages, unescape: string -> string, middlewaresOf: string -> seq<Middleware>)
    requires |routes| > 0 && FindRoute(routes, request.verb).Some?
    requires var route := routes[FindRoute(routes, request.verb).value];
      var mws := middlewaresOf(route.pathname);
      AllContinue(mws, request.(params := RouteParams(route, request.path, unescape)), |mws|)
    ensures var route := routes[FindRoute(routes, request.verb).value];
      var mws := middlewaresOf(route.pathname);
      var c := ContextAt(mws, request.(params := RouteParams(route, request.path, unescape)), |mws|);
      var reply := TunnelReply(routes, request, msgs, unescape, middlewaresOf);
      && c.params == RouteParams(route, request.path, unescape)
      && match route.exports[request.verb].handler(c)
         case Returns(None) => reply == Send(StatusOnly(204))
         case Returns(Some(r)) => reply == Send(r)
         case Raises(t) => reply == Catch(t)
  {
    var route := routes[FindRoute(routes, request.verb).value];
    var mws := middlewaresOf(route.pathname);
    var ctx := request.(params := RouteParams(route, request.path, unescape));
    RunMiddlewaresAllContinue(mws, ctx);
    ContextAtKeeps(mws, ctx, |mws|);
  }

  /** A handler that resolves to nothing yields status 204 and no write. */
  lemma TunnelNoContentEvents(res: Response, range: Option<ByteRange>, ser: Serializers)
    requires res == StatusOnly(204)
    ensures var evs := SendResponseParser(res, range, ser);
      evs[|evs| - 2] == Status(Some(204)) && forall i :: 0 <= i < |evs| ==> !evs[i].Write?
  {
    SendResponseFalsyBody(res, range, ser);
  }

  /**
    A middleware that calls `next({root: v})` and returns nothing lets the
    handler see `custom.root == v`, over whatever custom data came before.
   */
  lemma NextReachesHandler(m: Middleware, ctx: Context, v: JsonScalar)
    requires m.run(ctx) == Continue(Some(map["root" := Value(v)]))
    ensures var e := RunMiddlewares([m], ctx);
      e.Passed? && "root" in e.ctx.custom && e.ctx.custom["root"] == Value(v)
  {
    assert [m][1..] == [];
  }

  /**
    A `next` that comes after the middleware's promise resolved to nothing
    clears the timer without resolving the step: the request gets no reply
    at all, neither the handler's nor the timeout's 500.
   */
  lemma LateNextHangs(m: Middleware, rest: seq<Middleware>, ctx: Context, handler: Handler)
    requires m.run(ctx).NextLate?
    ensures RunMiddlewares([m] + rest, ctx) == Hung
    ensures Finish(RunMiddlewares([m] + rest, ctx), handler) == NoReply
  {
  }

  /** A middleware that calls `next` and then throws is caught like any throw: its merge does not reach the handler. */
  lemma ThrowAfterNextCaught(m: Middleware, rest: seq<Middleware>, ctx: Context, handler: Handler)
    requires m.run(ctx).NextThenThrow?
    ensures Finish(RunMiddlewares([m] + rest, ctx), handler) == Catch(m.run(ctx).thrown)
  {
  }
}

=== FILE: worker_pool.dfy ===
/**
  The worker pool of the multi-threaded server (`src/utils/multi-tools.ts`):
  a map of worker threads, each with a weight counting the requests it is
  busy with, and `workerTunnel`, which picks a worker for a request, posts
  the request to it and listens for the worker's messages, errors and exit.

  The pool is a sequence in the map's insertion order. Thread ids are
  handed out in increasing order; the request id `randomUUID` draws is a
  parameter. Each request keeps the three listeners it attached (message,
  error, exit) and the state of the promise `workerTunnel` returned.
 */
module WorkerPool {
  import opened Wrappers
  import opened Strings

  datatype Worker = Worker(id: nat, weight: int)

  datatype Promise = Pending | Resolved | Rejected(reason: string)

  /** One call of `workerTunnel`: the worker it posted to, the listeners still attached, and its promise. */
  datatype Request = Request(
    requestId: nat,
    workerId: nat,
    onMessage: bool,
    onError: bool,
    onExit: bool,
    promise: Promise)

  datatype Pool = Pool(workers: seq<Worker>, requests: seq<Request>, nextThread: nat)

  /** `maxWorkerPoolSize` when the configuration does not set one (or sets 0). */
  const DefaultMaxPoolSize: nat := 20

  /** `minWorkerPoolSize` the server starts with when the configuration does not set one (`src/workers/v2-multi.ts`). */
  const DefaultMinPoolSize: nat := 5

  /** `config.limits?.maxWorkerPoolSize || 20`. */
  function MaxPoolSize(limit: Option<nat>): (r: nat)
    ensures r > 0
    ensures limit.Some? && limit.value > 0 ==> r == limit.value
    ensures limit.None? || limit.value == 0 ==> r == DefaultMaxPoolSize
  {
    match limit
    case Some(n) => if n > 0 then n else DefaultMaxPoolSize
    case None => DefaultMaxPoolSize
  }

  /** `config.limits?.minWorkerPoolSize || 5`. */
  function MinPoolSize(limit: Option<nat>): (r: nat)
    ensures r > 0
    ensures limit.Some? && limit.value > 0 ==> r == limit.value
    ensures limit.None? || limit.value == 0 ==> r == DefaultMinPoolSize
  {
    match limit
    case Some(n) => if n > 0 then n else DefaultMinPoolSize
    case None => DefaultMinPoolSize
  }

  // ---------------------------------------------------------------------------
  // Well-formedness and the weight invariant
  // ---------------------------------------------------------------------------

  function WorkerIds(ws: seq<Worker>): set<nat> {
    set i | 0 <= i < |ws| :: ws[i].id
  }

  /** Thread ids are distinct and below the next id; requests have distinct ids and name threads already created. */
  predicate WellFormed(p: Pool) {
    && (forall i, j :: 0 <= i < j < |p.workers| ==> p.workers[i].id != p.workers[j].id)
    && (forall i :: 0 <= i < |p.workers| ==> p.workers[i].id < p.nextThread)
    && (forall i :: 0 <= i < |p.requests| ==> p.requests[i].workerId < p.nextThread)
    && (forall i, j :: 0 <= i < j < |p.requests| ==> p.requests[i].requestId != p.requests[j].requestId)
  }

  /** A request that still counts towards its worker's weight: its error listener is attached. */
  predicate Busy(r: Request, id: nat) {
    r.workerId == id && r.onError
  }

  /** How many requests are busy on thread `id`. */
  function CountOn(rs: seq<Request>, id: nat): (n: nat)
    ensures n <= |rs|
    decreases |rs|
  {
    if |rs| == 0 then 0
    else CountOn(rs[..|rs| - 1], id) + (if Busy(rs[|rs| - 1], id) then 1 else 0)
  }

  /** Every worker's weight is the number of requests still busy on it. */
  predicate WeightsMatch(p: Pool) {
    forall i :: 0 <= i < |p.workers| ==> p.workers[i].weight == CountOn(p.requests, p.workers[i].id)
  }

  predicate Valid(p: Pool) {
    WellFormed(p) && WeightsMatch(p)
  }

  lemma {:induction false} CountOnNone(rs: seq<Request>, id: nat)
    requires forall i :: 0 <= i < |rs| ==> rs[i].workerId != id
    ensures CountOn(rs, id) == 0
    decreases |rs|
  {
    if |rs| > 0 {
      CountOnNone(rs[..|rs| - 1], id);
    }
  }

  lemma {:induction false} CountOnNoneBusy(rs: seq<Request>, id: nat)
    requires forall i :: 0 <= i < |rs| ==> !Busy(rs[i], id)
    ensures CountOn(rs, id) == 0
    decreases |rs|
  {
    if |rs| > 0 {
      CountOnNoneBusy(rs[..|rs| - 1], id);
    }
  }

  /** Requests that are busy on `id` in the same places count the same. */
  lemma {:induction false} CountOnPointwise(rs: seq<Request>, ts: seq<Request>, id: nat)
    requires |rs| == |ts|
    requires forall i :: 0 <= i < |rs| ==> (Busy(rs[i], id) <==> Busy(ts[i], id))
    ensures CountOn(rs, id) == CountOn(ts, id)
    decreases |rs|
  {
    if |rs| > 0 {
      CountOnPointwise(rs[..|rs| - 1], ts[..|ts| - 1], id);
    }
  }

  lemma CountOnAppend(rs: seq<Request>, r: Request, id: nat)
    ensures CountOn(rs + [r], id) == CountOn(rs, id) + (if Busy(r, id) then 1 else 0)
  {
    assert (rs + [r])[..|rs|] == rs;
  }

  /** Replacing one request changes the count by what the two contribute. */
  lemma {:induction false} CountOnUpdate(rs: seq<Request>, k: nat, r: Request, id: nat)
    requires k < |rs|
    ensures CountOn(rs[k := r], id) == CountOn(rs, id) - (if Busy(rs[k], id) then 1 else 0) + (if Busy(r, id) then 1 else 0)
    decreases |rs|
  {
    var last := |rs| - 1;
    if k < last {
      CountOnUpdate(rs[..last], k, r, id);
      assert rs[k := r][..last] == rs[..last][k := r];
    } else {
      assert rs[k := r][..last] == rs[..last];
    }
  }

  // ---------------------------------------------------------------------------
  // Starting and stopping
  // ---------------------------------------------------------------------------

  /** `startWorker(size)`: `size` new idle workers, added after the existing ones. */
  function StartWorkers(p: Pool, size: int): (r: Pool)
    ensures |r.workers| == |p.workers| + (if size > 0 then size else 0)
    ensures r.workers[..|p.workers|] == p.workers && r.requests == p.requests
    ensures forall i :: |p.workers| <= i < |r.workers| ==> r.workers[i].weight == 0
    decreases if size > 0 then size else 0
  {
    if size <= 0 then p
    else
      var q := p.(workers := p.workers + [Worker(p.nextThread, 0)], nextThread := p.nextThread + 1);
      var r := StartWorkers(q, size - 1);
      assert r.workers[..|p.workers|] == r.workers[..|q.workers|][..|p.workers|];
      r
  }

  /** Starting workers keeps the pool well-formed and every weight accounted for. */
  lemma {:induction false} StartWorkersValid(p: Pool, size: int)
    requires Valid(p)
    ensures Valid(StartWorkers(p, size))
    ensures StartWorkers(p, size).nextThread >= p.nextThread
    decreases if size > 0 then size else 0
  {
    if size > 0 {
      var q := p.(workers := p.workers + [Worker(p.nextThread, 0)], nextThread := p.nextThread + 1);
      CountOnNone(p.requests, p.nextThread);
      assert Valid(q);
      StartWorkersValid(q, size - 1);
    }
  }

  /** `stopWorkers()`: every worker is terminated and the map cleared; their exits are `Exit` events. */
  function StopWorkers(p: Pool): (r: Pool)
    ensures r.workers == [] && r.requests == p.requests && r.nextThread == p.nextThread
    ensures WellFormed(p) ==> Valid(r)
  {
    p.(workers := [])
  }

  // ---------------------------------------------------------------------------
  // Choosing a worker
  // ---------------------------------------------------------------------------

  datatype Choice = Idle(index: nat) | Spawn | Least(index: nat)

  /** `workerList.find((w) => w.weight === 0)`, as an index. */
  function FirstIdle(ws: seq<Worker>): (r: Option<nat>)
    ensures r.Some? ==> r.value < |ws| && ws[r.value].weight == 0
    ensures r.Some? ==> forall j :: 0 <= j < r.value ==> ws[j].weight != 0
    ensures r.None? ==> forall j :: 0 <= j < |ws| ==> ws[j].weight != 0
    decreases |ws|
  {
    if |ws| == 0 then None
    else if ws[0].weight == 0 then Some(0)
    else match FirstIdle(ws[1..])
      case None => None
      case Some(i) => Some(i + 1)
  }

  /**
    `workerList.reduce((a, b) => (a.weight < b.weight ? a : b))` over the
    first `n` workers, as an index: a later worker wins ties.
   */
  function LeastLoaded(ws: seq<Worker>, n: nat): (r: nat)
    requires 1 <= n <= |ws|
    ensures r < n
    ensures forall j :: 0 <= j < n ==> ws[r].weight <= ws[j].weight
    ensures forall j :: r < j < n ==> ws[r].weight < ws[j].weight
    decreases n
  {
    if n == 1 then 0
    else
      var a := LeastLoaded(ws, n - 1);
      if ws[a].weight < ws[n - 1].weight then a else n - 1
  }

  /** The worker `workerTunnel` posts to: the first idle one, else a new one while below the maximum, else the least loaded. */
  function Choose(ws: seq<Worker>, maxSize: nat): (c: Choice)
    requires maxSize > 0
    ensures c.Idle? ==> c.index < |ws|
    ensures c.Least? ==> c.index < |ws|
  {
    match FirstIdle(ws)
    case Some(i) => Idle(i)
    case None =>
      if |ws| < maxSize then Spawn
      else Least(LeastLoaded(ws, |ws|))
  }

  /** The choice prefers an idle worker, spawns only when none is idle and the pool is below its maximum, and otherwise takes a least loaded worker, the last of those tied. */
  lemma ChooseSpec(ws: seq<Worker>, maxSize: nat)
    requires maxSize > 0
    ensures var c := Choose(ws, maxSize);
      && (c.Idle? <==> exists j :: 0 <= j < |ws| && ws[j].weight == 0)
      && (c.Idle? ==> ws[c.index].weight == 0 && forall j :: 0 <= j < c.index ==> ws[j].weight != 0)
      && (c.Spawn? <==> (forall j :: 0 <= j < |ws| ==> ws[j].weight != 0) && |ws| < maxSize)
      && (c.Least? ==> (&& |ws| >= maxSize
                        && (forall j :: 0 <= j < |ws| ==> ws[c.index].weight <= ws[j].weight)
                        && (forall j :: c.index < j < |ws| ==> ws[c.index].weight < ws[j].weight)))
  {
  }

  // ---------------------------------------------------------------------------
  // workerTunnel
  // ---------------------------------------------------------------------------

  /** Adds `delta` to the weight of the worker with thread id `id`, if it is still in the pool. */
  function AdjustWeight(ws: seq<Worker>, id: nat, delta: int): (r: seq<Worker>)
    ensures |r| == |ws|
    ensures forall i :: 0 <= i < |ws| ==> r[i].id == ws[i].id
    ensures forall i :: 0 <= i < |ws| ==> r[i].weight == ws[i].weight + (if ws[i].id == id then delta else 0)
  {
    seq(|ws|, i requires 0 <= i < |ws| => if ws[i].id == id then ws[i].(weight := ws[i].weight + delta) else ws[i])
  }

  /** Settling an already settled promise changes nothing. */
  function Settle(p: Promise, outcome: Promise): Promise {
    if p.Pending? then outcome else p
  }

  /** `workerTunnel(...)` up to `postMessage`: the chosen worker's weight goes up and the request starts listening to it. */
  function Dispatch(p: Pool, requestId: nat, limit: Option<nat>): (r: Pool)
  {
    var ws := p.workers;
    match Choose(ws, MaxPoolSize(limit))
    case Spawn =>
      Pool(ws + [Worker(p.nextThread, 1)], p.requests + [Request(requestId, p.nextThread, true, true, true, Pending)], p.nextThread + 1)
    case Idle(i) =>
      Pool(AdjustWeight(ws, ws[i].id, 1), p.requests + [Request(requestId, ws[i].id, true, true, true, Pending)], p.nextThread)
    case Least(i) =>
      Pool(AdjustWeight(ws, ws[i].id, 1), p.requests + [Request(requestId, ws[i].id, true, true, true, Pending)], p.nextThread)
  }

  /** The thread a dispatched request went to. */
  function DispatchedTo(p: Pool, requestId: nat, limit: Option<nat>): nat {
    Dispatch(p, requestId, limit).requests[|p.requests|].workerId
  }

  /**
    A dispatched request is pending on a worker of the pool whose weight
    went up by one; the pool grows by at most one worker, and only while it
    is below its maximum.
   */
  lemma DispatchSpec(p: Pool, requestId: nat, limit: Option<nat>)
    requires Valid(p)
    ensures var r := Dispatch(p, requestId, limit);
      var id := DispatchedTo(p, requestId, limit);
      && |r.requests| == |p.requests| + 1
      && r.requests[..|p.requests|] == p.requests
      && r.requests[|p.requests|] == Request(requestId, id, true, true, true, Pending)
      && id in WorkerIds(r.workers)
      && (|r.workers| == |p.workers| || (|r.workers| == |p.workers| + 1 && |r.workers| <= MaxPoolSize(limit)))
      && r.workers[..|p.workers|] == AdjustWeight(p.workers, id, 1)
      && (|r.workers| > |p.workers| ==> r.workers[|p.workers|] == Worker(id, 1))
  {
    var r := Dispatch(p, requestId, limit);
    var id := DispatchedTo(p, requestId, limit);
    match Choose(p.workers, MaxPoolSize(limit))
    case Spawn =>
      assert r.workers[|p.workers|].id == id;
      forall i | 0 <= i < |p.workers| ensures p.workers[i].id != id { }
      assert AdjustWeight(p.workers, id, 1) == p.workers;
    case Idle(i) =>
      assert r.workers[i].id == id;
    case Least(i) =>
      assert r.workers[i].id == id;
  }

  /** Dispatching keeps the pool well-formed and every weight accounted for, given a fresh request id. */
  lemma DispatchValid(p: Pool, requestId: nat, limit: Option<nat>)
    requires Valid(p)
    requires forall i :: 0 <= i < |p.requests| ==> p.requests[i].requestId != requestId
    ensures Valid(Dispatch(p, requestId, limit))
  {
    var r := Dispatch(p, requestId, limit);
    var id := DispatchedTo(p, requestId, limit);
    var req := Request(requestId, id, true, true, true, Pending);
    DispatchSpec(p, requestId, limit);
    assert r.requests == p.requests + [req];
    forall i | 0 <= i < |r.workers| ensures r.workers[i].weight == CountOn(r.requests, r.workers[i].id) {
      CountOnAppend(p.requests, req, r.workers[i].id);
      if i == |p.workers| {
        CountOnNone(p.requests, id);
      } else {
        assert r.workers[i] == r.workers[..|p.workers|][i];
      }
    }
  }

  /** The first request listening for messages from thread `w` under `requestId`. */
  function FindRequest(rs: seq<Request>, w: nat, requestId: nat): (r: Option<nat>)
    ensures r.Some? ==> r.value < |rs| && rs[r.value].workerId == w && rs[r.value].requestId == requestId && rs[r.value].onMessage
    ensures r.None? ==> forall i :: 0 <= i < |rs| ==> !(rs[i].workerId == w && rs[i].requestId == requestId && rs[i].onMessage)
    decreases |rs|
  {
    if |rs| == 0 then None
    else if rs[0].workerId == w && rs[0].requestId == requestId && rs[0].onMessage then Some(0)
    else match FindRequest(rs[1..], w, requestId)
      case None => None
      case Some(i) => Some(i + 1)
  }

  /**
    A message from thread `w` for `requestId`: the request listening for it
    hands it to its callback; the `end` message also takes the worker's
    weight down, detaches the request's listeners and resolves it. Returns
    whether a callback received the message.
   */
  function Message(p: Pool, w: nat, requestId: nat, isEnd: bool): (r: (Pool, bool))
    ensures r.1 <==> FindRequest(p.requests, w, requestId).Some?
    ensures !r.1 || !isEnd ==> r.0 == p
  {
    match FindRequest(p.requests, w, requestId)
    case None => (p, false)
    case Some(k) =>
      if !isEnd then (p, true)
      else
        var req := p.requests[k];
        var done := req.(onMessage := false, onError := false, onExit := false, promise := Settle(req.promise, Resolved));
        (p.(workers := AdjustWeight(p.workers, w, -1), requests := p.requests[k := done]), true)
  }

  /** The `end` message settles the request and keeps every weight accounted for while the request still counted towards its worker. */
  lemma MessageEndValid(p: Pool, w: nat, requestId: nat)
    requires Valid(p)
    requires var k := FindRequest(p.requests, w, requestId); k.Some? ==> p.requests[k.value].onError
    ensures var r := Message(p, w, requestId, true).0;
      && Valid(r)
      && (var k := FindRequest(p.requests, w, requestId);
          k.Some? ==> !r.requests[k.value].promise.Pending? && !r.requests[k.value].onMessage && !r.requests[k.value].onError)
  {
    var k := FindRequest(p.requests, w, requestId);
    if k.Some? {
      var r := Message(p, w, requestId, true).0;
      var req := p.requests[k.value];
      var done := req.(onMessage := false, onError := false, onExit := false, promise := Settle(req.promise, Resolved));
      assert r.requests == p.requests[k.value := done];
      forall i | 0 <= i < |r.workers| ensures r.workers[i].weight == CountOn(r.requests, r.workers[i].id) {
        CountOnUpdate(p.requests, k.value, done, r.workers[i].id);
      }
    }
  }

  /**
    A worker `error` event: every request whose error listener is attached
    to that thread is rejected with the error and takes the weight down by
    one; the worker stays in the pool and the requests' message listeners
    stay attached.
   */
  function Error(p: Pool, w: nat, err: string): (r: Pool)
    ensures |r.requests| == |p.requests| && r.nextThread == p.nextThread
    ensures forall i :: 0 <= i < |p.requests| && Busy(p.requests[i], w) ==>
      r.requests[i] == p.requests[i].(onError := false, onExit := false, promise := Settle(p.requests[i].promise, Rejected(err)))
    ensures forall i :: 0 <= i < |p.requests| && !Busy(p.requests[i], w) ==> r.requests[i] == p.requests[i]
  {
    Pool(AdjustWeight(p.workers, w, -(CountOn(p.requests, w) as int)), FailRequests(p.requests, w, err), p.nextThread)
  }

  function FailRequests(rs: seq<Request>, w: nat, err: string): (r: seq<Request>)
    ensures |r| == |rs|
    ensures forall i :: 0 <= i < |rs| ==> r[i] == if Busy(rs[i], w) then rs[i].(onError := false, onExit := false, promise := Settle(rs[i].promise, Rejected(err))) else rs[i]
  {
    seq(|rs|, i requires 0 <= i < |rs| =>
      if Busy(rs[i], w) then rs[i].(onError := false, onExit := false, promise := Settle(rs[i].promise, Rejected(err))) else rs[i])
  }

  /** After an error the worker is idle again, every weight still accounted for, and every request it was busy with is settled. */
  lemma ErrorValid(p: Pool, w: nat, err: string)
    requires Valid(p)
    ensures var r := Error(p, w, err);
      && Valid(r)
      && r.workers == AdjustWeight(p.workers, w, -(CountOn(p.requests, w) as int))
      && (forall i :: 0 <= i < |r.workers| && r.workers[i].id == w ==> r.workers[i].weight == 0)
      && (forall i :: 0 <= i < |p.requests| && Busy(p.requests[i], w) ==> !r.requests[i].promise.Pending?)
  {
    var r := Error(p, w, err);
    CountOnNoneBusy(r.requests, w);
    forall i | 0 <= i < |r.workers| ensures r.workers[i].weight == CountOn(r.requests, r.workers[i].id) {
      var id := r.workers[i].id;
      if id != w {
        CountOnPointwise(p.requests, r.requests, id);
      }
    }
  }

  /**
    A worker `exit` event: each request whose exit listener is attached to
    that thread deletes the worker from the pool and is rejected with the
    exit code. A worker no request is listening to is not removed.
   */
  function Exit(p: Pool, w: nat, code: int): (r: Pool)
    ensures |r.requests| == |p.requests| && r.nextThread == p.nextThread
  {
    var reason := ExitReason(code);
    Pool(if Listening(p.requests, w) then Remove(p.workers, w) else p.workers, StopRequests(p.requests, w, reason), p.nextThread)
  }

  function ExitReason(code: int): string {
    "Worker stopped with exit code " + IntToDecimal(code)
  }

  /** Some request has its exit listener attached to thread `w`. */
  predicate Listening(rs: seq<Request>, w: nat) {
    exists i :: 0 <= i < |rs| && rs[i].workerId == w && rs[i].onExit
  }

  function StopRequests(rs: seq<Request>, w: nat, reason: string): (r: seq<Request>)
    ensures |r| == |rs|
    ensures forall i :: 0 <= i < |rs| ==> r[i] == if rs[i].workerId == w && rs[i].onExit then rs[i].(onExit := false, promise := Settle(rs[i].promise, Rejected(reason))) else rs[i]
  {
    seq(|rs|, i requires 0 <= i < |rs| =>
      if rs[i].workerId == w && rs[i].onExit then rs[i].(onExit := false, promise := Settle(rs[i].promise, Rejected(reason))) else rs[i])
  }

  /** `workerPool.delete(id)`. */
  function Remove(ws: seq<Worker>, id: nat): (r: seq<Worker>)
    ensures |r| <= |ws|
    ensures forall i :: 0 <= i < |r| ==> r[i].id != id
    ensures forall i :: 0 <= i < |r| ==> r[i] in ws
    ensures forall i :: 0 <= i < |ws| && ws[i].id != id ==> ws[i] in r
    decreases |ws|
  {
    if |ws| == 0 then []
    else if ws[0].id == id then Remove(ws[1..], id)
    else [ws[0]] + Remove(ws[1..], id)
  }

  lemma {:induction false} RemoveOrdered(ws: seq<Worker>, id: nat)
    requires forall i, j :: 0 <= i < j < |ws| ==> ws[i].id != ws[j].id
    ensures forall i, j :: 0 <= i < j < |Remove(ws, id)| ==> Remove(ws, id)[i].id != Remove(ws, id)[j].id
    decreases |ws|
  {
    if |ws| > 0 {
      RemoveOrdered(ws[1..], id);
      var rest := Remove(ws[1..], id);
      if ws[0].id != id {
        forall i | 0 <= i < |rest| ensures rest[i].id != ws[0].id {
          assert rest[i] in ws[1..];
          var j :| 0 <= j < |ws[1..]| && ws[1..][j] == rest[i];
          assert ws[j + 1] == rest[i];
        }
        var r := Remove(ws, id);
        assert r == [ws[0]] + rest;
        forall i, j | 0 <= i < j < |r| ensures r[i].id != r[j].id {
          assert r[j] == rest[j - 1];
          if i > 0 {
            assert r[i] == rest[i - 1];
            assert rest[i - 1].id != rest[j - 1].id;
          } else {
            assert r[i] == ws[0];
            assert rest[j - 1].id != ws[0].id;
          }
        }
      }
    }
  }

  /** An observed exit removes the worker and rejects every request listening for it with the exit code; the pool stays valid. */
  lemma ExitValid(p: Pool, w: nat, code: int)
    requires Valid(p)
    ensures var r := Exit(p, w, code);
      && Valid(r)
      && (forall i :: 0 <= i < |p.requests| && p.requests[i].workerId == w && p.requests[i].onExit && p.requests[i].promise.Pending?
            ==> r.requests[i].promise == Rejected(ExitReason(code)))
      && (Listening(p.requests, w) ==> w !in WorkerIds(r.workers))
      && (!Listening(p.requests, w) ==> r.workers == p.workers)
  {
    var r := Exit(p, w, code);
    ExitWorkers(p, w, code);
    forall i | 0 <= i < |r.workers| ensures r.workers[i].weight == CountOn(r.requests, r.workers[i].id) {
      var j :| 0 <= j < |p.workers| && p.workers[j] == r.workers[i];
      CountOnPointwise(p.requests, r.requests, r.workers[i].id);
    }
  }

  /** The workers after an exit are among the pool's, with distinct ids. */
  lemma ExitWorkers(p: Pool, w: nat, code: int)
    requires WellFormed(p)
    ensures var r := Exit(p, w, code);
      && WellFormed(r)
      && (forall i :: 0 <= i < |r.workers| ==> r.workers[i] in p.workers)
  {
    var r := Exit(p, w, code);
    var ws := if Listening(p.requests, w) then Remove(p.workers, w) else p.workers;
    assert r.workers == ws;
    if Listening(p.requests, w) {
      RemoveOrdered(p.workers, w);
    }
    assert forall i :: 0 <= i < |ws| ==> ws[i] in p.workers;
    forall i | 0 <= i < |ws| ensures ws[i].id < p.nextThread {
      var j :| 0 <= j < |p.workers| && p.workers[j] == ws[i];
    }
    StopRequestsKeep(p.requests, w, ExitReason(code));
  }

  lemma StopRequestsKeep(rs: seq<Request>, w: nat, reason: string)
    ensures forall i :: 0 <= i < |rs| ==>
      StopRequests(rs, w, reason)[i].requestId == rs[i].requestId && StopRequests(rs, w, reason)[i].workerId == rs[i].workerId
  {
  }

  /**
    The weight counts the `end` message of a request that already failed
    with an error a second time: here an idle worker ends at weight -1.
   */
  lemma EndAfterErrorCountsTwice()
    ensures var p := Dispatch(Pool([Worker(0, 0)], [], 1), 7, None);
      var q := Error(p, 0, "boom");
      var r := Message(q, 0, 7, true);
      && p.workers == [Worker(0, 1)]
      && q.workers == [Worker(0, 0)]
      && r.1
      && r.0.workers == [Worker(0, -1)]
  {
    var p0 := Pool([Worker(0, 0)], [], 1);
    assert FirstIdle(p0.workers) == Some(0);
    assert Choose(p0.workers, MaxPoolSize(None)) == Idle(0);
    var p := Dispatch(p0, 7, None);
    var req := Request(7, 0, true, true, true, Pending);
    assert AdjustWeight([Worker(0, 0)], 0, 1) == [Worker(0, 1)];
    assert p == Pool([Worker(0, 1)], [req], 1);
    assert CountOn([req], 0) == 1 by {
      assert [req][..0] == [];
    }
    var q := Error(p, 0, "boom");
    var failed := Request(7, 0, true, false, false, Rejected("boom"));
    assert AdjustWeight([Worker(0, 1)], 0, -1) == [Worker(0, 0)];
    assert FailRequests([req], 0, "boom") == [failed];
    assert q == Pool([Worker(0, 0)], [failed], 1);
    assert FindRequest([failed], 0, 7) == Some(0);
    assert AdjustWeight([Worker(0, 0)], 0, -1) == [Worker(0, -1)];
  }
}

=== FILE: worker_router.dfy ===
/**
  The middle generation's per-request worker script (`src/workers/router.ts`):
  find the route files that match, pick the one whose module exports the
  request method, run the middlewares found above it, then its handler, and
  send the outcome with `sendResponseAll`. Every `sendResponseAll` ends with
  the `end` event, which exits the worker, so the first one sent is the
  only one.

  The script hands each record that `findRoutePathname` returns straight to
  `pathToFileURL`, which accepts only a string path: `RouteAsWritten` models
  that, and `Route` the evidently intended reading that takes each record's
  `pathname`.
 */
module WorkerRouter {
  import opened Wrappers
  import opened Strings
  import opened Protocol
  import opened CustomData
  import opened Handlers
  import opened MiddlewareChain
  import opened Paths
  import opened Sorting
  import RouteMiddle
  import TransferMiddle
  import TransferCurrent

  // ---------------------------------------------------------------------------
  // Route modules
  // ---------------------------------------------------------------------------

  /** One exported value: a function, a truthy value that is not a function, or nothing truthy. */
  datatype Export = Absent | Func(handler: Handler) | NotFunction

  /** A route module: its named exports and the properties of its default export. */
  datatype RouteModule = RouteModule(named: map<string, Export>, defaults: map<string, Export>)

  /** `module[method] || module.default?.[method]`. */
  function MethodExport(m: RouteModule, verb: string): (r: Export)
    ensures verb in m.named && !m.named[verb].Absent? ==> r == m.named[verb]
    ensures (verb !in m.named || m.named[verb].Absent?) ==> r == if verb in m.defaults then m.defaults[verb] else Absent
  {
    if verb in m.named && !m.named[verb].Absent? then m.named[verb]
    else if verb in m.defaults then m.defaults[verb]
    else Absent
  }

  /** `data.method?.toUpperCase() || 'GET'`. */
  function RequestMethod(verb: Option<string>): (r: string)
    ensures verb.None? || verb.value == "" ==> r == "GET"
    ensures verb.Some? && verb.value != "" ==> r == AsciiUpper(verb.value)
  {
    if verb.Some? && verb.value != "" then AsciiUpper(verb.value) else "GET"
  }

  // ---------------------------------------------------------------------------
  // The request and the project
  // ---------------------------------------------------------------------------

  /** The fields of the worker's `data` the script reads; `custom` is `{}` when the request carries none. */
  datatype WorkerData = WorkerData(verb: Option<string>, custom: CustomMap)

  /**
    What the worker reads from disk, as functions: the compiled route files,
    the module a route file exports, whether a file exists, and the middleware
    a middleware file exports (`m.default || m.middleware`, `None` when both
    are falsy).
   */
  datatype Project = Project(
    basePath: string,
    routeFiles: seq<string>,
    join: seq<string> -> string,
    modules: string -> RouteModule,
    fileExists: string -> bool,
    middlewareOf: string -> Option<Context -> Outcome>)

  /** How the worker ends: the response it sends, a middleware that never settles, or an uncaught error. */
  datatype RouterEnd = Sent(response: Response) | Hangs | Crashes(reason: Crash)

  /** Why the worker script rejects: compiling a route file threw, the import was given a record instead of a path, or a thrown non-object is rethrown. */
  datatype Crash = CompileThrew(error: RouteMiddle.CompileError) | ImportArgument | Rethrown

  /** `{message, details}` of the multiple-routes answer. */
  function MultipleRoutesBody(message: string, details: seq<string>): JsonValue {
    JObject([("message", JString(message)), ("details", JArray(seq(|details|, i requires 0 <= i < |details| => JString(details[i]))))])
  }

  /** A 500 answer listing the route files, relative to the project, that export the method. */
  function MultipleRoutes(message: string, found: seq<RouteMiddle.CompiledMiddle>, basePath: string): Response {
    var details := seq(|found|, i requires 0 <= i < |found| => EscapePath(found[i].pathname, basePath));
    Response(Some(500), [("Content-Type", HText("application/json"))], [], [], Json(MultipleRoutesBody(message, details)))
  }

  /** The middlewares the worker loads for a route file, root first; files exporting nothing truthy are dropped. */
  function LoadMiddlewares(files: seq<string>, middlewareOf: string -> Option<Context -> Outcome>): (r: seq<Middleware>)
    ensures |r| <= |files|
    ensures forall i :: 0 <= i < |r| ==> r[i].pathname in files && middlewareOf(r[i].pathname) == Some(r[i].run)
    decreases |files|
  {
    if |files| == 0 then []
    else
      var rest := LoadMiddlewares(files[1..], middlewareOf);
      match middlewareOf(files[0])
      case None => rest
      case Some(run) => [Middleware(files[0], run)] + rest
  }

  /** The middleware list of the route file at `pathname`. */
  function MiddlewaresFor(project: Project, pathname: string): seq<Middleware> {
    var files := RouteMiddle.FindMiddlewarePathnames(project.basePath, pathname, project.join, project.fileExists);
    LoadMiddlewares(files, project.middlewareOf)
  }

  /** The context a middleware or handler receives: `{...data, reader}` with no route parameters. */
  function ContextOf(data: WorkerData, route: string): Context {
    Context(if data.verb.Some? then data.verb.value else "", route, [], data.custom)
  }

  // ---------------------------------------------------------------------------
  // The script
  // ---------------------------------------------------------------------------

  /** The `catch` block: an `Error` is a 500 with its message, an object is sent as it is, anything else is rethrown. */
  function Catch(t: Thrown): (r: RouterEnd)
    ensures t.ThrownError? ==> r == Sent(JsonError(500, t.message))
    ensures t.ThrownObject? ==> r == Sent(t.response)
    ensures t.ThrownValue? ==> r == Crashes(Rethrown)
  {
    match t
    case ThrownError(m) => Sent(JsonError(500, m))
    case ThrownObject(res) => Sent(res)
    case ThrownValue => Crashes(Rethrown)
  }

  /** The `try` block: the middleware loop, then the handler when no middleware answered, then `{status: 200}` when the handler answered nothing. */
  function RunRoute(mws: seq<Middleware>, handler: Handler, ctx: Context): RouterEnd {
    match RunChain(mws, ctx)
    case ChainResponds(r) => Sent(r)
    case ChainHangs => Hangs
    case ChainThrows(t) => Catch(t)
    case NextCalled(c) =>
      match handler(c)
      case Returns(Some(r)) => Sent(r)
      case Returns(None) => Sent(StatusOnly(200))
      case Raises(t) => Catch(t)
  }

  /** The routes that export the request method, in the order found. */
  function WithMethod(found: seq<RouteMiddle.CompiledMiddle>, modules: string -> RouteModule, verb: string): (r: seq<RouteMiddle.CompiledMiddle>)
    ensures forall i :: 0 <= i < |r| ==> !MethodExport(modules(r[i].pathname), verb).Absent?
  {
    Filter(found, (c: RouteMiddle.CompiledMiddle) => !MethodExport(modules(c.pathname), verb).Absent?)
  }

  /** The intended script for one request: routes are searched with the corrected expression, and each found record's `pathname` is imported. */
  function Route(project: Project, route: string, data: WorkerData, msgs: Messages): RouterEnd {
    match RouteMiddle.FindRoutePathname(RouteMiddle.Corrected, project.routeFiles, project.basePath, route, project.join)
    case Failure(e) => Crashes(CompileThrew(e))
    case Success(found) =>
      if |found| == 0 then Sent(JsonError(404, MessageOr(msgs.notFound, "Not found Route")))
      else
        var verb := RequestMethod(data.verb);
        var filtered := WithMethod(found, project.modules, verb);
        if |filtered| > 1 then Sent(MultipleRoutes(MessageOr(msgs.multipleRoutes, "Multiple routes found"), filtered, project.basePath))
        else if |filtered| == 0 then Sent(JsonError(405, MessageOr(msgs.methodNotAllowed, "Method not allowed")))
        else match MethodExport(project.modules(filtered[0].pathname), verb)
          case Func(h) => RunRoute(MiddlewaresFor(project, filtered[0].pathname), h, ContextOf(data, route))
          case _ => Sent(JsonError(500, MessageOr(msgs.internalServerError, "Internal server error")))
  }

  /**
    The script as written: the routes are searched with the expression the
    source builds, and once a route is found, importing it fails because the
    record is not a path.
   */
  function RouteAsWritten(project: Project, route: string, data: WorkerData, msgs: Messages): RouterEnd {
    match RouteMiddle.FindRoutePathname(RouteMiddle.AsWritten, project.routeFiles, project.basePath, route, project.join)
    case Failure(e) => Crashes(CompileThrew(e))
    case Success(found) =>
      if |found| == 0 then Sent(JsonError(404, MessageOr(msgs.notFound, "Not found Route")))
      else Crashes(ImportArgument)
  }

  /** Everything the worker posts: the events of the one response it sends, or nothing. */
  function RouterEvents(e: RouterEnd, rangeOf: Response -> Option<TransferCurrent.ByteRange>, ser: Serializers): (evs: seq<Event>)
    ensures e.Sent? ==> ProtocolShape(evs) && evs[|evs| - 2] == Status(TransferMiddle.StatusSent(e.response.status, rangeOf(e.response)))
    ensures !e.Sent? ==> evs == []
  {
    if e.Sent? then TransferMiddle.SendResponseAll(e.response, rangeOf(e.response), ser) else []
  }

  // ---------------------------------------------------------------------------
  // Properties
  // ---------------------------------------------------------------------------

  /** When no route file matches, the worker answers 404 with the configured or default message. */
  lemma RouteNotFound(project: Project, route: string, data: WorkerData, msgs: Messages)
    requires RouteMiddle.FindRoutePathname(RouteMiddle.Corrected, project.routeFiles, project.basePath, route, project.join) == Success([])
    ensures Route(project, route, data, msgs) == Sent(JsonError(404, MessageOr(msgs.notFound, "Not found Route")))
  {
  }

  /** A route file that fails to compile rejects the whole script: nothing is sent. */
  lemma RouteCompileFails(project: Project, route: string, data: WorkerData, msgs: Messages)
    requires RouteMiddle.CompileAll(project.routeFiles, RouteMiddle.AppFolder(project.basePath, project.join)).Failure?
    ensures Route(project, route, data, msgs) == Crashes(CompileThrew(RouteMiddle.CompileAll(project.routeFiles, RouteMiddle.AppFolder(project.basePath, project.join)).error))
  {
  }

  /**
    Among the matching routes, those whose module exports the verb decide:
    two or more give a 500 listing them, none gives a 405, and a single one
    whose export is not a function gives a 500.
   */
  lemma RouteMethodChoice(project: Project, route: string, data: WorkerData, msgs: Messages)
    requires RouteMiddle.FindRoutePathname(RouteMiddle.Corrected, project.routeFiles, project.basePath, route, project.join).Success?
    ensures var found := RouteMiddle.FindRoutePathname(RouteMiddle.Corrected, project.routeFiles, project.basePath, route, project.join).value;
      var verb := RequestMethod(data.verb);
      var filtered := WithMethod(found, project.modules, verb);
      var r := Route(project, route, data, msgs);
      && (|found| > 0 && |filtered| > 1 ==>
            r == Sent(MultipleRoutes(MessageOr(msgs.multipleRoutes, "Multiple routes found"), filtered, project.basePath)))
      && (|found| > 0 && |filtered| == 0 ==> r == Sent(JsonError(405, MessageOr(msgs.methodNotAllowed, "Method not allowed"))))
      && (|filtered| == 1 && MethodExport(project.modules(filtered[0].pathname), verb).NotFunction? ==>
            r == Sent(JsonError(500, MessageOr(msgs.internalServerError, "Internal server error"))))
  {
    var found := RouteMiddle.FindRoutePathname(RouteMiddle.Corrected, project.routeFiles, project.basePath, route, project.join).value;
    var filtered := WithMethod(found, project.modules, RequestMethod(data.verb));
    if |filtered| > 0 {
      assert |found| > 0;
    }
  }

  /** A route is filtered in exactly when it is found and its module exports the method. */
  lemma WithMethodMembers(found: seq<RouteMiddle.CompiledMiddle>, modules: string -> RouteModule, verb: string, c: RouteMiddle.CompiledMiddle)
    ensures c in WithMethod(found, modules, verb) <==> c in found && !MethodExport(modules(c.pathname), verb).Absent?
  {
    FilterMembers(found, (c: RouteMiddle.CompiledMiddle) => !MethodExport(modules(c.pathname), verb).Absent?, c);
  }

  /** The one route that exports the method as a function runs its middlewares and then its handler. */
  lemma RouteRunsHandler(project: Project, route: string, data: WorkerData, msgs: Messages, h: Handler)
    requires RouteMiddle.FindRoutePathname(RouteMiddle.Corrected, project.routeFiles, project.basePath, route, project.join).Success?
    requires var found := RouteMiddle.FindRoutePathname(RouteMiddle.Corrected, project.routeFiles, project.basePath, route, project.join).value;
      var filtered := WithMethod(found, project.modules, RequestMethod(data.verb));
      |filtered| == 1 && MethodExport(project.modules(filtered[0].pathname), RequestMethod(data.verb)) == Func(h)
    ensures var found := RouteMiddle.FindRoutePathname(RouteMiddle.Corrected, project.routeFiles, project.basePath, route, project.join).value;
      var filtered := WithMethod(found, project.modules, RequestMethod(data.verb));
      Route(project, route, data, msgs) == RunRoute(MiddlewaresFor(project, filtered[0].pathname), h, ContextOf(data, route))
  {
    var found := RouteMiddle.FindRoutePathname(RouteMiddle.Corrected, project.routeFiles, project.basePath, route, project.join).value;
    var filtered := WithMethod(found, project.modules, RequestMethod(data.verb));
    assert |found| > 0;
  }

  /** The first middleware that does not pass on decides: its response, a worker that never ends, or the catch block. */
  lemma RunRouteMiddlewareDecides(mws: seq<Middleware>, handler: Handler, ctx: Context, k: nat)
    requires k < |mws| && AllContinue(mws, ctx, k)
    ensures match mws[k].run(ContextAt(mws, ctx, k))
      case Respond(r) => RunRoute(mws, handler, ctx) == Sent(r)
      case ContinueAndRespond(_, r) => RunRoute(mws, handler, ctx) == Sent(r)
      case Stall => RunRoute(mws, handler, ctx) == Hangs
      case Throw(t) => RunRoute(mws, handler, ctx) == Catch(t)
      case NextLate(_) => RunRoute(mws, handler, ctx) == Hangs
      case NextThenThrow(_, t) => RunRoute(mws, handler, ctx) == Catch(t)
      case Continue(_) => true
  {
    ChainFirstStop(mws, ctx, k);
  }

  /**
    When every middleware passes on, the handler runs on the merged context:
    its response is sent, no response sends `{status: 200}`, and what it
    throws goes to the catch block.
   */
  lemma RunRouteHandlerDecides(mws: seq<Middleware>, handler: Handler, ctx: Context)
    requires AllContinue(mws, ctx, |mws|)
    ensures var c := ContextAt(mws, ctx, |mws|);
      match handler(c)
      case Returns(Some(r)) => RunRoute(mws, handler, ctx) == Sent(r)
      case Returns(None) => RunRoute(mws, handler, ctx) == Sent(StatusOnly(200))
      case Raises(t) => RunRoute(mws, handler, ctx) == Catch(t)
  {
    NextCalledIffAllContinue(mws, ctx);
  }

  /** As written, the script never reaches a handler: it answers 404 or fails, whatever the routes export. */
  lemma RouteAsWrittenNeverServes(project: Project, route: string, data: WorkerData, msgs: Messages)
    ensures var r := RouteAsWritten(project, route, data, msgs);
      r.Sent? ==> r.response == JsonError(404, MessageOr(msgs.notFound, "Not found Route"))
    ensures var found := RouteMiddle.FindRoutePathname(RouteMiddle.AsWritten, project.routeFiles, project.basePath, route, project.join);
      found.Success? && |found.value| > 0 ==> RouteAsWritten(project, route, data, msgs) == Crashes(ImportArgument)
  {
  }

  /** Both readings agree until a route is found: a compile failure, or no route under either expression. */
  lemma RouteAsWrittenAgreesUnmatched(project: Project, route: string, data: WorkerData, msgs: Messages)
    requires var written := RouteMiddle.FindRoutePathname(RouteMiddle.AsWritten, project.routeFiles, project.basePath, route, project.join);
      var found := RouteMiddle.FindRoutePathname(RouteMiddle.Corrected, project.routeFiles, project.basePath, route, project.join);
      found.Failure? || (written.value == [] && found.value == [])
    ensures RouteAsWritten(project, route, data, msgs) == Route(project, route, data, msgs)
  {
  }
}

=== FILE: wrappers.dfy ===
/**
  Failure-compatible wrappers used throughout the model: `Option` for a
  JavaScript value that may be `undefined`, `Result` for a computation that
  may throw.
 */
module Wrappers {

  datatype Option<+T> = None | Some(value: T) {

    predicate IsFailure() {
      None?
    }

    function PropagateFailure<U>(): Option<U>
      requires None?
    {
      None
    }

    function Extract(): T
      requires Some?
    {
      value
    }

    /** The JavaScript `x ?? d` / `x || d` shape for a value that is either absent or present. */
    function GetOr(default: T): T {
      match this
      case Some(v) => v
      case None => default
    }
  }

  datatype Result<+R, +E> = Success(value: R) | Failure(error: E) {

    predicate IsFailure() {
      Failure?
    }

    function PropagateFailure<U>(): Result<U, E>
      requires Failure?
    {
      Failure(error)
    }

    function Extract(): R
      requires Success?
    {
      value
    }
  }

  /** `pathnames.map(compile)` with a callback that may throw: the first pathname that throws stops the map. */
  function MapAll<T(==), E(==)>(pathnames: seq<string>, compile: string -> Result<T, E>): (r: Result<seq<T>, E>)
    ensures r.Success? ==> |r.value| == |pathnames|
    ensures r.Success? ==> forall i :: 0 <= i < |pathnames| ==> compile(pathnames[i]) == Success(r.value[i])
    ensures r.Failure? ==> exists i ::
      && 0 <= i < |pathnames|
      && compile(pathnames[i]) == Failure(r.error)
      && (forall j :: 0 <= j < i ==> compile(pathnames[j]).Success?)
    decreases |pathnames|
  {
    if |pathnames| == 0 then Success([])
    else
      var first := compile(pathnames[0]);
      if first.Failure? then Failure(first.error)
      else
        var rest := MapAll(pathnames[1..], compile);
        if rest.Failure? then
          var i :| 0 <= i < |pathnames[1..]| && compile(pathnames[1..][i]) == Failure(rest.error)
            && forall j :: 0 <= j < i ==> compile(pathnames[1..][j]).Success?;
          assert compile(pathnames[i + 1]) == Failure(rest.error);
          assert forall j :: 0 < j < i + 1 ==> pathnames[j] == pathnames[1..][j - 1];
          Failure(rest.error)
        else Success([first.value] + rest.value)
  }
}
